=== FILE: README.md ===
# Events app server — a Dafny model

This project models the server core of an events app: the public discovery feed and its
random pick, the community feed, the SerpApi and SeatGeek adapters with the image-URL
rewriter, the budgeted SerpApi refresh job, the Places cache routes and their daily refresh
job, the in-memory response cache of the server entry point, the per-user events,
collections, comments and generated-plan history routes, the event import and flyer scan
routes, the milestone push notifications, the test-notification script, and the background
removal of the client's icon script.

Each source file is one module:

- `Wrappers`, `JsStr`, `JsNum`, `Paging` (`common.dfy`): JavaScript's `undefined`, the string
  helpers the routes use (`trim`, `toLowerCase`, `includes`, `split`), `parseInt` and the
  page/limit arithmetic shared by the feeds.
- `Documents` (`documents.dfy`): request bodies and stored documents as maps of fields, and the
  error answers of the handlers.
- `Discover`, `RandomPick` (`discover.dfy`): `GET /discover` and `GET /discover/random`.
- `Community` (`community.dfy`): the community feed, its search tokens and random mode.
- `ImageUtils` (`image_utils.dfy`): the host-pattern table that asks image hosts for larger renditions.
- `SerpApi`, `SeatgeekApi` (`serp_api.dfy`, `seatgeek_api.dfy`): one provider result becomes one event record.
- `SerpApiCron` (`serp_api_cron.dfy`): the per-city daily fetch log, the monthly budget counter
  and the chunked upsert of fetched events.
- `Places`, `PlacesCacheCron` (`places.dfy`, `places_cache_cron.dfy`): the Places cache routes
  (keys, TTL freshness, validation) and the daily venue grouping, popular-term pre-caching and
  stale-entry clean-up.
- `ResponseCache` (`response_cache.dfy`): the process-wide cache of JSON answers with its
  five-minute TTL sweep.
- `EventStore`, `CollectionStore` and the comments and history modules (`events.dfy`,
  `collections.dfy`, `comments.dfy`, `generated_history.dfy`): ownership, defaults, patches,
  membership and the comment counter kept in step with the comments.
- `HtmlText`, `GeneratedEvents` (`html_text.dfy`, `generated_events.dfy`): `stripHtml`, the JSON-LD
  extraction, platform detection, the Jina Reader retry schedule and the answers of
  `POST /import` and `POST /scan`.
- `Notifications` (`notifications.dfy`): milestone thresholds, title shortening and the message sent.
- `TestNotification` (`send_test_notification.dfy`): the script's argument parser, token
  choice and string-only data payload.
- `TransparentIcons` (`transparent_icons.dfy`): the breadth-first flood fill from the image
  border, on the pixel buffer as an array.

Everything the server takes from outside is a parameter of the model: the clock, Firestore's
answers (a query becomes the sequence of documents it returns, a collection a map held by a
store object), the Google Places, Geocoding, SerpApi, SeatGeek, Jina Reader and OpenAI answers,
`Math.random()`, md5, date parsing, `JSON.parse`/`JSON.stringify` and URL parsing.

Three behaviours of the code are worth stating plainly:

- `server/routes/discover.js` does not merge, de-duplicate or sort results from several
  sources: it filters one scanned collection and slices a page. The model has no merge step.
- The community feed (`server/routes/community.js`) divides without a floor of one page, so an
  empty feed reports zero pages (`Community.CommunityPagesNoFloor`), where the other listings
  report one.
- Discovery results keep the order of the scan; nothing sorts them by start date.

The Google `=s` size rewrite of the image-URL rewriter is not idempotent for every URL
(`ImageUtils.ResizeNotIdempotent`); idempotence is proved only under the condition stated in
`ImageUtils.ResizeIdempotent`.

## Model

| member | source | states |
|---|---|---|
| JsNum.ParseIntAuto | server/routes/community.js:22-23 | `parseInt` without a radix: a `0x` prefix (after blanks and a sign) selects base 16, NaN exactly when no hex digit follows, the signed value of the leading hex digits otherwise; any other input is read in base 10 |
| JsNum.HexQuery | server/routes/comments.js:74 | `parseInt("0x10")` is 16, while `parseInt("0x10", 10)` stops at the `x` and gives 0 |
| Paging.ClampPage | server/routes/discover.js:47 | the page is NaN exactly when the parsed parameter (default "1") is NaN, and otherwise an integer of at least 1 |
| Paging.ClampLimit | server/routes/discover.js:48 | the limit is NaN exactly when the parsed parameter is NaN, and otherwise lies between 1 and the route's maximum |
| Paging.TotalPages | server/routes/discover.js:124 | a NaN limit gives NaN; with a numeric limit the result is at least 1, is 1 for an empty list, and is the rounded-up quotient (`(t-1)*limit < total <= t*limit`) |
| Paging.Take | server/routes/discover.js:63-67 | a query's `limit(n)` keeps a prefix of the ordered collection of length min(n, size) |
| Paging.PageWindow | server/routes/discover.js:128-129 | with numeric page and limit the page is the window starting at `(page-1)*limit`, clipped to the list: at most `limit` items, empty past the end and past the last page |
| Paging.NaNPage | server/routes/discover.js:125-129 | a NaN page or limit gives an empty slice, and a NaN page sets neither hasNextPage nor hasPrevPage |
| Paging.PaginationFlags | server/routes/discover.js:124-126 | totalPages is 1 for no items and the rounded-up quotient otherwise; hasNextPage iff page < totalPages; hasPrevPage iff page > 1 |
| Paging.ListingSpec | server/routes/discover.js:123-147 | the whole pagination object of a listing: item bound, totalPages formula, both flags, and an empty page past the last one |
| Discover.SafeLower | server/routes/discover.js:23-25 | absent text becomes "", and present text is lower-cased character by character with its length kept |
| Discover.FirstText | server/routes/discover.js:50 | `q || query || ""`: the first non-empty parameter, else "" |
| Discover.ParseDateQuery | server/routes/discover.js:37-42 | a bound exists only for present, non-empty text that parses, and is the parsed time |
| Discover.CriteriaOf | server/routes/discover.js:50-83 | the search term is the trimmed, lower-cased `q` (falling back to `query`), and likewise for category, city and region; the window is the two parsed date bounds |
| Discover.MatchesIff | server/routes/discover.js:85-121 | an event passes the filter iff it is not soft-disabled, its start time lies in the inclusive window (a missing start passes), it has a category equal to the term when one is given, city and region match exactly when given, and the six-field haystack contains the query |
| Discover.SoftDisabledNeverMatches | server/routes/discover.js:87 | a record whose `isDiscoverable` is false never passes, whatever the query |
| Discover.EmptyCriteriaKeepsEnabled | server/routes/discover.js:85-121 | with no criteria, exactly the records not soft-disabled pass |
| Discover.NoStartIgnoresWindow | server/routes/discover.js:90-92 | a record without a parseable start time passes or fails independently of the date window |
| Discover.QuerySpansFields | server/routes/discover.js:106-117 | the space-joined haystack lets "jazz night" match a record titled "Jazz" described as "Night", though no single field contains it |
| Discover.Filter | server/routes/discover.js:85-121 | the result holds exactly the scanned records that pass the filter, and is no longer than the scan |
| Discover.FilterIsSubsequence | server/routes/discover.js:85 | filtering keeps the records in scan order |
| Discover.Scan | server/routes/discover.js:59-76 | at most 400 records are read, and they are a prefix of the store's order |
| Discover.ToIsoOrNull | server/routes/discover.js:27-35 | absent or empty values become null; stored date text is returned unchanged |
| Discover.Normalize | server/routes/discover.js:129-135 | a listed record is the stored one with its four date fields passed through `toIsoOrNull`; id, categories and flag are kept |
| Discover.NormalizeAll | server/routes/discover.js:129-135 | the page is normalised element by element, keeping its length |
| Discover.DiscoverEvents | server/routes/discover.js:45-147 | the response pairs the normalised page of the filtered scan with the pagination of the filtered count, using page default 1 and limit default 20, capped at 50 |
| Discover.DiscoverPagingSpec | server/routes/discover.js:123-147 | page >= 1, 1 <= limit <= 50, total <= 400; with numeric page and limit, at most `limit` events, both flags right, and an empty page past the last |
| Discover.NormalizedPage | server/routes/discover.js:128-135 | every listed record is the normalised form of a record of the list it was cut from |
| Discover.DiscoverListsMatches | server/routes/discover.js:85-135 | every listed event is the normalised form of a scanned record that passes the filter, and is not soft-disabled |
| RandomPick.PickIndex | server/routes/random.js:95 | `Math.floor(r * n)` for r in [0, 1) is an index below n, and is the floor of r*n |
| RandomPick.RandomEvent | server/routes/random.js:30-96 | no event (`{event: null}`) iff the filtered scan is empty; otherwise the filtered record at the random index |
| RandomPick.RandomEventSpec | server/routes/random.js:39-96 | a picked event is among the first 400 stored records, is not soft-disabled and passes every test of the filter for the same query |
| Community.NormalizePiece | server/routes/community.js:38 | a trimmed piece with white-space runs collapsed is no longer than the piece, keeps only its non-space characters or single ' ', and neither starts nor ends with white space |
| Community.NonEmpty | server/routes/community.js:39 | the kept pieces are non-empty and come from the input |
| Community.GatherTokensShape | server/routes/community.js:33-40 | every gathered phrase is non-empty and lower case, holds no comma, has no outer white space, and its only white space is single ' ' characters |
| Community.WordLength | server/routes/community.js:89 | the word at the head of the text stops exactly at the first white space or hyphen |
| Community.Words | server/routes/community.js:89 | `split(/[\s-]+/)` with empty pieces dropped: every word is non-empty and contains no separator |
| Community.Dedup | server/routes/community.js:61-67 | the elements in first-occurrence order: no duplicates, the same members, never longer |
| Community.DedupPrefix | server/routes/community.js:61-67 | de-duplicating a prefix yields a prefix of de-duplicating the whole list |
| Community.AddPhrases | server/routes/community.js:60-67 | the first pass leaves at most ten distinct tokens that start the de-duplicated phrase list; with fewer than ten, every phrase is present |
| Community.AddVariationsOf | server/routes/community.js:72-82 | one phrase's turn only appends, keeps the cap and distinctness, and below the cap leaves both its hyphen and its space variation present |
| Community.AddVariations | server/routes/community.js:69-83 | the second pass only appends; below the cap, every phrase and both variations of every phrase are present |
| Community.AddWordsOf | server/routes/community.js:89-96 | one phrase's words only append; below the cap, each of its words longer than 2 UTF-16 code units is present |
| Community.AddWords | server/routes/community.js:85-98 | the third pass only appends; below the cap, every word longer than 2 UTF-16 code units of every phrase is present |
| Community.BuildTokens | server/routes/community.js:52-105 | at most ten distinct tokens, each a phrase, a variation or a word of a phrase, starting with the phrases in first-occurrence order; with fewer than ten, nothing eligible was left out |
| Community.VisibleEvents | server/routes/community.js:146-156 | exactly the snapshot's events not owned by the caller and not soft-disabled |
| Community.VisibleEventsInOrder | server/routes/community.js:146-156 | the visible events keep the snapshot's order (a subsequence) |
| Community.ShuffleFrom | server/routes/community.js:166-169 | the Fisher–Yates pass on values keeps the length |
| Community.ShufflePermutes | server/routes/community.js:166-169 | the shuffle is a permutation of the list |
| Community.ShuffleInPlace | server/routes/community.js:166-169 | the in-place loop leaves the array holding exactly the shuffle of its old contents |
| Community.RandomSelection | server/routes/community.js:159-172 | no events stay none; limit 1 picks the event at `floor(r*n)`; any other limit cuts the shuffled list with `slice(0, limit)` |
| Community.RandomSelectionSpec | server/routes/community.js:159-172 | for a non-negative limit, limit 1 picks one event of the list; otherwise the result has min(limit, n) events and is a prefix of a permutation of the list |
| Community.CommunityPage | server/routes/community.js:22 | `parseInt(page) \|\| 1`: a missing, NaN or zero page becomes 1; any other parsed page, negative ones included, is kept |
| Community.CommunityLimit | server/routes/community.js:23-24 | NaN or missing gives 12; otherwise the parsed value capped at 500, with no lower bound |
| Community.CommunityHexQuery | server/routes/community.js:22-24 | a `0x`-prefixed query is read in base 16: `?page=0x10&limit=0x10` gives page 16 and limit 16 |
| Community.CommunityPaginationOf | server/routes/community.js:174-185 | totalPages is the ceiling of total/limit with no floor of 1; hasNextPage iff page < totalPages; hasPrevPage iff page > 1 |
| Community.CommunityPagesNoFloor | server/routes/community.js:174 | with no results and a positive limit there are 0 pages (other listings report 1), no next page for a page that is not negative, and a next page for a negative one; a zero limit gives infinitely many pages and always a next page for a non-empty feed, and NaN pages with no next page for an empty one |
| Community.CommunityEventById | server/routes/community.js:194-214 | found iff the document exists and its `isDiscoverable` is true, and then it is the stored document |
| ImageUtils.WithoutSpec | server/utils/imageUtils.js:42-43 | `searchParams.delete(k)` removes every entry under `k` and keeps the entries of every other key, in order |
| ImageUtils.SetParam | server/utils/imageUtils.js:39-41 | `searchParams.set(k, v)` leaves exactly one entry `(k, v)` and the same entries under every other key |
| ImageUtils.TicketmasterParams | server/utils/imageUtils.js:35-45 | a Ticketmaster query ends with width=1024, height=576 and fit=crop, each once, with no `w` or `h`, and every other key untouched |
| ImageUtils.EventbriteParams | server/utils/imageUtils.js:49-54 | an Eventbrite query ends with w=1080 and h=540, each once, and every other key untouched |
| ImageUtils.MatchLen | server/utils/imageUtils.js:25 | the match of `=s\d+(-c)?` at the head is empty exactly when no `=s<digit>` starts there, and otherwise spans at least three characters |
| ImageUtils.ResizeNoDirective | server/utils/imageUtils.js:25 | a URL with no size directive comes back unchanged |
| ImageUtils.ResizedEverywhere | server/utils/imageUtils.js:25 | after the global replacement, every size directive in the URL reads `=s1200` |
| ImageUtils.ResizeIdempotent | server/utils/imageUtils.js:25 | when every match is followed by text that cannot extend a match, a second pass changes nothing |
| ImageUtils.ResizeNotIdempotent | server/utils/imageUtils.js:25 | without that condition a second pass can change the URL: `=s200-c-c` becomes `=s1200-c`, then `=s1200` |
| ImageUtils.ReplaceFirstSpec | server/utils/imageUtils.js:61-63 | `String.replace` with a string pattern rewrites exactly the first occurrence and keeps the rest |
| ImageUtils.SeatGeekIdempotent | server/utils/imageUtils.js:59-64 | the SeatGeek swap is idempotent: its output contains "huge" or equals its input |
| ImageUtils.UpgradeText | server/utils/imageUtils.js:14-69 | a URL from no known host comes back unchanged, and so does a Ticketmaster or Eventbrite URL that does not parse (the `catch`) |
| ImageUtils.Upgrade | server/utils/imageUtils.js:11-12 | null exactly for a falsy (absent or empty) URL; otherwise the host rewrite |
| SeatgeekApi.CleanParams | server/utils/seatgeekAPI.js:28-29 | the parameters with undefined values dropped: every kept pair was defined in the input, and every defined pair is kept |
| SeatgeekApi.RequestParamsSpec | server/utils/seatgeekAPI.js:20-29 | client_id, sort=score.desc and per_page=20 are always sent; `q` iff a keyword is given, `venue.city` iff a city is given |
| SeatgeekApi.MapSeatgeekEvent | server/utils/seatgeekAPI.js:44-73 | id `sg-<id>`; title short_title or title; type-derived description and categories; venue fields with their defaults; the first performer's image; USD price from stats or null |
| SeatgeekApi.FetchSeatgeekEvents | server/utils/seatgeekAPI.js:13-42 | fail-open: no client id, a failed request or a body without `events` gives []; otherwise every event mapped, in order |
| SerpApi.WithYear | server/utils/serpApi.js:135-138 | the text with " <year>" appended unless it already mentions the year; the result always mentions it |
| SerpApi.ParseSerpApiDate | server/utils/serpApi.js:128-160 | the start date with the year when it parses; else the part of `when` before the en dash, with the year; else the current time |
| SerpApi.FirstPrice | server/utils/serpApi.js:84-89 | `find(t => t.price)`: none iff no entry has a truthy price; otherwise the price of the first such entry |
| SerpApi.MapSerpApiEvent | server/utils/serpApi.js:51-122 | the fixed defaults (no end, region "", country US, category Events, discoverable, google_events, link as source and external id); venue and description fallbacks; address joined by ", " and city from its second line; ticket link and first price; start time formatted from the parsed SerpApi date when there is a start date, now otherwise |
| SerpApi.ImageChoice | server/utils/serpApi.js:75-81 | the image is `image` when truthy, else `thumbnail`, passed through the rewriter only when non-empty |
| SerpApi.FetchGoogleEvents | server/utils/serpApi.js:14-46 | fail-open: no API key, a failed request or no `events_results` gives []; otherwise every result mapped, in order |
| SerpApiCron.TargetCitiesDistinct | server/utils/serpApiCron.js:39-48 | the eight target cities are pairwise distinct |
| SerpApiCron.TodayKey | server/utils/serpApiCron.js:58-60 | the day key is the first ten characters of the ISO timestamp (all of a shorter one) |
| SerpApiCron.Recorded | server/utils/serpApiCron.js:73-80 | after a fetch the city is logged for today, with count 1 on a new day and one more on the same day; every other city's entry is unchanged |
| SerpApiCron.RecordKeepsCap | server/utils/serpApiCron.js:66-80 | recording a fetch that `canFetchCity` allowed keeps every logged count between 1 and 2 |
| SerpApiCron.TwoPerDay | server/utils/serpApiCron.js:66-80 | a city may be fetched a second time on the same day but not a third |
| SerpApiCron.NewDayReopens | server/utils/serpApiCron.js:66-77 | a city logged on another day may be fetched, and its entry restarts at today with count 1 |
| SerpApiCron.RolledOver | server/utils/serpApiCron.js:91-96 | `budgetExhausted`'s roll-over: a different month index restarts the count at 0, the same one keeps it |
| SerpApiCron.Counted | server/utils/serpApiCron.js:82-88 | `recordFetch`'s monthly part: the usage is for this month afterwards |
| SerpApiCron.CountedIsRolledPlusOne | server/utils/serpApiCron.js:82-96 | counting a fetch is the roll-over followed by adding one |
| SerpApiCron.SameIndexContinues | server/utils/serpApiCron.js:62-64 | the month is keyed by `getMonth()` only, so the same month of another year continues the old count |
| SerpApiCron.CityWrites | server/utils/serpApiCron.js:146-159 | one write per event with a source URL, never more writes than events |
| SerpApiCron.CityWritesShape | server/utils/serpApiCron.js:146-159 | every write has id `google_<md5 of its source URL>`, source google_events, the city's name before the comma and the pass's timestamp; with every URL present, one write per event |
| SerpApiCron.UpsertCity | server/utils/serpApiCron.js:143-171 | the committed chunks concatenate to exactly the city's writes, none is empty or above 400, and all but the last hold exactly 400 |
| SerpApiCron.AddWrite | server/utils/serpApiCron.js:146-166 | one write joins the pending chunk, which is committed once it reaches 400; nothing is lost or reordered |
| SerpApiCron.Eligible | server/utils/serpApiCron.js:126-131 | exactly the target cities the start-of-pass log allows, in order |
| SerpApiCron.SavedCountsSkipped | server/utils/serpApiCron.js:140-173 | `totalSaved` counts events skipped for lacking a source URL: one such event counts 1 saved with no write |
| SerpApiCron.Tracker.constructor | server/utils/serpApiCron.js:53-56 | module load: an empty fetch log and a zero count for the current month |
| SerpApiCron.Tracker.RecordFetch | server/utils/serpApiCron.js:73-89 | the new log and monthly usage are the recorded ones |
| SerpApiCron.Tracker.BudgetExhausted | server/utils/serpApiCron.js:91-102 | the usage is rolled over, the log is untouched, and the answer is whether the count has reached the budget |
| SerpApiCron.Tracker.SyncCity | server/utils/serpApiCron.js:133-174 | one city: the fetch is recorded whatever the result, its writes are committed in valid chunks, and all fetched events count as saved |
| SerpApiCron.Tracker.VisitCity | server/utils/serpApiCron.js:127-181 | one step of the pass keeps the pass invariant: stop when the budget is reached, skip a capped city, otherwise sync it |
| SerpApiCron.Tracker.SyncCities | server/utils/serpApiCron.js:117-186 | the pass fetches, in order, the cities the start-of-pass log allows, up to the point where the budget is reached; the monthly count grows by exactly the fetches and never passes the budget; the daily cap is kept; the writes and saved total match the fetched cities |
| SerpApiCron.Tracker.RunSync | server/utils/serpApiCron.js:117-186 | the same pass over the eight target cities |
| Places.AutocompleteKey | server/routes/places.js:47-50 | the id is "autocomplete_" followed by the lower-cased input with every "/" and "\" turned into "_", character by character |
| Places.Slug | server/routes/places.js:246 | the key is the text with its white-space runs turned into "_", cut to its longest prefix of at most 100 UTF-16 code units; it holds no white space |
| Places.GeocodeKeySpec | server/routes/places.js:246 | a geocode key has no white space and at most 100 UTF-16 code units; two addresses that differ only in case share it; a lower-case, trimmed, single-word address within 100 code units is its own key |
| Places.NoSlashAccepted | server/routes/places.js:50 | `collection(c).doc(id)` accepts every non-empty id without "/" |
| Places.TwoSegmentsRefused | server/routes/places.js:249 | an id of two non-empty segments joined by one "/" names a collection, and `doc` refuses it |
| Places.AutocompleteKeyAccepted | server/routes/places.js:48-50 | the autocomplete id, with "/" replaced, is always a valid document id |
| Places.SlashAddressRefused | server/routes/places.js:246-249 | an address that lowercases and trims to two words joined by one "/" gives a geocode id `doc` refuses |
| Places.MissingCachedAtIsStale | server/routes/places.js:55 | an entry without `cachedAt` counts as cached at time 0, so it is stale once the clock passes the TTL |
| Places.FreshEarlier | server/routes/places.js:55-57 | freshness is monotone: an entry fresh now was fresh at every earlier moment |
| Places.AgeMinutes | server/routes/places.js:62 | `Math.round(age/1000/60)` is the age in minutes rounded to nearest, halves up |
| Places.AgeHours | server/routes/places.js:140 | `Math.round(age/1000/60/60)` is the age in hours rounded to nearest, halves up |
| Places.FreshMinutesBound | server/routes/places.js:57-62 | a fresh autocomplete entry is reported as between 0 and 1440 minutes old |
| Places.MapPredictions | server/routes/places.js:89-95 | every prediction is mapped in order with "" and [] defaults |
| Places.MapPlace | server/routes/places.js:166-176 | the stored place keeps its id and types, and the first three photo references (all of them when there are fewer) |
| Places.AutocompleteHit | server/routes/places.js:53-64 | a hit iff the entry exists and its age is below 24 hours |
| Places.DetailsHit | server/routes/places.js:132-142 | a hit iff the entry exists and its age is below 7 days |
| Places.VenuesLimit | server/routes/places.js:204 | NaN iff the parsed limit (default "50") is NaN, else between 1 and 100 |
| Places.Venues | server/routes/places.js:201-225 | the answer is the first `min(limit, n)` of the ordered venues, or of the venues of the trimmed lower-cased city when one is given; a NaN limit is a failed query |
| Places.CityVenues | server/routes/places.js:208-213 | exactly the venues whose `cityLower` equals the city |
| Places.CityVenuesInOrder | server/routes/places.js:208-213 | the venues of one city keep the order of the collection (a subsequence) |
| Places.CityVenuesByPopularity | server/routes/places.js:208-213 | selecting one city from a popularity-ordered list keeps it popularity-ordered |
| Places.VenuesMostPopular | server/routes/places.js:201-225 | over the popularity-ordered collection the answer is popularity-ordered and no venue left out (of the city, when given) is more popular than one shown |
| Places.PlacesStore.Autocomplete | server/routes/places.js:39-113 | every path: input under 2 UTF-16 code units answers empty with no lookup; a fresh entry is served with its age in minutes; no API key answers "API not configured"; a failed request is a server error; any status but OK or ZERO_RESULTS answers empty with no write; a usable answer is written as the stored query and mapped predictions and answered, unless a prediction lacks its id or description, which Firestore refuses (a server error); the other caches are untouched |
| Places.PlacesStore.Details | server/routes/places.js:120-193 | every path: an empty id is a bad request; an id whose cache path names no document (a decoded "/" giving an even number of segments, or "//") is a server error with no lookup and no write; a fresh entry is served with its age in hours; no API key answers a null place with "API not configured"; a failed request, an OK answer without a result, or a place with an undefined field (which Firestore refuses) is a server error; a non-OK status answers a null place with no write; otherwise the mapped place is written and answered |
| Places.PlacesStore.Geocode | server/routes/places.js:238-303 | every path: a missing address, or one under 5 UTF-16 code units after trimming, is a bad request; a key whose cache path names no document (a "/" giving an even number of segments, or "//") is a server error with no lookup and no write; any cached entry is served whatever its age; no API key answers null coordinates with "API not configured"; a failed request is a server error; a non-OK or empty answer gives null coordinates with no write; a first result without coordinates or address is a server error; otherwise it is written with the original address and answered |
| Places.AutocompleteWriteThenHit | server/routes/places.js:50-103 | an autocomplete answer written at `now` is served from the cache for the same input until 24 hours later |
| Places.AutocompleteKeyIgnoresCase | server/routes/places.js:47-50 | inputs that differ only in case share one cache entry |
| PlacesCacheCron.EntryOf | server/utils/placesCacheCron.js:50-66 | an event contributes iff its trimmed venue name is non-empty; the key is the lower-cased "<name>\|<city or ''>" and the entry carries the event's fields with count 1 |
| PlacesCacheCron.GroupCounts | server/utils/placesCacheCron.js:47-75 | a key is in the venue map iff some event has it, and its event count is the number of such events |
| PlacesCacheCron.KeysOfGroup | server/utils/placesCacheCron.js:57-58 | the insertion-ordered keys (the order the map is iterated in) are distinct and are exactly the map's keys |
| PlacesCacheCron.CountsAddUp | server/utils/placesCacheCron.js:57-68 | the event counts of all venues add up to the number of contributing events |
| PlacesCacheCron.VenueCountBound | server/utils/placesCacheCron.js:47-77 | there are never more venues than contributing events |
| PlacesCacheCron.FieldsFromFirst | server/utils/placesCacheCron.js:57-66 | a venue's name, city, region and address come from the first event with its key |
| PlacesCacheCron.CoordinatesKept | server/utils/placesCacheCron.js:69-73 | coordinates, once present, are never replaced by later events |
| PlacesCacheCron.CoordinatesFound | server/utils/placesCacheCron.js:69-73 | a venue that has an event carrying both coordinates ends up with a latitude |
| PlacesCacheCron.CountEvent | server/utils/placesCacheCron.js:50-75 | one event updates the venue map as the grouping rule says, and a new key is appended to the key order |
| PlacesCacheCron.GroupVenues | server/utils/placesCacheCron.js:47-75 | the loop builds exactly the grouped map and its insertion-ordered keys; every count is at least 1 and equals the number of events with that key |
| PlacesCacheCron.DocId | server/utils/placesCacheCron.js:84 | the document id holds none of `/ \ # [ ] *` |
| PlacesCacheCron.DocIdSpec | server/utils/placesCacheCron.js:84 | the id is the key with each of `/ \ # [ ] *` turned into "_", character by character, cut to its longest prefix of at most 100 UTF-16 code units; a key within that bound keeps its length |
| PlacesCacheCron.DocIdCollides | server/utils/placesCacheCron.js:84-85 | two different venue keys can share one document id, so the later venue overwrites the earlier |
| PlacesCacheCron.Located | server/utils/placesCacheCron.js:87-112 | geocoding happens only for a venue missing a coordinate and changes only the coordinates; a counted venue has both; a failed answer, or an OK one whose first result has no location (the throw caught at :108), leaves the venue as it was |
| PlacesCacheCron.LocatedIff | server/utils/placesCacheCron.js:88-104 | a venue counts as geocoded exactly when it lacks a coordinate, a key and an address are present and the answer is OK with a located first result, and it then takes that result's coordinates |
| PlacesCacheCron.VenueDocOf | server/utils/placesCacheCron.js:115-120 | the saved document is the venue plus `cityLower` (the lower-cased city), `popularity` equal to the event count, and `cachedAt` |
| PlacesCacheCron.SaveAllDomain | server/utils/placesCacheCron.js:83-122 | saving adds exactly the document ids of the venue keys |
| PlacesCacheCron.SaveAllKeepsOthers | server/utils/placesCacheCron.js:83-122 | saving leaves every document whose id no venue key maps to as it was |
| PlacesCacheCron.SavedVenue | server/utils/placesCacheCron.js:83-122 | a venue whose document id no later key shares is stored with popularity equal to its event count |
| PlacesCacheCron.SaveVenues | server/utils/placesCacheCron.js:83-122 | the loop leaves the venue cache as saving the keys in order prescribes; `cached` is the number of venues and `geocoded` counts those newly located; the other caches are untouched |
| PlacesCacheCron.SaveVenue | server/utils/placesCacheCron.js:84-121 | one venue: geocode if needed, then write its document under its id |
| PlacesCacheCron.CacheVenuesFromEvents | server/utils/placesCacheCron.js:36-130 | group the first 500 events by venue and save every venue in key order; geocoded <= cached <= 500 |
| PlacesCacheCron.PreCacheAll | server/utils/placesCacheCron.js:145-195 | the number of terms written never exceeds the number of terms |
| PlacesCacheCron.PreCacheStepSpec | server/utils/placesCacheCron.js:145-188 | a term whose entry is younger than 24 hours is skipped; otherwise a write happens iff Google answers OK with predictions that all carry an id and a description (Firestore refuses an undefined value and the term's catch skips it), it adds only the term's key with source cron_precache, and a second run within 24 hours skips it |
| PlacesCacheCron.PreCacheTouchesOnlyTerms | server/utils/placesCacheCron.js:145-147 | pre-caching never touches an entry that is not a term's pre-cache key |
| PlacesCacheCron.PreCacheTerm | server/utils/placesCacheCron.js:146-191 | one iteration leaves the cache and the written flag of the pre-cache step; the other caches are untouched |
| PlacesCacheCron.PreCacheTerms | server/utils/placesCacheCron.js:145-195 | the loop leaves the cache and the written count that pre-caching the terms in order prescribes |
| PlacesCacheCron.PreCachePopularSearches | server/utils/placesCacheCron.js:135-199 | skipped with the cache unchanged when there is no API key; otherwise the loop over the ten popular terms |
| PlacesCacheCron.PreCacheMissesMultiWord | server/utils/placesCacheCron.js:146-147 | a term containing white space is pre-cached under a key the autocomplete route never reads for it (the route keeps the space) |
| PlacesCacheCron.PreCacheHitsSingleWord | server/utils/placesCacheCron.js:146-147 | a single word without "/" or "\" is pre-cached under exactly the key the route reads |
| PlacesCacheCron.PopularMultiWordMissed | server/utils/placesCacheCron.js:20-31 | "concert hall", "convention center" and "music venue" are never served from their pre-cached entries |
| PlacesCacheCron.StaleIsExpired | server/utils/placesCacheCron.js:207-215 | an entry older than 30 days is stale for every TTL the routes use, so cleanup never removes an entry a route would still serve |
| PlacesCacheCron.CleanupStaleCache | server/utils/placesCacheCron.js:204-235 | at most 100 entries are removed, all stale, and the rest are unchanged; it removes min(100, number of stale entries), so fewer than 100 means none is left stale; the other caches are untouched |
| ResponseCache.CacheKey | server/index.js:22 | the key is the method, a colon and the original URL, each recoverable from the key |
| ResponseCache.CacheKeyInjective | server/index.js:22 | for methods without a colon, two requests share a key iff they have the same method and URL |
| ResponseCache.Swept | server/index.js:40-45 | the sweep keeps exactly the entries not older than CACHE_TTL, unchanged |
| ResponseCache.SweptIdempotent | server/index.js:40-45 | sweeping twice at the same time is sweeping once |
| ResponseCache.SweptBounded | server/index.js:40-45 | after a sweep every entry is at most CACHE_TTL old |
| ResponseCache.SweepKeepsHits | server/index.js:20-45 | with a duration of at most CACHE_TTL, the sweep never removes an entry that would still answer a request |
| ResponseCache.Cache.constructor | server/index.js:16 | the cache starts empty |
| ResponseCache.Cache.Lookup | server/index.js:23-25 | a body is returned iff the key is cached and its entry is younger than the duration, and it is the cached body |
| ResponseCache.Cache.Sweep | server/index.js:40-45 | the clean-up loop leaves exactly the swept map |
| ResponseCache.Cache.Store | server/index.js:33-45 | the body is stored under the key with its timestamp, then the map is swept |
| ResponseCache.Cache.Serve | server/index.js:20-51 | a hit sends the cached body and changes nothing; a miss runs the route and stores and sweeps only when it sends a body |
| ResponseCache.StoredThenHit | server/index.js:25-45 | a stored body survives its own sweep iff the two clock readings are at most CACHE_TTL apart, and then a later request hits iff the body is younger than the duration |
| Notifications.Milestones | server/utils/notifications.js:15-19 | thresholds exist exactly for saves, shares and comments |
| Notifications.MilestonesIncreasing | server/utils/notifications.js:15-19 | each threshold list is strictly increasing and starts at 10 |
| Notifications.IsMilestone | server/utils/notifications.js:27-31 | a count is a milestone iff the metric is listed and the count is one of its thresholds; a milestone is at least 10 |
| Notifications.UnknownMetricNeverMilestone | server/utils/notifications.js:28-29 | an unlisted metric never reaches a milestone |
| Notifications.TruncateTitle | server/utils/notifications.js:41-43 | the shown title is at most 30 UTF-16 code units: a title of at most 30 is kept, a longer one becomes a prefix of 26 or 27 code units (27 unless that would split a character) followed by "..." |
| Notifications.TruncateKeepsShort | server/utils/notifications.js:41-43 | truncation changes a title iff it is longer than 30 UTF-16 code units |
| Notifications.MilestoneMessage | server/utils/notifications.js:40-67 | every body mentions the count and the shortened title; an unlisted metric gets the generic title and a body naming the metric |
| Notifications.CheckMilestone | server/utils/notifications.js:77-148 | it stops before the lookup iff the count is not a milestone; it sends iff it is a milestone, the owner exists and has a truthy token; the push carries that token, the milestone message and the five data fields (route, eventId, type, metricType, count as a string) |
| Notifications.NonMilestoneSkipsLookup | server/utils/notifications.js:86-88 | for a non-milestone count the outcome does not depend on the owner document |
| Events.ToIsoOrNull | server/routes/events.js:16-24 | a falsy value gives null, a truthy string is kept, anything else gives an ISO string or null |
| Events.StrArray | server/routes/events.js:116-118 | the stored array holds the given strings, in order |
| Events.NumberOrNull | server/routes/events.js:103-110 | null iff the value is null or undefined, a number otherwise |
| Events.CategoriesOr | server/routes/events.js:116-118 | a non-array gives the fallback; an array gives its non-empty string forms, in order; it throws iff some element is null or undefined |
| Events.TextOr | server/routes/events.js:94-95 | a falsy value gives the fallback and a truthy string is kept |
| Events.NewRecord | server/routes/events.js:92-121 | creation fails iff a category is null or undefined |
| Events.NewRecordDefaults | server/routes/events.js:92-121 | the created record belongs to its creator; its title is the given one, or "Untitled Event" when falsy; its categories are non-empty strings ([] for a non-array); it carries both timestamps |
| Events.Keep | server/routes/events.js:149-172 | an absent field keeps the stored value (null when that is nullish); a given one is normalised |
| Events.Replace | server/routes/events.js:146-148 | an absent title or description keeps the stored one, a string replaces it, and null throws |
| Events.Patch | server/routes/events.js:145-177 | the update throws iff the title or description is null or a category is null or undefined |
| Events.Merge | server/routes/events.js:179 | merging a patch never changes the owner or createdAt |
| Events.PatchStorable | server/routes/events.js:145-179 | a patch holds an undefined value (which Firestore refuses) iff the title or the description is absent from both the body and the stored record |
| Events.PatchDefined | server/routes/events.js:149-176 | every other patch field is defined |
| Events.PatchFieldRules | server/routes/events.js:145-180 | after an update the owner and createdAt are kept and updatedAt is new; a field the body omits keeps its stored value, with nullish read as null (or [] for the categories); a provided field comes from the body |
| Events.EmptyPatchOfNewRecord | server/routes/events.js:92-180 | updating a freshly created record with an empty body succeeds and changes only updatedAt |
| Events.EventStore.constructor | server/routes/events.js:14 | the store holds the given collection |
| Events.EventStore.Mine | server/routes/events.js:36-47 | the query answer is exactly the caller's records |
| Events.EventStore.MineInOrder | server/routes/events.js:36-47 | the caller's records keep the query order (a subsequence) |
| Events.EventStore.Rows | server/routes/events.js:49 | row i pairs the i-th id with its stored document |
| Events.EventStore.List | server/routes/events.js:27-65 | a NaN page or limit is a server error; otherwise the pagination is over the caller's records, and the page holds at most `limit` rows, each the caller's own document |
| Events.EventStore.ListIsWindow | server/routes/events.js:27-65 | the listed page is the rows of the caller's records from `(page - 1) * limit` up to `limit` further, and empty past the end |
| Events.EventStore.Get | server/routes/events.js:68-84 | an unknown id is not found; someone else's record is forbidden; otherwise the stored document is returned |
| Events.EventStore.Create | server/routes/events.js:87-129 | the normalised record is stored under the new id and returned; a throwing category list stores nothing |
| Events.EventStore.Update | server/routes/events.js:132-185 | not found and forbidden write nothing; a thrown or unstorable patch is a server error and writes nothing; otherwise the stored record becomes the record merged with the patch, and that is the answer |
| Events.EventStore.Delete | server/routes/events.js:188-205 | not found and forbidden change nothing; the owner's delete removes exactly that record |
| Collections.TrimmedOr | server/routes/collections.js:74-75 | a falsy value gives the trimmed fallback and a truthy string is trimmed |
| Collections.BlankNameStaysBlank | server/routes/collections.js:74 | a name of spaces only is truthy, so it is not defaulted and is stored as the empty name; an absent name becomes "Untitled" |
| Collections.PatchText | server/routes/collections.js:140-141 | a given field is trimmed, and null throws |
| Collections.Updated | server/routes/collections.js:138-145 | the update throws iff a present field is null; otherwise only the present fields change (trimmed), updatedAt is new, and the owner and createdAt are kept |
| Collections.DeleteItems | server/routes/collections.js:167 | one item deletion per item id, in order |
| Collections.CollectionStore.constructor | server/routes/collections.js:19 | the store holds the given collections, items and events, and no writes yet |
| Collections.CollectionStore.EnsureOwn | server/routes/collections.js:25-34 | an unknown collection is not found and someone else's is forbidden; otherwise its document is returned |
| Collections.CollectionStore.ListCollections | server/routes/collections.js:37-67 | every listed collection is the caller's, carries its stored document and counts its items |
| Collections.CollectionStore.ListedExactly | server/routes/collections.js:40-60 | a collection is listed iff it is in the query answer and belongs to the caller |
| Collections.CollectionStore.OwnedEvents | server/routes/collections.js:108-115 | the listed events are item ids whose event exists and belongs to the caller, each with its document |
| Collections.CollectionStore.OwnedEventsExactly | server/routes/collections.js:109-115 | an item id is listed iff its event exists and belongs to the caller |
| Collections.CollectionStore.Get | server/routes/collections.js:95-125 | an ownership failure is passed on; otherwise the loop gives the collection with a count of all its items and exactly the caller's existing events among them |
| Collections.CollectionStore.Create | server/routes/collections.js:70-92 | a document with the caller as owner and the trimmed, defaulted name and description is added; the answer's item count is 0 |
| Collections.CollectionStore.Update | server/routes/collections.js:128-152 | an ownership failure or a null field writes nothing; otherwise the stored document becomes the updated one, and that is the answer |
| Collections.CollectionStore.DeleteAllItems | server/routes/collections.js:166-167 | every item of the collection is deleted, each exactly once |
| Collections.CollectionStore.DeleteNext | server/routes/collections.js:167 | one pending item goes, keeping the deletion bookkeeping |
| Collections.CollectionStore.DeleteItemDoc | server/routes/collections.js:167 | one item document is removed |
| Collections.CollectionStore.Delete | server/routes/collections.js:155-175 | an ownership failure changes nothing; otherwise all items are deleted, each once, before the collection itself |
| Collections.CollectionStore.AddItem | server/routes/collections.js:178-211 | ownership, then an empty id (bad request), a missing event (not found) and someone else's event (forbidden) are checked in that order and write nothing; otherwise the item is set under the event id and the collection's updatedAt refreshed |
| Collections.CollectionStore.RemoveItem | server/routes/collections.js:214-232 | for the owner, the item is removed (an absent one is no error) and updatedAt refreshed; otherwise nothing changes |
| Collections.AddItemCount | server/routes/collections.js:200-203 | re-adding an event already in the collection keeps the item count; a new one adds one |
| Comments.Username | server/routes/comments.js:123 | the username is always truthy: the profile's display name, else the token's name, else "User" |
| Comments.NewComment | server/routes/comments.js:120-127 | the stored comment names the event and the caller, holds the trimmed text, the username rule and the avatar fallback chain (profile photo, token picture, null) |
| Comments.NewCommentTextTrimmed | server/routes/comments.js:125 | the stored text has no white space at either end |
| Comments.LimitOf | server/routes/comments.js:74 | the limit is never 0: an absent, unparsable or zero limit is 50, any other parsed value (negative included) is kept |
| Comments.LimitOfHex | server/routes/comments.js:74 | `parseInt` without a radix reads `0x10` as 16 |
| Comments.ViewOf | server/routes/comments.js:84-90 | a listed comment keeps its id and fields; its createdAt is the stored timestamp's ISO text, or the current time when there is none |
| Comments.CommentStore.constructor | server/routes/comments.js:15 | the store holds the given comments, events and users |
| Comments.CommentStore.Matching | server/routes/comments.js:24-26 | the query answer holds exactly the ids of the order whose comment has the requested event (or user) id |
| Comments.CommentStore.MatchingInOrder | server/routes/comments.js:24-26 | the matching ids keep the query order (a subsequence) |
| Comments.CommentStore.Add | server/routes/comments.js:104-153 | a missing id or text is a bad request; a non-string field or a missing event is a server error; errors write nothing; otherwise the new comment is stored and the event's commentCount rises by exactly one in the same batch |
| Comments.CommentStore.Delete | server/routes/comments.js:156-196 | not found and forbidden write nothing; the author's delete removes the comment and lowers its event's commentCount by one, and it succeeds iff the comment names no event or its event still exists |
| Comments.CommentStore.ListForEvent | server/routes/comments.js:70-101 | a negative limit is an error; otherwise view i is of the i-th of the first `min(limit, n)` of the event's comments in query order |
| Comments.CommentStore.ListForUser | server/routes/comments.js:19-67 | view i is of the i-th of the first `min(100, n)` of the caller's comments in query order, with its event's title and image, or null when the event is unknown |
| GeneratedHistory.SummaryOf | server/routes/generatedHistory.js:44-51 | a list row always has a truthy kind and title: the stored ones when truthy, else "itinerary" and "AI Plan"; a falsy timestamp or input becomes null |
| GeneratedHistory.NonBlankOr | server/routes/generatedHistory.js:80 | the trimmed text when it is non-blank, otherwise the fallback |
| GeneratedHistory.TitleOf | server/routes/generatedHistory.js:79-80 | a created title is never empty: a truthy body title wins, as its trimmed text or "AI Plan" when that is blank (the output title is then not consulted); otherwise a truthy output title, trimmed, or "AI Plan" when blank; "AI Plan" when neither is truthy |
| GeneratedHistory.TitleTrimmed | server/routes/generatedHistory.js:79-80 | a created title never starts or ends with white space |
| GeneratedHistory.KindOf | server/routes/generatedHistory.js:75 | a falsy kind becomes "itinerary" and a non-empty string kind is kept |
| GeneratedHistory.NewPlan | server/routes/generatedHistory.js:74-92 | the stored plan belongs to the caller, has equal createdAt and updatedAt, and has a truthy title, input and output |
| GeneratedHistory.PlanStore.constructor | server/routes/generatedHistory.js:19 | the store holds the given plans |
| GeneratedHistory.PlanStore.Owned | server/routes/generatedHistory.js:32-37 | the query answer is exactly the caller's plans |
| GeneratedHistory.PlanStore.OwnedInOrder | server/routes/generatedHistory.js:32-37 | the caller's plans keep the query order (a subsequence) |
| GeneratedHistory.PlanStore.Loaded | server/routes/generatedHistory.js:32-37 | the loaded plans are the first `min(500, n)` of the caller's plans, each one of the caller's |
| GeneratedHistory.PlanStore.Summaries | server/routes/generatedHistory.js:39-51 | one row per plan id, in order |
| GeneratedHistory.PlanStore.List | server/routes/generatedHistory.js:26-68 | at most 500 of the caller's plans are loaded; the pagination is over them; the page holds at most `limit` rows, each one of the caller's plans |
| GeneratedHistory.PlanStore.ListIsWindow | server/routes/generatedHistory.js:26-68 | the page is the rows of the loaded plans from `(page - 1) * limit` up to `limit` further, empty past the end |
| GeneratedHistory.PlanStore.ListNaN | server/routes/generatedHistory.js:29-44 | a NaN page or limit lists nothing |
| GeneratedHistory.PlanStore.Get | server/routes/generatedHistory.js:104-118 | an unknown id is not found; someone else's plan is forbidden; otherwise the stored plan is returned |
| GeneratedHistory.PlanStore.Create | server/routes/generatedHistory.js:71-101 | the new plan is stored under the new id and the caller can read it back |
| GeneratedHistory.PlanStore.Delete | server/routes/generatedHistory.js:121-136 | the delete fails exactly as a read would and then changes nothing; otherwise it removes only that plan |
| HtmlText.FindCI | server/routes/generatedEvents.js:39-42 | the lazy `[\s\S]*?close` search: any occurrence it finds lies at or after the start index, within the text |
| HtmlText.FindCIFirst | server/routes/generatedEvents.js:39-42 | it finds the first case-insensitive occurrence at or after the start index, and finds none only when there is none |
| HtmlText.LetterRunEnd | server/routes/generatedEvents.js:45 | the `[a-z]+` run under `/i`: every character before the end is an ASCII letter, and the one at the end is not |
| HtmlText.Enclosed | server/routes/generatedEvents.js:39-41 | a block match starting at an index ends after it, within the text |
| HtmlText.MatchEnd | server/routes/generatedEvents.js:39-46 | every one of the seven expressions, when it matches at an index, ends after it, within the text |
| HtmlText.EntitiesGone | server/routes/generatedEvents.js:45 | after the entity replacement no `&letters;` reference is left |
| HtmlText.RunsNoDoubleSpace | server/routes/generatedEvents.js:46 | collapsing white space leaves no two white-space characters in a row |
| HtmlText.StripClean | server/routes/generatedEvents.js:36-48 | the stripped text has no white space at either end, never two white-space characters in a row, and no `&letters;` reference |
| HtmlText.ScriptBlockMatch | server/routes/generatedEvents.js:39 | a leading `<script>` block, up to its first closing tag, is one match of the script expression |
| HtmlText.ScriptBlockDropped | server/routes/generatedEvents.js:39 | script blocks go before tags are replaced: a leading attribute-less `<script>` block whose code holds no closing tag of its own leaves no trace, whatever `<` or `>` its code holds |
| GeneratedEvents.StripHtml | server/routes/generatedEvents.js:36-48 | a value that is not a string, or the empty string, gives "" |
| GeneratedEvents.StripHtmlClean | server/routes/generatedEvents.js:36-48 | for any input the result has no white space at either end, no doubled white space and no `&letters;` reference |
| GeneratedEvents.DetectPlatform | server/routes/generatedEvents.js:158-164 | the first rule that matches, ignoring case, wins: instagram, then tiktok, then youtube or youtu.be; otherwise web |
| GeneratedEvents.TestFinds | server/routes/generatedEvents.js:160-162 | a pattern is found wherever its letters appear, in any case |
| GeneratedEvents.DetectIgnoresCase | server/routes/generatedEvents.js:158-164 | a URL and its lower-case form are detected as the same platform |
| GeneratedEvents.InstagramFirst | server/routes/generatedEvents.js:160 | "instagram" in any case anywhere in the URL wins over every other platform |
| GeneratedEvents.TikTokSecond | server/routes/generatedEvents.js:160-161 | without "instagram", "tiktok" in any case wins over YouTube |
| GeneratedEvents.ShortYouTubeLink | server/routes/generatedEvents.js:162 | a "youtu.be" link is YouTube when neither earlier platform is named |
| GeneratedEvents.LdMatchAt | server/routes/generatedEvents.js:53 | a match of the JSON-LD script expression starts with `<script`, and its capture ends right before the 9-character `</script>` that ends the match |
| GeneratedEvents.LdMatcher | server/routes/generatedEvents.js:53-55 | each match lies after its start index, within the text |
| GeneratedEvents.NextMatch | server/routes/generatedEvents.js:55 | `re.exec` from lastIndex k gives the first match starting at or after k, and null only when none starts there |
| GeneratedEvents.FalsyNamesNothing | server/routes/generatedEvents.js:62-64 | a falsy type, or the text of one, never names "event" |
| GeneratedEvents.EventNodeIsObject | server/routes/generatedEvents.js:62-64 | only an object with a truthy "@type" is ever kept |
| GeneratedEvents.EventTexts | server/routes/generatedEvents.js:61-67 | no more texts are kept than there are candidates |
| GeneratedEvents.EventTextsExactly | server/routes/generatedEvents.js:61-67 | exactly the event candidates are kept: each kept text is the stringified form of an event candidate, and every event candidate is kept |
| GeneratedEvents.LdText | server/routes/generatedEvents.js:50-73 | the result is empty iff the input is not a non-empty string or no block yields an event; otherwise it starts with the "JSON-LD Events:" header |
| GeneratedEvents.NoScriptNoCaptures | server/routes/generatedEvents.js:53-55 | without a `<script` opening, nothing is captured |
| GeneratedEvents.EventsOfEmpty | server/routes/generatedEvents.js:56-70 | blocks that hold no event add nothing |
| GeneratedEvents.CapturesStep | server/routes/generatedEvents.js:55-56 | one `re.exec` step captures the next match's group and goes on from its end |
| GeneratedEvents.BlockTexts | server/routes/generatedEvents.js:56-70 | the loop over one block's candidates keeps exactly that block's event texts (an empty or unparsable block gives none) |
| GeneratedEvents.ExtractEventJsonLd | server/routes/generatedEvents.js:50-73 | the `re.exec` loop answers exactly the JSON-LD text of the page |
| GeneratedEvents.FirstTruthy | server/routes/generatedEvents.js:121-127 | the first truthy candidate, or none when no candidate is truthy |
| GeneratedEvents.JinaText | server/routes/generatedEvents.js:117-135 | the text taken from a Jina body is never empty |
| GeneratedEvents.PageText | server/routes/generatedEvents.js:137-138 | the page text has no white space at either end |
| GeneratedEvents.JinaPage | server/routes/generatedEvents.js:98-143 | an attempt succeeds only on a status below 400 with a non-empty string body, and gives a trimmed page of at least 100 UTF-16 code units |
| GeneratedEvents.Schedule | server/routes/generatedEvents.js:84-88 | before attempt k ≥ 1 the wait is 250·2^(k-1) ms, and there is none before the first |
| GeneratedEvents.FirstUsable | server/routes/generatedEvents.js:84-153 | the first successful attempt in a range: every earlier one failed, and none means all failed |
| GeneratedEvents.JinaResult | server/routes/generatedEvents.js:79-156 | the fallback's page, when there is one, is trimmed and at least 100 UTF-16 code units long |
| GeneratedEvents.FirstPage | server/routes/generatedEvents.js:84-155 | the reported page is one of the attempts' pages |
| GeneratedEvents.Retry | server/routes/generatedEvents.js:84-155 | the loop makes at most retries + 1 attempts, stops at the first success, reports that page, and waits exactly the doubling schedule |
| GeneratedEvents.FetchViaJina | server/routes/generatedEvents.js:79-156 | the fallback reports the page of the first usable attempt, at least 100 UTF-16 code units long, after at most retries + 1 attempts |
| GeneratedEvents.FirstUsableAt | server/routes/generatedEvents.js:84-143 | an attempt that succeeds after failures only is the first usable one |
| GeneratedEvents.FirstUsableNone | server/routes/generatedEvents.js:84-155 | when every attempt fails there is no usable one |
| GeneratedEvents.ScheduleDoubles | server/routes/generatedEvents.js:86 | each wait is twice the one before, starting at 250 ms |
| GeneratedEvents.OrElse | server/routes/generatedEvents.js:173 | `a || b || null`: a truthy first value wins, and any result is non-empty |
| GeneratedEvents.SocialFetched | server/routes/generatedEvents.js:168-194 | social content keeps the platform, and its metadata is the helper's answer or null |
| GeneratedEvents.DirectText | server/routes/generatedEvents.js:197-222 | a direct fetch succeeds only with at least 300 UTF-16 code units; a network error keeps its message; a status of 400 or more fails |
| GeneratedEvents.TrimKeepsCore | server/routes/generatedEvents.js:226 | trimming after an already trimmed, non-empty text keeps all of it as a prefix, so no fewer UTF-16 code units |
| GeneratedEvents.FallbackKeepsPage | server/routes/generatedEvents.js:226 | the fallback text keeps the whole page it was made from |
| GeneratedEvents.Content | server/routes/generatedEvents.js:166-238 | the platform is the detected one; web content has no image; direct content is at least 300 UTF-16 code units; fallback content comes only after a failed direct fetch and is at least 100 UTF-16 code units |
| GeneratedEvents.FallbackOnlyAfterDirect | server/routes/generatedEvents.js:196-222 | a web page whose direct fetch succeeds never reaches the fallback |
| GeneratedEvents.FetchContent | server/routes/generatedEvents.js:166-238 | the method, calling the retry loop, returns exactly the content of the URL |
| GeneratedEvents.ImportMessage | server/routes/generatedEvents.js:288 | the user message is the source header followed by the content cut to its longest prefix of at most 12000 UTF-16 code units, the whole content when it fits |
| GeneratedEvents.ImageChoice | server/routes/generatedEvents.js:303 | the model's truthy image wins, then the fetched image, else null |
| GeneratedEvents.ImportAnswer | server/routes/generatedEvents.js:298-305 | the answer holds the model's fields plus sourceUrl, sourcePlatform, imageUrl and fromCache = false, which override the model's |
| GeneratedEvents.ImportResult | server/routes/generatedEvents.js:272-309 | any throw is the 500 answer; success needs fetched content and a completion |
| GeneratedEvents.Import | server/routes/generatedEvents.js:267-310 | a falsy url is the 400 answer; otherwise fetch, complete and answer |
| GeneratedEvents.DataUrl | server/routes/generatedEvents.js:317-319 | the image always starts with "data:": a data URL is kept, and bare base64 gets the JPEG prefix |
| GeneratedEvents.DataUrlIdempotent | server/routes/generatedEvents.js:317-319 | the prefix is added at most once |
| GeneratedEvents.Scan | server/routes/generatedEvents.js:312-357 | a falsy image is the 400 answer and a non-string one the 500 answer; a success carries sourceUrl null, sourcePlatform "camera" and an imageUrl that is null or truthy |
| GeneratedEvents.ScanAnswer | server/routes/generatedEvents.js:347-352 | the reply is the parsed object's own fields with sourceUrl null and sourcePlatform "camera" overriding them, and an imageUrl that is the parsed one when truthy and null otherwise |
| TestNotification.ParseArgs | server/scripts/send-test-notification.js:50-65 | the loop, with its extra `i++` past a consumed value, builds exactly the parsed option map |
| TestNotification.ParseShift | server/scripts/send-test-notification.js:52-63 | past the end of a prefix, parsing goes on as it would over the rest alone |
| TestNotification.ParseAppend | server/scripts/send-test-notification.js:52-63 | arguments that follow a vector and start with a flag are parsed on top of what the vector gave, since a flag never takes a flag as its value |
| TestNotification.LastValueWins | server/scripts/send-test-notification.js:53-58 | a repeated key keeps the last value: a trailing `--key value` overrides anything before it |
| TestNotification.TrailingFlag | server/scripts/send-test-notification.js:55-61 | a flag with nothing after it is `true` |
| TestNotification.FlagBeforeFlag | server/scripts/send-test-notification.js:56-61 | a flag followed by another flag is `true`, and the second flag is parsed as usual |
| TestNotification.PlainPrefixIgnored | server/scripts/send-test-notification.js:52-53 | leading arguments that are not flags (the runtime and the script path) are ignored |
| TestNotification.ParsedFromArgv | server/scripts/send-test-notification.js:52-63 | every key names some `--` argument, and every text value is an argument that is not a flag |
| TestNotification.ParsedTruthy | server/scripts/send-test-notification.js:56-61 | every parsed option is truthy: a value is never empty |
| TestNotification.Token | server/scripts/send-test-notification.js:67-98 | `--token` wins over `--userId`; for a user id: a missing user is "not found", a user without a truthy fcmToken is "no token", otherwise that token is used; a bare option is rejected; the "neither" failure happens iff neither option is given; a token is never empty |
| TestNotification.ArgOr | server/scripts/send-test-notification.js:112-114 | a truthy option wins, otherwise the default |
| TestNotification.ContentOf | server/scripts/send-test-notification.js:101-118 | the title, body and route are always truthy; a known `--type` gives that type's title, body and route and no extra data; otherwise `--title`, `--body` and `--route` or their defaults, and eventId is extra data, with its given value, iff it is given |
| TestNotification.StringMap | server/scripts/send-test-notification.js:127-130 | stringification keeps exactly the payload's keys |
| TestNotification.Stringify | server/scripts/send-test-notification.js:127-130 | the loop gives every payload key its value through `String` |
| TestNotification.PayloadKeys | server/scripts/send-test-notification.js:121-130 | the payload always has the route, with at most the event id beside it |
| TestNotification.SendNotification | server/scripts/send-test-notification.js:85-168 | a token failure is passed on; otherwise the message carries the token, the content and the stringified payload |
| TestNotification.SendHasTarget | server/scripts/send-test-notification.js:187-225 | when the script goes on to send, a token source was given, so the "neither" failure cannot occur |
| TestNotification.HelpShowsUsage | server/scripts/send-test-notification.js:187 | a trailing `--help` always shows the usage |
| TransparentIcons.ColorDistMetric | client/scripts/generate_transparent_icons.py:39-40 | the colour distance is symmetric, is zero exactly on equal RGB, and obeys the triangle inequality |
| TransparentIcons.Cleared | client/scripts/generate_transparent_icons.py:80-81 | a cleared pixel keeps its RGB and has alpha 0 |
| TransparentIcons.IdxInRange | client/scripts/generate_transparent_icons.py:67 | the offset `y * w + x` of a pixel inside the image lies in the buffer |
| TransparentIcons.IdxInjective | client/scripts/generate_transparent_icons.py:67 | distinct pixels have distinct offsets |
| TransparentIcons.Columns | client/scripts/generate_transparent_icons.py:44-46 | the first loop yields only top and bottom pixels of the columns |
| TransparentIcons.Rows | client/scripts/generate_transparent_icons.py:47-49 | the second loop yields only left and right pixels of the inner rows |
| TransparentIcons.BorderCoords | client/scripts/generate_transparent_icons.py:43-49 | every yielded coordinate lies on the border |
| TransparentIcons.BorderCovered | client/scripts/generate_transparent_icons.py:43-49 | every border pixel is yielded |
| TransparentIcons.ReachBorder | client/scripts/generate_transparent_icons.py:75-76 | a border pixel near the background is joined to the border |
| TransparentIcons.ReachExtend | client/scripts/generate_transparent_icons.py:83-90 | a neighbour near the background of a joined pixel is joined too |
| TransparentIcons.OriginCleared | client/scripts/generate_transparent_icons.py:62-81 | with a threshold that is not negative the top-left pixel is always cleared |
| TransparentIcons.FarPixelKept | client/scripts/generate_transparent_icons.py:36-72 | at the default threshold of 18 a pixel more than 18 away from the background colour is never cleared |
| TransparentIcons.UniformCleared | client/scripts/generate_transparent_icons.py:36-90 | at the default threshold, an icon whose every pixel is within 18 of the background is cleared whole |
| TransparentIcons.NegativeClearsNothing | client/scripts/generate_transparent_icons.py:72 | a negative threshold clears nothing |
| TransparentIcons.CountTrueSet | client/scripts/generate_transparent_icons.py:68-70 | setting an unset bit raises the count of set bits by one |
| TransparentIcons.PushKeepsQueued | client/scripts/generate_transparent_icons.py:66-73 | a push keeps the queue invariant (queued pixels are joined to the border, marked, each queued once) and sets a new bit whenever it enqueues |
| TransparentIcons.PushKeepsClosed | client/scripts/generate_transparent_icons.py:66-73 | a push marks its pixel, never unsets a bit, and keeps the handled prefix closed |
| TransparentIcons.Push | client/scripts/generate_transparent_icons.py:66-73 | `push` marks the pixel and appends it to the queue iff it was unmarked and its colour is within the threshold of the background |
| TransparentIcons.ClearedOne | client/scripts/generate_transparent_icons.py:79-81 | clearing the pixel at the head of the queue extends the cleared prefix by one |
| TransparentIcons.Neighbour | client/scripts/generate_transparent_icons.py:83-90 | each of the four pushed pixels is a 4-connected neighbour |
| TransparentIcons.GuardInside | client/scripts/generate_transparent_icons.py:83-90 | the loop's four tests keep exactly the neighbours inside the image |
| TransparentIcons.TurnKeeps | client/scripts/generate_transparent_icons.py:78-90 | one turn of the loop keeps the invariants: the taken pixel is cleared, its neighbours are marked, and the bitmap gains a bit whenever the queue grows |
| TransparentIcons.PushNext | client/scripts/generate_transparent_icons.py:83-90 | one guarded push, on the bitmap and the queue |
| TransparentIcons.Visit | client/scripts/generate_transparent_icons.py:79-90 | one turn clears exactly the head pixel (RGB kept, alpha 0) and pushes its neighbours inside the image |
| TransparentIcons.PathQueued | client/scripts/generate_transparent_icons.py:52-90 | once the queue is drained, every pixel on a background path from the border has been queued |
| TransparentIcons.PushBorder | client/scripts/generate_transparent_icons.py:75-76 | after the border loop every border pixel is marked and the queue invariant holds |
| TransparentIcons.Drain | client/scripts/generate_transparent_icons.py:78-90 | the `while q` loop ends with every queued pixel cleared and the marked set closed under neighbours |
| TransparentIcons.RemoveEdgeConnectedBackground | client/scripts/generate_transparent_icons.py:52-92 | the pixels cleared are exactly those joined to the border through 4-connected pixels within the threshold of the top-left colour; their RGB is kept and alpha set to 0; every other pixel is unchanged; at most w·h pixels are taken from the queue |

## Left out

- Firestore itself: a query, its `orderBy`, `limit`, `count()` and `where` filters become the
  sequence of documents it returns or a map held by a store object; the fallback taken when an
  ordered query throws and the index errors that trigger it are not part of this model.
- The network: every HTTP call (Google Places and Geocoding, SerpApi, SeatGeek, Jina Reader,
  the fetched web page) is a supplied answer, with a failure as its own value.
- OpenAI: the flyer scan's and the import's model replies are supplied strings; the
  `POST /plan` route, which only forwards a prompt to the model and returns the parsed reply, is
  not modelled.
- Console output and the FCM send: the milestone check and the test-notification script build
  the message; delivering it and the logging around it are not part of this model.
- `node-cron` scheduling (`initSerpApiCron`, `initPlacesCacheCron`), `runManualRefresh`, which
  only runs the three Places refresh steps in order, and `sleep` between Jina retries: the
  model has the steps, not the timers.
- Concurrency: parallel requests, the unlocked in-memory counters of the SerpApi refresh and
  the `Promise.all` of the Places stats are not modelled; every operation runs to completion
  on its own.
- `GET /places/stats` and `POST /places/refresh`: monitoring and manual-trigger routes with no
  logic beyond Firestore counts and the refresh steps.
- The Express wiring of `server/index.js` (body parsers, CORS, static files, health and env
  routes, the 404 and error handlers); only its response cache is modelled. `server/routes/users.js`
  and `server/routes/ui.js` are not part of this model.
- SerpApiCron.Tracker.SyncCity: each commit of 400 writes starts a fresh chunk; the source keeps
  using the same Firestore batch after `commit()`, which Firestore rejects, so cities with more
  than 400 events are modelled as the evidently intended chunking, not as the error.
- `DAILY_BUDGET` is computed in `server/utils/serpApiCron.js` and only logged; the model has no
  daily budget beyond the per-city cap of two fetches.
- `MONTHLY_BUDGET` comes from `Number(process.env…)`; the model takes it as an integer, so a
  non-numeric setting (NaN, which never exhausts the budget) is not modelled.
- `generateVariations` in `server/routes/community.js` is defined and never called; it is not
  modelled. The later cut of the token list to ten is unreachable, because tokens stop being
  added at ten; the model's token list carries the bound directly.
- Randomness: `Math.random()` values are supplied, so the model states which event or order each
  draw selects, not that the choice is uniform.
- Discover.ToIsoOrNull: only string (or absent) dates are modelled; a Firestore timestamp or
  number passed through `new Date(v).toISOString()` is not.
- HtmlText.FindCI: its own contract only places the found index; that it is the first
  occurrence, and that none is found only when there is none, is stated by `HtmlText.FindCIFirst`.
- Text: lower-casing maps the ASCII letters only, and `\s` is a fixed set of white-space
  characters; Unicode case mapping and the full ECMAScript white-space set are not modelled.
- Lengths are counted in UTF-16 code units, as JavaScript does, but a string is a sequence of
  whole characters, so a cut never splits a character outside the Basic Multilingual Plane:
  where JavaScript would keep half of a surrogate pair, the model drops the whole character.
  This concerns Notifications.TruncateTitle, Places.Slug, PlacesCacheCron.DocId and
  GeneratedEvents.ImportMessage.
- SerpApiCron.TodayKey: the day key cuts ten characters; ISO timestamps are ASCII, where
  characters and code units agree.
- GeneratedEvents: the import's `url` is a string (a truthy body value of another type is not
  modelled); a model reply that parses to something other than an object spreads no
  properties, where JavaScript would spread the indices of a string or an array;
  `JINA_AI_RETRIES` is an integer, so a non-numeric setting (NaN, which gives no attempt) is
  not modelled.
- `JSON.parse` and `JSON.stringify` are supplied functions; their own behaviour is not modelled.
- TestNotification.ParseArgs: options are kept in a map from names to values, so an option named
  after a property inherited by JavaScript objects (`--constructor`, `--toString`) behaves as any
  other name.
- TestNotification.TypeTable: `--type constructor` (or another inherited property name) finds
  the inherited function in JavaScript, which is truthy, so the script takes the known-type
  branch with an undefined title, body and route; the model treats such a name as an unknown
  type and sends the defaults.
- Notifications.IsMilestone: a metric named after an inherited property (`constructor`) makes
  `MILESTONES[metric].includes` throw in JavaScript; the model answers "not a milestone". Every
  caller passes one of the listed metric names.
- HtmlText.ScriptBlockDropped: only a leading `<script>` block without attributes is proved to
  vanish; blocks with attributes or at other positions, `<style>` and `<noscript>` blocks and
  comments are modelled by the same block-removal function but have no lemma of their own.
- Collections.CollectionStore.AddItem: an `eventId` in the request body that holds "/" can make
  `doc(eventId)` throw (a server error) or point into a sub-collection; the model looks the id
  up as a plain key and answers not found. Firestore's path rule is modelled only for the Places
  cache ids (`Places.DocIdAccepted`).
- Ids taken from URL parameters (the `:id`, `:eventId` and `:commentId` routes of
  `server/routes/events.js`, `collections.js`, `comments.js`, `generatedHistory.js` and
  `community.js`) and the `eventId` of a new comment: Express decodes `%2F` to "/", with the
  same effect as above; the event, comment, collection and plan stores are maps keyed by the id.
- PlacesCacheCron.SaveVenues: a venue's coordinates are stored as they are, and the model does
  not tell a `null` coordinate from an absent one. When an event document has no latitude or
  longitude field at all and geocoding does not fill it, the source's `venueRef.set` refuses
  the `undefined` value and throws; that write has no catch of its own, so the outer catch
  ends the whole run with `{ error }`: no later venue is saved and no counts are returned.
  The model saves every venue and returns the counts. A first geocode result that has a
  location with only one of `lat` and `lng` leads to the same throw in the source; the model
  treats it as a result without a location and keeps the venue as it was.
- The icon script's `main`: loading, resizing to the fixed sizes and saving the PNG files with
  PIL are not part of this model; only `remove_edge_connected_background` and its helpers are.
- TransparentIcons.RemoveEdgeConnectedBackground: the image has at least one pixel; on an empty
  image the source fails when it reads the top-left pixel. The `deque` is modelled as a
  sequence with a head index.
- Coordinates and ratings of the Places routes and the venue cache are reals, which the model
  only compares and copies; floating-point rounding, NaN and infinities are not modelled.
- Events.NumberOrNull: numbers in request bodies and event documents (`Documents.Value`) are
  integers, so a fractional `Number(body.latitude)` such as 40.7128 or a price of 12.5 is not
  represented; the event routes only store such a number, test its truthiness and turn it into
  text, and the model covers those steps for integral values only.
- ImageUtils.ResizeIdempotent: idempotence of the Google `=s` rewrite is proved only when no
  rewritten match can be extended into a new match; `ImageUtils.ResizeNotIdempotent` shows a
  URL where a second pass changes the result.

=== FILE: collections.dfy ===
/**
 * Collections (`/collections`): named lists of a user's own events. A collection document
 * carries its owner's `userId`; its items live in a sub-collection keyed by event id, so an
 * event is in a collection at most once. The clock readings are parameters.
 */
module Collections {
  import opened Wrappers
  import JsStr
  import opened Documents
  import Events

  /** `collections/{id}`: a field the document lacks reads as `Undefined`. */
  datatype CollectionDoc = CollectionDoc(
    userId: Value, name: Value, description: Value, createdAt: Value, updatedAt: Value)

  /** `collections/{id}/items/{eventId}` */
  datatype Item = Item(eventId: string, addedAt: string)

  /** A collection as the handlers answer it: id, document and item count. */
  datatype CollectionView = CollectionView(id: string, doc: CollectionDoc, itemCount: nat)

  /** The store's writes, in the order the handlers issue them. */
  datatype Write =
    | AddCollection(cid: string)
    | UpdateCollection(cid: string)
    | DeleteCollection(cid: string)
    | SetItem(cid: string, eventId: string)
    | DeleteItem(cid: string, eventId: string)

  /** `(v || fallback).toString().trim()` */
  function TrimmedOr(v: Value, fallback: string): (r: string)
    ensures !Truthy(v) ==> r == JsStr.Trim(fallback)
    ensures v.Str? && Truthy(v) ==> r == JsStr.Trim(v.s)
  {
    JsStr.Trim(if Truthy(v) then ToText(v) else fallback)
  }

  /** A name of spaces only is truthy, so it is not defaulted and trims to the empty name. */
  lemma BlankNameStaysBlank()
    ensures TrimmedOr(Str("  "), "Untitled") == ""
    ensures TrimmedOr(Undefined, "Untitled") == "Untitled"
  {
    var blank := "  ";
    var one := blank[1..];
    assert JsStr.IsSpace(blank[0]) && JsStr.IsSpace(one[0]) && one[1..] == [];
    assert JsStr.TrimStart(one) == JsStr.TrimStart([]) == [];
    assert JsStr.TrimStart(blank) == JsStr.TrimStart(one);
    var u := "Untitled";
    assert !JsStr.IsSpace(u[0]) && !JsStr.IsSpace(u[|u| - 1]);
    assert JsStr.TrimStart(u) == u;
    assert JsStr.TrimEnd(u) == u;
  }

  /** The text a patch field holds: `body.f.toString().trim()`; `None` when it throws. */
  function PatchText(given: Value): (r: Option<Value>)
    requires !given.Undefined?
    ensures r.None? <==> given.Null?
    ensures given.Str? ==> r == Some(Str(JsStr.Trim(given.s)))
  {
    if given.Null? then None else Some(Str(JsStr.Trim(ToText(given))))
  }

  /**
   * `PUT /collections/:id`: only the name and description present in the body change, both
   * trimmed, and `updatedAt` always does. `None` when a present field is `null`.
   */
  function Updated(d: CollectionDoc, name: Value, description: Value, now: string): (r: Option<CollectionDoc>)
    ensures r.None? <==> name.Null? || description.Null?
    ensures r.Some? ==>
      && r.value.userId == d.userId && r.value.createdAt == d.createdAt
      && r.value.updatedAt == Str(now)
      && (name.Undefined? ==> r.value.name == d.name)
      && (description.Undefined? ==> r.value.description == d.description)
      && (name.Str? ==> r.value.name == Str(JsStr.Trim(name.s)))
      && (description.Str? ==> r.value.description == Str(JsStr.Trim(description.s)))
  {
    var n := if name.Undefined? then Some(d.name) else PatchText(name);
    var s := if description.Undefined? then Some(d.description) else PatchText(description);
    if n.None? || s.None? then None
    else Some(d.(name := n.value, description := s.value, updatedAt := Str(now)))
  }

  /** A sequence without repeated elements. */
  predicate Distinct<T(==)>(s: seq<T>) {
    forall i, j :: 0 <= i < j < |s| ==> s[i] != s[j]
  }

  /** A sequence without repeats is as long as the set of its elements is large. */
  lemma {:induction false} DistinctCount<T>(s: seq<T>)
    requires Distinct(s)
    ensures |set x | x in s| == |s|
  {
    if s != [] {
      var init := s[..|s| - 1];
      assert Distinct(init);
      DistinctCount(init);
      assert (set x | x in s) == (set x | x in init) + {s[|s| - 1]};
      assert s[|s| - 1] !in init;
    }
  }

  /** One `DeleteItem` write per event id, in order. */
  function DeleteItems(cid: string, ids: seq<string>): (w: seq<Write>)
    ensures |w| == |ids|
    ensures forall i :: 0 <= i < |ids| ==> w[i] == DeleteItem(cid, ids[i])
  {
    if ids == [] then [] else DeleteItems(cid, ids[..|ids| - 1]) + [DeleteItem(cid, ids[|ids| - 1])]
  }

  class CollectionStore {
    /** `collections`, by document id. */
    var collections: map<string, CollectionDoc>
    /** The `items` sub-collections, by collection id and then event id. */
    var items: map<string, map<string, Item>>
    /** The `events` collection, which the item handlers consult. */
    var events: map<string, Events.EventDoc>
    /** Every write so far, oldest first. */
    ghost var writes: seq<Write>

    constructor(collections: map<string, CollectionDoc>, items: map<string, map<string, Item>>,
                events: map<string, Events.EventDoc>)
      ensures this.collections == collections && this.items == items && this.events == events
      ensures writes == []
    {
      this.collections := collections;
      this.items := items;
      this.events := events;
      writes := [];
    }

    /** The items of a collection; a missing sub-collection is empty. */
    function ItemsOf(cid: string): map<string, Item>
      reads this
    {
      if cid in items then items[cid] else map[]
    }

    /** `ensureOwnCollection(userId, collectionId)` */
    function EnsureOwn(uid: string, cid: string): (r: Result<CollectionDoc, Failure>)
      reads this
      ensures cid !in collections ==> r == Err(NotFound)
      ensures cid in collections && !IsUser(collections[cid].userId, uid) ==> r == Err(Forbidden)
      ensures r.Ok? <==> cid in collections && IsUser(collections[cid].userId, uid)
      ensures r.Ok? ==> r.value == collections[cid]
    {
      if cid !in collections then Err(NotFound)
      else if !IsUser(collections[cid].userId, uid) then Err(Forbidden)
      else Ok(collections[cid])
    }

    /** The caller's collections in the query's `updatedAt desc` order, with item counts. */
    function ListCollections(uid: string, order: seq<string>): (r: seq<CollectionView>)
      reads this
      ensures forall i :: 0 <= i < |r| ==>
        r[i].id in collections && IsUser(collections[r[i].id].userId, uid) &&
        r[i].doc == collections[r[i].id] && r[i].itemCount == |ItemsOf(r[i].id)|
    {
      if order == [] then []
      else
        var init := ListCollections(uid, order[..|order| - 1]);
        var id := order[|order| - 1];
        if id in collections && IsUser(collections[id].userId, uid) then
          init + [CollectionView(id, collections[id], |ItemsOf(id)|)]
        else init
    }

    /** A collection is listed exactly when it is in the query's order and belongs to the caller. */
    lemma {:induction false} ListedExactly(uid: string, order: seq<string>)
      ensures forall id :: (exists i :: 0 <= i < |ListCollections(uid, order)| && ListCollections(uid, order)[i].id == id) <==>
        id in order && id in collections && IsUser(collections[id].userId, uid)
    {
      if order != [] {
        var init := order[..|order| - 1];
        ListedExactly(uid, init);
        var r := ListCollections(uid, order);
        var last := order[|order| - 1];
        assert forall x :: x in order <==> x in init || x == last;
        if last in collections && IsUser(collections[last].userId, uid) {
          assert r[|r| - 1].id == last;
          assert forall i :: 0 <= i < |r| - 1 ==> r[i] == ListCollections(uid, init)[i];
        }
      }
    }

    /** The listed events of a collection: the existing, caller-owned ones among `ids`, in order. */
    function OwnedEvents(uid: string, ids: seq<string>): (r: seq<(string, Events.EventDoc)>)
      reads this
      ensures |r| <= |ids|
      ensures forall i :: 0 <= i < |r| ==>
        r[i].0 in ids && r[i].0 in events && IsUser(events[r[i].0].userId, uid) && r[i].1 == events[r[i].0]
    {
      if ids == [] then []
      else
        var init := OwnedEvents(uid, ids[..|ids| - 1]);
        var id := ids[|ids| - 1];
        if id in events && IsUser(events[id].userId, uid) then init + [(id, events[id])] else init
    }

    /** An item id is listed exactly when its event exists and belongs to the caller. */
    lemma {:induction false} OwnedEventsExactly(uid: string, ids: seq<string>)
      ensures forall id :: (exists i :: 0 <= i < |OwnedEvents(uid, ids)| && OwnedEvents(uid, ids)[i].0 == id) <==>
        id in ids && id in events && IsUser(events[id].userId, uid)
    {
      if ids != [] {
        var init := ids[..|ids| - 1];
        OwnedEventsExactly(uid, init);
        var r := OwnedEvents(uid, ids);
        var last := ids[|ids| - 1];
        assert forall x :: x in ids <==> x in init || x == last;
        if last in events && IsUser(events[last].userId, uid) {
          assert r[|r| - 1].0 == last;
          assert forall i :: 0 <= i < |r| - 1 ==> r[i] == OwnedEvents(uid, init)[i];
        }
      }
    }

    /**
     * `GET /collections/:id`: the loop over the item ids (`order`, the items by `addedAt
     * desc`) pushes each existing, caller-owned event; `itemCount` counts every item.
     */
    method Get(uid: string, cid: string, order: seq<string>) returns (r: Result<(CollectionView, seq<(string, Events.EventDoc)>), Failure>)
      requires Distinct(order) && forall e :: e in order <==> e in ItemsOf(cid)
      ensures EnsureOwn(uid, cid).Err? ==> r == Err(EnsureOwn(uid, cid).error)
      ensures EnsureOwn(uid, cid).Ok? ==>
        r == Ok((CollectionView(cid, collections[cid], |ItemsOf(cid)|), OwnedEvents(uid, order)))
    {
      var own := EnsureOwn(uid, cid);
      if own.Err? {
        return Err(own.error);
      }
      var listed: seq<(string, Events.EventDoc)> := [];
      var i := 0;
      while i < |order|
        invariant 0 <= i <= |order|
        invariant listed == OwnedEvents(uid, order[..i])
      {
        var eventId := order[i];
        assert order[..i + 1][..i] == order[..i];
        if eventId in events && IsUser(events[eventId].userId, uid) {
          listed := listed + [(eventId, events[eventId])];
        }
        i := i + 1;
      }
      assert order[..|order|] == order;
      DistinctCount(order);
      assert (set x | x in order) == ItemsOf(cid).Keys;
      return Ok((CollectionView(cid, own.value, |order|), listed));
    }

    /**
     * `POST /collections`: the stored document has the trimmed name (default "Untitled") and
     * description (default ""); the answer reads the clock again for its timestamps.
     */
    method Create(uid: string, name: Value, description: Value, newId: string,
                  createdAt: string, updatedAt: string, answeredAt: string, answeredUpdatedAt: string)
      returns (view: CollectionView)
      modifies this
      ensures var doc := CollectionDoc(Str(uid), Str(TrimmedOr(name, "Untitled")), Str(TrimmedOr(description, "")),
                                       Str(createdAt), Str(updatedAt));
        && collections == old(collections)[newId := doc]
        && view == CollectionView(newId, doc.(createdAt := Str(answeredAt), updatedAt := Str(answeredUpdatedAt)), 0)
      ensures items == old(items) && events == old(events)
      ensures writes == old(writes) + [AddCollection(newId)]
    {
      var doc := CollectionDoc(Str(uid), Str(TrimmedOr(name, "Untitled")), Str(TrimmedOr(description, "")),
                               Str(createdAt), Str(updatedAt));
      collections := collections[newId := doc];
      writes := writes + [AddCollection(newId)];
      view := CollectionView(newId, doc.(createdAt := Str(answeredAt), updatedAt := Str(answeredUpdatedAt)), 0);
    }

    /** `PUT /collections/:id` */
    method Update(uid: string, cid: string, name: Value, description: Value, now: string)
      returns (r: Result<CollectionDoc, Failure>)
      modifies this
      ensures items == old(items) && events == old(events)
      ensures old(EnsureOwn(uid, cid)).Err? ==> r == Err(old(EnsureOwn(uid, cid)).error)
      ensures old(EnsureOwn(uid, cid)).Ok? && Updated(old(collections)[cid], name, description, now).None? ==>
        r == Err(ServerError)
      ensures r.Err? ==> collections == old(collections) && writes == old(writes)
      ensures r.Ok? ==>
        old(EnsureOwn(uid, cid)).Ok? &&
        Updated(old(collections)[cid], name, description, now) == Some(r.value) &&
        collections == old(collections)[cid := r.value] && writes == old(writes) + [UpdateCollection(cid)]
    {
      var own := EnsureOwn(uid, cid);
      if own.Err? {
        return Err(own.error);
      }
      var updated := Updated(own.value, name, description, now);
      if updated.None? {
        return Err(ServerError);
      }
      collections := collections[cid := updated.value];
      writes := writes + [UpdateCollection(cid)];
      return Ok(updated.value);
    }

    /** Deletes the items of a collection one by one (the `Promise.all` of item deletions). */
    method DeleteAllItems(cid: string) returns (ghost deleted: seq<string>)
      modifies this
      ensures collections == old(collections) && events == old(events)
      ensures items == old(items) - {cid}
      ensures Distinct(deleted) && (forall e :: e in deleted <==> e in old(ItemsOf(cid)))
      ensures writes == old(writes) + DeleteItems(cid, deleted)
    {
      deleted := [];
      if cid !in items {
        assert items - {cid} == items;
        return;
      }
      var pending := items[cid].Keys;
      ghost var items0, writes0 := items, writes;
      while pending != {}
        invariant collections == old(collections) && events == old(events)
        invariant Deleting(cid, items0, writes0, pending, deleted)
        decreases pending
      {
        pending, deleted := DeleteNext(cid, items0, writes0, pending, deleted);
      }
      assert old(ItemsOf(cid)) == old(items)[cid];
      items := items - {cid};
    }

    /**
     * The state of the item deletions of `cid`: the items still `pending` are the ones left in
     * the sub-collection, and every deletion so far was written once, in order.
     */
    ghost predicate Deleting(cid: string, items0: map<string, map<string, Item>>, writes0: seq<Write>,
                             pending: set<string>, deleted: seq<string>)
      reads this
    {
      && cid in items0 && cid in items && items == items0[cid := items[cid]]
      && items[cid].Keys == pending
      && Distinct(deleted)
      && (forall e :: e in items0[cid] <==> e in pending || e in deleted)
      && (forall e :: e in deleted ==> e !in pending)
      && writes == writes0 + DeleteItems(cid, deleted)
    }

    /** One deletion of the `Promise.all`: some pending item goes. */
    method DeleteNext(cid: string, ghost items0: map<string, map<string, Item>>, ghost writes0: seq<Write>,
                      pending: set<string>, ghost deleted: seq<string>)
      returns (pending': set<string>, ghost deleted': seq<string>)
      requires pending != {} && Deleting(cid, items0, writes0, pending, deleted)
      modifies this
      ensures collections == old(collections) && events == old(events)
      ensures pending' < pending && Deleting(cid, items0, writes0, pending', deleted')
    {
      var e :| e in pending;
      DeleteItemDoc(cid, e);
      deleted' := deleted + [e];
      pending' := pending - {e};
      DeleteItemsSnoc(cid, deleted, e);
      assert writes == writes0 + DeleteItems(cid, deleted');
      assert items == items0[cid := items[cid]];
      assert items[cid].Keys == pending';
    }

    lemma DeleteItemsSnoc(cid: string, ids: seq<string>, e: string)
      ensures DeleteItems(cid, ids + [e]) == DeleteItems(cid, ids) + [DeleteItem(cid, e)]
    {
      assert (ids + [e])[..|ids|] == ids;
    }

    /** `d.ref.delete()` for one item. */
    method DeleteItemDoc(cid: string, e: string)
      requires cid in items
      modifies this
      ensures collections == old(collections) && events == old(events)
      ensures items == old(items)[cid := old(items)[cid] - {e}]
      ensures writes == old(writes) + [DeleteItem(cid, e)]
    {
      items := items[cid := items[cid] - {e}];
      writes := writes + [DeleteItem(cid, e)];
    }

    /**
     * `DELETE /collections/:id`: every item is deleted, and only then the collection;
     * `deleted` lists the item deletions in the order they were issued.
     */
    method Delete(uid: string, cid: string) returns (r: Result<bool, Failure>, ghost deleted: seq<string>)
      modifies this
      ensures events == old(events)
      ensures old(EnsureOwn(uid, cid)).Err? ==>
        r == Err(old(EnsureOwn(uid, cid)).error) && collections == old(collections) &&
        items == old(items) && writes == old(writes)
      ensures old(EnsureOwn(uid, cid)).Ok? ==>
        && r == Ok(true)
        && collections == old(collections) - {cid}
        && items == old(items) - {cid}
        && Distinct(deleted) && (forall e :: e in deleted <==> e in old(ItemsOf(cid)))
        && writes == old(writes) + DeleteItems(cid, deleted) + [DeleteCollection(cid)]
    {
      deleted := [];
      var own := EnsureOwn(uid, cid);
      if own.Err? {
        return Err(own.error), deleted;
      }
      deleted := DeleteAllItems(cid);
      collections := collections - {cid};
      writes := writes + [DeleteCollection(cid)];
      return Ok(true), deleted;
    }

    /**
     * `POST /collections/:id/items`, given `eventId`, the body's event id as `TrimmedOr`
     * reads it: an empty id is a bad request, a missing event not found, another user's
     * event forbidden; otherwise the item is set under the event id (re-adding replaces it)
     * and the collection's `updatedAt` is refreshed.
     */
    method AddItem(uid: string, cid: string, eventId: string, addedAt: string, now: string)
      returns (r: Result<bool, Failure>)
      modifies this
      ensures events == old(events)
      ensures
        && (old(EnsureOwn(uid, cid)).Err? ==> r == Err(old(EnsureOwn(uid, cid)).error))
        && (old(EnsureOwn(uid, cid)).Ok? && eventId == "" ==> r == Err(BadRequest))
        && (old(EnsureOwn(uid, cid)).Ok? && eventId != "" && eventId !in events ==> r == Err(NotFound))
        && ((old(EnsureOwn(uid, cid)).Ok? && eventId != "" && eventId in events &&
             !IsUser(events[eventId].userId, uid)) ==> r == Err(Forbidden))
        && (r.Ok? ==>
              && eventId != "" && eventId in events && IsUser(events[eventId].userId, uid)
              && old(EnsureOwn(uid, cid)).Ok?
              && items == old(items)[cid := old(ItemsOf(cid))[eventId := Item(eventId, addedAt)]]
              && collections == old(collections)[cid := old(collections)[cid].(updatedAt := Str(now))]
              && writes == old(writes) + [SetItem(cid, eventId), UpdateCollection(cid)])
      ensures r.Err? ==> collections == old(collections) && items == old(items) && writes == old(writes)
    {
      var own := EnsureOwn(uid, cid);
      if own.Err? {
        return Err(own.error);
      }
      if eventId == "" {
        return Err(BadRequest);
      }
      if eventId !in events {
        return Err(NotFound);
      }
      if !IsUser(events[eventId].userId, uid) {
        return Err(Forbidden);
      }
      items := items[cid := ItemsOf(cid)[eventId := Item(eventId, addedAt)]];
      collections := collections[cid := own.value.(updatedAt := Str(now))];
      writes := writes + [SetItem(cid, eventId), UpdateCollection(cid)];
      return Ok(true);
    }

    /** `DELETE /collections/:id/items/:eventId`: removing an absent item is not an error. */
    method RemoveItem(uid: string, cid: string, eventId: string, now: string)
      returns (r: Result<bool, Failure>)
      modifies this
      ensures events == old(events)
      ensures old(EnsureOwn(uid, cid)).Err? ==>
        r == Err(old(EnsureOwn(uid, cid)).error) && collections == old(collections) &&
        items == old(items) && writes == old(writes)
      ensures old(EnsureOwn(uid, cid)).Ok? ==>
        && r == Ok(true)
        && items == old(items)[cid := old(ItemsOf(cid)) - {eventId}]
        && collections == old(collections)[cid := old(collections)[cid].(updatedAt := Str(now))]
        && writes == old(writes) + [DeleteItem(cid, eventId), UpdateCollection(cid)]
    {
      var own := EnsureOwn(uid, cid);
      if own.Err? {
        return Err(own.error);
      }
      items := items[cid := ItemsOf(cid) - {eventId}];
      collections := collections[cid := own.value.(updatedAt := Str(now))];
      writes := writes + [DeleteItem(cid, eventId), UpdateCollection(cid)];
      return Ok(true);
    }
  }

  /** Items are keyed by event id: adding an event already present keeps the item count. */
  lemma AddItemCount(m: map<string, Item>, eventId: string, addedAt: string)
    ensures |m[eventId := Item(eventId, addedAt)]| == if eventId in m then |m| else |m| + 1
  {
    if eventId in m {
      assert m[eventId := Item(eventId, addedAt)].Keys == m.Keys;
    } else {
      assert m[eventId := Item(eventId, addedAt)].Keys == m.Keys + {eventId};
    }
  }
}

=== FILE: comments.dfy ===
/**
 * Event comments (`/comments`): anyone may read an event's comments, signed-in users add
 * them, and only a comment's author deletes it. Adding and deleting also move the event's
 * `commentCount` by one, in the same atomic batch as the comment write, so a batch whose
 * event update fails writes nothing at all.
 */
module Comments {
  import opened Wrappers
  import JsStr
  import opened JsNum
  import opened Documents
  import opened Paging

  /** A stored comment; `createdAt` is the ISO text of its timestamp when it reads as one. */
  datatype CommentDoc = CommentDoc(
    eventId: Value, userId: Value, username: Value, userAvatarUrl: Value, text: Value,
    createdAt: Option<string>)

  /** An event document as far as comments touch it (an absent `commentCount` counts as 0). */
  datatype EventInfo = EventInfo(title: Value, imageUrl: Value, commentCount: int)

  /** The caller's profile document (an absent one reads as `{}`). */
  datatype Profile = Profile(displayName: Value, photoURL: Value)

  /** The verified token of the caller. */
  datatype Caller = Caller(uid: string, name: Value, picture: Value)

  /** A listed comment: its id, its document, and the `createdAt` text the answer carries. */
  datatype CommentView = CommentView(id: string, doc: CommentDoc, createdAt: string)

  /** A comment of the caller's own list, with the event's title and image when known. */
  datatype UserComment = UserComment(view: CommentView, eventTitle: Value, eventImageUrl: Value)

  const DefaultLimit := 50
  const UserListLimit := 100

  /** `userData.displayName || user.name || "User"`: a comment always has a truthy username. */
  function Username(profile: Profile, caller: Caller): (r: Value)
    ensures Truthy(r)
    ensures Truthy(profile.displayName) ==> r == profile.displayName
    ensures !Truthy(profile.displayName) && Truthy(caller.name) ==> r == caller.name
    ensures !Truthy(profile.displayName) && !Truthy(caller.name) ==> r == Str("User")
  {
    OrValue(profile.displayName, OrValue(caller.name, Str("User")))
  }

  /** The comment `POST /comments` stores. */
  function NewComment(eventId: string, text: string, profile: Profile, caller: Caller, createdAt: string): (c: CommentDoc)
    ensures c.eventId == Str(eventId) && c.userId == Str(caller.uid)
    ensures c.text == Str(JsStr.Trim(text))
    ensures c.username == Username(profile, caller)
    ensures c.userAvatarUrl == OrValue(profile.photoURL, OrValue(caller.picture, Null))
  {
    CommentDoc(Str(eventId), Str(caller.uid), Username(profile, caller),
               OrValue(profile.photoURL, OrValue(caller.picture, Null)), Str(JsStr.Trim(text)), Some(createdAt))
  }

  /** The stored text has no white space at either end. */
  lemma NewCommentTextTrimmed(eventId: string, text: string, profile: Profile, caller: Caller, createdAt: string)
    ensures var t := NewComment(eventId, text, profile, caller, createdAt).text.s;
      t == [] || (!JsStr.IsSpace(t[0]) && !JsStr.IsSpace(t[|t| - 1]))
  {
    JsStr.TrimEnds(text);
  }

  /** `parseInt(limit) || 50` (no radix): an absent, unparsable or zero limit is 50; a negative one is kept. */
  function LimitOf(raw: Option<string>): (n: int)
    ensures n != 0
    ensures raw.None? ==> n == DefaultLimit
    ensures raw.Some? && ParseIntAuto(raw.value).NaN? ==> n == DefaultLimit
    ensures raw.Some? && ParseIntAuto(raw.value).Int? && ParseIntAuto(raw.value).v != 0 ==> n == ParseIntAuto(raw.value).v
  {
    if raw.None? then DefaultLimit
    else match ParseIntAuto(raw.value)
      case Int(v) => if v == 0 then DefaultLimit else v
      case _ => DefaultLimit
  }

  /** A hexadecimal `0x10` asks for 16 comments. */
  lemma LimitOfHex()
    ensures LimitOf(Some("0x10")) == 16
  {
    JsNum.HexQuery();
  }

  /** `data.createdAt?.toDate?.()?.toISOString() || new Date().toISOString()` */
  function ViewOf(id: string, doc: CommentDoc, now: string): (v: CommentView)
    ensures v.id == id && v.doc == doc
    ensures doc.createdAt.Some? && doc.createdAt.value != "" ==> v.createdAt == doc.createdAt.value
    ensures doc.createdAt.None? ==> v.createdAt == now
  {
    CommentView(id, doc, if doc.createdAt.Some? && doc.createdAt.value != "" then doc.createdAt.value else now)
  }

  class CommentStore {
    /** The `comments` collection. */
    var comments: map<string, CommentDoc>
    /** The `events` collection, as far as comments read and update it. */
    var events: map<string, EventInfo>
    /** The `users` collection (read only). */
    var users: map<string, Profile>

    constructor(comments: map<string, CommentDoc>, events: map<string, EventInfo>, users: map<string, Profile>)
      ensures this.comments == comments && this.events == events && this.users == users
    {
      this.comments := comments;
      this.events := events;
      this.users := users;
    }

    /** The caller's profile, or the empty profile when there is no user document. */
    function ProfileOf(uid: string): Profile
      reads this
    {
      if uid in users then users[uid] else Profile(Undefined, Undefined)
    }

    /** The value a listing filters on: the comment's event id, or its author. */
    function Field(id: string, byEvent: bool): Value
      reads this
      requires id in comments
    {
      if byEvent then comments[id].eventId else comments[id].userId
    }

    /** `.where(field, "==", key)`: the ids among `order` whose comment's `field` equals `Str(key)`. */
    function Matching(order: seq<string>, key: string, byEvent: bool): (r: seq<string>)
      reads this
      ensures |r| <= |order|
      ensures forall i :: 0 <= i < |r| ==> r[i] in comments && Field(r[i], byEvent) == Str(key)
      ensures forall id :: id in r <==> id in order && id in comments && Field(id, byEvent) == Str(key)
    {
      if order == [] then []
      else
        var id := order[0];
        (if id in comments && Field(id, byEvent) == Str(key) then [id] else []) + Matching(order[1..], key, byEvent)
    }

    /** The matching comments keep the query's order. */
    lemma {:induction false} MatchingInOrder(order: seq<string>, key: string, byEvent: bool)
      ensures IsSubsequence(Matching(order, key, byEvent), order)
    {
      if order != [] {
        MatchingInOrder(order[1..], key, byEvent);
        var rest := Matching(order[1..], key, byEvent);
        var id := order[0];
        if id in comments && Field(id, byEvent) == Str(key) {
          assert Matching(order, key, byEvent) == [id] + rest;
          assert ([id] + rest)[1..] == rest;
        } else {
          assert Matching(order, key, byEvent) == rest;
          if rest != [] {
            assert rest[0] in comments && Field(rest[0], byEvent) == Str(key);
          }
        }
      }
    }

    /**
     * `POST /comments`: a missing event id or text is a bad request with no write; a
     * non-string event id or text throws; otherwise the comment is written and the event's
     * `commentCount` raised by one in one batch, which fails as a whole when the event does
     * not exist.
     */
    method Add(caller: Caller, eventId: Value, text: Value, newId: string, createdAt: string, answeredAt: string)
      returns (r: Result<CommentView, Failure>)
      modifies this
      ensures users == old(users)
      ensures !Truthy(eventId) || !Truthy(text) ==> r == Err(BadRequest)
      ensures Truthy(eventId) && Truthy(text) && (!eventId.Str? || !text.Str?) ==> r == Err(ServerError)
      ensures Truthy(eventId) && Truthy(text) && eventId.Str? && text.Str? && eventId.s !in old(events) ==>
        r == Err(ServerError)
      ensures r.Err? ==> comments == old(comments) && events == old(events)
      ensures r.Ok? ==>
        && eventId.Str? && text.Str? && eventId.s != "" && text.s != "" && eventId.s in old(events)
        && var doc := NewComment(eventId.s, text.s, old(ProfileOf(caller.uid)), caller, createdAt);
        && comments == old(comments)[newId := doc]
        && events == old(events)[eventId.s := old(events)[eventId.s].(commentCount := old(events)[eventId.s].commentCount + 1)]
        && r.value == CommentView(newId, doc, answeredAt)
    {
      if !Truthy(eventId) || !Truthy(text) {
        return Err(BadRequest);
      }
      if !eventId.Str? || !text.Str? {
        return Err(ServerError);
      }
      if eventId.s !in events {
        return Err(ServerError);
      }
      var doc := NewComment(eventId.s, text.s, ProfileOf(caller.uid), caller, createdAt);
      var ev := events[eventId.s];
      comments := comments[newId := doc];
      events := events[eventId.s := ev.(commentCount := ev.commentCount + 1)];
      return Ok(CommentView(newId, doc, answeredAt));
    }

    /**
     * `DELETE /comments/:commentId`: not found and forbidden write nothing; otherwise the
     * comment is deleted and, when it names an event, that event's `commentCount` lowered
     * by one in the same batch (which fails as a whole when the event is gone).
     */
    method Delete(uid: string, commentId: string) returns (r: Result<bool, Failure>)
      modifies this
      ensures users == old(users)
      ensures commentId !in old(comments) ==> r == Err(NotFound)
      ensures commentId in old(comments) && !IsUser(old(comments)[commentId].userId, uid) ==> r == Err(Forbidden)
      ensures r.Err? ==> comments == old(comments) && events == old(events)
      ensures r.Ok? ==>
        && commentId in old(comments) && IsUser(old(comments)[commentId].userId, uid)
        && comments == old(comments) - {commentId}
        && var e := old(comments)[commentId].eventId;
        && (!Truthy(e) ==> events == old(events))
        && (Truthy(e) ==> (e.Str? && e.s in old(events) &&
              events == old(events)[e.s := old(events)[e.s].(commentCount := old(events)[e.s].commentCount - 1)]))
      ensures commentId in old(comments) && IsUser(old(comments)[commentId].userId, uid) ==>
        var e := old(comments)[commentId].eventId;
        (r.Ok? <==> !Truthy(e) || (e.Str? && e.s in old(events)))
    {
      if commentId !in comments {
        return Err(NotFound);
      }
      var data := comments[commentId];
      if !IsUser(data.userId, uid) {
        return Err(Forbidden);
      }
      if Truthy(data.eventId) {
        if !data.eventId.Str? || data.eventId.s !in events {
          return Err(ServerError);
        }
        var ev := events[data.eventId.s];
        events := events[data.eventId.s := ev.(commentCount := ev.commentCount - 1)];
      }
      comments := comments - {commentId};
      return Ok(true);
    }

    /**
     * `GET /comments/:eventId`: of the event's comments in `order` (newest first), the first
     * `parseInt(limit) || 50`; a negative limit makes the query throw. The `forEach` pushes
     * one view per document.
     */
    method ListForEvent(eventId: string, rawLimit: Option<string>, order: seq<string>, now: string)
      returns (r: Result<seq<CommentView>, Failure>)
      ensures LimitOf(rawLimit) < 0 <==> r.Err?
      ensures r.Ok? ==>
        var shown := Take(Matching(order, eventId, true), LimitOf(rawLimit));
        && |r.value| == |shown| <= LimitOf(rawLimit)
        && forall i :: 0 <= i < |shown| ==>
             r.value[i] == ViewOf(shown[i], comments[shown[i]], now) && comments[shown[i]].eventId == Str(eventId)
    {
      var limit := LimitOf(rawLimit);
      if limit < 0 {
        return Err(ServerError);
      }
      var shown := Take(Matching(order, eventId, true), limit);
      var views: seq<CommentView> := [];
      var i := 0;
      while i < |shown|
        invariant 0 <= i <= |shown|
        invariant |views| == i
        invariant forall j :: 0 <= j < i ==> views[j] == ViewOf(shown[j], comments[shown[j]], now)
      {
        views := views + [ViewOf(shown[i], comments[shown[i]], now)];
        i := i + 1;
      }
      return Ok(views);
    }

    /** The event fields a user comment carries: `eventData.title || null` and the image likewise. */
    function EventContext(e: Value): (Value, Value)
      reads this
    {
      if Truthy(e) && e.Str? && e.s in events
      then (OrValue(events[e.s].title, Null), OrValue(events[e.s].imageUrl, Null))
      else (Null, Null)
    }

    /**
     * `GET /comments/user`: the caller's newest 100 comments, each with its event's title
     * and image (`null` when the comment names no event or the event is gone).
     */
    method ListForUser(uid: string, order: seq<string>, now: string) returns (r: seq<UserComment>)
      ensures var shown := Take(Matching(order, uid, false), UserListLimit);
        && |r| == |shown| <= UserListLimit
        && forall i :: 0 <= i < |shown| ==>
             var doc := comments[shown[i]];
             && IsUser(doc.userId, uid)
             && r[i] == UserComment(ViewOf(shown[i], doc, now), EventContext(doc.eventId).0, EventContext(doc.eventId).1)
    {
      var shown := Take(Matching(order, uid, false), UserListLimit);
      r := [];
      var i := 0;
      while i < |shown|
        invariant 0 <= i <= |shown|
        invariant |r| == i
        invariant forall j :: 0 <= j < i ==>
          r[j] == UserComment(ViewOf(shown[j], comments[shown[j]], now),
                              EventContext(comments[shown[j]].eventId).0, EventContext(comments[shown[j]].eventId).1)
      {
        var doc := comments[shown[i]];
        var eventTitle := Null;
        var eventImageUrl := Null;
        if Truthy(doc.eventId) && doc.eventId.Str? && doc.eventId.s in events {
          var ev := events[doc.eventId.s];
          eventTitle := OrValue(ev.title, Null);
          eventImageUrl := OrValue(ev.imageUrl, Null);
        }
        r := r + [UserComment(ViewOf(shown[i], doc, now), eventTitle, eventImageUrl)];
        i := i + 1;
      }
    }
  }
}

=== FILE: common.dfy ===
/** Option type used throughout the model for JavaScript's `undefined`/`null`. */
module Wrappers {
  datatype Option<+T> = None | Some(value: T) {
    /** The value, or `default` when absent (JavaScript's `v ?? default`). */
    function GetOr(default: T): T {
      match this
      case Some(v) => v
      case None => default
    }
  }

  /** The outcome of a handler: a value, or the error it answers with. */
  datatype Result<+T, +E> = Ok(value: T) | Err(error: E)
}

/**
 * The JavaScript string operations the server relies on, stated over `seq<char>`.
 * Case mapping covers the ASCII letters only.
 */
module JsStr {
  import opened Wrappers

  /** The characters matched by `\s` and removed by `trim()`. */
  predicate IsSpace(c: char) {
    c == ' ' || c == '\t' || c == '\n' || c == '\r' || c == '\U{B}' || c == '\U{C}'
    || c == '\U{A0}' || c == '\U{1680}' || ('\U{2000}' <= c <= '\U{200A}')
    || c == '\U{2028}' || c == '\U{2029}' || c == '\U{202F}' || c == '\U{205F}'
    || c == '\U{3000}' || c == '\U{FEFF}'
  }

  predicate IsDigit(c: char) { '0' <= c <= '9' }

  /** JavaScript truthiness of an optional string: present and non-empty. */
  predicate Truthy(o: Option<string>) { o.Some? && o.value != [] }

  /** `o || fallback` for an optional string. */
  function Or(o: Option<string>, fallback: string): (r: string)
    ensures Truthy(o) ==> r == o.value
    ensures !Truthy(o) ==> r == fallback
  {
    if Truthy(o) then o.value else fallback
  }

  predicate IsAsciiLetter(c: char) { 'a' <= c <= 'z' || 'A' <= c <= 'Z' }

  function LowerChar(c: char): char {
    if 'A' <= c <= 'Z' then (c as int + 32) as char else c
  }

  /** `toLowerCase()` */
  function Lower(s: string): (r: string)
    ensures |r| == |s|
    ensures forall i :: 0 <= i < |s| ==> r[i] == LowerChar(s[i])
  {
    seq(|s|, i requires 0 <= i < |s| => LowerChar(s[i]))
  }

  lemma LowerIdempotent(s: string)
    ensures Lower(Lower(s)) == Lower(s)
  {
  }

  lemma LowerAppend(a: string, b: string)
    ensures Lower(a + b) == Lower(a) + Lower(b)
  {
  }

  predicate StartsWith(s: string, prefix: string) {
    |prefix| <= |s| && s[..|prefix|] == prefix
  }

  /** `sub` occurs in `s` at index `i`. */
  predicate OccursAt(s: string, sub: string, i: int) {
    0 <= i && i + |sub| <= |s| && s[i..i + |sub|] == sub
  }

  /** `s.includes(sub)` */
  predicate Contains(s: string, sub: string) {
    exists i | 0 <= i <= |s| - |sub| :: OccursAt(s, sub, i)
  }

  /** A string contains every piece it was glued together from. */
  lemma ContainsMiddle(a: string, sub: string, b: string)
    ensures Contains(a + sub + b, sub)
  {
    assert (a + sub + b)[|a|..|a| + |sub|] == sub;
    assert OccursAt(a + sub + b, sub, |a|);
  }

  /** Index of the first occurrence of `sub` in `s` (`indexOf`), `None` for -1. */
  function IndexOf(s: string, sub: string): (r: Option<nat>)
    ensures r.Some? ==> OccursAt(s, sub, r.value)
    ensures r.Some? ==> forall j :: 0 <= j < r.value ==> !OccursAt(s, sub, j)
    ensures r.None? <==> !Contains(s, sub)
  {
    IndexOfFrom(s, sub, 0)
  }

  function IndexOfFrom(s: string, sub: string, k: nat): (r: Option<nat>)
    requires k <= |s| + 1
    ensures r.Some? ==> k <= r.value && OccursAt(s, sub, r.value)
    ensures r.Some? ==> forall j :: k <= j < r.value ==> !OccursAt(s, sub, j)
    ensures r.None? <==> forall j :: k <= j ==> !OccursAt(s, sub, j)
    decreases |s| + 1 - k
  {
    if k + |sub| > |s| then None
    else if s[k..k + |sub|] == sub then assert OccursAt(s, sub, k); Some(k)
    else IndexOfFrom(s, sub, k + 1)
  }

  /** `s.replace(pat, rep)` with a string pattern: only the first occurrence is replaced. */
  function ReplaceFirst(s: string, pat: string, rep: string): string {
    match IndexOf(s, pat)
    case None => s
    case Some(i) => s[..i] + rep + s[i + |pat|..]
  }

  /** Replace every character of `bad` with `fill` (a regular expression character class with /g). */
  function ReplaceChars(s: string, bad: set<char>, fill: char): (r: string)
    ensures |r| == |s|
    ensures forall i :: 0 <= i < |s| ==> r[i] == (if s[i] in bad then fill else s[i])
  {
    seq(|s|, i requires 0 <= i < |s| => if s[i] in bad then fill else s[i])
  }

  /** Drop leading white space (`trimStart()`). */
  function TrimStart(s: string): (r: string)
    ensures |r| <= |s|
    ensures r == [] || !IsSpace(r[0])
    ensures forall i {:trigger IsSpace(s[i])} :: 0 <= i < |s| - |r| ==> IsSpace(s[i])
  {
    if s == [] || !IsSpace(s[0]) then s else TrimStart(s[1..])
  }

  /** Drop trailing white space (`trimEnd()`). */
  function TrimEnd(s: string): (r: string)
    ensures |r| <= |s|
    ensures r == [] || !IsSpace(r[|r| - 1])
    ensures forall i {:trigger IsSpace(s[i])} :: |r| <= i < |s| ==> IsSpace(s[i])
  {
    if s == [] || !IsSpace(s[|s| - 1]) then s else TrimEnd(s[..|s| - 1])
  }

  /** `trimStart()` drops a prefix. */
  lemma {:induction false} TrimStartSlice(s: string)
    ensures TrimStart(s) == s[|s| - |TrimStart(s)|..]
    decreases |s|
  {
    if s != [] && IsSpace(s[0]) {
      TrimStartSlice(s[1..]);
    }
  }

  /** `trimEnd()` drops a suffix. */
  lemma {:induction false} TrimEndSlice(s: string)
    ensures TrimEnd(s) == s[..|TrimEnd(s)|]
    decreases |s|
  {
    if s != [] && IsSpace(s[|s| - 1]) {
      TrimEndSlice(s[..|s| - 1]);
    }
  }

  /** `trim()` */
  function Trim(s: string): (r: string)
    ensures |r| <= |s|
  {
    TrimEnd(TrimStart(s))
  }

  /** A trimmed string neither starts nor ends with white space. */
  lemma TrimEnds(s: string)
    ensures var r := Trim(s); r == [] || (!IsSpace(r[0]) && !IsSpace(r[|r| - 1]))
  {
    var t := TrimStart(s);
    var r := TrimEnd(t);
    TrimEndSlice(t);
    if r != [] {
      assert r[0] == t[0];
    }
  }

  /**
   * `s.replace(/\s+/g, rep)` for a one-character `rep`: every maximal run of white space
   * becomes one `rep`, every other character is kept.
   */
  function ReplaceSpaceRuns(s: string, rep: char): (r: string)
    ensures (r == []) <==> (s == [])
    ensures forall i :: 0 <= i < |r| ==> r[i] == rep || !IsSpace(r[i])
    ensures forall c :: c in r ==> c == rep || c in s
    ensures s != [] ==> (if IsSpace(s[0]) then r[0] == rep else r[0] == s[0])
    ensures s != [] ==> (if IsSpace(s[|s| - 1]) then r[|r| - 1] == rep else r[|r| - 1] == s[|s| - 1])
    ensures IsSpace(rep) ==> forall i :: 0 <= i < |r| - 1 ==> !(r[i] == rep && r[i + 1] == rep)
    decreases |s|
  {
    if s == [] then []
    else if IsSpace(s[0]) then
      var t := TrimStart(s);
      var rest := ReplaceSpaceRuns(t, rep);
      TrimStartSlice(s);
      assert t != [] ==> t[|t| - 1] == s[|s| - 1];
      [rep] + rest
    else
      var rest := ReplaceSpaceRuns(s[1..], rep);
      assert forall c :: c in s[1..] ==> c in s;
      [s[0]] + rest
  }

  /** With a replacement that is not white space, no white space is left. */
  lemma RunsLeaveNoSpace(s: string, rep: char)
    requires !IsSpace(rep)
    ensures var r := ReplaceSpaceRuns(s, rep); forall i :: 0 <= i < |r| ==> !IsSpace(r[i])
  {
    var r := ReplaceSpaceRuns(s, rep);
    forall i | 0 <= i < |r| ensures !IsSpace(r[i]) {
      assert r[i] == rep || !IsSpace(r[i]);
    }
  }

  /** Text without white space is left as it is. */
  lemma {:induction false} NoSpaceRunsUnchanged(s: string)
    requires forall i :: 0 <= i < |s| ==> !IsSpace(s[i])
    ensures ReplaceSpaceRuns(s, '_') == s
  {
    if s != [] {
      NoSpaceRunsUnchanged(s[1..]);
    }
  }

  /** Every character of `trim(s)` comes from `s`. */
  lemma TrimInside(s: string)
    ensures forall c :: c in Trim(s) ==> c in s
  {
    var t := TrimStart(s);
    TrimStartSlice(s);
    TrimEndSlice(t);
    assert forall c :: c in t ==> c in s by {
      assert t == s[|s| - |t|..];
    }
    assert Trim(s) == t[..|TrimEnd(t)|];
  }

  /** `parts.join(sep)` */
  function Join(parts: seq<string>, sep: string): string {
    if parts == [] then []
    else if |parts| == 1 then parts[0]
    else parts[0] + sep + Join(parts[1..], sep)
  }

  /** `s.split(sep)` for a one-character separator: always at least one piece. */
  function Split(s: string, sep: char): (r: seq<string>)
    ensures |r| >= 1
  {
    if s == [] then [[]]
    else
      var rest := Split(s[1..], sep);
      if s[0] == sep then [[]] + rest else [[s[0]] + rest[0]] + rest[1..]
  }

  /** Splitting on a character and joining with it gives the string back. */
  lemma {:induction false} SplitJoin(s: string, sep: char)
    ensures Join(Split(s, sep), [sep]) == s
    ensures forall p :: p in Split(s, sep) ==> sep !in p
  {
    if s != [] {
      var rest := Split(s[1..], sep);
      SplitJoin(s[1..], sep);
      if s[0] == sep {
        assert Split(s, sep) == [[]] + rest;
      } else {
        assert Split(s, sep) == [[s[0]] + rest[0]] + rest[1..];
        if |rest| > 1 {
          assert rest == [rest[0]] + rest[1..];
          assert Join(rest, [sep]) == rest[0] + [sep] + Join(rest[1..], [sep]);
        }
      }
    }
  }

  /** The first piece of `s.split(sep)` is the text before the first `sep`. */
  lemma {:induction false} SplitFirst(s: string, sep: char)
    ensures sep !in s ==> Split(s, sep)[0] == s
    ensures sep in s ==> exists i :: 0 <= i < |s| && s[i] == sep && sep !in s[..i] && Split(s, sep)[0] == s[..i]
  {
    if s != [] {
      SplitFirst(s[1..], sep);
      if s[0] == sep {
        assert s[..0] == [];
      } else if sep in s {
        assert sep in s[1..];
        var i :| 0 <= i < |s[1..]| && s[1..][i] == sep && sep !in s[1..][..i] && Split(s[1..], sep)[0] == s[1..][..i];
        assert s[..i + 1] == [s[0]] + s[1..][..i];
      } else {
        assert s == [s[0]] + s[1..];
      }
    }
  }

  /** `s.split(sep)[0].trim()`: the trimmed text before the first `sep`. */
  function TrimmedHead(s: string, sep: char): (r: string)
    ensures sep !in r
    ensures r == [] || (!IsSpace(r[0]) && !IsSpace(r[|r| - 1]))
  {
    var first := Split(s, sep)[0];
    SplitJoin(s, sep);
    assert first in Split(s, sep);
    TrimInside(first);
    TrimEnds(first);
    Trim(first)
  }

  function DigitChar(d: nat): char
    requires d < 10
  {
    ('0' as int + d) as char
  }

  /** Decimal text of a natural number (`String(n)`). */
  function NatToString(n: nat): (r: string)
    ensures |r| >= 1
    ensures forall i :: 0 <= i < |r| ==> IsDigit(r[i])
    decreases n
  {
    if n < 10 then [DigitChar(n)] else NatToString(n / 10) + [DigitChar(n % 10)]
  }

  /** Decimal text of an integer (`String(n)`). */
  function IntToString(n: int): (r: string)
    ensures |r| >= 1
  {
    if n < 0 then "-" + NatToString(-n) else NatToString(n)
  }

  function DigitValue(c: char): nat
    requires IsDigit(c)
  {
    c as int - '0' as int
  }

  /** Value of a string of decimal digits. */
  function DigitsValue(z: string): nat
    requires forall i :: 0 <= i < |z| ==> IsDigit(z[i])
  {
    if z == [] then 0 else 10 * DigitsValue(z[..|z| - 1]) + DigitValue(z[|z| - 1])
  }

  lemma {:induction false} DigitsValueOfNatToString(n: nat)
    ensures DigitsValue(NatToString(n)) == n
    decreases n
  {
    if n >= 10 {
      DigitsValueOfNatToString(n / 10);
      var r := NatToString(n);
      assert r[..|r| - 1] == NatToString(n / 10);
    }
  }

  /** Longest prefix of decimal digits. */
  function LeadingDigits(s: string): (z: string)
    ensures |z| <= |s| && z == s[..|z|]
    ensures forall i :: 0 <= i < |z| ==> IsDigit(z[i])
    ensures |z| == |s| || !IsDigit(s[|z|])
  {
    if s == [] || !IsDigit(s[0]) then [] else [s[0]] + LeadingDigits(s[1..])
  }

  // ---------------------------------------------------------------------------------------
  // UTF-16 lengths: JavaScript measures and cuts strings in UTF-16 code units

  /** The UTF-16 code units of one character: two outside the Basic Multilingual Plane. */
  function Units(c: char): (n: nat)
    ensures n == 1 || n == 2
  {
    if c as int > 0xFFFF then 2 else 1
  }

  /** `s.length`: the number of UTF-16 code units of `s`. */
  function Length16(s: string): (n: nat)
    ensures |s| <= n <= 2 * |s|
    ensures n == 0 <==> s == []
  {
    if s == [] then 0 else Units(s[0]) + Length16(s[1..])
  }

  /** Every character of `s` lies in the Basic Multilingual Plane. */
  predicate Bmp(s: string) {
    forall i :: 0 <= i < |s| ==> s[i] as int <= 0xFFFF
  }

  lemma {:induction false} Length16Bmp(s: string)
    requires Bmp(s)
    ensures Length16(s) == |s|
  {
    if s != [] {
      assert Bmp(s[1..]) by {
        forall i | 0 <= i < |s[1..]| ensures s[1..][i] as int <= 0xFFFF { assert s[1..][i] == s[i + 1]; }
      }
      Length16Bmp(s[1..]);
    }
  }

  lemma {:induction false} Length16Append(a: string, b: string)
    ensures Length16(a + b) == Length16(a) + Length16(b)
  {
    if a != [] {
      assert (a + b)[0] == a[0] && (a + b)[1..] == a[1..] + b;
      Length16Append(a[1..], b);
    } else {
      assert a + b == b;
    }
  }

  /** Two texts whose characters pairwise have the same width have the same length. */
  lemma {:induction false} Length16Pointwise(a: string, b: string)
    requires |a| == |b| && forall i :: 0 <= i < |a| ==> Units(a[i]) == Units(b[i])
    ensures Length16(a) == Length16(b)
  {
    if a != [] {
      Length16Pointwise(a[1..], b[1..]);
    }
  }

  /**
   * `s.substring(0, n)` and `s.slice(0, n)`: the longest prefix of at most `n` code units.
   * A cut through a character outside the Basic Multilingual Plane drops that character.
   */
  function Prefix16(s: string, n: nat): (r: string)
    ensures |r| <= |s| && r == s[..|r|]
    ensures Length16(r) <= n
    ensures Length16(s) <= n ==> r == s
    ensures |r| < |s| ==> Length16(r) + Units(s[|r|]) > n
  {
    if s == [] || Units(s[0]) > n then []
    else
      var r := [s[0]] + Prefix16(s[1..], n - Units(s[0]));
      assert r[1..] == Prefix16(s[1..], n - Units(s[0]));
      r
  }

  /** On text within the Basic Multilingual Plane the cut is the usual one. */
  lemma {:induction false} Prefix16Bmp(s: string, n: nat)
    requires Bmp(s)
    ensures Prefix16(s, n) == s[..if |s| < n then |s| else n]
  {
    var r := Prefix16(s, n);
    Length16Bmp(r);
    assert Bmp(r) by {
      forall i | 0 <= i < |r| ensures r[i] as int <= 0xFFFF { assert r[i] == s[i]; }
    }
    Length16Bmp(r);
    if |s| <= n {
      Length16Bmp(s);
    } else {
      assert |r| < |s| ==> Units(s[|r|]) == 1;
    }
  }
}

/**
 * JavaScript numbers as they occur in the request handling: integers, NaN and the two
 * infinities, with the NaN-propagating `Math.max`/`Math.min` and the comparisons that are
 * false on NaN.
 */
module JsNum {
  import opened Wrappers
  import opened JsStr

  datatype Num = NaN | NegInf | Int(v: int) | PosInf

  /** `a < b` on numbers (false whenever NaN is involved). */
  predicate Less(a: Num, b: Num) {
    match (a, b)
    case (NaN, _) => false
    case (_, NaN) => false
    case (NegInf, NegInf) => false
    case (NegInf, _) => true
    case (_, NegInf) => false
    case (PosInf, _) => false
    case (Int(x), Int(y)) => x < y
    case (Int(_), PosInf) => true
  }

  /** `Math.max(a, b)` */
  function Max(a: Num, b: Num): (r: Num)
    ensures (a.NaN? || b.NaN?) <==> r.NaN?
    ensures a.Int? && b.Int? ==> r == Int(if a.v < b.v then b.v else a.v)
  {
    if a.NaN? || b.NaN? then NaN else if Less(a, b) then b else a
  }

  /** `Math.min(a, b)` */
  function Min(a: Num, b: Num): (r: Num)
    ensures (a.NaN? || b.NaN?) <==> r.NaN?
    ensures a.Int? && b.Int? ==> r == Int(if a.v < b.v then a.v else b.v)
  {
    if a.NaN? || b.NaN? then NaN else if Less(b, a) then b else a
  }

  /** `Math.ceil(a / b)` for integers `a` and `b`. */
  function CeilDiv(a: int, b: int): (r: Num)
    ensures b > 0 ==> r.Int? && (r.v - 1) * b < a <= r.v * b
    ensures b < 0 ==> r.Int?
    ensures b == 0 ==> r == (if a > 0 then PosInf else if a < 0 then NegInf else NaN)
  {
    if b > 0 then Int(-((-a) / b))
    else if b < 0 then Int(-(a / (-b)))
    else if a > 0 then PosInf else if a < 0 then NegInf else NaN
  }

  /** `Math.ceil(a / b)` when `b` is a number that may be NaN. */
  function CeilDivNum(a: int, b: Num): Num {
    match b
    case Int(d) => CeilDiv(a, d)
    case NaN => NaN
    case _ => Int(0)
  }

  /** `Math.round(a / d)` for an integer `a` and a positive integer `d` (halves round up). */
  function RoundDiv(a: int, d: int): (r: int)
    requires d > 0
    ensures 2 * r * d <= 2 * a + d < 2 * r * d + 2 * d
  {
    (2 * a + d) / (2 * d)
  }

  /** `Number.parseInt(s, 10)`: leading white space, an optional sign, then the longest digit prefix. */
  function ParseInt(s: string): (r: Num)
    ensures r.Int? || r.NaN?
  {
    var t := TrimStart(s);
    var neg := |t| > 0 && t[0] == '-';
    var body := if |t| > 0 && (t[0] == '-' || t[0] == '+') then t[1..] else t;
    var z := LeadingDigits(body);
    var v: int := DigitsValue(z);
    if z == [] then NaN else Int(if neg then -v else v)
  }

  lemma {:induction false} ParseIntOfNatToString(n: nat)
    ensures ParseInt(NatToString(n)) == Int(n)
  {
    var s := NatToString(n);
    assert !IsSpace(s[0]) && s[0] != '-' && s[0] != '+';
    assert TrimStart(s) == s;
    AllDigitsLead(s);
    DigitsValueOfNatToString(n);
  }

  /** A text made only of digits is its own longest digit prefix. */
  lemma AllDigitsLead(s: string)
    requires forall i :: 0 <= i < |s| ==> IsDigit(s[i])
    ensures LeadingDigits(s) == s
  {
    var z := LeadingDigits(s);
    assert |z| == |s|;
  }

  /** The text `parseInt` reads digits from: leading white space and one sign removed. */
  function Unsigned(s: string): (b: string)
    ensures |b| <= |s|
  {
    var t := TrimStart(s);
    if |t| > 0 && (t[0] == '-' || t[0] == '+') then t[1..] else t
  }

  /** The sign `parseInt` reads is a minus. */
  predicate Negative(s: string) {
    var t := TrimStart(s);
    |t| > 0 && t[0] == '-'
  }

  /** After the sign the text starts with `0x` or `0X`, which `parseInt` without a radix reads as base 16. */
  predicate HexPrefixed(s: string) {
    var b := Unsigned(s);
    |b| >= 2 && b[0] == '0' && (b[1] == 'x' || b[1] == 'X')
  }

  predicate IsHexDigit(c: char) { IsDigit(c) || 'a' <= c <= 'f' || 'A' <= c <= 'F' }

  function HexDigitValue(c: char): (v: nat)
    requires IsHexDigit(c)
    ensures v < 16
  {
    if IsDigit(c) then DigitValue(c) else if 'a' <= c <= 'f' then c as int - 'a' as int + 10 else c as int - 'A' as int + 10
  }

  /** Value of a string of hexadecimal digits. */
  function HexDigitsValue(z: string): nat
    requires forall i :: 0 <= i < |z| ==> IsHexDigit(z[i])
  {
    if z == [] then 0 else 16 * HexDigitsValue(z[..|z| - 1]) + HexDigitValue(z[|z| - 1])
  }

  /** Longest prefix of hexadecimal digits. */
  function LeadingHexDigits(s: string): (z: string)
    ensures |z| <= |s| && z == s[..|z|]
    ensures forall i :: 0 <= i < |z| ==> IsHexDigit(z[i])
    ensures |z| == |s| || !IsHexDigit(s[|z|])
  {
    if s == [] || !IsHexDigit(s[0]) then [] else [s[0]] + LeadingHexDigits(s[1..])
  }

  /**
   * `parseInt(s)` with no radix: after white space and a sign, a `0x`/`0X` prefix makes the
   * digits hexadecimal; any other text is read as `parseInt(s, 10)` reads it.
   */
  function ParseIntAuto(s: string): (r: Num)
    ensures r.Int? || r.NaN?
    ensures !HexPrefixed(s) ==> r == ParseInt(s)
    ensures HexPrefixed(s) ==> (r.NaN? <==> LeadingHexDigits(Unsigned(s)[2..]) == [])
    ensures HexPrefixed(s) && r.Int? ==>
      r.v == (if Negative(s) then -1 else 1) * HexDigitsValue(LeadingHexDigits(Unsigned(s)[2..]))
  {
    if HexPrefixed(s) then
      var z := LeadingHexDigits(Unsigned(s)[2..]);
      var v: int := HexDigitsValue(z);
      if z == [] then NaN else Int(if Negative(s) then -v else v)
    else ParseInt(s)
  }

  /** `parseInt("0x10")` is 16, where `parseInt("0x10", 10)` stops at the `x` and gives 0. */
  lemma HexQuery()
    ensures ParseIntAuto("0x10") == Int(16)
    ensures ParseInt("0x10") == Int(0)
  {
    var s := "0x10";
    assert TrimStart(s) == s;
    assert Unsigned(s) == s && !Negative(s) && HexPrefixed(s);
    assert LeadingHexDigits(s[2..]) == "10" by {
      assert s[2..] == "10";
      assert LeadingHexDigits("0") == "0";
      assert LeadingHexDigits("10") == "1" + LeadingHexDigits("0");
    }
    assert HexDigitsValue("10") == 16 by {
      assert "10"[..1] == "1" && "1"[..0] == "";
    }
    assert LeadingDigits(s) == "0" by {
      assert s[1..] == "x10";
      assert LeadingDigits("x10") == [];
    }
    assert DigitsValue("0") == 0 by { assert "0"[..0] == ""; }
  }
}

/**
 * Page and limit handling shared by the listing endpoints: both are parsed with
 * `Number.parseInt`, clamped with `Math.max`/`Math.min`, and the page is cut out of the
 * list with `slice((page - 1) * limit, (page - 1) * limit + limit)`.
 */
module Paging {
  import opened Wrappers
  import opened JsStr
  import opened JsNum

  /** `Number.parseInt(raw || fallback, 10)` */
  function ParseParam(raw: Option<string>, fallback: string): Num {
    ParseInt(if raw.None? || raw.value == "" then fallback else raw.value)
  }

  /** `Math.max(1, Number.parseInt(req.query.page || "1", 10))` */
  function ClampPage(raw: Option<string>): (page: Num)
    ensures page.Int? || page.NaN?
    ensures page.Int? ==> page.v >= 1
    ensures page.NaN? <==> ParseParam(raw, "1").NaN?
  {
    Max(Int(1), ParseParam(raw, "1"))
  }

  /** `Math.min(max, Math.max(1, Number.parseInt(req.query.limit || fallback, 10)))` */
  function ClampLimit(raw: Option<string>, fallback: string, max: int): (limit: Num)
    requires max >= 1
    ensures limit.Int? || limit.NaN?
    ensures limit.Int? ==> 1 <= limit.v <= max
    ensures limit.NaN? <==> ParseParam(raw, fallback).NaN?
  {
    Min(Int(max), Max(Int(1), ParseParam(raw, fallback)))
  }

  /** `Math.max(1, Math.ceil(total / limit))` */
  function TotalPages(total: nat, limit: Num): (r: Num)
    ensures limit.NaN? ==> r.NaN?
    ensures limit.Int? && limit.v >= 1 ==>
      (r.Int? && r.v >= 1
       && (total == 0 ==> r.v == 1)
       && (total > 0 ==> (r.v - 1) * limit.v < total <= r.v * limit.v))
  {
    Max(Int(1), CeilDivNum(total, limit))
  }

  /** `ToIntegerOrInfinity` followed by the clamping `Array.prototype.slice` applies to an index. */
  function SliceIndex(k: Num, len: nat): (r: nat)
    ensures r <= len
  {
    match k
    case NaN => 0
    case NegInf => 0
    case PosInf => len
    case Int(v) => if v < 0 then (if len + v < 0 then 0 else len + v) else if v > len then len else v
  }

  /** `items.slice(start, end)` */
  function JsSlice<T>(items: seq<T>, start: Num, end: Num): (r: seq<T>)
    ensures |r| <= |items|
    ensures forall x :: x in r ==> x in items
  {
    var from := SliceIndex(start, |items|);
    var to := SliceIndex(end, |items|);
    if to <= from then [] else items[from..to]
  }

  /** `(page - 1) * limit` */
  function Offset(page: Num, limit: Num): Num {
    if page.Int? && limit.Int? then Int((page.v - 1) * limit.v) else NaN
  }

  /** `offset + limit` */
  function Plus(a: Num, b: Num): Num {
    if a.Int? && b.Int? then Int(a.v + b.v) else NaN
  }

  /** `items.slice(offset, offset + limit)` with `offset = (page - 1) * limit` */
  function PageOf<T>(items: seq<T>, page: Num, limit: Num): (r: seq<T>)
    ensures |r| <= |items|
    ensures forall x :: x in r ==> x in items
  {
    var offset := Offset(page, limit);
    JsSlice(items, offset, Plus(offset, limit))
  }

  /** The first `n` elements of `s` (a query's `limit(n)`), all of them when there are fewer. */
  function Take<T>(s: seq<T>, n: nat): (r: seq<T>)
    ensures |r| == if |s| < n then |s| else n
    ensures r == s[..|r|]
  {
    if |s| <= n then s else s[..n]
  }

  datatype Pagination = Pagination(
    page: Num, limit: Num, total: nat, totalPages: Num, hasNextPage: bool, hasPrevPage: bool)

  /** The `pagination` object of the listing responses. */
  function PaginationOf(page: Num, limit: Num, total: nat): Pagination {
    var totalPages := TotalPages(total, limit);
    Pagination(page, limit, total, totalPages, Less(page, totalPages), Less(Int(1), page))
  }

  lemma MulLe(x: int, y: int, l: int)
    requires x <= y && l >= 0
    ensures x * l <= y * l
  {
  }

  /**
   * With numeric page and limit the page is the window `[(page-1)*limit, (page-1)*limit+limit)`
   * of the list clipped to its length, so at most `limit` items.
   */
  lemma PageSlice<T>(items: seq<T>, page: int, limit: int)
    requires page >= 1 && limit >= 1
    ensures var off := (page - 1) * limit;
      var r := PageOf(items, Int(page), Int(limit));
      && off >= 0
      && |r| <= limit
      && (off < |items| ==> r == items[off..if off + limit < |items| then off + limit else |items|])
      && (off >= |items| ==> r == [])
  {
    var off := (page - 1) * limit;
    MulLe(0, page - 1, limit);
    assert Offset(Int(page), Int(limit)) == Int(off);
  }

  /** The page window, and no item on a page past the last one. */
  lemma PageWindow<T>(items: seq<T>, page: int, limit: int)
    requires page >= 1 && limit >= 1
    ensures var off := (page - 1) * limit;
      var r := PageOf(items, Int(page), Int(limit));
      && |r| <= limit
      && (off < |items| ==> r == items[off..if off + limit < |items| then off + limit else |items|])
      && (off >= |items| ==> r == [])
    ensures var tp := TotalPages(|items|, Int(limit));
      tp.Int? && page > tp.v ==> PageOf(items, Int(page), Int(limit)) == []
  {
    PageSlice(items, page, limit);
    var tp := TotalPages(|items|, Int(limit));
    if page > tp.v && |items| > 0 {
      MulLe(tp.v, page - 1, limit);
    }
  }

  /** With NaN page or limit the slice is empty and there is no next or previous page. */
  lemma NaNPage<T>(items: seq<T>, page: Num, limit: Num)
    requires page.NaN? || limit.NaN?
    ensures PageOf(items, page, limit) == []
    ensures page.NaN? ==> !PaginationOf(page, limit, |items|).hasNextPage && !PaginationOf(page, limit, |items|).hasPrevPage
  {
  }

  /** The quotient rounded up is the one `t` with `(t - 1) * l < a <= t * l`. */
  lemma CeilUnique(a: int, l: int, t: int, c: int)
    requires l > 0
    requires (t - 1) * l < a <= t * l
    requires (c - 1) * l < a <= c * l
    ensures t == c
  {
    if t < c {
      MulLe(t, c - 1, l);
    } else if c < t {
      MulLe(c, t - 1, l);
    }
  }

  /** hasNextPage iff page < totalPages, hasPrevPage iff page > 1 (numeric case). */
  lemma PaginationFlags(page: int, limit: int, total: nat)
    requires page >= 1 && limit >= 1
    ensures var p := PaginationOf(Int(page), Int(limit), total);
      && p.totalPages.Int?
      && p.totalPages.v == (if total == 0 then 1 else (total + limit - 1) / limit)
      && (p.hasNextPage <==> page < p.totalPages.v)
      && (p.hasPrevPage <==> page > 1)
  {
    var p := PaginationOf(Int(page), Int(limit), total);
    if total > 0 {
      var c := (total + limit - 1) / limit;
      assert c * limit <= total + limit - 1 < c * limit + limit;
      assert (c + 1) * limit == c * limit + limit;
      assert (c - 1) * limit == c * limit - limit;
      CeilUnique(total, limit, p.totalPages.v, c);
    }
  }

  /**
   * The paging of a listing: with numeric page and limit, at most `limit` items, the
   * totalPages formula, both flags, and an empty page past the last one.
   */
  lemma ListingSpec<T>(items: seq<T>, page: Num, limit: Num)
    requires page.Int? && limit.Int? && page.v >= 1 && limit.v >= 1
    ensures var p := PaginationOf(page, limit, |items|);
      var r := PageOf(items, page, limit);
      && |r| <= limit.v
      && p.totalPages.Int?
      && p.totalPages.v == (if |items| == 0 then 1 else (|items| + limit.v - 1) / limit.v)
      && (p.hasNextPage <==> page.v < p.totalPages.v)
      && (p.hasPrevPage <==> page.v > 1)
      && (page.v > p.totalPages.v ==> r == [])
  {
    PageWindow(items, page.v, limit.v);
    PaginationFlags(page.v, limit.v, |items|);
  }

  /** `a` is `b` with some elements removed, in the same order. */
  predicate IsSubsequence<T(==)>(a: seq<T>, b: seq<T>) {
    if a == [] then true
    else if b == [] then false
    else if a[0] == b[0] then IsSubsequence(a[1..], b[1..])
    else IsSubsequence(a, b[1..])
  }
}

=== FILE: community.dfy ===
/**
 * The community feed: events other users shared. The request's `query` and `category`
 * become at most ten search tokens (whole phrases, their hyphen/space variations, then
 * single words); the caller's own and soft-disabled events are dropped; random mode
 * picks one event or shuffles and cuts the list; pagination divides without a floor.
 * `Math.random()` is supplied as reals in [0, 1).
 */
module Community {
  import opened Wrappers
  import opened JsStr
  import opened JsNum
  import opened Paging
  import RandomPick

  /** `array-contains-any` accepts at most this many values. */
  const MaxTokens := 10

  /** Largest page size a caller may ask for. */
  const MaxLimit := 500

  /** An event document as far as the community feed looks at it. */
  datatype CommunityEvent = CommunityEvent(id: string, userId: Option<string>, isDiscoverable: Option<bool>)

  // ---------------------------------------------------------------------------
  // Tokens

  /** The text is lower case: it holds no ASCII capital. */
  predicate IsLowerText(s: string) {
    forall c :: c in s ==> !('A' <= c <= 'Z')
  }

  lemma LowerIsLowerText(s: string)
    ensures IsLowerText(Lower(s))
  {
    forall c | c in Lower(s) ensures !('A' <= c <= 'Z') {
      var i :| 0 <= i < |s| && Lower(s)[i] == c;
    }
  }

  /** One comma piece, trimmed, with its white-space runs collapsed to one space. */
  function NormalizePiece(p: string): (r: string)
    ensures |r| <= |p|
    ensures forall i :: 0 <= i < |r| ==> r[i] == ' ' || (r[i] in p && !IsSpace(r[i]))
    ensures r != [] ==> !IsSpace(r[0]) && !IsSpace(r[|r| - 1])
    ensures forall i :: 0 <= i < |r| - 1 ==> !(r[i] == ' ' && r[i + 1] == ' ')
  {
    var t := Trim(p);
    var r := ReplaceSpaceRuns(t, ' ');
    TrimInside(p);
    TrimEnds(p);
    RunsShrink(t, ' ');
    r
  }

  /** Collapsing runs never lengthens the text. */
  lemma {:induction false} RunsShrink(s: string, rep: char)
    ensures |ReplaceSpaceRuns(s, rep)| <= |s|
    decreases |s|
  {
    if s != [] {
      if IsSpace(s[0]) {
        RunsShrink(TrimStart(s), rep);
      } else {
        RunsShrink(s[1..], rep);
      }
    }
  }

  /** The non-empty pieces, in order. */
  function NonEmpty(ps: seq<string>): (r: seq<string>)
    ensures forall k :: 0 <= k < |r| ==> r[k] != [] && r[k] in ps
  {
    if ps == [] then []
    else if ps[0] == [] then NonEmpty(ps[1..])
    else [ps[0]] + NonEmpty(ps[1..])
  }

  function NormalizeAll(ps: seq<string>): (r: seq<string>)
    ensures |r| == |ps| && forall k :: 0 <= k < |ps| ==> r[k] == NormalizePiece(ps[k])
  {
    seq(|ps|, k requires 0 <= k < |ps| => NormalizePiece(ps[k]))
  }

  /**
   * `gatherTokens`: absent or empty input gives none; otherwise lower-case, split on
   * commas, trim each piece, collapse its white-space runs and drop the empty pieces.
   */
  function GatherTokens(input: Option<string>): seq<string> {
    if input.None? || input.value == "" then []
    else NonEmpty(NormalizeAll(Split(Lower(input.value), ',')))
  }

  /** The comma pieces of a lower-case text are lower case and hold no comma. */
  lemma PiecesShape(low: string)
    requires IsLowerText(low)
    ensures forall k :: 0 <= k < |Split(low, ',')| ==> IsLowerText(Split(low, ',')[k]) && ',' !in Split(low, ',')[k]
  {
    SplitChars(low, ',');
    SplitJoin(low, ',');
    var pieces := Split(low, ',');
    forall k | 0 <= k < |pieces| ensures IsLowerText(pieces[k]) && ',' !in pieces[k] {
      assert pieces[k] in pieces;
      forall c | c in pieces[k] ensures !('A' <= c <= 'Z') {
        assert c in low;
      }
    }
  }

  /**
   * A search phrase: non-empty, lower case, without commas, starting and ending with a
   * non-space, and whose only white space is single ' ' characters.
   */
  predicate PhraseShape(t: string) {
    && t != []
    && IsLowerText(t)
    && ',' !in t
    && !IsSpace(t[0]) && !IsSpace(t[|t| - 1])
    && (forall i :: 0 <= i < |t| ==> IsSpace(t[i]) ==> t[i] == ' ')
    && (forall i :: 0 <= i < |t| - 1 ==> !(t[i] == ' ' && t[i + 1] == ' '))
  }

  /** A non-empty normalised piece of lower-case, comma-free text has the phrase shape. */
  lemma NormalizeShape(p: string)
    requires IsLowerText(p) && ',' !in p && NormalizePiece(p) != []
    ensures PhraseShape(NormalizePiece(p))
  {
    var r := NormalizePiece(p);
    forall c | c in r ensures !('A' <= c <= 'Z') && c != ',' {
      var i :| 0 <= i < |r| && r[i] == c;
    }
  }

  /** Each gathered phrase is the normalised form of one comma piece. */
  lemma GatheredFromPieces(ps: seq<string>)
    ensures forall t :: t in NonEmpty(NormalizeAll(ps)) ==>
      exists k :: 0 <= k < |ps| && t == NormalizePiece(ps[k]) && t != []
  {
    var normal := NormalizeAll(ps);
    forall t | t in NonEmpty(normal)
      ensures exists k :: 0 <= k < |ps| && t == NormalizePiece(ps[k]) && t != []
    {
      assert t in normal;
      var k :| 0 <= k < |normal| && normal[k] == t;
    }
  }

  /** Every gathered phrase has the phrase shape. */
  lemma GatherTokensShape(input: Option<string>)
    ensures forall t :: t in GatherTokens(input) ==> PhraseShape(t)
  {
    if input.Some? && input.value != "" {
      var low := Lower(input.value);
      LowerIsLowerText(input.value);
      var pieces := Split(low, ',');
      PiecesShape(low);
      GatheredFromPieces(pieces);
      forall t | t in GatherTokens(input) ensures PhraseShape(t) {
        var k :| 0 <= k < |pieces| && t == NormalizePiece(pieces[k]) && t != [];
        NormalizeShape(pieces[k]);
      }
    }
  }

  /** Every character of a piece is a character of the split text. */
  lemma {:induction false} SplitChars(s: string, sep: char)
    ensures forall k, c :: 0 <= k < |Split(s, sep)| && c in Split(s, sep)[k] ==> c in s
  {
    if s != [] {
      var rest := Split(s[1..], sep);
      SplitChars(s[1..], sep);
      assert forall c :: c in s[1..] ==> c in s;
      forall k, c | 0 <= k < |Split(s, sep)| && c in Split(s, sep)[k] ensures c in s {
        if s[0] == sep {
          if k > 0 { assert Split(s, sep)[k] == rest[k - 1]; }
        } else if k == 0 {
          assert c in [s[0]] + rest[0];
        } else {
          assert Split(s, sep)[k] == rest[k];
        }
      }
    }
  }

  /** Query phrases first, then category phrases. */
  function PhraseTokens(query: Option<string>, category: Option<string>): seq<string> {
    GatherTokens(query) + GatherTokens(category)
  }

  /** `phrase.replace(/\s+/g, "-")` */
  function HyphenVersion(phrase: string): string {
    ReplaceSpaceRuns(phrase, '-')
  }

  /** `phrase.replace(/-/g, " ")` */
  function SpaceVersion(phrase: string): string {
    ReplaceChars(phrase, {'-'}, ' ')
  }

  predicate IsWordSep(c: char) {
    IsSpace(c) || c == '-'
  }

  /** Length of the word at the start of `s`: the characters before the first separator. */
  function WordLength(s: string): (n: nat)
    ensures n <= |s|
    ensures forall i :: 0 <= i < n ==> !IsWordSep(s[i])
    ensures n == |s| || IsWordSep(s[n])
  {
    if s == [] || IsWordSep(s[0]) then 0 else 1 + WordLength(s[1..])
  }

  /** `phrase.split(/[\s-]+/).filter((w) => w.length > 0)` */
  function Words(s: string): (ws: seq<string>)
    ensures forall k :: 0 <= k < |ws| ==> ws[k] != [] && forall i :: 0 <= i < |ws[k]| ==> !IsWordSep(ws[k][i])
    decreases |s|
  {
    if s == [] then []
    else if IsWordSep(s[0]) then Words(s[1..])
    else
      var n := WordLength(s);
      [s[..n]] + Words(s[n..])
  }

  /** The tokens phrase `p` may contribute: itself, its two variations, and its words longer than 2. */
  function PhraseCandidates(p: string): set<string> {
    {p, HyphenVersion(p), SpaceVersion(p)} + set w | w in Words(p) && Length16(w) > 2
  }

  predicate IsCandidate(t: string, phrases: seq<string>) {
    exists k :: 0 <= k < |phrases| && t in PhraseCandidates(phrases[k])
  }

  /** Every token any phrase may contribute. */
  ghost function AllCandidates(phrases: seq<string>): set<string> {
    set k, t | 0 <= k < |phrases| && t in PhraseCandidates(phrases[k]) :: t
  }

  /** `cands` holds every token the phrases may contribute. */
  ghost predicate Covers(phrases: seq<string>, cands: set<string>) {
    forall k :: 0 <= k < |phrases| ==> PhraseCandidates(phrases[k]) <= cands
  }

  predicate NoDuplicates(s: seq<string>) {
    forall i, j :: 0 <= i < j < |s| ==> s[i] != s[j]
  }

  /** The elements of `s` in first-occurrence order. */
  function Dedup(s: seq<string>): (r: seq<string>)
    ensures NoDuplicates(r)
    ensures forall x :: x in r <==> x in s
    ensures |r| <= |s|
  {
    if s == [] then []
    else
      var d := Dedup(s[..|s| - 1]);
      if s[|s| - 1] in d then d else d + [s[|s| - 1]]
  }

  /** De-duplicating a prefix gives a prefix of de-duplicating the whole. */
  lemma {:induction false} DedupPrefix(s: seq<string>, i: nat)
    requires i <= |s|
    ensures |Dedup(s[..i])| <= |Dedup(s)|
    ensures Dedup(s)[..|Dedup(s[..i])|] == Dedup(s[..i])
    decreases |s| - i
  {
    if i < |s| {
      DedupPrefix(s, i + 1);
      assert s[..i + 1][..i] == s[..i];
    } else {
      assert s[..i] == s;
    }
  }

  predicate PhrasesIn(phrases: seq<string>, tokens: seq<string>) {
    forall k :: 0 <= k < |phrases| ==> phrases[k] in tokens
  }

  predicate VariationsIn(phrases: seq<string>, n: int, tokens: seq<string>) {
    forall k :: 0 <= k < n && k < |phrases| ==> HyphenVersion(phrases[k]) in tokens && SpaceVersion(phrases[k]) in tokens
  }

  predicate WordsIn(phrases: seq<string>, n: int, tokens: seq<string>) {
    forall k, m :: 0 <= k < n && k < |phrases| && 0 <= m < |Words(phrases[k])| && Length16(Words(phrases[k])[m]) > 2 ==>
      Words(phrases[k])[m] in tokens
  }

  /** The builder's state: at most ten distinct candidates, and `added` holds exactly the tokens. */
  ghost predicate Consistent(tokens: seq<string>, added: set<string>, cands: set<string>) {
    && |tokens| <= MaxTokens
    && NoDuplicates(tokens)
    && (forall t :: t in tokens ==> t in cands)
    && (forall t :: t in added <==> t in tokens)
  }

  /** Pushing a new candidate below the cap keeps the state consistent. */
  lemma PushKeepsConsistent(tokens: seq<string>, added: set<string>, cands: set<string>, t: string)
    requires Consistent(tokens, added, cands)
    requires t !in added && |tokens| < MaxTokens && t in cands
    ensures Consistent(tokens + [t], added + {t}, cands)
  {
  }

  /** First phase: each phrase once, in order, until ten tokens exist. */
  method AddPhrases(phrases: seq<string>, ghost cands: set<string>) returns (tokens: seq<string>, added: set<string>)
    requires Covers(phrases, cands)
    ensures Consistent(tokens, added, cands)
    ensures var d := Dedup(phrases);
      var k := if |d| < MaxTokens then |d| else MaxTokens;
      k <= |tokens| && tokens[..k] == d[..k]
    ensures |tokens| < MaxTokens ==> PhrasesIn(phrases, tokens)
  {
    tokens := [];
    added := {};
    var i := 0;
    while i < |phrases|
      invariant 0 <= i <= |phrases|
      invariant tokens == Dedup(phrases[..i])
      invariant |tokens| <= MaxTokens
      invariant forall t :: t in added <==> t in tokens
    {
      if |tokens| >= MaxTokens { break; }
      var phrase := phrases[i];
      assert phrases[..i + 1][..i] == phrases[..i];
      if phrase !in added {
        tokens := tokens + [phrase];
        added := added + {phrase};
      }
      i := i + 1;
    }
    PhrasesPhaseResult(phrases, cands, i, tokens);
  }

  /** What the first phase's loop leaves behind, stated as `AddPhrases` promises it. */
  lemma PhrasesPhaseResult(phrases: seq<string>, cands: set<string>, i: int, tokens: seq<string>)
    requires Covers(phrases, cands)
    requires 0 <= i <= |phrases| && tokens == Dedup(phrases[..i]) && |tokens| <= MaxTokens
    requires i == |phrases| || |tokens| >= MaxTokens
    ensures NoDuplicates(tokens) && forall t :: t in tokens ==> t in cands
    ensures var d := Dedup(phrases);
      var k := if |d| < MaxTokens then |d| else MaxTokens;
      k <= |tokens| && tokens[..k] == d[..k]
    ensures |tokens| < MaxTokens ==> PhrasesIn(phrases, tokens)
  {
    DedupPrefix(phrases, i);
    assert i == |phrases| ==> phrases[..i] == phrases;
    forall t | t in tokens ensures t in cands {
      assert t in phrases[..i];
      var k :| 0 <= k < i && phrases[k] == t;
      assert t in PhraseCandidates(phrases[k]);
    }
  }

  /** A prefix of a prefix is a prefix. */
  lemma PrefixTrans(a: seq<string>, b: seq<string>, c: seq<string>)
    requires |c| <= |b| <= |a| && a[..|b|] == b && b[..|c|] == c
    ensures a[..|c|] == c
  {
    assert a[..|c|] == a[..|b|][..|c|];
  }

  /** Membership facts survive when the token list only grows. */
  lemma GrowKeeps(phrases: seq<string>, n: int, a: seq<string>, b: seq<string>)
    requires forall t :: t in a ==> t in b
    ensures PhrasesIn(phrases, a) ==> PhrasesIn(phrases, b)
    ensures VariationsIn(phrases, n, a) ==> VariationsIn(phrases, n, b)
    ensures WordsIn(phrases, n, a) ==> WordsIn(phrases, n, b)
  {
  }

  /** Second phase, for one phrase: its hyphen variation, then its space variation, below the cap. */
  method AddVariationsOf(phrases: seq<string>, i: int, ghost cands: set<string>, tokens0: seq<string>, added0: set<string>)
    returns (tokens: seq<string>, added: set<string>)
    requires 0 <= i < |phrases|
    requires Covers(phrases, cands) && Consistent(tokens0, added0, cands)
    requires |tokens0| < MaxTokens && phrases[i] in tokens0
    ensures Consistent(tokens, added, cands)
    ensures |tokens0| <= |tokens| && tokens[..|tokens0|] == tokens0
    ensures |tokens| < MaxTokens ==> HyphenVersion(phrases[i]) in tokens && SpaceVersion(phrases[i]) in tokens
  {
    tokens, added := tokens0, added0;
    var phrase := phrases[i];
    var hyphen := HyphenVersion(phrase);
    if hyphen != phrase && hyphen !in added && |tokens| < MaxTokens {
      assert hyphen in PhraseCandidates(phrases[i]);
      PushKeepsConsistent(tokens, added, cands, hyphen);
      tokens := tokens + [hyphen];
      added := added + {hyphen};
    }
    if |tokens| >= MaxTokens { return; }
    var space := SpaceVersion(phrase);
    if space != phrase && space !in added && |tokens| < MaxTokens {
      assert space in PhraseCandidates(phrases[i]);
      PushKeepsConsistent(tokens, added, cands, space);
      tokens := tokens + [space];
      added := added + {space};
    }
  }

  lemma VariationsStep(phrases: seq<string>, i: int, tokens: seq<string>)
    requires 0 <= i < |phrases| && VariationsIn(phrases, i, tokens)
    requires HyphenVersion(phrases[i]) in tokens && SpaceVersion(phrases[i]) in tokens
    ensures VariationsIn(phrases, i + 1, tokens)
  {
  }

  lemma WordsStep(phrases: seq<string>, i: int, tokens: seq<string>)
    requires 0 <= i < |phrases| && WordsIn(phrases, i, tokens)
    requires forall m :: 0 <= m < |Words(phrases[i])| && Length16(Words(phrases[i])[m]) > 2 ==> Words(phrases[i])[m] in tokens
    ensures WordsIn(phrases, i + 1, tokens)
  {
  }

  /** Second phase: the hyphen and the space variation of each phrase, until ten tokens exist. */
  method AddVariations(phrases: seq<string>, ghost cands: set<string>, tokens0: seq<string>, added0: set<string>)
    returns (tokens: seq<string>, added: set<string>)
    requires Covers(phrases, cands) && Consistent(tokens0, added0, cands)
    requires |tokens0| < MaxTokens ==> PhrasesIn(phrases, tokens0)
    ensures Consistent(tokens, added, cands)
    ensures |tokens0| <= |tokens| && tokens[..|tokens0|] == tokens0
    ensures |tokens| < MaxTokens ==> PhrasesIn(phrases, tokens) && VariationsIn(phrases, |phrases|, tokens)
  {
    tokens, added := tokens0, added0;
    var i := 0;
    while i < |phrases|
      invariant 0 <= i <= |phrases|
      invariant Consistent(tokens, added, cands)
      invariant |tokens0| <= |tokens| && tokens[..|tokens0|] == tokens0
      invariant |tokens| < MaxTokens ==> PhrasesIn(phrases, tokens) && VariationsIn(phrases, i, tokens)
    {
      if |tokens| >= MaxTokens { break; }
      ghost var before := tokens;
      assert phrases[i] in tokens;
      tokens, added := AddVariationsOf(phrases, i, cands, tokens, added);
      assert tokens[..|before|] == before;
      PrefixTrans(tokens, before, tokens0);
      assert forall t :: t in before ==> t in tokens;
      if |tokens| < MaxTokens {
        GrowKeeps(phrases, i, before, tokens);
        VariationsStep(phrases, i, tokens);
      }
      i := i + 1;
    }
  }

  /** Third phase, for one phrase: its words longer than 2, until ten tokens exist. */
  method AddWordsOf(phrases: seq<string>, i: int, ghost cands: set<string>, tokens0: seq<string>, added0: set<string>)
    returns (tokens: seq<string>, added: set<string>)
    requires 0 <= i < |phrases|
    requires Covers(phrases, cands) && Consistent(tokens0, added0, cands)
    ensures Consistent(tokens, added, cands)
    ensures |tokens0| <= |tokens| && tokens[..|tokens0|] == tokens0
    ensures |tokens| < MaxTokens ==> forall m :: 0 <= m < |Words(phrases[i])| && Length16(Words(phrases[i])[m]) > 2 ==>
      Words(phrases[i])[m] in tokens
  {
    tokens, added := tokens0, added0;
    var words := Words(phrases[i]);
    var j := 0;
    while j < |words|
      invariant 0 <= j <= |words|
      invariant Consistent(tokens, added, cands)
      invariant |tokens0| <= |tokens| && tokens[..|tokens0|] == tokens0
      invariant |tokens| < MaxTokens ==> forall m :: 0 <= m < j && Length16(words[m]) > 2 ==> words[m] in tokens
    {
      if |tokens| >= MaxTokens { break; }
      var word := words[j];
      if Length16(word) > 2 && word !in added {
        assert word in words && word in PhraseCandidates(phrases[i]);
        PushKeepsConsistent(tokens, added, cands, word);
        tokens := tokens + [word];
        added := added + {word};
      }
      j := j + 1;
    }
  }

  /** Third phase: words of every phrase, only when fewer than ten tokens exist. */
  method AddWords(phrases: seq<string>, ghost cands: set<string>, tokens0: seq<string>, added0: set<string>)
    returns (tokens: seq<string>, added: set<string>)
    requires Covers(phrases, cands) && Consistent(tokens0, added0, cands)
    ensures Consistent(tokens, added, cands)
    ensures |tokens0| <= |tokens| && tokens[..|tokens0|] == tokens0
    ensures |tokens| < MaxTokens ==> WordsIn(phrases, |phrases|, tokens)
  {
    tokens, added := tokens0, added0;
    if |tokens| < MaxTokens {
      var i := 0;
      while i < |phrases|
        invariant 0 <= i <= |phrases|
        invariant Consistent(tokens, added, cands)
        invariant |tokens0| <= |tokens| && tokens[..|tokens0|] == tokens0
        invariant |tokens| < MaxTokens ==> WordsIn(phrases, i, tokens)
      {
        if |tokens| >= MaxTokens { break; }
        ghost var before := tokens;
        tokens, added := AddWordsOf(phrases, i, cands, tokens, added);
        assert tokens[..|before|] == before;
        PrefixTrans(tokens, before, tokens0);
        assert forall t :: t in before ==> t in tokens;
        if |tokens| < MaxTokens {
          GrowKeeps(phrases, i, before, tokens);
          WordsStep(phrases, i, tokens);
        }
        i := i + 1;
      }
    }
  }

  /**
   * The token list builder: each phrase once, then hyphen/space variations, then words
   * longer than 2, stopping at ten. At most ten distinct tokens, each drawn from a phrase;
   * the phrases come first in first-occurrence order; and with fewer than ten tokens
   * nothing eligible was left out.
   */
  method BuildTokens(phrases: seq<string>) returns (tokens: seq<string>)
    ensures |tokens| <= MaxTokens
    ensures NoDuplicates(tokens)
    ensures forall t :: t in tokens ==> IsCandidate(t, phrases)
    ensures var d := Dedup(phrases);
      var k := if |d| < MaxTokens then |d| else MaxTokens;
      k <= |tokens| && tokens[..k] == d[..k]
    ensures |tokens| < MaxTokens ==>
      PhrasesIn(phrases, tokens) && VariationsIn(phrases, |phrases|, tokens) && WordsIn(phrases, |phrases|, tokens)
  {
    ghost var cands := AllCandidates(phrases);
    CoversAll(phrases);
    var added;
    tokens, added := AddPhrases(phrases, cands);
    ghost var first := tokens;
    tokens, added := AddVariations(phrases, cands, tokens, added);
    ghost var second := tokens;
    tokens, added := AddWords(phrases, cands, tokens, added);
    PrefixTrans(tokens, second, first);
    CandidatesAreCandidates(phrases);
    DedupPrefixKept(phrases, first, tokens);
    CompletenessKept(phrases, second, tokens);
  }

  /** With fewer than ten tokens, what the second phase guaranteed still holds after the third. */
  lemma CompletenessKept(phrases: seq<string>, second: seq<string>, tokens: seq<string>)
    requires |second| <= |tokens| && tokens[..|second|] == second
    requires |second| < MaxTokens ==> PhrasesIn(phrases, second) && VariationsIn(phrases, |phrases|, second)
    requires |tokens| < MaxTokens ==> WordsIn(phrases, |phrases|, tokens)
    ensures |tokens| < MaxTokens ==>
      PhrasesIn(phrases, tokens) && VariationsIn(phrases, |phrases|, tokens) && WordsIn(phrases, |phrases|, tokens)
  {
    if |tokens| < MaxTokens {
      assert forall t :: t in second ==> t in tokens;
      GrowKeeps(phrases, |phrases|, second, tokens);
    }
  }

  /** The phrase prefix laid down by the first phase survives the later ones. */
  lemma DedupPrefixKept(phrases: seq<string>, first: seq<string>, tokens: seq<string>)
    requires |first| <= |tokens| && tokens[..|first|] == first
    requires var d := Dedup(phrases);
      var k := if |d| < MaxTokens then |d| else MaxTokens;
      k <= |first| && first[..k] == d[..k]
    ensures var d := Dedup(phrases);
      var k := if |d| < MaxTokens then |d| else MaxTokens;
      k <= |tokens| && tokens[..k] == d[..k]
  {
    var d := Dedup(phrases);
    var k := if |d| < MaxTokens then |d| else MaxTokens;
    assert tokens[..k] == tokens[..|first|][..k];
  }

  lemma CandidatesAreCandidates(phrases: seq<string>)
    ensures forall t :: t in AllCandidates(phrases) ==> IsCandidate(t, phrases)
  {
    forall t | t in AllCandidates(phrases) ensures IsCandidate(t, phrases) {
      var k, u :| 0 <= k < |phrases| && u in PhraseCandidates(phrases[k]) && u == t;
    }
  }

  lemma CoversAll(phrases: seq<string>)
    ensures Covers(phrases, AllCandidates(phrases))
  {
  }

  // ---------------------------------------------------------------------------
  // Visibility, random mode and pagination

  /** `data.userId !== currentUserId && data.isDiscoverable !== false` */
  predicate Visible(e: CommunityEvent, currentUserId: string) {
    e.userId != Some(currentUserId) && e.isDiscoverable != Some(false)
  }

  /** The events kept from a snapshot, in snapshot order. */
  function VisibleEvents(snapshot: seq<CommunityEvent>, currentUserId: string): (r: seq<CommunityEvent>)
    ensures |r| <= |snapshot|
    ensures forall e :: e in r <==> e in snapshot && Visible(e, currentUserId)
  {
    if snapshot == [] then []
    else if Visible(snapshot[0], currentUserId) then [snapshot[0]] + VisibleEvents(snapshot[1..], currentUserId)
    else VisibleEvents(snapshot[1..], currentUserId)
  }

  /** The visible events keep the snapshot's order. */
  lemma {:induction false} VisibleEventsInOrder(snapshot: seq<CommunityEvent>, currentUserId: string)
    ensures IsSubsequence(VisibleEvents(snapshot, currentUserId), snapshot)
  {
    if snapshot != [] {
      VisibleEventsInOrder(snapshot[1..], currentUserId);
      var rest := VisibleEvents(snapshot[1..], currentUserId);
      if Visible(snapshot[0], currentUserId) {
        assert ([snapshot[0]] + rest)[1..] == rest;
      } else if rest != [] {
        assert Visible(rest[0], currentUserId);
      }
    }
  }

  function Swap<T>(s: seq<T>, i: int, j: int): (r: seq<T>)
    requires 0 <= i < |s| && 0 <= j < |s|
    ensures |r| == |s|
  {
    s[i := s[j]][j := s[i]]
  }

  /**
   * The Fisher–Yates pass on values: for `i` from `hi` down to 1, swap position `i` with
   * `floor(r * (i + 1))`, where `r` is the random number drawn for that step.
   */
  function ShuffleFrom<T>(s: seq<T>, hi: int, rs: seq<real>): (r: seq<T>)
    requires hi < |s| && |rs| + 1 >= |s|
    requires forall k :: 0 <= k < |rs| ==> 0.0 <= rs[k] < 1.0
    ensures |r| == |s|
    decreases hi
  {
    if hi <= 0 then s
    else ShuffleFrom(Swap(s, hi, RandomPick.PickIndex(rs[|s| - 1 - hi], hi + 1)), hi - 1, rs)
  }

  /** The shuffle is a permutation. */
  lemma {:induction false} ShufflePermutes<T>(s: seq<T>, hi: int, rs: seq<real>)
    requires hi < |s| && |rs| + 1 >= |s|
    requires forall k :: 0 <= k < |rs| ==> 0.0 <= rs[k] < 1.0
    ensures multiset(ShuffleFrom(s, hi, rs)) == multiset(s)
    decreases hi
  {
    if hi > 0 {
      var j := RandomPick.PickIndex(rs[|s| - 1 - hi], hi + 1);
      var t := Swap(s, hi, j);
      ShufflePermutes(t, hi - 1, rs);
      SwapPermutes(s, hi, j);
    }
  }

  lemma SwapPermutes<T>(s: seq<T>, i: int, j: int)
    requires 0 <= i < |s| && 0 <= j < |s|
    ensures multiset(Swap(s, i, j)) == multiset(s)
  {
    var t := s[i := s[j]];
    assert multiset(t) == multiset(s) - multiset{s[i]} + multiset{s[j]};
    assert t[j := s[i]] == Swap(s, i, j);
    assert multiset(t[j := s[i]]) == multiset(t) - multiset{t[j]} + multiset{s[i]};
  }

  /** The in-place Fisher–Yates shuffle of the event list. */
  method ShuffleInPlace<T>(a: array<T>, rs: seq<real>)
    requires |rs| + 1 >= a.Length
    requires forall k :: 0 <= k < |rs| ==> 0.0 <= rs[k] < 1.0
    modifies a
    ensures a[..] == ShuffleFrom(old(a[..]), a.Length - 1, rs)
  {
    var i := a.Length - 1;
    while i > 0
      invariant -1 <= i < a.Length
      invariant ShuffleFrom(a[..], i, rs) == ShuffleFrom(old(a[..]), a.Length - 1, rs)
    {
      var j := RandomPick.PickIndex(rs[a.Length - 1 - i], i + 1);
      ghost var before := a[..];
      a[i], a[j] := a[j], a[i];
      assert a[..] == Swap(before, i, j);
      i := i - 1;
    }
  }

  /**
   * Random mode on the visible events: with limit 1 one event picked at
   * `floor(r * n)`, otherwise the shuffled list cut with `slice(0, limit)`.
   */
  method RandomSelection(events: seq<CommunityEvent>, limit: int, r: real, rs: seq<real>)
    returns (out: seq<CommunityEvent>)
    requires 0.0 <= r < 1.0
    requires |rs| + 1 >= |events|
    requires forall k :: 0 <= k < |rs| ==> 0.0 <= rs[k] < 1.0
    ensures events == [] ==> out == []
    ensures events != [] && limit == 1 ==> out == [events[RandomPick.PickIndex(r, |events|)]]
    ensures events != [] && limit != 1 ==>
      out == JsSlice(ShuffleFrom(events, |events| - 1, rs), Int(0), Int(limit))
  {
    if events == [] {
      out := events;
    } else if limit == 1 {
      out := [events[RandomPick.PickIndex(r, |events|)]];
    } else {
      var a := new CommunityEvent[|events|](k requires 0 <= k < |events| => events[k]);
      assert a[..] == events;
      ShuffleInPlace(a, rs);
      out := JsSlice(a[..], Int(0), Int(limit));
    }
  }

  /**
   * What random mode returns, for a non-negative limit: one event of the list when the
   * limit is 1, otherwise min(limit, n) events forming a prefix of a permutation of the list.
   */
  lemma RandomSelectionSpec(events: seq<CommunityEvent>, limit: int, r: real, rs: seq<real>)
    requires 0.0 <= r < 1.0 && limit >= 0 && events != []
    requires |rs| + 1 >= |events|
    requires forall k :: 0 <= k < |rs| ==> 0.0 <= rs[k] < 1.0
    ensures limit == 1 ==> events[RandomPick.PickIndex(r, |events|)] in events
    ensures var shuffled := ShuffleFrom(events, |events| - 1, rs);
      var out := JsSlice(shuffled, Int(0), Int(limit));
      && multiset(shuffled) == multiset(events)
      && |out| == (if limit < |events| then limit else |events|)
      && out == shuffled[..|out|]
  {
    ShufflePermutes(events, |events| - 1, rs);
  }

  /** `parseInt(req.query.page) || 1` (no radix): NaN and 0 become 1; a negative page is kept. */
  function CommunityPage(raw: Option<string>): (page: int)
    ensures page != 0
    ensures raw.None? ==> page == 1
    ensures raw.Some? && ParseIntAuto(raw.value).Int? && ParseIntAuto(raw.value).v != 0 ==> page == ParseIntAuto(raw.value).v
    ensures raw.Some? && !(ParseIntAuto(raw.value).Int? && ParseIntAuto(raw.value).v != 0) ==> page == 1
  {
    if raw.None? then 1
    else match ParseIntAuto(raw.value)
      case Int(v) => if v != 0 then v else 1
      case _ => 1
  }

  /** `isNaN(limitParam) ? 12 : Math.min(limitParam, 500)` with `parseInt` and no radix: no lower bound. */
  function CommunityLimit(raw: Option<string>): (limit: int)
    ensures limit <= MaxLimit
    ensures raw.None? || ParseIntAuto(raw.value).NaN? ==> limit == 12
    ensures raw.Some? && ParseIntAuto(raw.value).Int? ==>
      limit == (if ParseIntAuto(raw.value).v < MaxLimit then ParseIntAuto(raw.value).v else MaxLimit)
  {
    if raw.None? then 12
    else match ParseIntAuto(raw.value)
      case Int(v) => if v < MaxLimit then v else MaxLimit
      case _ => 12
  }

  /** A hexadecimal `0x10` asks for page 16 and a limit of 16. */
  lemma CommunityHexQuery()
    ensures CommunityPage(Some("0x10")) == 16
    ensures CommunityLimit(Some("0x10")) == 16
  {
    HexQuery();
  }

  datatype CommunityPagination = CommunityPagination(
    total: nat, page: int, limit: int, totalPages: Num, hasNextPage: bool, hasPrevPage: bool)

  /** `totalPages = Math.ceil(total / limit)` and the two flags. */
  function CommunityPaginationOf(total: nat, page: int, limit: int): (p: CommunityPagination)
    ensures p.totalPages == CeilDiv(total, limit)
    ensures p.hasNextPage <==> Less(Int(page), p.totalPages)
    ensures p.hasPrevPage <==> page > 1
  {
    var totalPages := CeilDiv(total, limit);
    CommunityPagination(total, page, limit, totalPages, Less(Int(page), totalPages), page > 1)
  }

  /**
   * Without the floor of the other listings: an empty result has 0 pages and, for a
   * non-negative page, no next page; a negative page, which `parseInt(page) || 1` keeps, does
   * report a next page. A zero limit gives infinitely many pages and always a
   * next page for a non-empty feed, and NaN pages with no next page for an empty one.
   */
  lemma CommunityPagesNoFloor(total: nat, page: int, limit: int)
    ensures limit > 0 ==> CommunityPaginationOf(0, page, limit).totalPages == Int(0)
    ensures limit > 0 && page >= 0 ==> !CommunityPaginationOf(0, page, limit).hasNextPage
    ensures limit > 0 && page < 0 ==> CommunityPaginationOf(0, page, limit).hasNextPage
    ensures limit == 0 && total > 0 ==>
      (CommunityPaginationOf(total, page, limit).totalPages == PosInf && CommunityPaginationOf(total, page, limit).hasNextPage)
    ensures limit == 0 ==>
      (CommunityPaginationOf(0, page, limit).totalPages == NaN && !CommunityPaginationOf(0, page, limit).hasNextPage)
    ensures TotalPages(0, Int(12)) == Int(1) && CommunityPaginationOf(0, 1, 12).totalPages == Int(0)
  {
  }

  /** The outcome of `GET /events/:id`. */
  datatype Lookup = NotFound | Found(event: CommunityEvent)

  /** A missing document, or one whose `isDiscoverable` is not truthy, is not found. */
  function CommunityEventById(store: map<string, CommunityEvent>, id: string): (r: Lookup)
    ensures r.Found? <==> id in store && store[id].isDiscoverable == Some(true)
    ensures r.Found? ==> r.event == store[id]
  {
    if id !in store || store[id].isDiscoverable != Some(true) then NotFound else Found(store[id])
  }
}

=== FILE: discover.dfy ===
/**
 * The public discovery query of the events server: a bounded scan of the
 * `discoverEvents` collection, an in-memory filter (soft-disable flag, date window,
 * category, city, region and a free-text query) and page/limit arithmetic.
 * Date strings are parsed by a supplied function that yields milliseconds, or `None`
 * for an invalid date.
 */
module Discover {
  import opened Wrappers
  import opened JsStr
  import opened JsNum
  import opened Paging

  /** At most this many records are read from the store per request. */
  const MaxScan := 400

  /** A record of the `discoverEvents` collection. Absent fields are `None`. */
  datatype Event = Event(
    id: string,
    title: Option<string>,
    description: Option<string>,
    venueName: Option<string>,
    city: Option<string>,
    region: Option<string>,
    address: Option<string>,
    startAt: Option<string>,
    endAt: Option<string>,
    createdAt: Option<string>,
    updatedAt: Option<string>,
    /** `None` when `categories` is not an array. */
    categories: Option<seq<string>>,
    isDiscoverable: Option<bool>)

  /** The query string of `/discover` and `/random`; absent parameters are `None`. */
  datatype Query = Query(
    page: Option<string>, limit: Option<string>,
    q: Option<string>, query: Option<string>,
    category: Option<string>, city: Option<string>, region: Option<string>,
    from: Option<string>, to: Option<string>)

  /** The filter derived from a query: lower-cased search terms and the date window. */
  datatype Criteria = Criteria(
    q: string, category: string, city: string, region: string,
    from: Option<int>, to: Option<int>)

  /** `safeLower`: absent or empty text becomes "", anything else is lower-cased. */
  function SafeLower(v: Option<string>): (r: string)
    ensures v.None? ==> r == ""
    ensures v.Some? ==> |r| == |v.value| && forall i :: 0 <= i < |r| ==> r[i] == LowerChar(v.value[i])
  {
    Lower(v.GetOr(""))
  }

  /** `(a || b || "")`: the first non-empty text. */
  function FirstText(a: Option<string>, b: Option<string>): (r: string)
    ensures a.Some? && a.value != "" ==> r == a.value
    ensures (a.None? || a.value == "") && b.Some? ==> r == b.value
    ensures (a.None? || a.value == "") && b.None? ==> r == ""
  {
    if a.Some? && a.value != "" then a.value else b.GetOr("")
  }

  /** `parseDateQuery`: absent, empty or invalid text gives no bound. */
  function ParseDateQuery(v: Option<string>, parse: string -> Option<int>): (r: Option<int>)
    ensures r.Some? ==> v.Some? && v.value != "" && parse(v.value) == r
    ensures v.Some? && v.value != "" ==> r == parse(v.value)
  {
    if v.None? || v.value == "" then None else parse(v.value)
  }

  /** The trimmed, lower-cased terms and the date window of a request. */
  function CriteriaOf(query: Query, parse: string -> Option<int>): (c: Criteria)
    ensures c.q == Lower(Trim(FirstText(query.q, query.query)))
    ensures c.category == Lower(Trim(query.category.GetOr("")))
    ensures c.city == Lower(Trim(query.city.GetOr(""))) && c.region == Lower(Trim(query.region.GetOr("")))
    ensures c.from == ParseDateQuery(query.from, parse) && c.to == ParseDateQuery(query.to, parse)
  {
    Criteria(
      SafeLower(Some(Trim(FirstText(query.q, query.query)))),
      SafeLower(Some(Trim(query.category.GetOr("")))),
      SafeLower(Some(Trim(query.city.GetOr("")))),
      SafeLower(Some(Trim(query.region.GetOr("")))),
      ParseDateQuery(query.from, parse),
      ParseDateQuery(query.to, parse))
  }

  /** The text searched by the query: six fields, lower-cased, joined by single spaces. */
  function Haystack(e: Event): string {
    Join([SafeLower(e.title), SafeLower(e.description), SafeLower(e.venueName),
          SafeLower(e.city), SafeLower(e.region), SafeLower(e.address)], " ")
  }

  /** `Array.isArray(e.categories) ? e.categories : []` */
  function CategoryList(e: Event): seq<string> {
    if e.categories.Some? then e.categories.value else []
  }

  /** The start time of an event, when it has one that parses. */
  function StartTime(e: Event, parse: string -> Option<int>): Option<int> {
    if e.startAt.None? || e.startAt.value == "" then None else parse(e.startAt.value)
  }

  /**
   * The filter predicate, test by test in the order the handler applies them; the first
   * failing test rejects the event.
   */
  predicate Matches(e: Event, c: Criteria, parse: string -> Option<int>) {
    var start := StartTime(e, parse);
    if e.isDiscoverable == Some(false) then false
    else if c.from.Some? && start.Some? && start.value < c.from.value then false
    else if c.to.Some? && start.Some? && start.value > c.to.value then false
    else if c.category != "" && !(exists k :: 0 <= k < |CategoryList(e)| && SafeLower(Some(CategoryList(e)[k])) == c.category) then false
    else if c.city != "" && SafeLower(e.city) != c.city then false
    else if c.region != "" && SafeLower(e.region) != c.region then false
    else if c.q != "" && !Contains(Haystack(e), c.q) then false
    else true
  }

  /** The window test: inclusive at both ends, and a missing or invalid start time passes. */
  predicate InWindow(start: Option<int>, from: Option<int>, to: Option<int>) {
    start.None? || ((from.None? || from.value <= start.value) && (to.None? || start.value <= to.value))
  }

  /** Each test stated on its own: an event passes the filter iff it passes all of them. */
  lemma MatchesIff(e: Event, c: Criteria, parse: string -> Option<int>)
    ensures Matches(e, c, parse) <==>
      && e.isDiscoverable != Some(false)
      && InWindow(StartTime(e, parse), c.from, c.to)
      && (c.category == "" || exists x :: x in CategoryList(e) && Lower(x) == c.category)
      && (c.city == "" || SafeLower(e.city) == c.city)
      && (c.region == "" || SafeLower(e.region) == c.region)
      && (c.q == "" || Contains(Haystack(e), c.q))
  {
    var cats := CategoryList(e);
    if c.category != "" {
      if exists x :: x in cats && Lower(x) == c.category {
        var x :| x in cats && Lower(x) == c.category;
        var k :| 0 <= k < |cats| && cats[k] == x;
        assert SafeLower(Some(cats[k])) == c.category;
      }
    }
  }

  /** A record whose `isDiscoverable` is exactly false never passes. */
  lemma SoftDisabledNeverMatches(e: Event, c: Criteria, parse: string -> Option<int>)
    requires e.isDiscoverable == Some(false)
    ensures !Matches(e, c, parse)
  {
  }

  /** With no criteria, only the soft-disable flag decides; a missing flag keeps the record. */
  lemma EmptyCriteriaKeepsEnabled(e: Event, parse: string -> Option<int>)
    ensures Matches(e, Criteria("", "", "", "", None, None), parse) <==> e.isDiscoverable != Some(false)
  {
  }

  /** A record without a start time, or with one that does not parse, is never dropped by the window. */
  lemma NoStartIgnoresWindow(e: Event, c: Criteria, parse: string -> Option<int>)
    requires StartTime(e, parse).None?
    ensures Matches(e, c, parse) == Matches(e, c.(from := None, to := None), parse)
  {
  }

  /** The haystack joins adjacent fields with a space, so a query may match across fields. */
  lemma QuerySpansFields(parse: string -> Option<int>)
    ensures var e := Event("1", Some("Jazz"), Some("Night"), None, None, None, None,
                           None, None, None, None, None, None);
      Matches(e, Criteria("jazz night", "", "", "", None, None), parse)
      && !Contains(SafeLower(e.title), "jazz night") && !Contains(SafeLower(e.description), "jazz night")
  {
    var e := Event("1", Some("Jazz"), Some("Night"), None, None, None, None,
                   None, None, None, None, None, None);
    assert SafeLower(e.title) == "jazz";
    assert SafeLower(e.description) == "night";
    var rest := Join(["", "", "", ""], " ");
    assert Haystack(e) == "jazz" + " " + ("night" + " " + rest);
    assert Haystack(e)[..10] == "jazz night";
    assert OccursAt(Haystack(e), "jazz night", 0);
  }

  /** `raw.filter(matches)` */
  function Filter(raw: seq<Event>, c: Criteria, parse: string -> Option<int>): (r: seq<Event>)
    ensures |r| <= |raw|
    ensures forall e :: e in r ==> e in raw && Matches(e, c, parse)
    ensures forall e :: e in raw && Matches(e, c, parse) ==> e in r
  {
    if raw == [] then []
    else if Matches(raw[0], c, parse) then [raw[0]] + Filter(raw[1..], c, parse)
    else Filter(raw[1..], c, parse)
  }

  /** Filtering keeps the scan order: the output is a subsequence of the input. */
  lemma {:induction false} FilterIsSubsequence(raw: seq<Event>, c: Criteria, parse: string -> Option<int>)
    ensures IsSubsequence(Filter(raw, c, parse), raw)
  {
    if raw != [] {
      FilterIsSubsequence(raw[1..], c, parse);
      var rest := Filter(raw[1..], c, parse);
      if !Matches(raw[0], c, parse) && rest != [] {
        assert Matches(rest[0], c, parse);
      }
    }
  }

  /** The records a request looks at: the first `MaxScan` of the store's order. */
  function Scan(store: seq<Event>): (raw: seq<Event>)
    ensures |raw| <= MaxScan && |raw| <= |store|
    ensures raw == store[..|raw|]
    ensures |store| <= MaxScan ==> raw == store
  {
    if |store| <= MaxScan then store else store[..MaxScan]
  }

  /** `toIsoOrNull` on a stored date string: empty or absent becomes null, text is kept. */
  function ToIsoOrNull(v: Option<string>): (r: Option<string>)
    ensures r.None? <==> (v.None? || v.value == "")
    ensures r.Some? ==> r == v
  {
    if v.None? || v.value == "" then None else v
  }

  /** A listed event: the record with its four date fields passed through `toIsoOrNull`. */
  function Normalize(e: Event): (r: Event)
    ensures r.id == e.id && r.categories == e.categories && r.isDiscoverable == e.isDiscoverable
    ensures r.startAt == ToIsoOrNull(e.startAt) && r.endAt == ToIsoOrNull(e.endAt)
    ensures r.createdAt == ToIsoOrNull(e.createdAt) && r.updatedAt == ToIsoOrNull(e.updatedAt)
  {
    e.(startAt := ToIsoOrNull(e.startAt), endAt := ToIsoOrNull(e.endAt),
       createdAt := ToIsoOrNull(e.createdAt), updatedAt := ToIsoOrNull(e.updatedAt))
  }

  function NormalizeAll(es: seq<Event>): (r: seq<Event>)
    ensures |r| == |es| && forall i :: 0 <= i < |es| ==> r[i] == Normalize(es[i])
  {
    seq(|es|, i requires 0 <= i < |es| => Normalize(es[i]))
  }

  datatype DiscoverResponse = DiscoverResponse(events: seq<Event>, pagination: Pagination)

  /** The `/discover` handler from the query, the store in scan order and the date parser. */
  function DiscoverEvents(query: Query, store: seq<Event>, parse: string -> Option<int>): (r: DiscoverResponse)
    ensures var page := ClampPage(query.page);
      var limit := ClampLimit(query.limit, "20", 50);
      var filtered := Filter(Scan(store), CriteriaOf(query, parse), parse);
      && r.pagination == PaginationOf(page, limit, |filtered|)
      && r.events == NormalizeAll(PageOf(filtered, page, limit))
  {
    var page := ClampPage(query.page);
    var limit := ClampLimit(query.limit, "20", 50);
    var filtered := Filter(Scan(store), CriteriaOf(query, parse), parse);
    DiscoverResponse(NormalizeAll(PageOf(filtered, page, limit)), PaginationOf(page, limit, |filtered|))
  }

  /**
   * The paging of a `/discover` response: with numeric page and limit, page >= 1 and
   * 1 <= limit <= 50; the events are at most `limit` records of the filtered scan, the
   * flags compare page with totalPages and 1, and a page past the last is empty; total counts the matches among at most 400 scanned records.
   */
  lemma DiscoverPagingSpec(query: Query, store: seq<Event>, parse: string -> Option<int>)
    ensures var r := DiscoverEvents(query, store, parse);
      var p := r.pagination;
      && (p.page.Int? ==> p.page.v >= 1)
      && (p.limit.Int? ==> 1 <= p.limit.v <= 50)
      && p.total <= MaxScan
      && (p.page.Int? && p.limit.Int? ==>
            && |r.events| <= p.limit.v
            && p.totalPages.Int?
            && (p.hasNextPage <==> p.page.v < p.totalPages.v)
            && (p.hasPrevPage <==> p.page.v > 1)
            && (p.page.v > p.totalPages.v ==> r.events == []))
  {
    var page := ClampPage(query.page);
    var limit := ClampLimit(query.limit, "20", 50);
    var filtered := Filter(Scan(store), CriteriaOf(query, parse), parse);
    if page.Int? && limit.Int? {
      ListingSpec(filtered, page, limit);
    }
  }

  /** Every listed record is the normalised form of one of the records it was cut from. */
  lemma NormalizedPage(items: seq<Event>, page: Num, limit: Num)
    ensures forall e :: e in NormalizeAll(PageOf(items, page, limit)) ==> exists d :: d in items && e == Normalize(d)
  {
    var window := PageOf(items, page, limit);
    forall e | e in NormalizeAll(window)
      ensures exists d :: d in items && e == Normalize(d)
    {
      var i :| 0 <= i < |window| && NormalizeAll(window)[i] == e;
      assert window[i] in window;
    }
  }

  /** Every event a `/discover` response lists is enabled and passes the request's filter. */
  lemma DiscoverListsMatches(query: Query, store: seq<Event>, parse: string -> Option<int>)
    ensures forall e :: e in DiscoverEvents(query, store, parse).events ==>
      (exists d :: d in Scan(store) && Matches(d, CriteriaOf(query, parse), parse) && e == Normalize(d))
      && e.isDiscoverable != Some(false)
  {
    var r := DiscoverEvents(query, store, parse);
    var page := ClampPage(query.page);
    var limit := ClampLimit(query.limit, "20", 50);
    var filtered := Filter(Scan(store), CriteriaOf(query, parse), parse);
    NormalizedPage(filtered, page, limit);
    forall e | e in r.events
      ensures exists d :: d in Scan(store) && Matches(d, CriteriaOf(query, parse), parse) && e == Normalize(d)
      ensures e.isDiscoverable != Some(false)
    {
      var d :| d in filtered && e == Normalize(d);
    }
  }
}

/** The `/random` suggestion: the same scan and filter, then one record picked at random. */
module RandomPick {
  import opened Wrappers
  import opened Discover

  /** `Math.floor(r * n)` for `Math.random()`'s `r` in [0, 1). */
  function PickIndex(r: real, n: nat): (k: nat)
    requires 0.0 <= r < 1.0 && n > 0
    ensures k < n
    ensures k as real <= r * n as real < k as real + 1.0
  {
    var f := (r * n as real).Floor;
    assert 0.0 <= r * n as real;
    f
  }

  /** The event `/random` answers with; `None` is `{event: null}`. */
  function RandomEvent(query: Query, store: seq<Event>, parse: string -> Option<int>, r: real): (picked: Option<Event>)
    requires 0.0 <= r < 1.0
    ensures var filtered := Filter(Scan(store), CriteriaOf(query, parse), parse);
      && (picked.None? <==> filtered == [])
      && (picked.Some? ==> picked.value == filtered[PickIndex(r, |filtered|)])
  {
    var filtered := Filter(Scan(store), CriteriaOf(query, parse), parse);
    if filtered == [] then None else Some(filtered[PickIndex(r, |filtered|)])
  }

  /**
   * A picked event is one of the first 400 stored records, is enabled and passes every
   * test of the discovery filter for the same query.
   */
  lemma RandomEventSpec(query: Query, store: seq<Event>, parse: string -> Option<int>, r: real)
    requires 0.0 <= r < 1.0
    ensures var picked := RandomEvent(query, store, parse, r);
      picked.Some? ==>
        && picked.value in store[..if |store| < MaxScan then |store| else MaxScan]
        && picked.value.isDiscoverable != Some(false)
        && Matches(picked.value, CriteriaOf(query, parse), parse)
  {
    var picked := RandomEvent(query, store, parse, r);
    if picked.Some? {
      var filtered := Filter(Scan(store), CriteriaOf(query, parse), parse);
      assert picked.value in filtered;
    }
  }
}

=== FILE: documents.dfy ===
/**
 * Values as the route handlers see them: the fields of request bodies and stored documents,
 * where a missing field reads as `undefined`, and the error responses of the handlers.
 */
module Documents {
  import opened Wrappers
  import opened JsStr

  /**
   * A JavaScript value as far as the handlers inspect it. Numbers are integral here; an
   * object other than an array is only ever converted to text.
   */
  datatype Value =
    | Undefined
    | Null
    | Bool(b: bool)
    | Number(n: int)
    | Str(s: string)
    | Arr(items: seq<Value>)
    | Obj

  /** JavaScript truthiness (`if (v)`, `v || fallback`, `filter(Boolean)`). */
  predicate Truthy(v: Value) {
    match v
    case Undefined => false
    case Null => false
    case Bool(b) => b
    case Number(n) => n != 0
    case Str(s) => s != ""
    case Arr(_) => true
    case Obj => true
  }

  /** `a || b` */
  function OrValue(a: Value, b: Value): (r: Value)
    ensures Truthy(a) ==> r == a
    ensures !Truthy(a) ==> r == b
  {
    if Truthy(a) then a else b
  }

  /** `v ?? fallback` */
  function Nullish(v: Value, fallback: Value): (r: Value)
    ensures v.Undefined? || v.Null? ==> r == fallback
    ensures !(v.Undefined? || v.Null?) ==> r == v
  {
    if v.Undefined? || v.Null? then fallback else v
  }

  /** An element's text inside `Array.prototype.join`: `null` and `undefined` become "". */
  function JoinPart(v: Value): string
    decreases v, 2
  {
    if v.Undefined? || v.Null? then "" else ToText(v)
  }

  /** `String(v)` for a value that is neither `null` nor `undefined`. */
  function ToText(v: Value): string
    requires !v.Undefined? && !v.Null?
    decreases v, 1
  {
    match v
    case Bool(b) => if b then "true" else "false"
    case Number(n) => IntToString(n)
    case Str(s) => s
    case Arr(items) => JoinParts(items, 0)
    case Obj => "[object Object]"
  }

  /** `items.slice(i).join(",")` */
  function JoinParts(items: seq<Value>, i: nat): string
    requires i <= |items|
    decreases items, |items| - i
  {
    if i == |items| then ""
    else if i + 1 == |items| then JoinPart(items[i])
    else JoinPart(items[i]) + "," + JoinParts(items, i + 1)
  }

  /** `v.toString()`: throws (`None`) on `null` and `undefined`. */
  function ToStringCall(v: Value): (r: Option<string>)
    ensures r.None? <==> v.Undefined? || v.Null?
    ensures v.Str? ==> r == Some(v.s)
  {
    if v.Undefined? || v.Null? then None else Some(ToText(v))
  }

  /** A truthy value converts to text without throwing, and a non-empty string to itself. */
  lemma TruthyConverts(v: Value)
    requires Truthy(v)
    ensures ToStringCall(v).Some?
    ensures v.Str? ==> ToStringCall(v).value == v.s && v.s != ""
  {
  }

  /** `v ? v.toString() : null` */
  function TextOrNull(v: Value): (r: Value)
    ensures !Truthy(v) ==> r == Null
    ensures Truthy(v) ==> r.Str? && r.s == ToText(v)
    ensures v.Str? ==> r == (if v.s == "" then Null else v)
  {
    if Truthy(v) then Str(ToText(v)) else Null
  }

  /** `strings.filter(Boolean)` */
  function NonEmptyTexts(ss: seq<string>): (r: seq<string>)
    ensures forall i :: 0 <= i < |r| ==> r[i] != ""
    ensures forall t :: t in r <==> t in ss && t != ""
    ensures |r| <= |ss|
  {
    if ss == [] then []
    else if ss[|ss| - 1] == "" then NonEmptyTexts(ss[..|ss| - 1])
    else NonEmptyTexts(ss[..|ss| - 1]) + [ss[|ss| - 1]]
  }

  /** `values.map(String)`, with `null` and `undefined` as "" */
  function PartTexts(values: seq<Value>): (r: seq<string>)
    ensures |r| == |values|
    ensures forall i :: 0 <= i < |values| ==> r[i] == JoinPart(values[i])
  {
    seq(|values|, i requires 0 <= i < |values| => JoinPart(values[i]))
  }

  /**
   * `values.map((c) => c.toString()).filter(Boolean)`: throws (`None`) when an element is
   * `null` or `undefined`; otherwise the non-empty texts in order.
   */
  function TextsOf(values: seq<Value>): (r: Option<seq<string>>)
    ensures r.None? <==> exists i :: 0 <= i < |values| && (values[i].Undefined? || values[i].Null?)
    ensures r.Some? ==> r.value == NonEmptyTexts(PartTexts(values))
  {
    if values == [] then Some([])
    else
      var init := TextsOf(values[..|values| - 1]);
      var last := values[|values| - 1];
      assert forall i :: 0 <= i < |values| - 1 ==> values[..|values| - 1][i] == values[i];
      if last.Undefined? || last.Null? then None
      else if init.None? then
        var i :| 0 <= i < |values| - 1 && (values[..|values| - 1][i].Undefined? || values[..|values| - 1][i].Null?);
        None
      else
        assert PartTexts(values)[..|values| - 1] == PartTexts(values[..|values| - 1]);
        if ToText(last) == "" then init
        else Some(init.value + [ToText(last)])
  }

  /** The error responses of the handlers. */
  datatype Failure = BadRequest | NotFound | Forbidden | ServerError

  /** The owner check shared by the handlers: `!data || data.userId !== uid`. */
  predicate IsUser(userId: Value, uid: string) {
    userId == Str(uid)
  }
}

=== FILE: events.dfy ===
/**
 * A user's own events (`/events`): every record carries the `userId` of its creator, and
 * only that user may read, change or delete it. Creation fills defaults and normalises the
 * body; an update overlays a patch of the known fields on the stored record.
 * Date parsing and `Number(v)` are supplied by the environment.
 */
module Events {
  import opened Wrappers
  import opened JsNum
  import opened Paging
  import opened Documents

  /** `new Date(v).toISOString()` (`None` when it throws) and `Number(v)`. */
  datatype Env = Env(toIso: Value -> Option<string>, toNumber: Value -> int)

  const MaxLimit := 50

  /** The ten optional text fields, each copied with `v ? v.toString() : null`. */
  datatype Texts = Texts(
    venueName: Value, address: Value, city: Value, region: Value, country: Value,
    ticketUrl: Value, ticketPrice: Value, imageUrl: Value, sourceUrl: Value, sourcePlatform: Value)

  /** Applies `f` to each text field, `a` and `b` giving the body's and the record's value. */
  function MapTexts(a: Texts, b: Texts, f: (Value, Value) -> Value): Texts {
    Texts(f(a.venueName, b.venueName), f(a.address, b.address), f(a.city, b.city),
          f(a.region, b.region), f(a.country, b.country), f(a.ticketUrl, b.ticketUrl),
          f(a.ticketPrice, b.ticketPrice), f(a.imageUrl, b.imageUrl), f(a.sourceUrl, b.sourceUrl),
          f(a.sourcePlatform, b.sourcePlatform))
  }

  /** Holds for every text field. */
  predicate AllTexts(t: Texts, p: Value -> bool) {
    p(t.venueName) && p(t.address) && p(t.city) && p(t.region) && p(t.country) &&
    p(t.ticketUrl) && p(t.ticketPrice) && p(t.imageUrl) && p(t.sourceUrl) && p(t.sourcePlatform)
  }

  /** A stored event document; a field it lacks reads as `Undefined`. */
  datatype EventDoc = EventDoc(
    userId: Value,
    title: Value,
    description: Value,
    startAt: Value,
    endAt: Value,
    texts: Texts,
    latitude: Value,
    longitude: Value,
    categories: Value,
    createdAt: Value,
    updatedAt: Value)

  /** A request body for create or update; an absent field is `Undefined`. */
  datatype EventBody = EventBody(
    title: Value,
    description: Value,
    startAt: Value,
    endAt: Value,
    texts: Texts,
    latitude: Value,
    longitude: Value,
    categories: Value)

  /** `toIsoOrNull(v)` */
  function ToIsoOrNull(v: Value, env: Env): (r: Value)
    ensures !Truthy(v) ==> r == Null
    ensures Truthy(v) && v.Str? ==> r == v
    ensures r.Null? || r.Str?
  {
    if !Truthy(v) then Null
    else if v.Str? then v
    else match env.toIso(v)
      case Some(s) => Str(s)
      case None => Null
  }

  /** The list of strings as a stored array. */
  function StrArray(ss: seq<string>): (r: Value)
    ensures r.Arr? && |r.items| == |ss|
    ensures forall i :: 0 <= i < |ss| ==> r.items[i] == Str(ss[i])
  {
    Arr(seq(|ss|, i requires 0 <= i < |ss| => Str(ss[i])))
  }

  /** `v === null || v === undefined ? null : Number(v)` */
  function NumberOrNull(v: Value, env: Env): (r: Value)
    ensures r.Null? <==> v.Undefined? || v.Null?
    ensures !r.Null? ==> r.Number?
  {
    if v.Undefined? || v.Null? then Null else Number(env.toNumber(v))
  }

  /** `Array.isArray(v) ? v.map(String).filter(Boolean) : fallback`; `None` when it throws. */
  function CategoriesOr(v: Value, fallback: Value): (r: Option<Value>)
    ensures !v.Arr? ==> r == Some(fallback)
    ensures v.Arr? && r.Some? ==> r.value == StrArray(NonEmptyTexts(PartTexts(v.items)))
    ensures v.Arr? ==> (r.None? <==> exists i :: 0 <= i < |v.items| && (v.items[i].Undefined? || v.items[i].Null?))
  {
    if !v.Arr? then Some(fallback)
    else match TextsOf(v.items)
      case None => None
      case Some(ss) => Some(StrArray(ss))
  }

  /** `(v || fallback).toString()` */
  function TextOr(v: Value, fallback: string): (r: string)
    ensures !Truthy(v) ==> r == fallback
    ensures Truthy(v) && v.Str? ==> r == v.s
  {
    if Truthy(v) then ToText(v) else fallback
  }

  /** The record `POST /events` stores; `None` when a category is `null` or `undefined`. */
  function NewRecord(uid: string, body: EventBody, env: Env, createdAt: string, updatedAt: string): (r: Option<EventDoc>)
    ensures r.None? <==> CategoriesOr(body.categories, Arr([])).None?
  {
    match CategoriesOr(body.categories, Arr([]))
    case None => None
    case Some(categories) =>
      Some(EventDoc(
        userId := Str(uid),
        title := Str(TextOr(body.title, "Untitled Event")),
        description := Str(TextOr(body.description, "")),
        startAt := ToIsoOrNull(body.startAt, env),
        endAt := ToIsoOrNull(body.endAt, env),
        texts := MapTexts(body.texts, body.texts, (v, _) => TextOrNull(v)),
        latitude := NumberOrNull(body.latitude, env),
        longitude := NumberOrNull(body.longitude, env),
        categories := categories,
        createdAt := Str(createdAt),
        updatedAt := Str(updatedAt)))
  }

  /** A stored category list: an array of non-empty strings. */
  predicate CleanCategories(v: Value) {
    v.Arr? && forall i :: 0 <= i < |v.items| ==> v.items[i].Str? && v.items[i].s != ""
  }

  /**
   * The created record belongs to its creator, has a non-empty title ("Untitled Event" when
   * the body has none), and holds only non-empty category strings.
   */
  lemma NewRecordDefaults(uid: string, body: EventBody, env: Env, createdAt: string, updatedAt: string)
    requires NewRecord(uid, body, env, createdAt, updatedAt).Some?
    ensures var r := NewRecord(uid, body, env, createdAt, updatedAt).value;
      && IsUser(r.userId, uid)
      && (!Truthy(body.title) ==> r.title == Str("Untitled Event"))
      && (body.title.Str? && Truthy(body.title) ==> r.title == body.title)
      && (!body.categories.Arr? ==> r.categories == Arr([]))
      && CleanCategories(r.categories)
      && r.createdAt == Str(createdAt) && r.updatedAt == Str(updatedAt)
  {
    var r := NewRecord(uid, body, env, createdAt, updatedAt).value;
    if body.categories.Arr? {
      var ss := NonEmptyTexts(PartTexts(body.categories.items));
      assert r.categories == StrArray(ss);
      assert forall i :: 0 <= i < |ss| ==> ss[i] in ss;
    }
  }

  /** The fields an update may set; `userId` and `createdAt` are not among them. */
  datatype EventPatch = EventPatch(
    title: Value,
    description: Value,
    startAt: Value,
    endAt: Value,
    texts: Texts,
    latitude: Value,
    longitude: Value,
    categories: Value,
    updatedAt: Value)

  /** `body.f !== undefined ? update(body.f) : existing.f ?? null` */
  function Keep(given: Value, stored: Value, update: Value -> Value): (r: Value)
    ensures given.Undefined? ==> r == Nullish(stored, Null)
    ensures !given.Undefined? ==> r == update(given)
  {
    if given.Undefined? then Nullish(stored, Null) else update(given)
  }

  /** `body.f !== undefined ? body.f.toString() : existing.f`; `None` when it throws. */
  function Replace(given: Value, stored: Value): (r: Option<Value>)
    ensures r.None? <==> given.Null?
    ensures given.Undefined? ==> r == Some(stored)
    ensures given.Str? ==> r == Some(given)
  {
    if given.Undefined? then Some(stored)
    else if given.Null? then None
    else Some(Str(ToText(given)))
  }

  /**
   * The patch `PUT /events/:id` applies. `None` when it throws: a `null` title or
   * description (`null.toString()`) or a `null`/`undefined` category.
   */
  function Patch(body: EventBody, existing: EventDoc, env: Env, updatedAt: string): (r: Option<EventPatch>)
    ensures r.None? <==>
      body.title.Null? || body.description.Null? ||
      CategoriesOr(body.categories, Nullish(existing.categories, Arr([]))).None?
  {
    var title := Replace(body.title, existing.title);
    var description := Replace(body.description, existing.description);
    var categories := CategoriesOr(body.categories, Nullish(existing.categories, Arr([])));
    if title.None? || description.None? || categories.None? then None
    else
      Some(EventPatch(
        title := title.value,
        description := description.value,
        startAt := Keep(body.startAt, existing.startAt, v => ToIsoOrNull(v, env)),
        endAt := Keep(body.endAt, existing.endAt, v => ToIsoOrNull(v, env)),
        texts := MapTexts(body.texts, existing.texts, (given, stored) => Keep(given, stored, TextOrNull)),
        latitude := Keep(body.latitude, existing.latitude, v => NumberOrNull(v, env)),
        longitude := Keep(body.longitude, existing.longitude, v => NumberOrNull(v, env)),
        categories := categories.value,
        updatedAt := Str(updatedAt)))
  }

  /** `ref.update(patch)`: the patch's fields overwrite, the others stay. */
  function Merge(d: EventDoc, p: EventPatch): (r: EventDoc)
    ensures r.userId == d.userId && r.createdAt == d.createdAt
  {
    d.(title := p.title, description := p.description, startAt := p.startAt, endAt := p.endAt,
       texts := p.texts, latitude := p.latitude, longitude := p.longitude,
       categories := p.categories, updatedAt := p.updatedAt)
  }

  /** Firestore refuses to store an `undefined` field value. */
  predicate Storable(p: EventPatch) {
    !p.title.Undefined? && !p.description.Undefined? && !p.startAt.Undefined? && !p.endAt.Undefined? &&
    AllTexts(p.texts, (v: Value) => !v.Undefined?) && !p.latitude.Undefined? && !p.longitude.Undefined? &&
    !p.categories.Undefined? && !p.updatedAt.Undefined?
  }

  /**
   * Only a stored record without a title or description gives an unstorable patch: every
   * other field falls back to `null` (or `[]`) rather than `undefined`.
   */
  lemma PatchStorable(body: EventBody, existing: EventDoc, env: Env, updatedAt: string)
    requires Patch(body, existing, env, updatedAt).Some?
    ensures var p := Patch(body, existing, env, updatedAt).value;
      Storable(p) <==> !(body.title.Undefined? && existing.title.Undefined?) &&
                       !(body.description.Undefined? && existing.description.Undefined?)
  {
    var p := Patch(body, existing, env, updatedAt).value;
    PatchDefined(body, existing, env, updatedAt);
    assert p.title.Undefined? <==> body.title.Undefined? && existing.title.Undefined?;
    assert p.description.Undefined? <==> body.description.Undefined? && existing.description.Undefined?;
  }

  /** Every field of a patch but the title and the description is defined. */
  lemma PatchDefined(body: EventBody, existing: EventDoc, env: Env, updatedAt: string)
    requires Patch(body, existing, env, updatedAt).Some?
    ensures var p := Patch(body, existing, env, updatedAt).value;
      && !p.startAt.Undefined? && !p.endAt.Undefined? && !p.latitude.Undefined? && !p.longitude.Undefined?
      && AllTexts(p.texts, (v: Value) => !v.Undefined?) && !p.categories.Undefined? && !p.updatedAt.Undefined?
  {
  }

  /**
   * A field the body does not mention keeps its stored value (a missing one becomes `null`,
   * or `[]` for the categories); a provided one is taken from the body.
   */
  lemma PatchFieldRules(body: EventBody, existing: EventDoc, env: Env, updatedAt: string)
    requires Patch(body, existing, env, updatedAt).Some?
    ensures var m := Merge(existing, Patch(body, existing, env, updatedAt).value);
      && m.userId == existing.userId && m.createdAt == existing.createdAt
      && m.updatedAt == Str(updatedAt)
      && (body.title.Undefined? ==> m.title == existing.title)
      && (body.title.Str? ==> m.title == body.title)
      && (body.startAt.Undefined? ==> m.startAt == Nullish(existing.startAt, Null))
      && (!body.startAt.Undefined? ==> m.startAt == ToIsoOrNull(body.startAt, env))
      && (body.texts.city.Undefined? ==> m.texts.city == Nullish(existing.texts.city, Null))
      && (!body.texts.city.Undefined? ==> m.texts.city == TextOrNull(body.texts.city))
      && (body.latitude.Undefined? ==> m.latitude == Nullish(existing.latitude, Null))
      && (!body.categories.Arr? ==> m.categories == Nullish(existing.categories, Arr([])))
      && (body.categories.Arr? ==> m.categories == StrArray(NonEmptyTexts(PartTexts(body.categories.items))))
  {
  }

  /**
   * Updating a created record with an empty body changes nothing but `updatedAt`: every
   * field of a new record already has the normalised form the patch would give it.
   */
  lemma EmptyPatchOfNewRecord(uid: string, body: EventBody, env: Env, createdAt: string, updatedAt: string, later: string)
    requires NewRecord(uid, body, env, createdAt, updatedAt).Some?
    ensures var r := NewRecord(uid, body, env, createdAt, updatedAt).value;
      var none := EventBody(Undefined, Undefined, Undefined, Undefined,
        Texts(Undefined, Undefined, Undefined, Undefined, Undefined, Undefined, Undefined, Undefined, Undefined, Undefined),
        Undefined, Undefined, Undefined);
      && Patch(none, r, env, later).Some?
      && Storable(Patch(none, r, env, later).value)
      && Merge(r, Patch(none, r, env, later).value) == r.(updatedAt := Str(later))
  {
    NewRecordDefaults(uid, body, env, createdAt, updatedAt);
  }

  /** What `GET /events` answers: the page of records and the pagination block. */
  datatype Listing = Listing(events: seq<(string, EventDoc)>, pagination: Pagination)

  class EventStore {
    /** The `events` collection: document id to document. */
    var events: map<string, EventDoc>

    constructor(events: map<string, EventDoc>)
      ensures this.events == events
    {
      this.events := events;
    }

    /** The caller's records, in the query's `startAt desc, createdAt desc` order `order`. */
    function Mine(uid: string, order: seq<string>): (r: seq<string>)
      reads this
      ensures forall i :: 0 <= i < |r| ==> r[i] in events && IsUser(events[r[i]].userId, uid)
      ensures forall id :: id in r <==> id in order && id in events && IsUser(events[id].userId, uid)
    {
      if order == [] then []
      else
        var id := order[0];
        (if id in events && IsUser(events[id].userId, uid) then [id] else []) + Mine(uid, order[1..])
    }

    /** The caller's records keep the query's order. */
    lemma {:induction false} MineInOrder(uid: string, order: seq<string>)
      ensures IsSubsequence(Mine(uid, order), order)
    {
      if order != [] {
        MineInOrder(uid, order[1..]);
        var rest := Mine(uid, order[1..]);
        var id := order[0];
        if id in events && IsUser(events[id].userId, uid) {
          assert Mine(uid, order) == [id] + rest;
          assert ([id] + rest)[1..] == rest;
        } else {
          assert Mine(uid, order) == rest;
          if rest != [] {
            assert rest[0] in events && IsUser(events[rest[0]].userId, uid);
          }
        }
      }
    }

    /** `snap.docs.map((d) => ({ id: d.id, ...d.data() }))` over the caller's records. */
    function Rows(uid: string, ids: seq<string>): (r: seq<(string, EventDoc)>)
      reads this
      requires forall id :: id in ids ==> id in events && IsUser(events[id].userId, uid)
      ensures |r| == |ids|
      ensures forall i :: 0 <= i < |r| ==> ids[i] in events && r[i] == (ids[i], events[ids[i]])
    {
      var es := events;
      assert forall i :: 0 <= i < |ids| ==> ids[i] in ids;
      seq(|ids|, i requires 0 <= i < |ids| => (ids[i], es[ids[i]]))
    }

    /**
     * `GET /events`: page ≥ 1 and limit in [1, 50] from the query; a NaN page or limit makes
     * the `offset`/`limit` call throw.
     */
    function List(uid: string, order: seq<string>, rawPage: Option<string>, rawLimit: Option<string>)
      : (r: Result<Listing, Failure>)
      reads this
      ensures r.Err? <==> ClampPage(rawPage).NaN? || ClampLimit(rawLimit, "20", MaxLimit).NaN?
      ensures r.Ok? ==>
        && r.value.pagination == PaginationOf(ClampPage(rawPage), ClampLimit(rawLimit, "20", MaxLimit), |Mine(uid, order)|)
        && |r.value.events| <= r.value.pagination.limit.v
        && forall i :: 0 <= i < |r.value.events| ==>
             r.value.events[i].0 in events && IsUser(events[r.value.events[i].0].userId, uid) &&
             r.value.events[i].1 == events[r.value.events[i].0]
    {
      var page := ClampPage(rawPage);
      var limit := ClampLimit(rawLimit, "20", MaxLimit);
      if page.NaN? || limit.NaN? then Err(ServerError)
      else
        var ids := Mine(uid, order);
        var shown := PageOf(ids, page, limit);
        PageWindow(ids, page.v, limit.v);
        Ok(Listing(Rows(uid, shown), PaginationOf(page, limit, |ids|)))
    }

    /**
     * The listed page is the window of the caller's records that starts at
     * `(page - 1) * limit`, each with its stored document.
     */
    lemma ListIsWindow(uid: string, order: seq<string>, rawPage: Option<string>, rawLimit: Option<string>, page: int, limit: int)
      requires ClampPage(rawPage) == Int(page) && ClampLimit(rawLimit, "20", MaxLimit) == Int(limit)
      ensures List(uid, order, rawPage, rawLimit).Ok?
      ensures var shown := List(uid, order, rawPage, rawLimit).value.events;
        var ids := Mine(uid, order);
        var off := (page - 1) * limit;
        && off >= 0
        && (0 <= off < |ids| ==> shown == Rows(uid, ids[off..if off + limit < |ids| then off + limit else |ids|]))
        && (off >= |ids| ==> shown == [])
    {
      var ids := Mine(uid, order);
      assert List(uid, order, rawPage, rawLimit).value.events == Rows(uid, PageOf(ids, Int(page), Int(limit)));
      PageSlice(ids, page, limit);
    }

    /** `GET /events/:id` */
    function Get(uid: string, id: string): (r: Result<EventDoc, Failure>)
      reads this
      ensures id !in events ==> r == Err(NotFound)
      ensures id in events && !IsUser(events[id].userId, uid) ==> r == Err(Forbidden)
      ensures r.Ok? <==> id in events && IsUser(events[id].userId, uid)
      ensures r.Ok? ==> r.value == events[id]
    {
      if id !in events then Err(NotFound)
      else if !IsUser(events[id].userId, uid) then Err(Forbidden)
      else Ok(events[id])
    }

    /** `POST /events`: the new record is stored under the id the store hands out. */
    method Create(uid: string, body: EventBody, env: Env, newId: string, createdAt: string, updatedAt: string)
      returns (r: Result<EventDoc, Failure>)
      modifies this
      ensures var rec := NewRecord(uid, body, env, createdAt, updatedAt);
        && (rec.None? ==> r == Err(ServerError) && events == old(events))
        && (rec.Some? ==> r == Ok(rec.value) && events == old(events)[newId := rec.value])
    {
      var rec := NewRecord(uid, body, env, createdAt, updatedAt);
      if rec.None? {
        return Err(ServerError);
      }
      events := events[newId := rec.value];
      return Ok(rec.value);
    }

    /**
     * `PUT /events/:id`: not found and forbidden write nothing; otherwise the patch is
     * merged into the stored record and the answer is the record overlaid by the patch.
     */
    method Update(uid: string, id: string, body: EventBody, env: Env, updatedAt: string)
      returns (r: Result<EventDoc, Failure>)
      modifies this
      ensures id !in old(events) ==> r == Err(NotFound)
      ensures id in old(events) && !IsUser(old(events)[id].userId, uid) ==> r == Err(Forbidden)
      ensures r.Err? ==> events == old(events)
      ensures r.Ok? ==>
        id in old(events) && IsUser(old(events)[id].userId, uid) &&
        var patch := Patch(body, old(events)[id], env, updatedAt);
        && patch.Some? && Storable(patch.value)
        && r.value == Merge(old(events)[id], patch.value)
        && events == old(events)[id := r.value]
      ensures r == Err(ServerError) <==>
        id in old(events) && IsUser(old(events)[id].userId, uid) &&
        var patch := Patch(body, old(events)[id], env, updatedAt);
        patch.None? || !Storable(patch.value)
    {
      if id !in events {
        return Err(NotFound);
      }
      var existing := events[id];
      if !IsUser(existing.userId, uid) {
        return Err(Forbidden);
      }
      var patch := Patch(body, existing, env, updatedAt);
      if patch.None? || !Storable(patch.value) {
        return Err(ServerError);
      }
      var merged := Merge(existing, patch.value);
      events := events[id := merged];
      return Ok(merged);
    }

    /** `DELETE /events/:id` */
    method Delete(uid: string, id: string) returns (r: Result<bool, Failure>)
      modifies this
      ensures id !in old(events) ==> r == Err(NotFound) && events == old(events)
      ensures id in old(events) && !IsUser(old(events)[id].userId, uid) ==> r == Err(Forbidden) && events == old(events)
      ensures id in old(events) && IsUser(old(events)[id].userId, uid) ==> r == Ok(true) && events == old(events) - {id}
    {
      if id !in events {
        return Err(NotFound);
      }
      if !IsUser(events[id].userId, uid) {
        return Err(Forbidden);
      }
      events := events - {id};
      return Ok(true);
    }
  }
}

=== FILE: generated_events.dfy ===
/**
 * The event import and flyer scan routes (`/generated-events`): the reduction of a web page to
 * text, the JSON-LD event extraction, the platform detection, the Jina Reader fallback with its
 * retry schedule, and the answers of `POST /import` and `POST /scan`.
 * The network, the language model, the social-media helpers, `JSON.parse` and `JSON.stringify`
 * are parameters; a helper that throws is `Threw`.
 */
module GeneratedEvents {
  import opened Wrappers
  import opened JsStr
  import HtmlText
  import Documents

  /** A parsed JSON value. */
  datatype Json =
    | JNull
    | JBool(b: bool)
    | JNum(n: real)
    | JStr(s: string)
    | JArr(items: seq<Json>)
    | JObj(fields: map<string, Json>)

  /** The outcome of a call that may throw. */
  datatype Outcome<+T> = Threw | Returned(value: T)

  /** JavaScript truthiness of a parsed value. */
  predicate JTruthy(j: Json) {
    match j
    case JNull => false
    case JBool(b) => b
    case JNum(n) => n != 0.0
    case JStr(s) => s != ""
    case JArr(_) => true
    case JObj(_) => true
  }

  /** `j[key]`: only an object has properties of its own (`None` is `undefined`). */
  function Prop(j: Json, key: string): Option<Json> {
    if j.JObj? && key in j.fields then Some(j.fields[key]) else None
  }

  /** `o?.[key]` */
  function OptProp(o: Option<Json>, key: string): Option<Json> {
    if o.Some? then Prop(o.value, key) else None
  }

  predicate OTruthy(o: Option<Json>) {
    o.Some? && JTruthy(o.value)
  }

  // ---------------------------------------------------------------------------------------
  // `stripHtml`

  /** `stripHtml(html)`; `None` is a value that is not a string. */
  function StripHtml(html: Option<string>): (r: string)
    ensures html.None? || html == Some("") ==> r == ""
  {
    if html.None? || html.value == "" then "" else HtmlText.Strip(html.value)
  }

  /**
   * Whatever it is given, `stripHtml` answers text without white space at either end, without
   * two white-space characters in a row and without a `&letters;` reference.
   */
  lemma StripHtmlClean(html: Option<string>)
    ensures var r := StripHtml(html);
      && (r == [] || (!IsSpace(r[0]) && !IsSpace(r[|r| - 1])))
      && HtmlText.NoDoubleSpace(r)
      && HtmlText.NoEntity(r)
  {
    if html.Some? && html.value != "" {
      HtmlText.StripClean(html.value);
    }
  }

  // ---------------------------------------------------------------------------------------
  // `detectPlatform`

  datatype Platform = Instagram | TikTok | YouTube | Web

  function PlatformName(p: Platform): string {
    match p
    case Instagram => "instagram"
    case TikTok => "tiktok"
    case YouTube => "youtube"
    case Web => "web"
  }

  /** `/pat/i.test(u)` for a lower-case pattern without special characters. */
  predicate TestCI(u: string, pat: string) {
    Contains(Lower(u), pat)
  }

  /** `detectPlatform(url)` on `(url || "").toString()`: the first rule that matches wins. */
  function DetectPlatform(url: Option<string>): (p: Platform)
    ensures var u := Or(url, "");
      && (p == Instagram <==> TestCI(u, "instagram"))
      && (p == TikTok <==> !TestCI(u, "instagram") && TestCI(u, "tiktok"))
      && (p == YouTube <==> !TestCI(u, "instagram") && !TestCI(u, "tiktok") &&
                            (TestCI(u, "youtube") || TestCI(u, "youtu.be")))
  {
    var u := Or(url, "");
    if TestCI(u, "instagram") then Instagram
    else if TestCI(u, "tiktok") then TikTok
    else if TestCI(u, "youtube") || TestCI(u, "youtu.be") then YouTube
    else Web
  }

  /** A pattern is found wherever its letters appear, in any case. */
  lemma TestFinds(a: string, m: string, b: string)
    ensures TestCI(a + m + b, Lower(m))
  {
    LowerAppend(a + m, b);
    LowerAppend(a, m);
    ContainsMiddle(Lower(a), Lower(m), Lower(b));
  }

  /** Detection ignores case: a URL and its lower-case form go to the same platform. */
  lemma DetectIgnoresCase(url: string)
    ensures DetectPlatform(Some(url)) == DetectPlatform(Some(Lower(url)))
  {
    LowerIdempotent(url);
    assert Lower(url) == "" <==> url == "";
  }

  /** "instagram" in any case anywhere in the URL wins over every other platform. */
  lemma InstagramFirst(a: string, m: string, b: string)
    requires Lower(m) == "instagram"
    ensures DetectPlatform(Some(a + m + b)) == Instagram
  {
    TestFinds(a, m, b);
  }

  /** Without "instagram", "tiktok" in any case wins over YouTube. */
  lemma TikTokSecond(a: string, m: string, b: string)
    requires Lower(m) == "tiktok" && !TestCI(a + m + b, "instagram")
    ensures DetectPlatform(Some(a + m + b)) == TikTok
  {
    TestFinds(a, m, b);
  }

  /** A short "youtu.be" link is YouTube when neither earlier platform is named. */
  lemma ShortYouTubeLink(a: string, m: string, b: string)
    requires Lower(m) == "youtu.be" && !TestCI(a + m + b, "instagram") && !TestCI(a + m + b, "tiktok")
    ensures DetectPlatform(Some(a + m + b)) == YouTube
  {
    TestFinds(a, m, b);
  }

  // ---------------------------------------------------------------------------------------
  // `extractEventJsonLd`

  const LdHeader := "JSON-LD Events:\n"

  predicate IsQuote(c: char) {
    c == '"' || c == '\''
  }

  /** `type=["']application/ld+json["']` at `p`: the letters in any case, the quotes as written. */
  predicate LdAttrAt(s: string, p: nat) {
    p + 26 <= |s| && HtmlText.MatchesAtCI(s, "type=", p) && IsQuote(s[p + 5]) &&
    HtmlText.MatchesAtCI(s, "application/ld+json", p + 6) && IsQuote(s[p + 25])
  }

  /** The attribute occurs inside `s[p..g]`. */
  predicate AttrWithin(s: string, p: nat, g: nat)
    decreases g - p
  {
    p + 26 <= g && (LdAttrAt(s, p) || AttrWithin(s, p + 1, g))
  }

  /**
   * The script expression matched at `i`: `<script`, the rest of the opening tag up to its
   * first `>` holding the JSON-LD type attribute, then the text up to the first `</script>`.
   * The result is the captured text's bounds and the end of the match.
   */
  function LdMatchAt(s: string, i: nat): (m: Option<(nat, nat, nat)>)
    ensures m.Some? ==> HtmlText.MatchesAtCI(s, "<script", i)
    ensures m.Some? ==> i + 8 <= m.value.0 <= m.value.1 && m.value.2 == m.value.1 + 9 <= |s|
  {
    if !HtmlText.MatchesAtCI(s, "<script", i) then None
    else match HtmlText.FindCI(s, ">", i + 7)
      case None => None
      case Some(g) =>
        if !AttrWithin(s, i + 7, g) then None
        else match HtmlText.FindCI(s, "</script>", g + 1)
          case None => None
          case Some(c) => Some((g + 1, c, c + 9))
  }

  /**
   * Where a global regular expression matches in a text: from a start index, the bounds of
   * the captured group and the index just past the match (`lastIndex` afterwards).
   */
  type Matcher = nat -> Option<(nat, nat, nat)>

  /** Each match lies after its start, within the text. */
  ghost predicate Advances(s: string, at: Matcher) {
    forall i: nat :: at(i).Some? ==> i < at(i).value.0 <= at(i).value.1 <= at(i).value.2 <= |s|
  }

  /** The JSON-LD script expression as a matcher. */
  function LdMatcher(s: string): (at: Matcher)
    ensures Advances(s, at)
  {
    var at := (i: nat) => LdMatchAt(s, i);
    assert forall i: nat :: at(i) == LdMatchAt(s, i);
    at
  }

  /** `re.exec(s)` with `lastIndex = k`: the first match starting at or after `k`. */
  function NextMatch(s: string, k: nat, at: Matcher): (m: Option<(nat, nat, nat)>)
    requires Advances(s, at)
    ensures m.Some? ==> k < m.value.0 <= m.value.1 <= m.value.2 <= |s|
    ensures m.Some? ==> exists i :: k <= i && at(i) == m
    ensures m.None? ==> forall i :: k <= i ==> at(i).None?
    decreases |s| - k
  {
    if k >= |s| then None
    else if at(k).Some? then at(k)
    else NextMatch(s, k + 1, at)
  }

  /** `x` names the event type: `(x || "").toString().toLowerCase() === "event"`. */
  predicate NamesEvent(x: Json) {
    match x
    case JStr(t) => Lower(t) == "event"
    case JArr(items) => |items| == 1 && NamesEvent(items[0])
    case _ => false
  }

  /** The text of a falsy value other than `null`. */
  function FalsyText(v: Json): string {
    match v
    case JBool(_) => "false"
    case JNum(_) => "0"
    case _ => ""
  }

  /** `c && (c["@type"] || c["@type"]?.toString())`; `None` is `undefined`. */
  function TypeOf(c: Json): Option<Json> {
    if !JTruthy(c) then Some(c)
    else match Prop(c, "@type")
      case None => None
      case Some(v) =>
        if JTruthy(v) then Some(v)
        else if v.JNull? then None
        else Some(JStr(FalsyText(v)))
  }

  /** The candidate is kept: its type, or one of the types in the array it holds, names "event". */
  predicate IsEventNode(c: Json) {
    match TypeOf(c)
    case None => false
    case Some(t) => if t.JArr? then exists x :: x in t.items && NamesEvent(x) else NamesEvent(t)
  }

  /** A falsy value, or the text of one, never names the event type. */
  lemma FalsyNamesNothing(v: Json)
    ensures !JTruthy(v) ==> !NamesEvent(v)
    ensures Lower(FalsyText(v)) != "event"
  {
    var t := FalsyText(v);
    assert |Lower(t)| == |t|;
    if t == "false" {
      assert Lower(t)[0] == 'f';
    }
  }

  /** Only an object with a truthy "@type" property is ever kept. */
  lemma EventNodeIsObject(c: Json)
    requires IsEventNode(c)
    ensures c.JObj? && "@type" in c.fields && JTruthy(c.fields["@type"])
  {
    FalsyNamesNothing(c);
    if c.JObj? && "@type" in c.fields {
      FalsyNamesNothing(c.fields["@type"]);
    }
  }

  /** `Array.isArray(parsed) ? parsed : [parsed]` */
  function Candidates(parsed: Json): seq<Json> {
    if parsed.JArr? then parsed.items else [parsed]
  }

  /** `JSON.stringify` of the kept candidates, in order. */
  function EventTexts(cs: seq<Json>, stringify: Json -> string): (r: seq<string>)
    ensures |r| <= |cs|
  {
    if cs == [] then []
    else
      var last := cs[|cs| - 1];
      EventTexts(cs[..|cs| - 1], stringify) + (if IsEventNode(last) then [stringify(last)] else [])
  }

  /** Exactly the event candidates are kept: each kept text is one of theirs, and each of theirs is kept. */
  lemma {:induction false} EventTextsExactly(cs: seq<Json>, stringify: Json -> string)
    ensures forall t :: t in EventTexts(cs, stringify) ==> exists c :: c in cs && IsEventNode(c) && t == stringify(c)
    ensures forall c :: c in cs && IsEventNode(c) ==> stringify(c) in EventTexts(cs, stringify)
  {
    if cs != [] {
      var init, last := cs[..|cs| - 1], cs[|cs| - 1];
      EventTextsExactly(init, stringify);
      assert forall c :: c in cs <==> c in init || c == last;
    }
  }

  lemma EventTextsSnoc(cs: seq<Json>, j: nat, stringify: Json -> string)
    requires j < |cs|
    ensures EventTexts(cs[..j + 1], stringify) ==
      EventTexts(cs[..j], stringify) + (if IsEventNode(cs[j]) then [stringify(cs[j])] else [])
  {
    assert cs[..j + 1][..j] == cs[..j];
  }

  /** One captured block: trimmed, skipped when empty or when `JSON.parse` throws (`None`). */
  function BlockEvents(raw: string, parse: string -> Option<Json>, stringify: Json -> string): seq<string> {
    var t := Trim(raw);
    if t == "" then []
    else match parse(t)
      case None => []
      case Some(parsed) => EventTexts(Candidates(parsed), stringify)
  }

  /** The captured texts of every match from `lastIndex = k` on, in order. */
  function Captures(s: string, k: nat, at: Matcher): seq<string>
    requires Advances(s, at)
    decreases |s| - k
  {
    match NextMatch(s, k, at)
    case None => []
    case Some(m) => [s[m.0..m.1]] + Captures(s, m.2, at)
  }

  /** The event texts of the captured blocks `raws`, block by block. */
  function EventsOf(raws: seq<string>, parse: string -> Option<Json>, stringify: Json -> string): seq<string> {
    if raws == [] then []
    else EventsOf(raws[..|raws| - 1], parse, stringify) + BlockEvents(raws[|raws| - 1], parse, stringify)
  }

  /** What `extractEventJsonLd(html)` answers. */
  function LdText(html: Option<string>, parse: string -> Option<Json>, stringify: Json -> string): (r: string)
    ensures r == "" <==> (html.None? || html.value == "" ||
                          EventsOf(Captures(html.value, 0, LdMatcher(html.value)), parse, stringify) == [])
    ensures r != "" ==> StartsWith(r, LdHeader)
  {
    if html.None? || html.value == "" then ""
    else
      var blocks := EventsOf(Captures(html.value, 0, LdMatcher(html.value)), parse, stringify);
      if blocks == [] then "" else LdHeader + Join(blocks, "\n")
  }

  /** Without a `<script` opening anywhere from `k` on, nothing is captured. */
  lemma NoScriptNoCaptures(s: string, k: nat)
    requires forall i :: k <= i ==> !HtmlText.MatchesAtCI(s, "<script", i)
    ensures Captures(s, k, LdMatcher(s)) == []
  {
    var at := LdMatcher(s);
    forall i | k <= i
      ensures at(i).None?
    {
      assert at(i) == LdMatchAt(s, i);
    }
  }

  /** Blocks that hold no event node add nothing. */
  lemma {:induction false} EventsOfEmpty(raws: seq<string>, parse: string -> Option<Json>, stringify: Json -> string)
    requires forall i :: 0 <= i < |raws| ==> BlockEvents(raws[i], parse, stringify) == []
    ensures EventsOf(raws, parse, stringify) == []
  {
    if raws != [] {
      EventsOfEmpty(raws[..|raws| - 1], parse, stringify);
    }
  }

  lemma EventsOfSnoc(raws: seq<string>, raw: string, parse: string -> Option<Json>, stringify: Json -> string)
    ensures EventsOf(raws + [raw], parse, stringify) == EventsOf(raws, parse, stringify) + BlockEvents(raw, parse, stringify)
  {
    assert (raws + [raw])[..|raws|] == raws;
  }

  lemma CapturesStep(s: string, k: nat, at: Matcher, a: nat, c: nat, e: nat)
    requires Advances(s, at) && NextMatch(s, k, at) == Some((a, c, e))
    ensures a <= c <= e <= |s|
    ensures Captures(s, k, at) == [s[a..c]] + Captures(s, e, at)
  {
  }

  /** The event texts of one captured block: the loop over its candidates. */
  method BlockTexts(raw: string, parse: string -> Option<Json>, stringify: Json -> string) returns (texts: seq<string>)
    ensures texts == BlockEvents(raw, parse, stringify)
  {
    texts := [];
    var t := Trim(raw);
    if t == "" {
      return;
    }
    var parsed := parse(t);
    if parsed.None? {
      return;
    }
    var cands := Candidates(parsed.value);
    var j := 0;
    while j < |cands|
      invariant 0 <= j <= |cands|
      invariant texts == EventTexts(cands[..j], stringify)
    {
      EventTextsSnoc(cands, j, stringify);
      if IsEventNode(cands[j]) {
        texts := texts + [stringify(cands[j])];
      }
      j := j + 1;
    }
    assert cands[..j] == cands;
  }

  /** One `re.exec` step: the blocks from `k` are those of the next match, then those after it. */
  lemma AppendAssoc<T>(a: seq<T>, b: seq<T>, c: seq<T>)
    ensures a + (b + c) == (a + b) + c
  {
  }

  /** `extractEventJsonLd`: the `re.exec` loop over the script blocks. */
  method ExtractEventJsonLd(html: Option<string>, parse: string -> Option<Json>, stringify: Json -> string)
    returns (r: string)
    ensures r == LdText(html, parse, stringify)
  {
    if html.None? || html.value == "" {
      return "";
    }
    var s := html.value;
    var blocks: seq<string> := [];
    var pos: nat := 0;
    var at := LdMatcher(s);
    ghost var done: seq<string> := [];
    var m := NextMatch(s, pos, at);
    while m.Some?
      invariant pos <= |s| && m == NextMatch(s, pos, at)
      invariant done + Captures(s, pos, at) == Captures(s, 0, at)
      invariant blocks == EventsOf(done, parse, stringify)
      decreases |s| - pos
    {
      var a, c, e := m.value.0, m.value.1, m.value.2;
      var more := BlockTexts(s[a..c], parse, stringify);
      CapturesStep(s, pos, at, a, c, e);
      AppendAssoc(done, [s[a..c]], Captures(s, e, at));
      EventsOfSnoc(done, s[a..c], parse, stringify);
      blocks := blocks + more;
      done := done + [s[a..c]];
      pos := e;
      assert done + Captures(s, pos, at) == Captures(s, 0, at);
      m := NextMatch(s, pos, at);
    }
    assert Captures(s, pos, at) == [];
    assert done == Captures(s, 0, at);
    if |blocks| == 0 {
      return "";
    }
    return LdHeader + Join(blocks, "\n");
  }

  // ---------------------------------------------------------------------------------------
  // `fetchViaJinaAI`

  /**
   * The reply to one HTTP request: `Failed` is a network error, a timeout or a status of 500 or
   * more (axios rejects those); `Reply` carries the status and the body when it is a string.
   */
  datatype HttpReply = Failed(message: string) | Reply(status: int, body: Option<string>)

  const JinaMinLength := 100
  const DirectMinLength := 300

  /** The first truthy value of `vs` (`a || b || …`), `None` when there is none. */
  function FirstTruthy(vs: seq<Option<Json>>): (r: Option<Json>)
    ensures r.Some? ==> JTruthy(r.value) && r in vs
    ensures r.None? ==> forall i :: 0 <= i < |vs| ==> !OTruthy(vs[i])
  {
    if vs == [] then None
    else if OTruthy(vs[0]) then Some(vs[0].value)
    else
      var r := FirstTruthy(vs[1..]);
      assert r.Some? ==> r in vs[1..];
      r
  }

  /**
   * The text of a Jina answer: a JSON object gives its first truthy `markdown`, `content`,
   * `text`, `data.content` or `data.text`, or the body itself when none is truthy; a truthy
   * value that is not a string makes the attempt fail (`None`).
   */
  function JinaText(body: string, parse: string -> Option<Json>): (r: Option<string>)
    requires body != ""
    ensures r.Some? ==> r.value != ""
  {
    match parse(body)
    case Some(p) =>
      if p.JObj? || p.JArr? then
        var data := Prop(p, "data");
        match FirstTruthy([Prop(p, "markdown"), Prop(p, "content"), Prop(p, "text"),
                           OptProp(data, "content"), OptProp(data, "text")])
        case None => Some(body)
        case Some(v) => if v.JStr? then Some(v.s) else None
      else Some(body)
    case None => Some(body)
  }

  /** Neither end of `s` is white space. */
  predicate Trimmed(s: string) {
    s == [] || (!IsSpace(s[0]) && !IsSpace(s[|s| - 1]))
  }

  /** The page a Jina answer makes: its JSON-LD events, then its text, trimmed. */
  function PageText(body: string, parse: string -> Option<Json>, stringify: Json -> string): (r: string)
    ensures Trimmed(r)
  {
    var joined := LdText(Some(body), parse, stringify) + "\n\n" + Trim(body);
    TrimEnds(joined);
    Trim(joined)
  }

  /** One attempt of the fallback: the page text, or `None` when the attempt throws. */
  function JinaPage(reply: HttpReply, parse: string -> Option<Json>, stringify: Json -> string): (r: Option<string>)
    ensures r.Some? ==> Length16(r.value) >= JinaMinLength
    ensures r.Some? ==> Trimmed(r.value)
    ensures r.Some? ==> reply.Reply? && reply.status < 400 && reply.body.Some? && reply.body.value != ""
  {
    if reply.Failed? || reply.status >= 400 then None
    else if reply.body.None? || reply.body.value == "" then None
    else match JinaText(reply.body.value, parse)
      case None => None
      case Some(body) =>
        var page := PageText(body, parse, stringify);
        if Length16(page) < JinaMinLength then None else Some(page)
  }

  /** `for (attempt = 0; attempt <= retries; attempt++)`: how many attempts there are at most. */
  function AttemptCount(retries: int): nat {
    if retries < 0 then 0 else retries + 1
  }

  function Pow2(n: nat): (r: nat)
    ensures r >= 1
  {
    if n == 0 then 1 else 2 * Pow2(n - 1)
  }

  /** The wait before attempt `attempt` ≥ 1: `250 * 2^(attempt - 1)` ms. */
  function Backoff(attempt: nat): nat
    requires attempt >= 1
  {
    250 * Pow2(attempt - 1)
  }

  /** The waits before the first `n` attempts: none before the first, then doubling from 250 ms. */
  function Schedule(n: nat): (w: seq<nat>)
    ensures |w| == if n == 0 then 0 else n - 1
    ensures forall i :: 0 <= i < |w| ==> w[i] == 250 * Pow2(i)
  {
    if n <= 1 then [] else Schedule(n - 1) + [Backoff(n - 1)]
  }

  /** The page of every attempt, by attempt number. */
  function Attempts(replies: nat -> HttpReply, parse: string -> Option<Json>, stringify: Json -> string)
    : nat -> Option<string>
  {
    (k: nat) => JinaPage(replies(k), parse, stringify)
  }

  /** The first attempt in `[k, n)` whose page is usable. */
  function FirstUsable(pages: nat -> Option<string>, k: nat, n: nat): (r: Option<nat>)
    ensures r.Some? ==> k <= r.value < n && pages(r.value).Some?
    ensures r.Some? ==> forall j :: k <= j < r.value ==> pages(j).None?
    ensures r.None? ==> forall j :: k <= j < n ==> pages(j).None?
    decreases n - k
  {
    if k >= n then None
    else if pages(k).Some? then Some(k)
    else FirstUsable(pages, k + 1, n)
  }

  /** The outcome of the fallback: the page of the first usable attempt, if any. */
  function JinaResult(replies: nat -> HttpReply, retries: int, parse: string -> Option<Json>,
                      stringify: Json -> string): (r: Option<string>)
    ensures r.Some? ==> Length16(r.value) >= JinaMinLength && Trimmed(r.value)
  {
    FirstPage(Attempts(replies, parse, stringify), AttemptCount(retries))
  }

  /** The outcome of the first usable attempt among the first `n`, if any. */
  function FirstPage(pages: nat -> Option<string>, n: nat): (r: Option<string>)
    ensures r.Some? ==> exists j :: 0 <= j < n && pages(j) == r
  {
    match FirstUsable(pages, 0, n)
    case None => None
    case Some(j) => pages(j)
  }

  /**
   * The retry loop of `fetchViaJinaAI`: attempt `k` yields `pages(k)`, a page or a throw
   * (`None`); attempt `k` ≥ 1 first waits `250 * 2^(k - 1)` ms. It reports the page of the
   * first attempt that succeeds, how many attempts were made and the waits before them.
   */
  method Retry(pages: nat -> Option<string>, retries: int) returns (page: Option<string>, attempts: nat, waits: seq<nat>)
    ensures page == FirstPage(pages, AttemptCount(retries))
    ensures attempts <= AttemptCount(retries)
    ensures var first := FirstUsable(pages, 0, AttemptCount(retries));
      attempts == if first.Some? then first.value + 1 else AttemptCount(retries)
    ensures waits == Schedule(attempts)
  {
    waits := [];
    var attempt := 0;
    while attempt <= retries
      invariant 0 <= attempt <= AttemptCount(retries)
      invariant waits == Schedule(attempt)
      invariant forall j :: 0 <= j < attempt ==> pages(j).None?
    {
      if attempt > 0 {
        waits := waits + [Backoff(attempt)];
      }
      var p := pages(attempt);
      if p.Some? {
        FirstUsableAt(pages, AttemptCount(retries), attempt);
        return p, attempt + 1, waits;
      }
      attempt := attempt + 1;
    }
    FirstUsableNone(pages, AttemptCount(retries));
    return None, attempt, waits;
  }

  /** `fetchViaJinaAI(url)`; `replies(k)` is the reply to attempt `k`. */
  method FetchViaJina(replies: nat -> HttpReply, retries: int, parse: string -> Option<Json>, stringify: Json -> string)
    returns (page: Option<string>, attempts: nat, waits: seq<nat>)
    ensures page == JinaResult(replies, retries, parse, stringify)
    ensures page.Some? ==> Length16(page.value) >= JinaMinLength
    ensures attempts <= AttemptCount(retries) && waits == Schedule(attempts)
  {
    page, attempts, waits := Retry(Attempts(replies, parse, stringify), retries);
  }

  lemma FirstUsableAt(pages: nat -> Option<string>, n: nat, j: nat)
    requires j < n && pages(j).Some?
    requires forall i :: 0 <= i < j ==> pages(i).None?
    ensures FirstUsable(pages, 0, n) == Some(j)
  {
  }

  lemma FirstUsableNone(pages: nat -> Option<string>, n: nat)
    requires forall i :: 0 <= i < n ==> pages(i).None?
    ensures FirstUsable(pages, 0, n) == None
  {
  }

  /** The retry schedule: the `k`-th wait is twice the one before, starting at 250 ms. */
  lemma ScheduleDoubles(n: nat, k: nat)
    requires 1 <= k < |Schedule(n)|
    ensures Schedule(n)[k] == 2 * Schedule(n)[k - 1]
    ensures Schedule(n)[0] == 250
  {
  }

  // ---------------------------------------------------------------------------------------
  // `fetchContentFromUrl`

  /** What a social-media helper answers (the fields the route reads). */
  datatype Media = Media(caption: Option<string>, description: Option<string>, thumbnailUrl: Option<string>,
                         imageUrl: Option<string>, coverUrl: Option<string>)

  /** The `metadata` of fetched content. */
  datatype Meta = NoMeta | SocialMeta(media: Media) | JinaMeta(directError: string)

  datatype Fetched = Fetched(platform: Platform, text: string, imageUrl: Option<string>, metadata: Meta)

  /** `a || b || null` on optional strings. */
  function OrElse(a: Option<string>, b: Option<string>): (r: Option<string>)
    ensures r.Some? ==> r.value != ""
    ensures Truthy(a) ==> r == a
  {
    if Truthy(a) then a else if Truthy(b) then b else None
  }

  /** `d?.field` reads nothing from an absent answer. */
  const NoMedia := Media(None, None, None, None, None)

  /** The content of a social post: its caption or description, and its preview image. */
  function SocialFetched(p: Platform, d: Option<Media>): (r: Fetched)
    requires p != Web
    ensures r.platform == p && (r.metadata == NoMeta || r.metadata.SocialMeta?)
  {
    var meta := if d.Some? then SocialMeta(d.value) else NoMeta;
    var m := if d.Some? then d.value else NoMedia;
    match p
    case Instagram => Fetched(p, Or(m.caption, ""), OrElse(m.thumbnailUrl, m.imageUrl), meta)
    case TikTok => Fetched(p, Or(m.description, ""), OrElse(m.coverUrl, m.thumbnailUrl), meta)
    case YouTube => Fetched(p, Or(m.description, ""), OrElse(m.thumbnailUrl, None), meta)
  }

  /**
   * The direct fetch of a web page: its JSON-LD events and its text, trimmed; an error
   * status or fewer than 300 UTF-16 code units fails with the message the fallback records.
   */
  function DirectText(reply: HttpReply, parse: string -> Option<Json>, stringify: Json -> string): (r: Result<string, string>)
    ensures r.Ok? ==> Length16(r.value) >= DirectMinLength
    ensures reply.Failed? ==> r == Err(reply.message)
    ensures reply.Reply? && reply.status >= 400 ==> r.Err?
  {
    match reply
    case Failed(message) => Err(message)
    case Reply(status, body) =>
      if status >= 400 then Err("Website returned status " + IntToString(status))
      else
        var combined := Trim(LdText(body, parse, stringify) + "\n\n" + StripHtml(body));
        if Length16(combined) < DirectMinLength then Err("Direct fetch returned insufficient content") else Ok(combined)
  }

  /** The text of a fallback page: the page, then its HTML-stripped form, trimmed. */
  function FallbackText(page: string): string {
    Trim(page + "\n\n" + StripHtml(Some(page)))
  }

  /** Trimming after a text with no white space at either end keeps all of it. */
  lemma TrimKeepsCore(a: string, b: string)
    requires a != [] && Trimmed(a)
    ensures |Trim(a + b)| >= |a| && Trim(a + b)[..|a|] == a
    ensures Length16(Trim(a + b)) >= Length16(a)
  {
    var s := a + b;
    assert s[0] == a[0] && s[|a| - 1] == a[|a| - 1];
    TrimStartSlice(s);
    assert TrimStart(s) == s;
    TrimEndSlice(s);
    var t := Trim(s);
    assert t == s[..|t|];
    assert t == a + t[|a|..];
    Length16Append(a, t[|a|..]);
  }

  /** The fallback text keeps the whole page it was made from. */
  lemma FallbackKeepsPage(page: string)
    requires page != [] && Trimmed(page)
    ensures Length16(FallbackText(page)) >= Length16(page)
  {
    TrimKeepsCore(page, "\n\n" + StripHtml(Some(page)));
    assert page + "\n\n" + StripHtml(Some(page)) == page + ("\n\n" + StripHtml(Some(page)));
  }

  /** `fetchContentFromUrl(url)` as a value: social helpers, then the direct fetch, then Jina. */
  function Content(url: string, social: (Platform, string) -> Outcome<Option<Media>>, direct: HttpReply,
                   replies: nat -> HttpReply, retries: int, parse: string -> Option<Json>,
                   stringify: Json -> string): (r: Outcome<Fetched>)
    ensures r.Returned? ==> r.value.platform == DetectPlatform(Some(url))
    ensures r.Returned? && r.value.platform == Web ==> r.value.imageUrl.None?
    ensures r.Returned? && r.value.metadata.NoMeta? && r.value.platform == Web ==>
      Length16(r.value.text) >= DirectMinLength
    ensures r.Returned? && r.value.metadata.JinaMeta? ==>
      DirectText(direct, parse, stringify).Err? && Length16(r.value.text) >= JinaMinLength
  {
    var p := DetectPlatform(Some(url));
    if p != Web then
      match social(p, url)
      case Threw => Threw
      case Returned(d) => Returned(SocialFetched(p, d))
    else match DirectText(direct, parse, stringify)
      case Ok(text) => Returned(Fetched(Web, text, None, NoMeta))
      case Err(message) =>
        var jina := JinaResult(replies, retries, parse, stringify);
        if jina.None? then Threw
        else
          var page := jina.value;
          FallbackKeepsPage(page);
          Returned(Fetched(Web, FallbackText(page), None, JinaMeta(message)))
  }

  /** The fallback runs only for web pages whose direct fetch failed. */
  lemma FallbackOnlyAfterDirect(url: string, social: (Platform, string) -> Outcome<Option<Media>>, direct: HttpReply,
                                replies: nat -> HttpReply, retries: int, parse: string -> Option<Json>,
                                stringify: Json -> string)
    requires DetectPlatform(Some(url)) == Web && DirectText(direct, parse, stringify).Ok?
    ensures Content(url, social, direct, replies, retries, parse, stringify) ==
      Returned(Fetched(Web, DirectText(direct, parse, stringify).value, None, NoMeta))
  {
  }

  /** `fetchContentFromUrl(url)`, calling the fallback's retry loop. */
  method FetchContent(url: string, social: (Platform, string) -> Outcome<Option<Media>>, direct: HttpReply,
                      replies: nat -> HttpReply, retries: int, parse: string -> Option<Json>,
                      stringify: Json -> string)
    returns (r: Outcome<Fetched>)
    ensures r == Content(url, social, direct, replies, retries, parse, stringify)
  {
    var p := DetectPlatform(Some(url));
    if p != Web {
      var d := social(p, url);
      if d.Threw? {
        return Threw;
      }
      return Returned(SocialFetched(p, d.value));
    }
    var text := DirectText(direct, parse, stringify);
    if text.Ok? {
      return Returned(Fetched(Web, text.value, None, NoMeta));
    }
    var page, _, _ := FetchViaJina(replies, retries, parse, stringify);
    if page.None? {
      return Threw;
    }
    return Returned(Fetched(Web, FallbackText(page.value), None, JinaMeta(text.error)));
  }

  // ---------------------------------------------------------------------------------------
  // `POST /import` and `POST /scan`

  const ContentLimit := 12000
  const JpegPrefix := "data:image/jpeg;base64,"


  /** The user message of the import completion. */
  function ImportMessage(url: string, f: Fetched): (m: string)
    ensures var head := "SOURCE_URL:\n" + url + "\n\nSOURCE_PLATFORM:\n" + PlatformName(f.platform) + "\n\nCONTENT:\n";
      |head| <= |m| && m[..|head|] == head &&
      var content := m[|head|..];
      && StartsWith(f.text, content)
      && Length16(content) <= ContentLimit
      && (Length16(f.text) <= ContentLimit ==> content == f.text)
      && (|content| < |f.text| ==> Length16(content) + Units(f.text[|content|]) > ContentLimit)
  {
    var head := "SOURCE_URL:\n" + url + "\n\nSOURCE_PLATFORM:\n" + PlatformName(f.platform) + "\n\nCONTENT:\n";
    var content := Prefix16(f.text, ContentLimit);
    assert (head + content)[|head|..] == content;
    head + content
  }

  /** `content || "{}"`: an empty reply parses as the empty object. */
  function RawReply(content: string): string {
    if content == "" then "{}" else content
  }

  /** The properties `...parsed` spreads: those of an object; any other reply spreads none here. */
  function Spread(parsed: Json): map<string, Json> {
    if parsed.JObj? then parsed.fields else map[]
  }

  /** `parsed.imageUrl || fetched.imageUrl || null` */
  function ImageChoice(parsed: Json, fetched: Option<string>): (j: Json)
    ensures OTruthy(Prop(parsed, "imageUrl")) ==> j == Prop(parsed, "imageUrl").value
    ensures !OTruthy(Prop(parsed, "imageUrl")) && Truthy(fetched) ==> j == JStr(fetched.value)
    ensures !OTruthy(Prop(parsed, "imageUrl")) && !Truthy(fetched) ==> j == JNull
  {
    if OTruthy(Prop(parsed, "imageUrl")) then Prop(parsed, "imageUrl").value
    else if Truthy(fetched) then JStr(fetched.value)
    else JNull
  }

  /** The import answer: the model's fields, overridden by the source, the platform, the image and `fromCache`. */
  function ImportAnswer(parsed: Json, url: string, f: Fetched): (a: map<string, Json>)
    ensures a.Keys == Spread(parsed).Keys + {"sourceUrl", "sourcePlatform", "imageUrl", "fromCache"}
    ensures a["sourceUrl"] == JStr(url) && a["sourcePlatform"] == JStr(PlatformName(f.platform))
    ensures a["imageUrl"] == ImageChoice(parsed, f.imageUrl) && a["fromCache"] == JBool(false)
    ensures forall k :: k in Spread(parsed) && k !in {"sourceUrl", "sourcePlatform", "imageUrl", "fromCache"} ==>
      a[k] == Spread(parsed)[k]
  {
    Spread(parsed)["sourceUrl" := JStr(url)]["sourcePlatform" := JStr(PlatformName(f.platform))]
      ["imageUrl" := ImageChoice(parsed, f.imageUrl)]["fromCache" := JBool(false)]
  }

  /** The model's reply to a prompt, parsed; `None` when the call throws or the text is not JSON. */
  function Reply(message: string, complete: string -> Outcome<string>, parse: string -> Option<Json>): Option<Json> {
    match complete(message)
    case Threw => None
    case Returned(content) => parse(RawReply(content))
  }

  /**
   * The import route after the content is fetched: any throw is the 500 answer, and so is a
   * reply that parses to `null`, whose `parsed.imageUrl` throws.
   */
  function ImportResult(fetched: Outcome<Fetched>, url: string, complete: string -> Outcome<string>,
                        parse: string -> Option<Json>): (r: Result<map<string, Json>, Documents.Failure>)
    ensures r.Err? ==> r.error == Documents.ServerError
    ensures r.Ok? <==> fetched.Returned? && Reply(ImportMessage(url, fetched.value), complete, parse).Some?
                       && Reply(ImportMessage(url, fetched.value), complete, parse).value != JNull
    ensures r.Ok? ==> r.value == ImportAnswer(Reply(ImportMessage(url, fetched.value), complete, parse).value, url, fetched.value)
  {
    match fetched
    case Threw => Err(Documents.ServerError)
    case Returned(f) =>
      match complete(ImportMessage(url, f))
      case Threw => Err(Documents.ServerError)
      case Returned(content) =>
        match parse(RawReply(content))
        case None => Err(Documents.ServerError)
        case Some(JNull) => Err(Documents.ServerError)
        case Some(parsed) => Ok(ImportAnswer(parsed, url, f))
  }

  /** `POST /import`: a falsy `url` is the 400 answer; otherwise fetch, complete and answer. */
  method Import(url: Option<string>, social: (Platform, string) -> Outcome<Option<Media>>, direct: HttpReply,
                replies: nat -> HttpReply, retries: int, complete: string -> Outcome<string>,
                parse: string -> Option<Json>, stringify: Json -> string)
    returns (r: Result<map<string, Json>, Documents.Failure>)
    ensures !Truthy(url) ==> r == Err(Documents.BadRequest)
    ensures Truthy(url) ==>
      r == ImportResult(Content(url.value, social, direct, replies, retries, parse, stringify), url.value, complete, parse)
  {
    if !Truthy(url) {
      return Err(Documents.BadRequest);
    }
    var fetched := FetchContent(url.value, social, direct, replies, retries, parse, stringify);
    r := ImportResult(fetched, url.value, complete, parse);
  }

  /** The image sent to the vision model: a data URL is kept, bare base64 gets the JPEG prefix. */
  function DataUrl(imageBase64: string): (r: string)
    ensures StartsWith(r, "data:")
    ensures StartsWith(imageBase64, "data:") ==> r == imageBase64
    ensures !StartsWith(imageBase64, "data:") ==> r == JpegPrefix + imageBase64
  {
    if StartsWith(imageBase64, "data:") then imageBase64
    else
      assert (JpegPrefix + imageBase64)[..5] == "data:";
      JpegPrefix + imageBase64
  }

  /** Prefixing is done at most once: a data URL passes through unchanged. */
  lemma DataUrlIdempotent(imageBase64: string)
    ensures DataUrl(DataUrl(imageBase64)) == DataUrl(imageBase64)
  {
    var once := DataUrl(imageBase64);
    assert StartsWith(once, "data:");
  }

  /** The scan answer: the model's fields, overridden by a null source, the camera platform and the image. */
  function ScanAnswer(parsed: Json): (a: map<string, Json>)
    ensures a.Keys == Spread(parsed).Keys + {"sourceUrl", "sourcePlatform", "imageUrl"}
    ensures a["sourceUrl"] == JNull && a["sourcePlatform"] == JStr("camera")
    ensures OTruthy(Prop(parsed, "imageUrl")) ==> a["imageUrl"] == Prop(parsed, "imageUrl").value
    ensures !OTruthy(Prop(parsed, "imageUrl")) ==> a["imageUrl"] == JNull
    ensures forall k :: k in Spread(parsed) && k !in {"sourceUrl", "sourcePlatform", "imageUrl"} ==>
      a[k] == Spread(parsed)[k]
  {
    var image := if OTruthy(Prop(parsed, "imageUrl")) then Prop(parsed, "imageUrl").value else JNull;
    Spread(parsed)["sourceUrl" := JNull]["sourcePlatform" := JStr("camera")]["imageUrl" := image]
  }

  /**
   * `POST /scan`: a falsy `imageBase64` is the 400 answer; a truthy value that is not a
   * string throws at `startsWith` (500), as does a failed call, a reply that is not JSON
   * and one that parses to `null`.
   */
  function Scan(imageBase64: Option<Json>, vision: string -> Outcome<string>, parse: string -> Option<Json>)
    : (r: Result<map<string, Json>, Documents.Failure>)
    ensures !OTruthy(imageBase64) ==> r == Err(Documents.BadRequest)
    ensures OTruthy(imageBase64) && !imageBase64.value.JStr? ==> r == Err(Documents.ServerError)
    ensures OTruthy(imageBase64) && imageBase64.value.JStr? ==>
      var reply := Reply(DataUrl(imageBase64.value.s), vision, parse);
      if reply.Some? && reply.value != JNull then r == Ok(ScanAnswer(reply.value)) else r == Err(Documents.ServerError)
  {
    if !OTruthy(imageBase64) then Err(Documents.BadRequest)
    else if !imageBase64.value.JStr? then Err(Documents.ServerError)
    else match vision(DataUrl(imageBase64.value.s))
      case Threw => Err(Documents.ServerError)
      case Returned(content) =>
        match parse(RawReply(content))
        case None => Err(Documents.ServerError)
        case Some(JNull) => Err(Documents.ServerError)
        case Some(parsed) => Ok(ScanAnswer(parsed))
  }
}

=== FILE: generated_history.dfy ===
/**
 * The history of AI planner outputs (`/generated-history/plans`): each signed-in user
 * stores, lists, reads and deletes their own generated plans.
 */
module GeneratedHistory {
  import opened Wrappers
  import JsStr
  import opened JsNum
  import opened Paging
  import opened Documents

  /** A stored plan (`generatedPlans/{id}`); missing fields read as `Undefined`. */
  datatype PlanDoc = PlanDoc(
    userId: Value, kind: Value, title: Value, input: Value, output: Value,
    createdAt: Value, updatedAt: Value)

  /**
   * The request body of a create (`req.body || {}`, so an absent body has every field
   * `Undefined`). `outputTitle` is the `title` property of `output` when `output` is an
   * object.
   */
  datatype PlanBody = PlanBody(kind: Value, title: Value, input: Value, output: Value, outputTitle: Value)

  /** One row of the plan list. */
  datatype PlanSummary = PlanSummary(
    id: string, kind: Value, title: Value, createdAt: Value, updatedAt: Value, input: Value)

  datatype PlanListing = PlanListing(plans: seq<PlanSummary>, pagination: Pagination)

  const MaxLimit := 50
  const MaxLoaded := 500
  const DefaultKind := "itinerary"
  const DefaultTitle := "AI Plan"

  /** A row of the list, with `kind`, `title`, the timestamps and `input` defaulted by `||`. */
  function SummaryOf(id: string, p: PlanDoc): (s: PlanSummary)
    ensures Truthy(s.kind) && Truthy(s.title)
    ensures s.id == id
    ensures Truthy(p.kind) ==> s.kind == p.kind
    ensures !Truthy(p.kind) ==> s.kind == Str(DefaultKind)
    ensures Truthy(p.title) ==> s.title == p.title
    ensures !Truthy(p.title) ==> s.title == Str(DefaultTitle)
    ensures Truthy(s.createdAt) || s.createdAt == Null
    ensures Truthy(s.input) || s.input == Null
  {
    PlanSummary(id, OrValue(p.kind, Str(DefaultKind)), OrValue(p.title, Str(DefaultTitle)),
                OrValue(p.createdAt, Null), OrValue(p.updatedAt, Null), OrValue(p.input, Null))
  }

  /** `body.output || {}` */
  function OutputOf(body: PlanBody): Value {
    OrValue(body.output, Obj)
  }

  /**
   * `output?.title`: only an object output carries a title; the `{}` that replaces a falsy
   * output has none.
   */
  function OutputTitle(body: PlanBody): Value {
    if body.output.Obj? then body.outputTitle else Undefined
  }

  /** `s.trim() || fallback` */
  function NonBlankOr(s: string, fallback: string): (t: string)
    ensures fallback != "" ==> t != ""
    ensures JsStr.Trim(s) != "" ==> t == JsStr.Trim(s)
    ensures JsStr.Trim(s) == "" ==> t == fallback
  {
    var trimmed := JsStr.Trim(s);
    if trimmed == "" then fallback else trimmed
  }

  /**
   * `(body.title || output?.title || "AI Plan").toString().trim() || "AI Plan"`: the first
   * truthy candidate as text, trimmed, with the default title when that leaves nothing.
   */
  function TitleOf(body: PlanBody): (t: string)
    ensures t != ""
    ensures body.title.Str? && JsStr.Trim(body.title.s) != "" ==> t == JsStr.Trim(body.title.s)
    ensures Truthy(body.title) && JsStr.Trim(ToText(body.title)) == "" ==> t == DefaultTitle
    ensures !Truthy(body.title) && Truthy(OutputTitle(body)) ==>
      var fromOutput := JsStr.Trim(ToText(OutputTitle(body)));
      t == (if fromOutput != "" then fromOutput else DefaultTitle)
    ensures !Truthy(body.title) && !Truthy(OutputTitle(body)) ==> t == DefaultTitle
  {
    if Truthy(body.title) then NonBlankOr(ToText(body.title), DefaultTitle)
    else if Truthy(OutputTitle(body)) then NonBlankOr(ToText(OutputTitle(body)), DefaultTitle)
    else DefaultTitle
  }

  /** A created title never starts or ends with white space. */
  lemma TitleTrimmed(body: PlanBody)
    ensures var t := TitleOf(body);
      !JsStr.IsSpace(t[0]) && !JsStr.IsSpace(t[|t| - 1])
  {
    if Truthy(body.title) {
      JsStr.TrimEnds(ToText(body.title));
    } else if Truthy(OutputTitle(body)) {
      JsStr.TrimEnds(ToText(OutputTitle(body)));
    }
  }

  /** `(body.kind || "itinerary").toString()` */
  function KindOf(body: PlanBody): (k: string)
    ensures !Truthy(body.kind) ==> k == DefaultKind
    ensures body.kind.Str? && body.kind.s != "" ==> k == body.kind.s
  {
    if Truthy(body.kind) then ToText(body.kind) else DefaultKind
  }

  /** The document `POST /plans` stores; both timestamps are the one clock reading `now`. */
  function NewPlan(uid: string, body: PlanBody, now: string): (p: PlanDoc)
    ensures p.userId == Str(uid)
    ensures p.createdAt == p.updatedAt == Str(now)
    ensures p.kind == Str(KindOf(body)) && p.title == Str(TitleOf(body))
    ensures p.input == OrValue(body.input, Obj) && p.output == OutputOf(body)
    ensures Truthy(p.title) && Truthy(p.input) && Truthy(p.output)
  {
    PlanDoc(Str(uid), Str(KindOf(body)), Str(TitleOf(body)), OrValue(body.input, Obj), OutputOf(body),
            Str(now), Str(now))
  }

  class PlanStore {
    /** The `generatedPlans` collection: document id to document. */
    var plans: map<string, PlanDoc>

    constructor(plans: map<string, PlanDoc>)
      ensures this.plans == plans
    {
      this.plans := plans;
    }

    /** The caller's plans, in the query's `createdAt desc` order `order`. */
    function Owned(uid: string, order: seq<string>): (r: seq<string>)
      reads this
      ensures |r| <= |order|
      ensures forall i :: 0 <= i < |r| ==> r[i] in plans && IsUser(plans[r[i]].userId, uid)
      ensures forall id :: id in r <==> id in order && id in plans && IsUser(plans[id].userId, uid)
    {
      if order == [] then []
      else
        var id := order[0];
        (if id in plans && IsUser(plans[id].userId, uid) then [id] else []) + Owned(uid, order[1..])
    }

    /** The caller's plans keep the query's order. */
    lemma {:induction false} OwnedInOrder(uid: string, order: seq<string>)
      ensures IsSubsequence(Owned(uid, order), order)
    {
      if order != [] {
        OwnedInOrder(uid, order[1..]);
        var rest := Owned(uid, order[1..]);
        var id := order[0];
        if id in plans && IsUser(plans[id].userId, uid) {
          assert Owned(uid, order) == [id] + rest;
          assert ([id] + rest)[1..] == rest;
        } else {
          assert Owned(uid, order) == rest;
          if rest != [] {
            assert rest[0] in plans && IsUser(plans[rest[0]].userId, uid);
          }
        }
      }
    }

    /** `.limit(500)`: the first 500 of the caller's plans, all of them when there are fewer. */
    function Loaded(uid: string, order: seq<string>): (r: seq<string>)
      reads this
      ensures var owned := Owned(uid, order);
        |r| == (if |owned| < MaxLoaded then |owned| else MaxLoaded) && r == owned[..|r|]
      ensures forall i :: 0 <= i < |r| ==> r[i] in plans && IsUser(plans[r[i]].userId, uid)
    {
      Take(Owned(uid, order), MaxLoaded)
    }

    /** The rows of the plans `ids`. */
    function Summaries(ids: seq<string>): (r: seq<PlanSummary>)
      reads this
      requires forall i :: 0 <= i < |ids| ==> ids[i] in plans
      ensures |r| == |ids|
      ensures forall i :: 0 <= i < |r| ==> r[i] == SummaryOf(ids[i], plans[ids[i]])
    {
      var ps := plans;
      seq(|ids|, i requires 0 <= i < |ids| => SummaryOf(ids[i], ps[ids[i]]))
    }

    /**
     * `GET /plans`: at most 500 of the caller's newest plans are loaded; page ≥ 1 and
     * limit in [1, 50]; the page is the `(page - 1) * limit` window of the loaded plans.
     */
    function List(uid: string, order: seq<string>, rawPage: Option<string>, rawLimit: Option<string>)
      : (r: PlanListing)
      reads this
      ensures var loaded := Loaded(uid, order);
        && r.pagination == PaginationOf(ClampPage(rawPage), ClampLimit(rawLimit, "20", MaxLimit), |loaded|)
        && r.pagination.total <= MaxLoaded
        && |r.plans| <= |loaded|
      ensures r.pagination.limit.Int? ==> |r.plans| <= r.pagination.limit.v
      ensures forall i :: 0 <= i < |r.plans| ==>
        var id := r.plans[i].id;
        id in plans && IsUser(plans[id].userId, uid) && r.plans[i] == SummaryOf(id, plans[id])
    {
      var page := ClampPage(rawPage);
      var limit := ClampLimit(rawLimit, "20", MaxLimit);
      var loaded := Loaded(uid, order);
      var shown := PageOf(loaded, page, limit);
      var r := PlanListing(Summaries(shown), PaginationOf(page, limit, |loaded|));
      if page.Int? && limit.Int? then
        PageWindow(loaded, page.v, limit.v);
        r
      else
        NaNPage(loaded, page, limit);
        r
    }

    /**
     * The listed page is the rows of the loaded plans from `(page - 1) * limit` up to `limit`
     * further, empty past the end.
     */
    lemma ListIsWindow(uid: string, order: seq<string>, rawPage: Option<string>, rawLimit: Option<string>, page: int, limit: int)
      requires ClampPage(rawPage) == Int(page) && ClampLimit(rawLimit, "20", MaxLimit) == Int(limit)
      ensures var shown := List(uid, order, rawPage, rawLimit).plans;
        var loaded := Loaded(uid, order);
        var off := (page - 1) * limit;
        && off >= 0
        && (0 <= off < |loaded| ==> shown == Summaries(loaded[off..if off + limit < |loaded| then off + limit else |loaded|]))
        && (off >= |loaded| ==> shown == [])
    {
      var loaded := Loaded(uid, order);
      assert List(uid, order, rawPage, rawLimit).plans == Summaries(PageOf(loaded, Int(page), Int(limit)));
      PageSlice(loaded, page, limit);
    }

    /** A NaN page or limit lists nothing. */
    lemma ListNaN(uid: string, order: seq<string>, rawPage: Option<string>, rawLimit: Option<string>)
      requires ClampPage(rawPage).NaN? || ClampLimit(rawLimit, "20", MaxLimit).NaN?
      ensures List(uid, order, rawPage, rawLimit).plans == []
    {
      NaNPage(Loaded(uid, order), ClampPage(rawPage), ClampLimit(rawLimit, "20", MaxLimit));
    }

    /** `GET /plans/:id` */
    function Get(uid: string, id: string): (r: Result<PlanDoc, Failure>)
      reads this
      ensures id !in plans ==> r == Err(NotFound)
      ensures id in plans && !IsUser(plans[id].userId, uid) ==> r == Err(Forbidden)
      ensures r.Ok? <==> id in plans && IsUser(plans[id].userId, uid)
      ensures r.Ok? ==> r.value == plans[id]
    {
      if id !in plans then Err(NotFound)
      else if !IsUser(plans[id].userId, uid) then Err(Forbidden)
      else Ok(plans[id])
    }

    /** `POST /plans`: the new plan is stored under the id the store hands out, and is the caller's. */
    method Create(uid: string, body: PlanBody, newId: string, now: string) returns (plan: PlanDoc)
      modifies this
      ensures plan == NewPlan(uid, body, now)
      ensures plans == old(plans)[newId := plan]
      ensures Get(uid, newId) == Ok(plan)
    {
      plan := NewPlan(uid, body, now);
      plans := plans[newId := plan];
    }

    /** `DELETE /plans/:id`: only the owner deletes, and nothing else changes. */
    method Delete(uid: string, id: string) returns (r: Result<bool, Failure>)
      modifies this
      ensures r.Err? <==> old(Get(uid, id)).Err?
      ensures r.Err? ==> r == Err(old(Get(uid, id)).error) && plans == old(plans)
      ensures r.Ok? ==> plans == old(plans) - {id}
    {
      var found := Get(uid, id);
      if found.Err? {
        return Err(found.error);
      }
      plans := plans - {id};
      return Ok(true);
    }
  }
}

=== FILE: html_text.dfy ===
/**
 * `stripHtml` of the event import: seven global regular-expression replacements, then
 * white-space collapsing and `trim()`. Each replacement is modelled by the position at
 * which its (leftmost, lazy where the expression is lazy) match starting at an index ends,
 * and `ReplaceAll` scans the text the way a global `replace` does.
 */
module HtmlText {
  import opened Wrappers
  import opened JsStr

  /** `pat`, written in lower case, occurs in `s` at `i` ignoring ASCII case (an `/i` literal). */
  predicate MatchesAtCI(s: string, pat: string, i: nat)
    decreases |pat|
  {
    i + |pat| <= |s| && (pat == [] || (LowerChar(s[i]) == pat[0] && MatchesAtCI(s, pat[1..], i + 1)))
  }

  /** The match is character by character: each character of `s`, lowered, is that of `pat`. */
  lemma {:induction false} MatchesAtCIChars(s: string, pat: string, i: nat)
    ensures MatchesAtCI(s, pat, i) <==>
      i + |pat| <= |s| && forall m :: 0 <= m < |pat| ==> LowerChar(s[i + m]) == pat[m]
    decreases |pat|
  {
    if pat != [] && i + |pat| <= |s| {
      MatchesAtCIChars(s, pat[1..], i + 1);
      if forall m :: 0 <= m < |pat| ==> LowerChar(s[i + m]) == pat[m] {
        assert forall m :: 0 <= m < |pat| - 1 ==> LowerChar(s[i + 1 + m]) == pat[1..][m] by {
          forall m | 0 <= m < |pat| - 1 ensures LowerChar(s[i + 1 + m]) == pat[1..][m] {
            assert LowerChar(s[i + (m + 1)]) == pat[m + 1];
          }
        }
      }
      if MatchesAtCI(s, pat, i) {
        forall m | 0 <= m < |pat| ensures LowerChar(s[i + m]) == pat[m] {
          if m > 0 {
            assert LowerChar(s[i + 1 + (m - 1)]) == pat[1..][m - 1];
          }
        }
      }
    }
  }

  /** The first index at or after `k` where `pat` occurs ignoring case (a lazy `[\s\S]*?pat`). */
  function FindCI(s: string, pat: string, k: nat): (r: Option<nat>)
    ensures r.Some? ==> k <= r.value && r.value + |pat| <= |s|
    decreases |s| - k
  {
    if k + |pat| > |s| then None
    else if MatchesAtCI(s, pat, k) then Some(k)
    else FindCI(s, pat, k + 1)
  }

  /** `FindCI` returns the first occurrence at or after `k`, and `None` only when there is none. */
  lemma {:induction false} FindCIFirst(s: string, pat: string, k: nat)
    ensures var r := FindCI(s, pat, k);
      && (r.Some? ==> MatchesAtCI(s, pat, r.value))
      && (r.Some? ==> forall j :: k <= j < r.value ==> !MatchesAtCI(s, pat, j))
      && (r.None? ==> forall j :: k <= j ==> !MatchesAtCI(s, pat, j))
    decreases |s| - k
  {
    if k + |pat| <= |s| && !MatchesAtCI(s, pat, k) {
      FindCIFirst(s, pat, k + 1);
    }
  }

  /** Any first occurrence at or after `k` is the one `FindCI` returns. */
  lemma FindFirst(s: string, pat: string, k: nat, j: nat)
    requires k <= j && MatchesAtCI(s, pat, j)
    requires forall i :: k <= i < j ==> !MatchesAtCI(s, pat, i)
    ensures FindCI(s, pat, k) == Some(j)
  {
    FindCIFirst(s, pat, k);
  }

  lemma FindNone(s: string, pat: string, k: nat)
    requires forall i :: k <= i ==> !MatchesAtCI(s, pat, i)
    ensures FindCI(s, pat, k) == None
  {
    FindCIFirst(s, pat, k);
  }

  /** The end of the run of ASCII letters starting at `k` (`[a-z]+` under `/i`). */
  function LetterRunEnd(s: string, k: nat): (r: nat)
    requires k <= |s|
    ensures k <= r <= |s|
    ensures forall m :: k <= m < r ==> IsAsciiLetter(s[m])
    ensures r < |s| ==> !IsAsciiLetter(s[r])
    decreases |s| - k
  {
    if k == |s| || !IsAsciiLetter(s[k]) then k else LetterRunEnd(s, k + 1)
  }

  /**
   * Where `open`, the rest of its tag up to the first `>`, and then the first `close`
   * match from `i` end, ignoring case (`open[^>]*>[\s\S]*?close`).
   */
  function Enclosed(s: string, open: string, close: string, i: nat): (e: Option<nat>)
    ensures e.Some? ==> i < e.value <= |s|
  {
    if !MatchesAtCI(s, open, i) then None
    else
      (match FindCI(s, ">", i + |open|)
       case None => None
       case Some(g) =>
         (match FindCI(s, close, g + 1)
          case None => None
          case Some(c) => Some(c + |close|)))
  }

  /** The expressions `stripHtml` replaces, in the order it applies them. */
  datatype Pattern =
    | Block(open: string, close: string)  // `<tag[^>]*>[\s\S]*?<\/tag>` with /gi
    | Comment             // `<!--[\s\S]*?-->`
    | Tag                 // `<[^>]+>`
    | Nbsp                // `&nbsp;`
    | Entity              // `&[a-z]+;` with /gi

  /** Where the match of `p` that starts at `i` ends, if one starts there. */
  function MatchEnd(p: Pattern, s: string, i: nat): (e: Option<nat>)
    ensures e.Some? ==> i < e.value <= |s|
  {
    match p
    case Block(open, close) => Enclosed(s, open, close, i)
    case Comment =>
      if !OccursAt(s, "<!--", i) then None
      else
        (match FindCI(s, "-->", i + 4)
         case None => None
         case Some(c) => Some(c + 3))
    case Tag =>
      if i < |s| && s[i] == '<' then
        (match FindCI(s, ">", i + 1)
         case None => None
         case Some(g) => if g > i + 1 then Some(g + 1) else None)
      else None
    case Nbsp =>
      if OccursAt(s, "&nbsp;", i) then Some(i + 6) else None
    case Entity =>
      if i < |s| && s[i] == '&' then
        var k := LetterRunEnd(s, i + 1);
        if k > i + 1 && k < |s| && s[k] == ';' then Some(k + 1) else None
      else None
  }

  /** `s.slice(i).replace(p, rep)` for a global expression `p`. */
  function ReplaceAll(s: string, p: Pattern, rep: string, i: nat): string
    decreases |s| - i
  {
    if i >= |s| then []
    else
      match MatchEnd(p, s, i)
      case Some(e) => rep + ReplaceAll(s, p, rep, e)
      case None => [s[i]] + ReplaceAll(s, p, rep, i + 1)
  }

  /** Everything `stripHtml` does after the script blocks are gone. */
  function AfterScripts(t: string): string {
    var b := ReplaceAll(t, Block("<style", "</style>"), "", 0);
    var c := ReplaceAll(b, Block("<noscript", "</noscript>"), "", 0);
    var d := ReplaceAll(c, Comment, "", 0);
    var e := ReplaceAll(d, Tag, " ", 0);
    var f := ReplaceAll(e, Nbsp, " ", 0);
    var g := ReplaceAll(f, Entity, " ", 0);
    Trim(ReplaceSpaceRuns(g, ' '))
  }

  /** `stripHtml(html)` for a string `html`. */
  function Strip(html: string): string {
    AfterScripts(ReplaceAll(html, Block("<script", "</script>"), "", 0))
  }

  /** A named character reference `&letters;` starts at `i`. */
  ghost predicate EntityAt(s: string, i: int) {
    0 <= i < |s| && s[i] == '&' &&
    exists k :: i + 1 < k < |s| && s[k] == ';' && forall m :: i < m < k ==> IsAsciiLetter(s[m])
  }

  ghost predicate NoEntity(s: string) {
    forall i :: !EntityAt(s, i)
  }

  predicate NoDoubleSpace(s: string) {
    forall i :: 0 <= i < |s| - 1 ==> !(IsSpace(s[i]) && IsSpace(s[i + 1]))
  }

  /** The entity expression matches at `i` exactly where a reference starts. */
  lemma EntityMatch(s: string, i: nat)
    ensures MatchEnd(Entity, s, i).Some? <==> EntityAt(s, i)
  {
    if EntityAt(s, i) {
      var k :| i + 1 < k < |s| && s[k] == ';' && forall m :: i < m < k ==> IsAsciiLetter(s[m]);
      var r := LetterRunEnd(s, i + 1);
    }
  }

  /** A reference inside a slice is one of the whole string. */
  lemma EntityInSlice(s: string, a: nat, b: nat, j: int)
    requires a <= b <= |s|
    requires EntityAt(s[a..b], j)
    ensures EntityAt(s, a + j)
  {
    var t := s[a..b];
    var k :| j + 1 < k < |t| && t[k] == ';' && forall m :: j < m < k ==> IsAsciiLetter(t[m]);
    assert forall m :: a + j < m < a + k ==> IsAsciiLetter(s[m]) by {
      forall m | a + j < m < a + k ensures IsAsciiLetter(s[m]) {
        assert s[m] == t[m - a];
      }
    }
    assert s[a + k] == ';';
  }

  lemma NoEntitySlice(s: string, a: nat, b: nat)
    requires a <= b <= |s| && NoEntity(s)
    ensures NoEntity(s[a..b])
  {
    forall j | EntityAt(s[a..b], j) ensures false {
      EntityInSlice(s, a, b, j);
    }
  }

  /** A reference after a prefix is a reference of the whole string. */
  lemma EntityAfterPrefix(x: string, y: string, j: int)
    requires EntityAt(y, j)
    ensures EntityAt(x + y, |x| + j)
  {
    var k :| j + 1 < k < |y| && y[k] == ';' && forall m :: j < m < k ==> IsAsciiLetter(y[m]);
    var s := x + y;
    assert forall m :: |x| + j < m < |x| + k ==> IsAsciiLetter(s[m]) by {
      forall m | |x| + j < m < |x| + k ensures IsAsciiLetter(s[m]) {
        assert s[m] == y[m - |x|];
      }
    }
    assert s[|x| + k] == ';';
  }

  /** The scan copies a run of letters unchanged (no reference starts at a letter). */
  lemma {:induction false} LettersCopied(s: string, i: nat, j: nat)
    requires i <= j <= |s|
    requires forall m :: i <= m < j ==> IsAsciiLetter(s[m])
    ensures ReplaceAll(s, Entity, " ", i) == s[i..j] + ReplaceAll(s, Entity, " ", j)
    decreases j - i
  {
    if i < j {
      assert MatchEnd(Entity, s, i).None?;
      LettersCopied(s, i + 1, j);
      assert s[i..j] == [s[i]] + s[i + 1..j];
    }
  }

  /** After the entity replacement no reference is left. */
  lemma {:induction false} EntitiesGone(s: string, i: nat)
    ensures NoEntity(ReplaceAll(s, Entity, " ", i))
    decreases |s| - i
  {
    var r := ReplaceAll(s, Entity, " ", i);
    if i < |s| {
      var m := MatchEnd(Entity, s, i);
      var next := if m.Some? then m.value else i + 1;
      var head := if m.Some? then ' ' else s[i];
      if m.Some? {
        ReplacedAt(s, Entity, " ", i, m.value);
      } else {
        KeptAt(s, Entity, " ", i);
      }
      var rest := ReplaceAll(s, Entity, " ", next);
      assert r == [head] + rest;
      EntitiesGone(s, next);
      forall j | EntityAt(r, j) ensures false {
        if j >= 1 {
          ShiftEntity(head, rest, j);
        } else {
          EntityNotAtStart(s, i, r);
        }
      }
    }
  }

  /**
   * Where no reference matched at an `&`, the scan copies the letters after it and then puts
   * a character that is neither a letter nor, after at least one letter, a `;`.
   */
  lemma {:induction false} ScanAfterAmpersand(s: string, i: nat)
    requires i < |s| && s[i] == '&' && MatchEnd(Entity, s, i).None?
    ensures var kk := LetterRunEnd(s, i + 1);
      var r := ReplaceAll(s, Entity, " ", i);
      && kk - i <= |r|
      && (forall q :: 0 < q < kk - i ==> r[q] == s[i + q])
      && (kk < |s| ==> kk - i < |r| && !IsAsciiLetter(r[kk - i]) && (kk > i + 1 ==> r[kk - i] != ';'))
      && (kk == |s| ==> |r| == kk - i)
  {
    var kk := LetterRunEnd(s, i + 1);
    var r := ReplaceAll(s, Entity, " ", i);
    var tail := ReplaceAll(s, Entity, " ", kk);
    AmpersandSplit(s, i);
    if kk < |s| {
      TailHead(s, kk);
      assert r[kk - i] == tail[0];
    }
  }

  /** An ampersand that starts no entity is kept, and so is the run of letters after it. */
  lemma AmpersandSplit(s: string, i: nat)
    requires i < |s| && MatchEnd(Entity, s, i).None?
    ensures var kk := LetterRunEnd(s, i + 1);
      ReplaceAll(s, Entity, " ", i) == [s[i]] + s[i + 1..kk] + ReplaceAll(s, Entity, " ", kk)
  {
    var kk := LetterRunEnd(s, i + 1);
    calc {
      ReplaceAll(s, Entity, " ", i);
      == { KeptAt(s, Entity, " ", i); }
      [s[i]] + ReplaceAll(s, Entity, " ", i + 1);
      == { LettersCopied(s, i + 1, kk); }
      [s[i]] + (s[i + 1..kk] + ReplaceAll(s, Entity, " ", kk));
    }
  }

  /** The scan from a position inside the text starts with a space or with the character there. */
  lemma TailHead(s: string, k: nat)
    requires k < |s|
    ensures var t := ReplaceAll(s, Entity, " ", k);
      |t| > 0 && (t[0] == ' ' || t[0] == s[k])
  {
    var m := MatchEnd(Entity, s, k);
    if m.Some? {
      ReplacedAt(s, Entity, " ", k, m.value);
    } else {
      KeptAt(s, Entity, " ", k);
    }
  }

  /** The first character of a scan that did not match at `i` does not start a reference. */
  lemma EntityNotAtStart(s: string, i: nat, r: string)
    requires i < |s| && MatchEnd(Entity, s, i).None?
    requires r == ReplaceAll(s, Entity, " ", i)
    ensures !EntityAt(r, 0)
  {
    if s[i] == '&' {
      ScanAfterAmpersand(s, i);
      assert r[0] == s[i];
    }
  }

  lemma RunsCons(t: string)
    requires t != [] && !IsSpace(t[0])
    ensures ReplaceSpaceRuns(t, ' ') == [t[0]] + ReplaceSpaceRuns(t[1..], ' ')
  {
  }

  lemma ConsSlices(t: string, n: nat, z: string)
    requires 0 < n <= |t|
    ensures t[1..][n - 1..] == t[n..]
    ensures [t[0]] + (t[1..][..n - 1] + z) == t[..n] + z
  {
    assert [t[0]] + t[1..][..n - 1] == t[..n];
  }

  /** Collapsing white space keeps a leading run without white space as it is. */
  lemma {:induction false} RunsKeepLetters(t: string, n: nat)
    requires n <= |t|
    requires forall m :: 0 <= m < n ==> !IsSpace(t[m])
    ensures ReplaceSpaceRuns(t, ' ') == t[..n] + ReplaceSpaceRuns(t[n..], ' ')
    decreases n
  {
    if n == 0 {
      assert t[n..] == t;
      assert t[..n] + ReplaceSpaceRuns(t, ' ') == ReplaceSpaceRuns(t, ' ');
    } else {
      RunsCons(t);
      RunsKeepLetters(t[1..], n - 1);
      ConsSlices(t, n, ReplaceSpaceRuns(t[n..], ' '));
    }
  }

  /** Collapsing white space creates no reference. */
  lemma {:induction false} RunsKeepNoEntity(s: string)
    requires NoEntity(s)
    ensures NoEntity(ReplaceSpaceRuns(s, ' '))
    decreases |s|
  {
    if s != [] {
      var r := ReplaceSpaceRuns(s, ' ');
      if IsSpace(s[0]) {
        var t := TrimStart(s);
        assert t == TrimStart(s[1..]);
        TrimStartSlice(s);
        NoEntitySlice(s, |s| - |t|, |s|);
        assert s[|s| - |t|..|s|] == t;
        RunsKeepNoEntity(t);
        var rest := ReplaceSpaceRuns(t, ' ');
        assert r == [' '] + rest;
        forall j | EntityAt(r, j) ensures false {
          if j >= 1 {
            ShiftEntity(' ', rest, j);
          }
        }
      } else {
        NoEntitySlice(s, 1, |s|);
        assert s[1..|s|] == s[1..];
        RunsKeepNoEntity(s[1..]);
        var rest := ReplaceSpaceRuns(s[1..], ' ');
        assert r == [s[0]] + rest;
        forall j | EntityAt(r, j) ensures false {
          if j >= 1 {
            ShiftEntity(s[0], rest, j);
          } else {
            RunsNoEntityAtStart(s);
          }
        }
      }
    }
  }

  /** A reference at `j >= 1` of `[c] + rest` is one of `rest`. */
  lemma ShiftEntity(c: char, rest: string, j: int)
    requires j >= 1 && EntityAt([c] + rest, j)
    ensures EntityAt(rest, j - 1)
  {
    var r := [c] + rest;
    var k :| j + 1 < k < |r| && r[k] == ';' && forall q :: j < q < k ==> IsAsciiLetter(r[q]);
    assert rest[k - 1] == r[k];
    assert forall q :: j - 1 < q < k - 1 ==> IsAsciiLetter(rest[q]) by {
      forall q | j - 1 < q < k - 1 ensures IsAsciiLetter(rest[q]) {
        assert rest[q] == r[q + 1];
      }
    }
  }

  /**
   * Collapsing white space after an `&` copies the letters that follow it and then puts a
   * character that is not a letter, and a `;` only where the input had one.
   */
  lemma RunsAfterAmpersand(s: string)
    requires s != [] && s[0] == '&'
    ensures var kk := LetterRunEnd(s, 1);
      var r := ReplaceSpaceRuns(s, ' ');
      && kk <= |r|
      && (forall q :: 0 < q < kk ==> r[q] == s[q])
      && (kk < |s| ==> kk < |r| && !IsAsciiLetter(r[kk]) && (r[kk] == ';' ==> s[kk] == ';'))
      && (kk == |s| ==> |r| == kk)
  {
    var kk := LetterRunEnd(s, 1);
    forall m | 0 <= m < kk ensures !IsSpace(s[m]) {
      if m > 0 {
        assert IsAsciiLetter(s[m]);
      }
    }
    RunsKeepLetters(s, kk);
    PrefixThenRuns(s, kk);
  }

  /** What a text that keeps `s[..kk]` and then collapses `s[kk..]` holds at and before `kk`. */
  lemma PrefixThenRuns(s: string, kk: nat)
    requires kk <= |s|
    ensures var r := s[..kk] + ReplaceSpaceRuns(s[kk..], ' ');
      && kk <= |r|
      && (forall q :: 0 <= q < kk ==> r[q] == s[q])
      && (kk < |s| ==> kk < |r| && (r[kk] == ' ' || r[kk] == s[kk]) && (IsSpace(s[kk]) || r[kk] == s[kk]))
      && (kk == |s| ==> |r| == kk)
  {
    var u := s[kk..];
    if kk < |s| {
      assert u[0] == s[kk];
    }
  }

  /**
   * A text that copies the `&` and the letters after it from `s`, and then puts a non-letter
   * that is a `;` only where `s` has one, starts a reference only where `s` does.
   */
  lemma NoReferenceAtStart(s: string, r: string, kk: nat)
    requires s != [] && r != [] && r[0] == s[0] && !EntityAt(s, 0)
    requires 1 <= kk <= |s| && kk <= |r|
    requires forall q :: 1 <= q < kk ==> IsAsciiLetter(s[q]) && r[q] == s[q]
    requires kk < |s| ==> !IsAsciiLetter(s[kk]) && kk < |r| && !IsAsciiLetter(r[kk]) && (r[kk] == ';' ==> s[kk] == ';')
    requires kk == |s| ==> |r| == kk
    ensures !EntityAt(r, 0)
  {
  }

  lemma RunsNoEntityAtStart(s: string)
    requires s != [] && !IsSpace(s[0]) && !EntityAt(s, 0)
    ensures !EntityAt(ReplaceSpaceRuns(s, ' '), 0)
  {
    if s[0] == '&' {
      RunsAfterAmpersand(s);
      RunsCons(s);
      NoReferenceAtStart(s, ReplaceSpaceRuns(s, ' '), LetterRunEnd(s, 1));
    }
  }

  /** `trim()` returns a slice of its argument. */
  lemma TrimIsSlice(s: string) returns (a: nat, b: nat)
    ensures a <= b <= |s| && Trim(s) == s[a..b]
  {
    var t := TrimStart(s);
    TrimStartSlice(s);
    TrimEndSlice(t);
    a := |s| - |t|;
    assert t == s[a..];
    b := a + |Trim(s)|;
  }

  lemma NoDoubleSpaceSlice(s: string, a: nat, b: nat)
    requires a <= b <= |s| && NoDoubleSpace(s)
    ensures NoDoubleSpace(s[a..b])
  {
    var t := s[a..b];
    forall i | 0 <= i < |t| - 1 ensures !(IsSpace(t[i]) && IsSpace(t[i + 1])) {
      assert t[i] == s[a + i] && t[i + 1] == s[a + i + 1];
    }
  }

  /**
   * What `stripHtml` promises: no white space at either end, never two white-space
   * characters in a row, and no `&letters;` reference left.
   */
  lemma StripClean(html: string)
    ensures var r := Strip(html);
      && (r == [] || (!IsSpace(r[0]) && !IsSpace(r[|r| - 1])))
      && NoDoubleSpace(r)
      && NoEntity(r)
  {
    var a := ReplaceAll(html, Block("<script", "</script>"), "", 0);
    var b := ReplaceAll(a, Block("<style", "</style>"), "", 0);
    var c := ReplaceAll(b, Block("<noscript", "</noscript>"), "", 0);
    var d := ReplaceAll(c, Comment, "", 0);
    var e := ReplaceAll(d, Tag, " ", 0);
    var f := ReplaceAll(e, Nbsp, " ", 0);
    var g := ReplaceAll(f, Entity, " ", 0);
    var h := ReplaceSpaceRuns(g, ' ');
    assert Strip(html) == Trim(h);
    TrimEnds(h);
    EntitiesGone(f, 0);
    RunsKeepNoEntity(g);
    RunsNoDoubleSpace(g);
    TrimKeepsClean(h);
  }

  /** Collapsing white space into single spaces leaves no two white-space characters in a row. */
  lemma RunsNoDoubleSpace(g: string)
    ensures NoDoubleSpace(ReplaceSpaceRuns(g, ' '))
  {
    var h := ReplaceSpaceRuns(g, ' ');
    forall i | 0 <= i < |h| - 1 ensures !(IsSpace(h[i]) && IsSpace(h[i + 1])) {
      assert h[i] == ' ' || !IsSpace(h[i]);
    }
  }

  /** `trim()` keeps a text free of references and of doubled white space. */
  lemma TrimKeepsClean(h: string)
    requires NoEntity(h) && NoDoubleSpace(h)
    ensures NoEntity(Trim(h)) && NoDoubleSpace(Trim(h))
  {
    var a, b := TrimIsSlice(h);
    NoEntitySlice(h, a, b);
    NoDoubleSpaceSlice(h, a, b);
  }

  /** `y` is the part of `s` after its first `d` characters. */
  predicate SuffixAt(s: string, y: string, d: nat) {
    |s| == d + |y| && forall i :: 0 <= i < |y| ==> s[d + i] == y[i]
  }

  lemma {:induction false} MatchShift(s: string, y: string, d: nat, pat: string, k: nat)
    requires SuffixAt(s, y, d)
    ensures MatchesAtCI(s, pat, d + k) == MatchesAtCI(y, pat, k)
    decreases |pat|
  {
    if pat != [] && k + |pat| <= |y| {
      assert s[d + k] == y[k];
      MatchShift(s, y, d, pat[1..], k + 1);
    }
  }

  /** A case-insensitive occurrence after a prefix is found at the same place, shifted. */
  lemma FindShift(s: string, y: string, d: nat, pat: string, k: nat)
    requires SuffixAt(s, y, d)
    ensures FindCI(s, pat, d + k) == (if FindCI(y, pat, k).Some? then Some(d + FindCI(y, pat, k).value) else None)
  {
    var r := FindCI(y, pat, k);
    FindCIFirst(y, pat, k);
    if r.Some? {
      forall i | d + k <= i < d + r.value ensures !MatchesAtCI(s, pat, i) {
        MatchShift(s, y, d, pat, i - d);
      }
      MatchShift(s, y, d, pat, r.value);
      FindFirst(s, pat, d + k, d + r.value);
    } else {
      forall i | d + k <= i ensures !MatchesAtCI(s, pat, i) {
        MatchShift(s, y, d, pat, i - d);
      }
      FindNone(s, pat, d + k);
    }
  }

  /** A first occurrence inside `x` stays the first one when more text follows. */
  lemma FindExtend(x: string, y: string, pat: string, k: nat, j: nat)
    requires FindCI(x, pat, k) == Some(j)
    ensures FindCI(x + y, pat, k) == Some(j)
  {
    FindCIFirst(x, pat, k);
    forall i | k <= i <= j ensures MatchesAtCI(x + y, pat, i) == MatchesAtCI(x, pat, i) {
      MatchPrefix(x, y, pat, i);
    }
    FindFirst(x + y, pat, k, j);
  }

  /** Text after the end of a match does not change it. */
  lemma {:induction false} MatchPrefix(x: string, y: string, pat: string, i: nat)
    requires i + |pat| <= |x|
    ensures MatchesAtCI(x + y, pat, i) == MatchesAtCI(x, pat, i)
    decreases |pat|
  {
    if pat != [] {
      assert (x + y)[i] == x[i];
      MatchPrefix(x, y, pat[1..], i + 1);
    }
  }

  /** An enclosed match after a prefix is the same match, shifted. */
  lemma EnclosedShift(s: string, y: string, d: nat, open: string, close: string, j: nat)
    requires SuffixAt(s, y, d)
    ensures Enclosed(s, open, close, d + j) ==
      (if Enclosed(y, open, close, j).Some? then Some(d + Enclosed(y, open, close, j).value) else None)
  {
    MatchShift(s, y, d, open, j);
    FindShift(s, y, d, ">", j + |open|);
    var g := FindCI(y, ">", j + |open|);
    if g.Some? {
      FindShift(s, y, d, close, g.value + 1);
    }
  }

  lemma ReplacedAt(s: string, p: Pattern, rep: string, i: nat, e: nat)
    requires i < |s| && MatchEnd(p, s, i) == Some(e)
    ensures ReplaceAll(s, p, rep, i) == rep + ReplaceAll(s, p, rep, e)
  {
  }

  /** A match replaced by nothing is dropped. */
  lemma DroppedAt(s: string, p: Pattern, i: nat, e: nat)
    requires i < |s| && MatchEnd(p, s, i) == Some(e)
    ensures ReplaceAll(s, p, "", i) == ReplaceAll(s, p, "", e)
  {
    ReplacedAt(s, p, "", i, e);
    assert "" + ReplaceAll(s, p, "", e) == ReplaceAll(s, p, "", e);
  }

  lemma KeptAt(s: string, p: Pattern, rep: string, i: nat)
    requires i < |s| && MatchEnd(p, s, i).None?
    ensures ReplaceAll(s, p, rep, i) == [s[i]] + ReplaceAll(s, p, rep, i + 1)
  {
  }

  /** The block scan of `s` from the end of its prefix is the block scan of the suffix `y`. */
  lemma {:induction false} ReplaceBlocksShift(s: string, y: string, d: nat, open: string, close: string, j: nat)
    requires SuffixAt(s, y, d)
    ensures ReplaceAll(s, Block(open, close), "", d + j) == ReplaceAll(y, Block(open, close), "", j)
    decreases |y| - j, 1
  {
    if j < |y| {
      var m := MatchEnd(Block(open, close), y, j);
      if m.Some? {
        ShiftDropped(s, y, d, open, close, j, m.value);
      } else {
        ShiftKept(s, y, d, open, close, j);
      }
    } else {
      assert d + j >= |s|;
    }
  }

  /** The block scan of `x + y` from the end of `x` is the block scan of `y`. */
  lemma BlocksAfterPrefix(x: string, y: string, open: string, close: string)
    ensures ReplaceAll(x + y, Block(open, close), "", |x|) == ReplaceAll(y, Block(open, close), "", 0)
  {
    assert SuffixAt(x + y, y, |x|);
    ReplaceBlocksShift(x + y, y, |x|, open, close, 0);
  }

  /** A block dropped from the suffix is dropped from the whole string too. */
  lemma {:induction false} ShiftDropped(s: string, y: string, d: nat, open: string, close: string, j: nat, e: nat)
    requires SuffixAt(s, y, d) && j < |y| && MatchEnd(Block(open, close), y, j) == Some(e)
    ensures ReplaceAll(s, Block(open, close), "", d + j) == ReplaceAll(y, Block(open, close), "", j)
    decreases |y| - j, 0
  {
    BlockEndShift(s, y, d, open, close, j, e);
    calc {
      ReplaceAll(s, Block(open, close), "", d + j);
      == { DroppedAt(s, Block(open, close), d + j, d + e); }
      ReplaceAll(s, Block(open, close), "", d + e);
      == { ReplaceBlocksShift(s, y, d, open, close, e); }
      ReplaceAll(y, Block(open, close), "", e);
      == { DroppedAt(y, Block(open, close), j, e); }
      ReplaceAll(y, Block(open, close), "", j);
    }
  }

  lemma BlockEndShift(s: string, y: string, d: nat, open: string, close: string, j: nat, e: nat)
    requires SuffixAt(s, y, d) && MatchEnd(Block(open, close), y, j) == Some(e)
    ensures d + j < |s| && MatchEnd(Block(open, close), s, d + j) == Some(d + e)
  {
    EnclosedShift(s, y, d, open, close, j);
  }

  /** A character kept in the suffix is kept in the whole string too. */
  lemma {:induction false} ShiftKept(s: string, y: string, d: nat, open: string, close: string, j: nat)
    requires SuffixAt(s, y, d) && j < |y| && MatchEnd(Block(open, close), y, j).None?
    ensures ReplaceAll(s, Block(open, close), "", d + j) == ReplaceAll(y, Block(open, close), "", j)
    decreases |y| - j, 0
  {
    ReplaceBlocksShift(s, y, d, open, close, j + 1);
    EnclosedShift(s, y, d, open, close, j);
    KeptAt(s, Block(open, close), "", d + j);
    KeptAt(y, Block(open, close), "", j);
    assert s[d + j] == y[j];
  }




  /**
   * Script blocks go before tags are replaced: a leading script whose code holds no closing
   * tag of its own leaves no trace, whatever `<` or `>` its code contains.
   */
  lemma ScriptBlockDropped(code: string, rest: string)
    requires FindCI(code + "</script>", "</script>", 0) == Some(|code|)
    ensures Strip("<script>" + code + "</script>" + rest) == Strip(rest)
  {
    ScriptScanSkips(code, rest);
  }

  /** The script scan drops a leading block whole and goes on after it. */
  lemma ScriptScanSkips(code: string, rest: string)
    requires FindCI(code + "</script>", "</script>", 0) == Some(|code|)
    ensures ReplaceAll("<script>" + code + "</script>" + rest, Block("<script", "</script>"), "", 0) ==
      ReplaceAll(rest, Block("<script", "</script>"), "", 0)
  {
    var block := "<script>" + code + "</script>";
    var s := block + rest;
    calc {
      ReplaceAll(s, Block("<script", "</script>"), "", 0);
      == { ScriptBlockMatch(code, rest);
           assert MatchEnd(Block("<script", "</script>"), s, 0) == Some(|block|);
           DroppedAt(s, Block("<script", "</script>"), 0, |block|); }
      ReplaceAll(s, Block("<script", "</script>"), "", |block|);
      == { BlocksAfterPrefix(block, rest, "<script", "</script>"); }
      ReplaceAll(rest, Block("<script", "</script>"), "", 0);
    }
  }

  /** A leading script block, up to its first closing tag, is one match of the script expression. */
  lemma ScriptBlockMatch(code: string, rest: string)
    requires FindCI(code + "</script>", "</script>", 0) == Some(|code|)
    ensures Enclosed("<script>" + code + "</script>" + rest, "<script", "</script>", 0) ==
      Some(|"<script>" + code + "</script>"|)
  {
    var s := "<script>" + code + "</script>" + rest;
    var x := code + "</script>";
    assert s == "<script>" + (x + rest);
    ScriptOpens(s, x + rest);
    FindExtend(x, rest, "</script>", 0, |code|);
    SuffixOfConcat("<script>", x + rest);
    BlockAt(s, x + rest, "<script", "</script>", |code|);
  }

  /**
   * A block whose opening tag (the `open` name, then `>`) starts the text, followed by `tail`
   * whose first `close` is at `j`, is one match, ending after that `close`.
   */
  lemma BlockAt(s: string, tail: string, open: string, close: string, j: nat)
    requires SuffixAt(s, tail, |open| + 1)
    requires MatchesAtCI(s, open, 0) && FindCI(s, ">", |open|) == Some(|open|)
    requires FindCI(tail, close, 0) == Some(j)
    ensures Enclosed(s, open, close, 0) == Some(|open| + 1 + j + |close|)
  {
    FindShift(s, tail, |open| + 1, close, 0);
    EnclosedAt(s, open, close, 0, |open|, |open| + 1 + j);
  }

  lemma SuffixOfConcat(a: string, b: string)
    ensures SuffixAt(a + b, b, |a|)
  {
  }

  lemma EnclosedAt(s: string, open: string, close: string, i: nat, g: nat, c: nat)
    requires MatchesAtCI(s, open, i)
    requires FindCI(s, ">", i + |open|) == Some(g) && FindCI(s, close, g + 1) == Some(c)
    ensures Enclosed(s, open, close, i) == Some(c + |close|)
  {
  }

  /** Text starting with `<script>` opens a script block whose tag ends at index 7. */
  lemma ScriptOpens(s: string, tail: string)
    requires s == "<script>" + tail
    ensures MatchesAtCI(s, "<script", 0)
    ensures FindCI(s, ">", 7) == Some(7)
  {
    MatchesAtCIChars(s, "<script", 0);
    MatchesAtCIChars(s, ">", 7);
    FindFirst(s, ">", 7, 7);
  }
}

=== FILE: image_utils.dfy ===
/**
 * The image-URL rewriter: a table of host patterns, each with a rewrite that asks the
 * image host for a larger rendition. URL parsing and serialisation are supplied by the
 * caller; a URL that does not parse leaves the input unchanged, so the rewriter never fails.
 */
module ImageUtils {
  import opened Wrappers
  import opened JsStr

  /** A parsed URL: everything but the query, and the query as an ordered key/value list. */
  datatype Url = Url(base: string, query: seq<(string, string)>)

  /** The entries of `q` whose key is `k`, in order. */
  function Only(q: seq<(string, string)>, k: string): seq<(string, string)> {
    if q == [] then []
    else (if q[0].0 == k then [q[0]] else []) + Only(q[1..], k)
  }

  /** The entries of `q` whose key is not `k`, in order (`searchParams.delete(k)`). */
  function Without(q: seq<(string, string)>, k: string): seq<(string, string)> {
    if q == [] then []
    else (if q[0].0 == k then [] else [q[0]]) + Without(q[1..], k)
  }

  /** `searchParams.get(k)`: the first value stored under `k`. */
  function Lookup(q: seq<(string, string)>, k: string): Option<string> {
    var o := Only(q, k);
    if o == [] then None else Some(o[0].1)
  }

  predicate HasKey(q: seq<(string, string)>, k: string) {
    exists i | 0 <= i < |q| :: q[i].0 == k
  }

  lemma {:induction false} OnlyAppend(a: seq<(string, string)>, b: seq<(string, string)>, k: string)
    ensures Only(a + b, k) == Only(a, k) + Only(b, k)
  {
    if a != [] {
      assert (a + b)[0] == a[0] && (a + b)[1..] == a[1..] + b;
      OnlyAppend(a[1..], b, k);
    } else {
      assert a + b == b;
    }
  }

  lemma {:induction false} WithoutAppend(a: seq<(string, string)>, b: seq<(string, string)>, k: string)
    ensures Without(a + b, k) == Without(a, k) + Without(b, k)
  {
    if a != [] {
      assert (a + b)[0] == a[0] && (a + b)[1..] == a[1..] + b;
      WithoutAppend(a[1..], b, k);
    } else {
      assert a + b == b;
    }
  }

  /** Deleting `k` removes every entry under `k` and keeps the entries under every other key. */
  lemma {:induction false} WithoutSpec(q: seq<(string, string)>, k: string)
    ensures Only(Without(q, k), k) == []
    ensures forall k' :: k' != k ==> Only(Without(q, k), k') == Only(q, k')
  {
    if q != [] {
      WithoutSpec(q[1..], k);
      var head := if q[0].0 == k then [] else [q[0]];
      OnlyAppend(head, Without(q[1..], k), k);
      forall k' | k' != k ensures Only(Without(q, k), k') == Only(q, k') {
        OnlyAppend(head, Without(q[1..], k), k');
      }
    }
  }

  lemma {:induction false} WithoutNoKey(q: seq<(string, string)>, k: string)
    requires Only(q, k) == []
    ensures Without(q, k) == q
  {
    if q != [] {
      WithoutNoKey(q[1..], k);
    }
  }

  lemma {:induction false} OnlyEmpty(q: seq<(string, string)>, k: string)
    ensures Only(q, k) == [] <==> !HasKey(q, k)
  {
    if q != [] {
      OnlyEmpty(q[1..], k);
      if HasKey(q[1..], k) {
        var i :| 0 <= i < |q[1..]| && q[1..][i].0 == k;
        assert q[i + 1].0 == k;
      }
      if HasKey(q, k) && q[0].0 != k {
        var i :| 0 <= i < |q| && q[i].0 == k;
        assert q[1..][i - 1].0 == k;
      }
    }
  }

  /** The first entry under `k` takes value `v`, every later entry under `k` is dropped. */
  function SetFirst(q: seq<(string, string)>, k: string, v: string): seq<(string, string)>
    requires HasKey(q, k)
  {
    if q[0].0 == k then [(k, v)] + Without(q[1..], k)
    else
      assert HasKey(q[1..], k) by {
        var i :| 0 <= i < |q| && q[i].0 == k;
        assert q[1..][i - 1].0 == k;
      }
      [q[0]] + SetFirst(q[1..], k, v)
  }

  lemma {:induction false} SetFirstSpec(q: seq<(string, string)>, k: string, v: string)
    requires HasKey(q, k)
    ensures Only(SetFirst(q, k, v), k) == [(k, v)]
    ensures Without(SetFirst(q, k, v), k) == Without(q, k)
  {
    var w := Without(q[1..], k);
    if q[0].0 == k {
      WithoutSpec(q[1..], k);
      OnlyAppend([(k, v)], w, k);
      WithoutAppend([(k, v)], w, k);
      WithoutNoKey(w, k);
    } else {
      assert HasKey(q[1..], k) by {
        var i :| 0 <= i < |q| && q[i].0 == k;
        assert q[1..][i - 1].0 == k;
      }
      SetFirstSpec(q[1..], k, v);
      OnlyAppend([q[0]], SetFirst(q[1..], k, v), k);
      WithoutAppend([q[0]], SetFirst(q[1..], k, v), k);
    }
  }

  /**
   * `searchParams.set(k, v)`: afterwards exactly one entry is stored under `k`, with value
   * `v`, and the entries under every other key are those of `q`, in the same order.
   */
  function SetParam(q: seq<(string, string)>, k: string, v: string): (r: seq<(string, string)>)
    ensures Only(r, k) == [(k, v)]
    ensures Without(r, k) == Without(q, k)
  {
    if HasKey(q, k) then
      SetFirstSpec(q, k, v);
      SetFirst(q, k, v)
    else
      OnlyEmpty(q, k);
      OnlyAppend(q, [(k, v)], k);
      WithoutAppend(q, [(k, v)], k);
      WithoutNoKey(q, k);
      q + [(k, v)]
  }

  /** The query rewrite for Ticketmaster / Live Nation images. */
  function TicketmasterQuery(q: seq<(string, string)>): seq<(string, string)> {
    Without(Without(SetParam(SetParam(SetParam(q, "width", "1024"), "height", "576"), "fit", "crop"), "w"), "h")
  }

  /** The query rewrite for Eventbrite images. */
  function EventbriteQuery(q: seq<(string, string)>): seq<(string, string)> {
    SetParam(SetParam(q, "w", "1080"), "h", "540")
  }

  /**
   * A Ticketmaster query ends with width=1024, height=576 and fit=crop, each once, no `w`
   * or `h`, and the entries of every other key untouched.
   */
  lemma TicketmasterParams(q: seq<(string, string)>)
    ensures var r := TicketmasterQuery(q);
      Only(r, "width") == [("width", "1024")] && Only(r, "height") == [("height", "576")] &&
      Only(r, "fit") == [("fit", "crop")] && Only(r, "w") == [] && Only(r, "h") == [] &&
      forall k :: k !in {"width", "height", "fit", "w", "h"} ==> Only(r, k) == Only(q, k)
  {
    var q1 := SetParam(q, "width", "1024");
    var q2 := SetParam(q1, "height", "576");
    var q3 := SetParam(q2, "fit", "crop");
    var q4 := Without(q3, "w");
    TicketmasterSteps(q, q1, q2, q3, q4);
    WithoutSpec(q4, "h");
  }

  /** The three settings and the removal of `w` in the Ticketmaster rewrite, one step at a time. */
  lemma TicketmasterSteps(q: seq<(string, string)>, q1: seq<(string, string)>, q2: seq<(string, string)>,
                          q3: seq<(string, string)>, q4: seq<(string, string)>)
    requires q1 == SetParam(q, "width", "1024") && q2 == SetParam(q1, "height", "576")
    requires q3 == SetParam(q2, "fit", "crop") && q4 == Without(q3, "w")
    ensures Only(q4, "width") == [("width", "1024")] && Only(q4, "height") == [("height", "576")]
    ensures Only(q4, "fit") == [("fit", "crop")] && Only(q4, "w") == []
    ensures forall k :: k !in {"width", "height", "fit", "w"} ==> Only(q4, k) == Only(q, k)
  {
    SetKeepsOthers(q, "width", "1024");
    SetKeepsOthers(q1, "height", "576");
    SetKeepsOthers(q2, "fit", "crop");
    WithoutSpec(q3, "w");
  }

  /** An Eventbrite query ends with w=1080 and h=540, each once, every other key untouched. */
  lemma EventbriteParams(q: seq<(string, string)>)
    ensures var r := EventbriteQuery(q);
      Only(r, "w") == [("w", "1080")] && Only(r, "h") == [("h", "540")] &&
      forall k :: k !in {"w", "h"} ==> Only(r, k) == Only(q, k)
  {
    var q1 := SetParam(q, "w", "1080");
    SetKeepsOthers(q, "w", "1080");
    SetKeepsOthers(q1, "h", "540");
  }

  lemma SetKeepsOthers(q: seq<(string, string)>, k: string, v: string)
    ensures forall k' :: k' != k ==> Only(SetParam(q, k, v), k') == Only(q, k')
  {
    var r := SetParam(q, k, v);
    forall k' | k' != k
      ensures Only(r, k') == Only(q, k')
    {
      WithoutSpec(r, k);
      WithoutSpec(q, k);
    }
  }

  // ---------------------------------------------------------------------------------------
  // Google: `url.replace(/=s\d+(-c)?/g, '=s1200')`

  /** Does a size directive `=s<digit>` start at position `i`? */
  predicate HasSizeAt(s: string, i: int) {
    0 <= i && i + 3 <= |s| && s[i] == '=' && s[i + 1] == 's' && IsDigit(s[i + 2])
  }

  /** Length of the regular-expression match at the start of `s`, 0 when there is none. */
  function MatchLen(s: string): (m: nat)
    ensures m == 0 <==> !HasSizeAt(s, 0)
    ensures m > 0 ==> 3 <= m <= |s|
  {
    if HasSizeAt(s, 0) then
      var j := 2 + |LeadingDigits(s[2..])|;
      if StartsWith(s[j..], "-c") then j + 2 else j
    else 0
  }

  /** Global replacement, scanning left to right and resuming after each match. */
  function ResizeAll(s: string): string
    decreases |s|
  {
    if s == [] then []
    else if MatchLen(s) > 0 then "=s1200" + ResizeAll(s[MatchLen(s)..])
    else [s[0]] + ResizeAll(s[1..])
  }

  /** A URL without any size directive comes back unchanged. */
  lemma {:induction false} ResizeNoDirective(s: string)
    requires forall i :: !HasSizeAt(s, i)
    ensures ResizeAll(s) == s
  {
    if s != [] {
      assert !HasSizeAt(s, 0);
      forall i ensures !HasSizeAt(s[1..], i) {
        assert HasSizeAt(s[1..], i) ==> HasSizeAt(s, i + 1);
      }
      ResizeNoDirective(s[1..]);
    }
  }

  lemma ResizeHead(s: string)
    requires s != []
    ensures ResizeAll(s) != []
    ensures ResizeAll(s)[0] == (if MatchLen(s) > 0 then '=' else s[0])
  {
  }

  /** A position that starts no directive in `s` starts none in the output either. */
  lemma NoDirectiveAtHead(s: string)
    requires s != [] && MatchLen(s) == 0
    ensures !HasSizeAt(ResizeAll(s), 0)
  {
    var r := ResizeAll(s);
    ResizeHead(s);
    if |s| >= 2 {
      assert r[1..] == ResizeAll(s[1..]);
      ResizeHead(s[1..]);
      if |s| >= 3 && MatchLen(s[1..]) == 0 {
        assert r[2..] == ResizeAll(s[2..]);
        ResizeHead(s[2..]);
      }
    }
  }

  /** Every size directive in `r` reads "=s1200". */
  ghost predicate AllAt1200(r: string) {
    forall i :: HasSizeAt(r, i) ==> i + 6 <= |r| && r[i..i + 6] == "=s1200"
  }

  lemma Shift(p: string, q: string)
    requires AllAt1200(q)
    requires forall i :: 0 <= i < |p| && HasSizeAt(p + q, i) ==> i + 6 <= |p + q| && (p + q)[i..i + 6] == "=s1200"
    ensures AllAt1200(p + q)
  {
    forall i | |p| <= i && HasSizeAt(p + q, i)
      ensures i + 6 <= |p + q| && (p + q)[i..i + 6] == "=s1200"
    {
      assert HasSizeAt(q, i - |p|);
      assert (p + q)[i..i + 6] == q[i - |p|..i - |p| + 6];
    }
  }

  /** Every size directive in the output asks for exactly 1200 pixels. */
  lemma {:induction false} ResizedEverywhere(s: string)
    ensures AllAt1200(ResizeAll(s))
    decreases |s|
  {
    if s != [] {
      if MatchLen(s) > 0 {
        var t := ResizeAll(s[MatchLen(s)..]);
        ResizedEverywhere(s[MatchLen(s)..]);
        forall i | 0 <= i < 6 && HasSizeAt("=s1200" + t, i)
          ensures i + 6 <= |"=s1200" + t| && ("=s1200" + t)[i..i + 6] == "=s1200"
        {
          assert ("=s1200" + t)[i] == "=s1200"[i];
          assert i == 0;
        }
        Shift("=s1200", t);
      } else {
        ResizedEverywhere(s[1..]);
        NoDirectiveAtHead(s);
        Shift([s[0]], ResizeAll(s[1..]));
      }
    }
  }

  /** Text after a match that cannot extend the next pass's match: no digit, no "-c". */
  predicate Tidy(t: string) {
    (t == [] || !IsDigit(t[0])) && !StartsWith(t, "-c")
  }

  /** Every match of `s` is followed by tidy text. */
  predicate Settled(s: string)
    decreases |s|
  {
    if s == [] then true
    else if MatchLen(s) > 0 then Tidy(s[MatchLen(s)..]) && Settled(s[MatchLen(s)..])
    else Settled(s[1..])
  }

  lemma TidyKept(t: string)
    requires Tidy(t)
    ensures Tidy(ResizeAll(t))
  {
    if t != [] {
      ResizeHead(t);
      if MatchLen(t) == 0 && |ResizeAll(t)| >= 2 && t[0] == '-' {
        assert ResizeAll(t)[1..] == ResizeAll(t[1..]);
        ResizeHead(t[1..]);
      }
    }
  }

  lemma DirectiveLen(r: string)
    requires Tidy(r)
    ensures MatchLen("=s1200" + r) == 6
  {
    var s := "=s1200" + r;
    var z := LeadingDigits(s[2..]);
    assert s[2..] == "1200" + r;
    assert s[2..][4..] == r;
    assert forall j :: 0 <= j < 4 ==> IsDigit(s[2..][j]);
    assert r != [] ==> s[2..][4] == r[0];
    assert |z| == 4;
    assert s[6..] == r;
  }

  /**
   * On a settled URL the rewrite is idempotent: a second pass finds every directive
   * already at 1200 and changes nothing.
   */
  lemma {:induction false} ResizeIdempotent(s: string)
    requires Settled(s)
    ensures ResizeAll(ResizeAll(s)) == ResizeAll(s)
    decreases |s|
  {
    if s != [] {
      var m := MatchLen(s);
      if m > 0 {
        var t := s[m..];
        var rt := ResizeAll(t);
        ResizeIdempotent(t);
        TidyKept(t);
        DirectiveLen(rt);
        assert ("=s1200" + rt)[6..] == rt;
      } else {
        var rt := ResizeAll(s[1..]);
        ResizeIdempotent(s[1..]);
        NoDirectiveAtHead(s);
        assert ([s[0]] + rt)[1..] == rt;
      }
    }
  }

  /** Without the side condition a second pass can still change the URL. */
  lemma ResizeNotIdempotent()
    ensures ResizeAll("=s200-c-c") == "=s1200-c"
    ensures ResizeAll("=s1200-c") == "=s1200"
  {
    ResizeFirstPass();
    ResizeSecondPass();
  }

  /** The first pass consumes one `-c` and leaves the second behind. */
  lemma ResizeFirstPass()
    ensures ResizeAll("=s200-c-c") == "=s1200-c"
  {
    var a := "=s200-c-c";
    assert a[2..] == "200-c-c";
    assert LeadingDigits("-c-c") == [];
    assert LeadingDigits("0-c-c") == "0";
    assert LeadingDigits("00-c-c") == "00";
    assert LeadingDigits("200-c-c") == "200";
    assert MatchLen(a) == 7;
    assert a[7..] == "-c";
    assert ResizeAll("c") == "c";
    assert ResizeAll("-c") == "-c";
  }

  /** The second pass consumes the leftover `-c`. */
  lemma ResizeSecondPass()
    ensures ResizeAll("=s1200-c") == "=s1200"
  {
    var b := "=s1200-c";
    assert b[2..] == "1200-c";
    assert LeadingDigits("-c") == [];
    assert LeadingDigits("0-c") == "0";
    assert LeadingDigits("00-c") == "00";
    assert LeadingDigits("200-c") == "200";
    assert LeadingDigits("1200-c") == "1200";
    assert MatchLen(b) == 8;
    assert b[8..] == [];
  }

  // ---------------------------------------------------------------------------------------
  // SeatGeek

  predicate IsSeatGeekCandidate(url: string) {
    Contains(url, "seatgeek.com/images") && !Contains(url, "huge")
  }

  /** The first of "small.jpg", "regular.jpg", "block.jpg" found (in that priority) becomes "huge.jpg". */
  function SeatGeekSwap(url: string): string {
    if Contains(url, "small.jpg") then ReplaceFirst(url, "small.jpg", "huge.jpg")
    else if Contains(url, "regular.jpg") then ReplaceFirst(url, "regular.jpg", "huge.jpg")
    else if Contains(url, "block.jpg") then ReplaceFirst(url, "block.jpg", "huge.jpg")
    else url
  }

  /** One replacement, at the first occurrence of the pattern; the rest of the text is kept. */
  lemma ReplaceFirstSpec(s: string, pat: string, rep: string)
    requires Contains(s, pat)
    ensures exists i :: (OccursAt(s, pat, i) && (forall j :: 0 <= j < i ==> !OccursAt(s, pat, j)) &&
      ReplaceFirst(s, pat, rep) == s[..i] + rep + s[i + |pat|..])
  {
    var i := IndexOf(s, pat).value;
    assert OccursAt(s, pat, i);
  }

  lemma ReplaceFirstContains(s: string, pat: string, rep: string)
    requires Contains(s, pat)
    ensures Contains(ReplaceFirst(s, pat, rep), rep)
  {
    var i := IndexOf(s, pat).value;
    var r := ReplaceFirst(s, pat, rep);
    assert r[i..i + |rep|] == rep;
    assert OccursAt(r, rep, i);
  }

  /** The SeatGeek step alone. */
  function SeatGeekStep(url: string): string {
    if IsSeatGeekCandidate(url) then SeatGeekSwap(url) else url
  }

  /** The SeatGeek rewrite is idempotent: its output either contains "huge" or is its input. */
  lemma SeatGeekIdempotent(url: string)
    ensures SeatGeekStep(SeatGeekStep(url)) == SeatGeekStep(url)
  {
    if IsSeatGeekCandidate(url) {
      if Contains(url, "small.jpg") {
        ReplaceFirstContains(url, "small.jpg", "huge.jpg");
        HugeInside(SeatGeekSwap(url));
      } else if Contains(url, "regular.jpg") {
        ReplaceFirstContains(url, "regular.jpg", "huge.jpg");
        HugeInside(SeatGeekSwap(url));
      } else if Contains(url, "block.jpg") {
        ReplaceFirstContains(url, "block.jpg", "huge.jpg");
        HugeInside(SeatGeekSwap(url));
      }
    }
  }

  lemma HugeInside(s: string)
    requires Contains(s, "huge.jpg")
    ensures Contains(s, "huge")
  {
    var i :| 0 <= i <= |s| - 8 && OccursAt(s, "huge.jpg", i);
    assert s[i..i + 4] == s[i..i + 8][..4];
    assert OccursAt(s, "huge", i);
  }

  // ---------------------------------------------------------------------------------------
  // The whole rewriter

  predicate IsGoogle(url: string) {
    Contains(url, "encrypted-tbn0.gstatic.com") || Contains(url, "lh3.googleusercontent.com")
  }

  predicate IsTicketmaster(url: string) {
    Contains(url, "ticketm.net") || Contains(url, "ticketmaster.com")
  }

  predicate IsEventbrite(url: string) {
    Contains(url, "img.evbuc.com")
  }

  /** The rewrite of a non-empty URL; `parse` fails (None) where `new URL` would throw. */
  function UpgradeText(url: string, parse: string -> Option<Url>, serialize: Url -> string): (r: string)
    ensures !IsGoogle(url) && !IsTicketmaster(url) && !IsEventbrite(url) && !IsSeatGeekCandidate(url) ==> r == url
    ensures (IsTicketmaster(url) || IsEventbrite(url)) && parse(url).None? && !(IsGoogle(url) && Contains(url, "=s")) ==> r == url
  {
    if IsGoogle(url) && Contains(url, "=s") then ResizeAll(url)
    else if IsTicketmaster(url) then
      match parse(url)
      case None => url
      case Some(u) => serialize(u.(query := TicketmasterQuery(u.query)))
    else if IsEventbrite(url) then
      match parse(url)
      case None => url
      case Some(u) => serialize(u.(query := EventbriteQuery(u.query)))
    else SeatGeekStep(url)
  }

  /** `upgradeImageUrl`: falsy input (absent or empty) gives null. */
  function Upgrade(url: Option<string>, parse: string -> Option<Url>, serialize: Url -> string): (r: Option<string>)
    ensures r.None? <==> (url.None? || url.value == "")
    ensures r.Some? ==> r.value == UpgradeText(url.value, parse, serialize)
  {
    if url.None? || url.value == "" then None else Some(UpgradeText(url.value, parse, serialize))
  }
}

=== FILE: notifications.dfy ===
/**
 * Milestone push notifications: when a save, share or comment count lands exactly on one of
 * the thresholds of its metric, the event owner's device receives a message naming the count
 * and the (shortened) event title. The user lookup is a supplied answer; the send itself is
 * left out.
 */
module Notifications {
  import opened Wrappers
  import opened JsStr

  /** The `MILESTONES` table; `None` for a metric it does not list. */
  function Milestones(metric: string): (r: Option<seq<int>>)
    ensures r.Some? <==> metric in {"saves", "shares", "comments"}
  {
    if metric == "saves" then Some([10, 50, 100, 500, 1000, 5000, 10000])
    else if metric == "shares" then Some([10, 50, 100, 500, 1000])
    else if metric == "comments" then Some([10, 50, 100, 500, 1000])
    else None
  }

  predicate StrictlyIncreasing(s: seq<int>) {
    forall i, j :: 0 <= i < j < |s| ==> s[i] < s[j]
  }

  /** Every threshold list is strictly increasing and starts at 10. */
  lemma MilestonesIncreasing(metric: string)
    requires Milestones(metric).Some?
    ensures var m := Milestones(metric).value;
      StrictlyIncreasing(m) && |m| >= 1 && m[0] == 10
  {
  }

  /** `isMilestone(count, metricType)` */
  function IsMilestone(count: int, metric: string): (b: bool)
    ensures b <==> Milestones(metric).Some? && count in Milestones(metric).value
    ensures b ==> count >= 10
  {
    var thresholds := Milestones(metric);
    if thresholds.None? then false
    else
      MilestonesIncreasing(metric);
      count in thresholds.value
  }

  /** An unlisted metric never reaches a milestone. */
  lemma UnknownMetricNeverMilestone(count: int, metric: string)
    requires metric !in {"saves", "shares", "comments"}
    ensures !IsMilestone(count, metric)
  {
  }

  const MaxTitle := 30
  const KeptPrefix := 27

  /**
   * The title as it appears in a message: at most 30 UTF-16 code units; a longer title keeps
   * its first 27 code units (26 when the 27th would split a character) and gains an ellipsis.
   */
  function TruncateTitle(title: string): (r: string)
    ensures Length16(r) <= MaxTitle
    ensures Length16(title) <= MaxTitle ==> r == title
    ensures Length16(title) > MaxTitle ==>
      |r| >= 3 && r[|r| - 3..] == "..." && StartsWith(title, r[..|r| - 3])
      && KeptPrefix - 1 <= Length16(r[..|r| - 3]) <= KeptPrefix
  {
    if Length16(title) > MaxTitle then
      var p := Prefix16(title, KeptPrefix);
      var r := p + "...";
      assert r[..|r| - 3] == p && r[|r| - 3..] == "...";
      Length16Append(p, "...");
      assert Length16("...") == 3 by { Length16Bmp("..."); }
      assert |p| < |title| by {
        if |p| == |title| { assert p == title; }
      }
      r
    else title
  }

  /** Truncation changes a title exactly when it is too long. */
  lemma TruncateKeepsShort(title: string)
    ensures TruncateTitle(title) == title <==> Length16(title) <= MaxTitle
  {
  }

  datatype Message = Message(title: string, body: string)

  /** `getMilestoneMessage(eventTitle, metricType, count)` */
  function MilestoneMessage(eventTitle: string, metric: string, count: int): (m: Message)
    ensures Contains(m.body, IntToString(count)) && Contains(m.body, TruncateTitle(eventTitle))
    ensures metric !in {"saves", "shares", "comments"} ==>
      m.title == "🎉 Event milestone reached!" && Contains(m.body, metric)
  {
    var t := TruncateTitle(eventTitle);
    var n := IntToString(count);
    if metric == "saves" then
      MentionsFirstAndThird(n, " people saved your \"", t, "\" event!");
      Message("📥 People are saving your event!", n + " people saved your \"" + t + "\" event!")
    else if metric == "shares" then
      MentionsSecondAndFourth("Your \"", t, "\" event was shared ", n, " times!");
      Message("🔗 Your event is being shared!", "Your \"" + t + "\" event was shared " + n + " times!")
    else if metric == "comments" then
      MentionsSecondAndFourth("Your \"", t, "\" event has ", n, " comments!");
      Message("💬 Your event is getting attention!", "Your \"" + t + "\" event has " + n + " comments!")
    else
      MentionsReached(t, n, metric);
      Message("🎉 Event milestone reached!", "Your \"" + t + "\" event reached " + n + " " + metric + "!")
  }

  /** The body for an unlisted metric mentions the title, the count and the metric. */
  lemma MentionsReached(t: string, n: string, metric: string)
    ensures var body := "Your \"" + t + "\" event reached " + n + " " + metric + "!";
      Contains(body, t) && Contains(body, n) && Contains(body, metric)
  {
    var head := "Your \"" + t + "\" event reached " + n;
    MentionsSecondAndFourth("Your \"", t, "\" event reached ", n, " " + metric + "!");
    assert head + (" " + metric + "!") == head + " " + metric + "!";
    ContainsMiddle(head + " ", metric, "!");
  }

  /** The "saves" body, `n + a + t + b`, mentions the count and the title. */
  lemma MentionsFirstAndThird(n: string, a: string, t: string, b: string)
    ensures Contains(n + a + t + b, n) && Contains(n + a + t + b, t)
  {
    var s := n + a + t + b;
    assert s[..|n|] == n;
    assert OccursAt(s, n, 0);
    assert s[|n| + |a|..|n| + |a| + |t|] == t;
    assert OccursAt(s, t, |n| + |a|);
  }

  /** The other bodies, `a + t + b + n + c`, mention the title and the count. */
  lemma MentionsSecondAndFourth(a: string, t: string, b: string, n: string, c: string)
    ensures Contains(a + t + b + n + c, t) && Contains(a + t + b + n + c, n)
  {
    var s := a + t + b + n + c;
    assert s[|a|..|a| + |t|] == t;
    assert OccursAt(s, t, |a|);
    assert s[|a| + |t| + |b|..|a| + |t| + |b| + |n|] == n;
    assert OccursAt(s, n, |a| + |t| + |b|);
  }

  /** The stored user document, as far as the notification reads it. */
  datatype User = User(fcmToken: Option<string>)

  /** The FCM message of a milestone, with its fixed Android and APNs settings. */
  datatype Push = Push(
    token: string,
    notification: Message,
    data: map<string, string>,
    channelId: string,
    priority: string,
    icon: string,
    badge: int,
    sound: string)

  datatype MilestoneOutcome = NotMilestone | UserMissing | NoToken | Send(push: Push)

  /**
   * `checkAndSendMilestoneNotification`: a non-milestone count stops before the owner is
   * looked up; a missing owner or one without a token stops before any send.
   */
  function CheckMilestone(owner: Option<User>, eventId: string, eventTitle: string,
                          metric: string, newCount: int): (r: MilestoneOutcome)
    ensures r.NotMilestone? <==> !IsMilestone(newCount, metric)
    ensures r.Send? <==> IsMilestone(newCount, metric) && owner.Some? && Truthy(owner.value.fcmToken)
    ensures r.Send? ==>
      r.push.token == owner.value.fcmToken.value &&
      r.push.notification == MilestoneMessage(eventTitle, metric, newCount) &&
      r.push.data.Keys == {"route", "eventId", "type", "metricType", "count"} &&
      r.push.data["route"] == "/eventDetail" && r.push.data["eventId"] == eventId &&
      r.push.data["type"] == "milestone" && r.push.data["metricType"] == metric &&
      r.push.data["count"] == IntToString(newCount)
  {
    if !IsMilestone(newCount, metric) then NotMilestone
    else if owner.None? then UserMissing
    else if !Truthy(owner.value.fcmToken) then NoToken
    else
      Send(Push(
        token := owner.value.fcmToken.value,
        notification := MilestoneMessage(eventTitle, metric, newCount),
        data := map["route" := "/eventDetail", "eventId" := eventId, "type" := "milestone",
                    "metricType" := metric, "count" := IntToString(newCount)],
        channelId := "event_milestones",
        priority := "high",
        icon := "ic_notification",
        badge := 1,
        sound := "default"))
  }

  /** The early exit does not depend on the owner lookup at all. */
  lemma NonMilestoneSkipsLookup(a: Option<User>, b: Option<User>, eventId: string, eventTitle: string,
                                metric: string, newCount: int)
    requires !IsMilestone(newCount, metric)
    ensures CheckMilestone(a, eventId, eventTitle, metric, newCount) == CheckMilestone(b, eventId, eventTitle, metric, newCount)
  {
  }
}

=== FILE: places.dfy ===
/**
 * The Places cache routes: cache keys, TTL freshness, age rounding and input validation in
 * front of the Google Places / Geocoding services. The three cache collections are maps held
 * by one store object; each handler reads its cache entry and then may write it. The Google
 * answers are supplied (None where the request throws).
 */
module Places {
  import opened Wrappers
  import opened JsStr
  import opened JsNum
  import opened Paging

  const MinuteMs := 60 * 1000
  const HourMs := 60 * MinuteMs
  const DayMs := 24 * HourMs
  const AutocompleteTtlMs := DayMs
  const PlaceDetailsTtlMs := 7 * DayMs
  const VenueTtlMs := 30 * DayMs

  datatype Prediction = Prediction(placeId: Option<string>, description: Option<string>,
                                   mainText: string, secondaryText: string, types: seq<string>)

  datatype Place = Place(placeId: string, name: Option<string>, formattedAddress: Option<string>,
                         latitude: Option<real>, longitude: Option<real>, rating: Option<real>,
                         types: seq<string>, photoReferences: seq<Option<string>>)

  /** A document of the `placesCache` collection. */
  datatype CacheDoc =
    | AutocompleteDoc(query: string, predictions: seq<Prediction>, cachedAt: Option<int>, source: string)
    | DetailsDoc(place: Place, cachedAt: Option<int>, source: string)

  /** A document of the `geocodeCache` collection. */
  datatype GeocodeDoc = GeocodeDoc(latitude: Option<real>, longitude: Option<real>, formattedAddress: Option<string>,
                                   originalAddress: string, cachedAt: Option<int>)

  /** A document of the `venueCache` collection (written by the cache refresh job). */
  datatype VenueDoc = VenueDoc(name: string, city: string, region: string, address: string,
                               latitude: Option<real>, longitude: Option<real>, eventCount: int,
                               cityLower: string, popularity: int, cachedAt: int)

  // ---------------------------------------------------------------------------------------
  // Keys, freshness and ages

  /** The autocomplete document id: lowercase input with "/" and "\" turned into "_". */
  function AutocompleteKey(input: string): (k: string)
    ensures |k| == 13 + |input| && k[..13] == "autocomplete_"
    ensures forall i :: 13 <= i < |k| ==> k[i] != '/' && k[i] != '\\'
    ensures forall i :: 13 <= i < |k| ==> k[i] == (if LowerChar(input[i - 13]) in {'/', '\\'} then '_' else LowerChar(input[i - 13]))
  {
    "autocomplete_" + ReplaceChars(Lower(input), {'/', '\\'}, '_')
  }

  function DetailsKey(placeId: string): string {
    "details_" + placeId
  }

  /**
   * `t.replace(/\s+/g, "_").substring(0, 100)`: the text with its white-space runs turned
   * into "_", cut to its longest prefix of at most 100 UTF-16 code units.
   */
  function Slug(t: string): (k: string)
    ensures var r := ReplaceSpaceRuns(t, '_');
      && |k| <= |r| && k == r[..|k|]
      && Length16(k) <= 100
      && (Length16(r) <= 100 ==> k == r)
      && (|k| < |r| ==> Length16(k) + Units(r[|k|]) > 100)
    ensures forall i :: 0 <= i < |k| ==> !IsSpace(k[i])
  {
    var r := ReplaceSpaceRuns(t, '_');
    RunsLeaveNoSpace(t, '_');
    var k := Prefix16(r, 100);
    assert forall i :: 0 <= i < |k| ==> k[i] == r[i];
    k
  }

  /** The geocode document id: lowercase, trimmed, white-space runs to "_", at most 100 code units. */
  function GeocodeKey(address: string): string {
    Slug(Trim(Lower(address)))
  }

  /**
   * A geocode key has no white space and at most 100 code units, ignores case, and an address
   * that is already lowercase, trimmed, a single word and short enough is its own key.
   */
  lemma GeocodeKeySpec(address: string)
    ensures var k := GeocodeKey(address);
      && Length16(k) <= 100
      && (forall i :: 0 <= i < |k| ==> !IsSpace(k[i]))
      && GeocodeKey(Lower(address)) == k
    ensures var a := Trim(Lower(address));
      (forall i :: 0 <= i < |a| ==> !IsSpace(a[i])) && Length16(a) <= 100 ==> GeocodeKey(address) == a
  {
    LowerIdempotent(address);
    var a := Trim(Lower(address));
    if (forall i :: 0 <= i < |a| ==> !IsSpace(a[i])) {
      NoSpaceRunsUnchanged(a);
    }
  }

  // ---------------------------------------------------------------------------------------
  // Document paths

  /** How many pieces of a list of path pieces are non-empty. */
  function NonEmptyCount(pieces: seq<string>): (n: nat)
    ensures n <= |pieces|
  {
    if pieces == [] then 0 else (if pieces[0] != [] then 1 else 0) + NonEmptyCount(pieces[1..])
  }

  /**
   * Firestore's `collection(c).doc(id)` throws unless the id is a non-empty path without
   * "//" whose non-empty "/"-separated segments are odd in number, so that together with
   * the collection they name a document.
   */
  predicate DocIdAccepted(id: string) {
    id != [] && !Contains(id, "//") && NonEmptyCount(Split(id, '/')) % 2 == 1
  }

  /** Splitting a string without the separator gives the string itself. */
  lemma {:induction false} SplitWithoutSep(s: string, sep: char)
    requires sep !in s
    ensures Split(s, sep) == [s]
  {
    if s != [] {
      SplitWithoutSep(s[1..], sep);
      assert s == [s[0]] + s[1..];
    }
  }

  /** Every non-empty id without "/" is accepted. */
  lemma NoSlashAccepted(id: string)
    requires id != [] && '/' !in id
    ensures DocIdAccepted(id)
  {
    SplitWithoutSep(id, '/');
    forall i | 0 <= i <= |id| - 2
      ensures !OccursAt(id, "//", i)
    {
      assert id[i] in id;
      assert id[i..i + 2][0] == id[i];
    }
  }

  /** Two segments name a collection, not a document: `doc("a/b")` throws. */
  lemma TwoSegmentsRefused(a: string, b: string)
    requires a != [] && b != [] && '/' !in a && '/' !in b
    ensures !DocIdAccepted(a + "/" + b)
  {
    SplitAround(a, b, '/');
    assert Split(a + "/" + b, '/') == [a, b];
    assert [a, b][1..] == [b] && [b][1..] == [];
    assert NonEmptyCount([a, b]) == 2;
  }

  /** Splitting `a + [sep] + b` where neither side holds the separator gives the two sides. */
  lemma {:induction false} SplitAround(a: string, b: string, sep: char)
    requires sep !in a && sep !in b
    ensures Split(a + [sep] + b, sep) == [a, b]
  {
    if a == [] {
      assert a + [sep] + b == [sep] + b;
      assert ([sep] + b)[1..] == b;
      SplitWithoutSep(b, sep);
    } else {
      SplitAround(a[1..], b, sep);
      assert (a + [sep] + b)[1..] == a[1..] + [sep] + b;
      assert a == [a[0]] + a[1..];
    }
  }

  /** An autocomplete id never holds "/", so `doc` always accepts it. */
  lemma AutocompleteKeyAccepted(input: string)
    ensures DocIdAccepted(AutocompleteKey(input))
  {
    var k := AutocompleteKey(input);
    assert k[0] == 'a';
    NoSlashAccepted(k);
  }

  /**
   * An address that lowercases and trims to two words joined by one "/" (such as
   * "Flat/4B") gives a key of two segments, which `doc` refuses.
   */
  lemma SlashAddressRefused(address: string, a: string, b: string)
    requires a != [] && b != [] && '/' !in a && '/' !in b
    requires Trim(Lower(address)) == a + "/" + b
    requires forall i :: 0 <= i < |a + "/" + b| ==> !IsSpace((a + "/" + b)[i])
    requires Length16(a + "/" + b) <= 100
    ensures !DocIdAccepted(GeocodeKey(address))
  {
    GeocodeKeySpec(address);
    TwoSegmentsRefused(a, b);
  }

  /** `Date.now() - (cachedAt?.toMillis?.() || 0)` */
  function Age(now: int, cachedAt: Option<int>): int {
    now - cachedAt.GetOr(0)
  }

  predicate Fresh(now: int, cachedAt: Option<int>, ttl: int) {
    Age(now, cachedAt) < ttl
  }

  /** An entry without `cachedAt` is as old as the clock, so it is stale once the clock passes the TTL. */
  lemma MissingCachedAtIsStale(now: int, ttl: int)
    requires now >= ttl
    ensures !Fresh(now, None, ttl)
    ensures !Fresh(now, Some(0), ttl)
  {
  }

  /** Freshness is monotone in time: an entry fresh now was fresh at every earlier moment. */
  lemma FreshEarlier(now: int, earlier: int, cachedAt: Option<int>, ttl: int)
    requires earlier <= now && Fresh(now, cachedAt, ttl)
    ensures Fresh(earlier, cachedAt, ttl)
  {
  }

  /** `Math.round(age / 1000 / 60)`: the age in whole minutes, to the nearest. */
  function AgeMinutes(age: int): (m: int)
    ensures 2 * m * MinuteMs <= 2 * age + MinuteMs < 2 * m * MinuteMs + 2 * MinuteMs
  {
    RoundDiv(age, MinuteMs)
  }

  /** `Math.round(age / 1000 / 60 / 60)`: the age in whole hours, to the nearest. */
  function AgeHours(age: int): (h: int)
    ensures 2 * h * HourMs <= 2 * age + HourMs < 2 * h * HourMs + 2 * HourMs
  {
    RoundDiv(age, HourMs)
  }

  /** A fresh autocomplete entry is reported as at most 1440 minutes old. */
  lemma FreshMinutesBound(age: int)
    requires 0 <= age < AutocompleteTtlMs
    ensures 0 <= AgeMinutes(age) <= 24 * 60
  {
  }

  // ---------------------------------------------------------------------------------------
  // The Google answers

  datatype RawPrediction = RawPrediction(placeId: Option<string>, description: Option<string>,
                                         mainText: Option<string>, secondaryText: Option<string>,
                                         types: Option<seq<string>>)
  datatype AutocompleteAnswer = AutocompleteAnswer(status: string, predictions: Option<seq<RawPrediction>>)

  datatype RawPlace = RawPlace(name: Option<string>, formattedAddress: Option<string>,
                               latitude: Option<real>, longitude: Option<real>, rating: Option<real>,
                               types: Option<seq<string>>, photos: Option<seq<Option<string>>>)
  datatype DetailsAnswer = DetailsAnswer(status: string, result: Option<RawPlace>)

  datatype GeoResult = GeoResult(latitude: Option<real>, longitude: Option<real>, formattedAddress: Option<string>)
  datatype GeocodeAnswer = GeocodeAnswer(status: string, results: Option<seq<GeoResult>>)

  function MapPrediction(p: RawPrediction): Prediction {
    Prediction(p.placeId, p.description, Or(p.mainText, ""), Or(p.secondaryText, ""), p.types.GetOr([]))
  }

  function MapPredictions(ps: seq<RawPrediction>): (r: seq<Prediction>)
    ensures |r| == |ps| && forall i :: 0 <= i < |ps| ==> r[i] == MapPrediction(ps[i])
  {
    seq(|ps|, i requires 0 <= i < |ps| => MapPrediction(ps[i]))
  }

  /** Only OK and ZERO_RESULTS answers are used (and cached). */
  predicate Usable(status: string) {
    status == "OK" || status == "ZERO_RESULTS"
  }

  /** The place record kept from a details answer: at most three photo references. */
  function MapPlace(placeId: string, r: RawPlace): (p: Place)
    ensures p.placeId == placeId && |p.photoReferences| <= 3
    ensures r.photos.Some? ==> |p.photoReferences| <= |r.photos.value| && p.photoReferences == r.photos.value[..|p.photoReferences|]
    ensures r.photos.Some? && |r.photos.value| >= 3 ==> |p.photoReferences| == 3
    ensures p.types == r.types.GetOr([])
  {
    var photos := r.photos.GetOr([]);
    var kept := if |photos| <= 3 then photos else photos[..3];
    Place(placeId, r.name, r.formattedAddress, r.latitude, r.longitude, r.rating, r.types.GetOr([]), kept)
  }

  /** Firestore refuses a document with an `undefined` value: every prediction needs its id and description. */
  predicate PredictionsStorable(ps: seq<Prediction>) {
    forall i :: 0 <= i < |ps| ==> ps[i].placeId.Some? && ps[i].description.Some?
  }

  /** Every field of a stored place, and every kept photo reference, must be defined. */
  predicate PlaceStorable(p: Place) {
    && p.name.Some? && p.formattedAddress.Some? && p.latitude.Some? && p.longitude.Some? && p.rating.Some?
    && forall i :: 0 <= i < |p.photoReferences| ==> p.photoReferences[i].Some?
  }

  /** The geocode result needs its coordinates and its formatted address. */
  predicate GeoStorable(g: GeoResult) {
    g.latitude.Some? && g.longitude.Some? && g.formattedAddress.Some?
  }

  // ---------------------------------------------------------------------------------------
  // Responses

  datatype AutocompleteResponse =
    | Predictions(predictions: seq<Prediction>, cached: bool, cacheAge: Option<int>, error: Option<string>)
    | AutocompleteFailed

  datatype DetailsResponse =
    | PlaceResult(place: Option<Place>, cached: bool, cacheAge: Option<int>, error: Option<string>)
    | DetailsBadRequest
    | DetailsFailed

  datatype GeocodeResponse =
    | Location(latitude: Option<real>, longitude: Option<real>, formattedAddress: Option<string>, cached: bool, error: Option<string>)
    | GeocodeBadRequest
    | GeocodeFailed

  /** The autocomplete input: `input`, else `q`, else "", trimmed. */
  function AutocompleteInput(input: Option<string>, q: Option<string>): string {
    Trim(Or(input, Or(q, "")))
  }

  /** The stored predictions of a fresh autocomplete entry, with its age. */
  function AutocompleteHit(docs: map<string, CacheDoc>, key: string, now: int): (r: Option<(seq<Prediction>, int)>)
    ensures r.Some? <==> key in docs && Fresh(now, docs[key].cachedAt, AutocompleteTtlMs)
  {
    if key in docs && Fresh(now, docs[key].cachedAt, AutocompleteTtlMs) then
      var d := docs[key];
      Some((if d.AutocompleteDoc? then d.predictions else [], Age(now, d.cachedAt)))
    else None
  }

  /** The stored place of a fresh details entry, with its age. */
  function DetailsHit(docs: map<string, CacheDoc>, key: string, now: int): (r: Option<(Option<Place>, int)>)
    ensures r.Some? <==> key in docs && Fresh(now, docs[key].cachedAt, PlaceDetailsTtlMs)
  {
    if key in docs && Fresh(now, docs[key].cachedAt, PlaceDetailsTtlMs) then
      var d := docs[key];
      Some((if d.DetailsDoc? then Some(d.place) else None, Age(now, d.cachedAt)))
    else None
  }

  /** The `/venues` limit: `min(100, max(1, parseInt(limit || "50")))`. */
  function VenuesLimit(raw: Option<string>): (r: Num)
    ensures r.NaN? <==> ParseInt(Or(raw, "50")).NaN?
    ensures r.Int? ==> 1 <= r.v <= 100
  {
    Min(Int(100), Max(Int(1), ParseInt(Or(raw, "50"))))
  }

  /**
   * `/venues`: the first `limit` venues of the popularity-ordered list, or of its venues of one
   * city when a city is given.
   */
  function Venues(ordered: seq<VenueDoc>, city: Option<string>, rawLimit: Option<string>): (r: Option<seq<VenueDoc>>)
    ensures VenuesLimit(rawLimit).NaN? <==> r.None?
    ensures r.Some? ==>
      var c := Lower(Trim(Or(city, "")));
      var matching := if c == "" then ordered else CityVenues(ordered, c);
      var limit := VenuesLimit(rawLimit).v;
      |r.value| == (if |matching| < limit then |matching| else limit) && r.value == matching[..|r.value|]
  {
    var c := Lower(Trim(Or(city, "")));
    var limit := VenuesLimit(rawLimit);
    if limit.NaN? then None
    else
      var matching := if c == "" then ordered else CityVenues(ordered, c);
      Some(Take(matching, limit.v))
  }

  /** `.where("cityLower", "==", c)`: the venues of one city, in the order given. */
  function CityVenues(vs: seq<VenueDoc>, c: string): (r: seq<VenueDoc>)
    ensures forall v :: v in r <==> v in vs && v.cityLower == c
  {
    if vs == [] then []
    else (if vs[0].cityLower == c then [vs[0]] else []) + CityVenues(vs[1..], c)
  }

  /** Selecting one city keeps the order of the list. */
  lemma {:induction false} CityVenuesInOrder(vs: seq<VenueDoc>, c: string)
    ensures IsSubsequence(CityVenues(vs, c), vs)
  {
    if vs != [] {
      CityVenuesInOrder(vs[1..], c);
      var rest := CityVenues(vs[1..], c);
      if vs[0].cityLower == c {
        assert CityVenues(vs, c) == [vs[0]] + rest;
        assert ([vs[0]] + rest)[1..] == rest;
      } else {
        assert CityVenues(vs, c) == rest;
        if rest != [] {
          assert rest[0].cityLower == c;
        }
      }
    }
  }

  /** `.orderBy("popularity", "desc")` */
  predicate ByPopularity(vs: seq<VenueDoc>) {
    forall i, j :: 0 <= i < j < |vs| ==> vs[i].popularity >= vs[j].popularity
  }

  /** The tail of a popularity-ordered list is ordered, and none of it beats the head. */
  lemma TailByPopularity(vs: seq<VenueDoc>)
    requires vs != [] && ByPopularity(vs)
    ensures ByPopularity(vs[1..])
    ensures forall v :: v in vs[1..] ==> v.popularity <= vs[0].popularity
  {
    forall i, j | 0 <= i < j < |vs| - 1
      ensures vs[1..][i].popularity >= vs[1..][j].popularity
    {
      assert vs[1..][i] == vs[i + 1] && vs[1..][j] == vs[j + 1];
    }
  }

  /** The venues of one city, taken from a popularity-ordered list, are popularity-ordered. */
  lemma {:induction false} CityVenuesByPopularity(vs: seq<VenueDoc>, c: string)
    requires ByPopularity(vs)
    ensures ByPopularity(CityVenues(vs, c))
  {
    if vs != [] {
      TailByPopularity(vs);
      CityVenuesByPopularity(vs[1..], c);
      var rest := CityVenues(vs[1..], c);
      if vs[0].cityLower == c {
        assert CityVenues(vs, c) == [vs[0]] + rest;
        assert forall j :: 0 <= j < |rest| ==> rest[j] in vs[1..];
      } else {
        assert CityVenues(vs, c) == rest;
      }
    }
  }

  /**
   * `/venues` over a popularity-ordered collection answers the most popular venues (of the
   * city, when one is given), most popular first: no venue left out is more popular than one
   * shown.
   */
  lemma VenuesMostPopular(ordered: seq<VenueDoc>, city: Option<string>, rawLimit: Option<string>)
    requires ByPopularity(ordered) && VenuesLimit(rawLimit).Int?
    ensures var c := Lower(Trim(Or(city, "")));
      var matching := if c == "" then ordered else CityVenues(ordered, c);
      var shown := Venues(ordered, city, rawLimit).value;
      && ByPopularity(shown)
      && (forall i, j :: 0 <= i < |shown| <= j < |matching| ==> matching[j].popularity <= shown[i].popularity)
  {
    var c := Lower(Trim(Or(city, "")));
    if c != "" {
      CityVenuesByPopularity(ordered, c);
    }
  }

  /** The three cache collections. */
  class PlacesStore {
    var placesCache: map<string, CacheDoc>
    var geocodeCache: map<string, GeocodeDoc>
    var venueCache: map<string, VenueDoc>

    constructor(placesCache: map<string, CacheDoc>, geocodeCache: map<string, GeocodeDoc>, venueCache: map<string, VenueDoc>)
      ensures this.placesCache == placesCache && this.geocodeCache == geocodeCache && this.venueCache == venueCache
    {
      this.placesCache := placesCache;
      this.geocodeCache := geocodeCache;
      this.venueCache := venueCache;
    }

    /**
     * `GET /autocomplete`: short input answers empty without a lookup; a fresh entry is a hit;
     * otherwise Google is asked and only an OK / ZERO_RESULTS answer is cached.
     */
    method Autocomplete(input: Option<string>, q: Option<string>, now: int, apiKey: Option<string>,
                        google: Option<AutocompleteAnswer>)
      returns (res: AutocompleteResponse)
      modifies this
      ensures geocodeCache == old(geocodeCache) && venueCache == old(venueCache)
      ensures var text := AutocompleteInput(input, q);
        Length16(text) < 2 ==> res == Predictions([], false, None, None) && placesCache == old(placesCache)
      ensures var text := AutocompleteInput(input, q);
        var hit := AutocompleteHit(old(placesCache), AutocompleteKey(text), now);
        Length16(text) >= 2 && hit.Some? ==>
          res == Predictions(hit.value.0, true, Some(AgeMinutes(hit.value.1)), None) && placesCache == old(placesCache)
      ensures var text := AutocompleteInput(input, q);
        var hit := AutocompleteHit(old(placesCache), AutocompleteKey(text), now);
        Length16(text) >= 2 && hit.None? && !Truthy(apiKey) ==>
          res == Predictions([], false, None, Some("API not configured")) && placesCache == old(placesCache)
      ensures var text := AutocompleteInput(input, q);
        var hit := AutocompleteHit(old(placesCache), AutocompleteKey(text), now);
        Length16(text) >= 2 && hit.None? && Truthy(apiKey) ==>
          match google
          case None => res == AutocompleteFailed && placesCache == old(placesCache)
          case Some(answer) =>
            var preds := MapPredictions(answer.predictions.GetOr([]));
            if !Usable(answer.status) then
              res == Predictions([], false, None, None) && placesCache == old(placesCache)
            else if !PredictionsStorable(preds) then
              res == AutocompleteFailed && placesCache == old(placesCache)
            else
              && placesCache == old(placesCache)[AutocompleteKey(text) := AutocompleteDoc(text, preds, Some(now), "google_places_api")]
              && res == Predictions(preds, false, None, None)
    {
      var text := AutocompleteInput(input, q);
      if text == "" || Length16(text) < 2 {
        return Predictions([], false, None, None);
      }
      var key := AutocompleteKey(text);
      var hit := AutocompleteHit(placesCache, key, now);
      if hit.Some? {
        return Predictions(hit.value.0, true, Some(AgeMinutes(hit.value.1)), None);
      }
      if !Truthy(apiKey) {
        return Predictions([], false, None, Some("API not configured"));
      }
      if google.None? {
        return AutocompleteFailed;
      }
      var answer := google.value;
      if !Usable(answer.status) {
        return Predictions([], false, None, None);
      }
      var preds := MapPredictions(answer.predictions.GetOr([]));
      // Firestore refuses the write, and the handler answers a server error
      if !PredictionsStorable(preds) {
        return AutocompleteFailed;
      }
      placesCache := placesCache[key := AutocompleteDoc(text, preds, Some(now), "google_places_api")];
      return Predictions(preds, false, None, None);
    }

    /** `GET /details/:placeId`: a fresh entry (7 days) is a hit; otherwise an OK answer is cached. */
    method Details(placeId: string, now: int, apiKey: Option<string>, google: Option<DetailsAnswer>)
      returns (res: DetailsResponse)
      modifies this
      ensures geocodeCache == old(geocodeCache) && venueCache == old(venueCache)
      ensures placeId == "" ==> res == DetailsBadRequest && placesCache == old(placesCache)
      ensures placeId != "" && !DocIdAccepted(DetailsKey(placeId)) ==> res == DetailsFailed && placesCache == old(placesCache)
      ensures var hit := DetailsHit(old(placesCache), DetailsKey(placeId), now);
        placeId != "" && DocIdAccepted(DetailsKey(placeId)) && hit.Some? ==>
          res == PlaceResult(hit.value.0, true, Some(AgeHours(hit.value.1)), None) && placesCache == old(placesCache)
      ensures var hit := DetailsHit(old(placesCache), DetailsKey(placeId), now);
        placeId != "" && DocIdAccepted(DetailsKey(placeId)) && hit.None? && !Truthy(apiKey) ==>
          res == PlaceResult(None, false, None, Some("API not configured")) && placesCache == old(placesCache)
      ensures var hit := DetailsHit(old(placesCache), DetailsKey(placeId), now);
        placeId != "" && DocIdAccepted(DetailsKey(placeId)) && hit.None? && Truthy(apiKey) ==>
          match google
          case None => res == DetailsFailed && placesCache == old(placesCache)
          case Some(answer) =>
            if answer.status != "OK" then
              res == PlaceResult(None, false, None, None) && placesCache == old(placesCache)
            else if answer.result.None? || !PlaceStorable(MapPlace(placeId, answer.result.value)) then
              res == DetailsFailed && placesCache == old(placesCache)
            else
              var place := MapPlace(placeId, answer.result.value);
              && placesCache == old(placesCache)[DetailsKey(placeId) := DetailsDoc(place, Some(now), "google_places_api")]
              && res == PlaceResult(Some(place), false, None, None)
    {
      if placeId == "" {
        return DetailsBadRequest;
      }
      var key := DetailsKey(placeId);
      // a decoded `%2F` in the id can make the path name a collection, and `doc` throws
      if !DocIdAccepted(key) {
        return DetailsFailed;
      }
      var hit := DetailsHit(placesCache, key, now);
      if hit.Some? {
        return PlaceResult(hit.value.0, true, Some(AgeHours(hit.value.1)), None);
      }
      if !Truthy(apiKey) {
        return PlaceResult(None, false, None, Some("API not configured"));
      }
      if google.None? {
        return DetailsFailed;
      }
      if google.value.status != "OK" {
        return PlaceResult(None, false, None, None);
      }
      // `result.name` on a missing result throws
      if google.value.result.None? {
        return DetailsFailed;
      }
      var place := MapPlace(placeId, google.value.result.value);
      // Firestore refuses the write, and the handler answers a server error
      if !PlaceStorable(place) {
        return DetailsFailed;
      }
      placesCache := placesCache[key := DetailsDoc(place, Some(now), "google_places_api")];
      return PlaceResult(Some(place), false, None, None);
    }

    /**
     * `POST /geocode`: an address under 5 code units after trimming is a bad request; any
     * existing entry is a hit whatever its age; otherwise the first result of an OK answer
     * is cached.
     */
    method Geocode(address: Option<string>, now: int, apiKey: Option<string>, google: Option<GeocodeAnswer>)
      returns (res: GeocodeResponse)
      modifies this
      ensures placesCache == old(placesCache) && venueCache == old(venueCache)
      ensures !Truthy(address) || Length16(Trim(address.value)) < 5 ==> res == GeocodeBadRequest && geocodeCache == old(geocodeCache)
      ensures Truthy(address) && Length16(Trim(address.value)) >= 5 && !DocIdAccepted(GeocodeKey(address.value)) ==>
        res == GeocodeFailed && geocodeCache == old(geocodeCache)
      ensures Truthy(address) && Length16(Trim(address.value)) >= 5 && DocIdAccepted(GeocodeKey(address.value)) && GeocodeKey(address.value) in old(geocodeCache) ==>
        var d := old(geocodeCache)[GeocodeKey(address.value)];
        res == Location(d.latitude, d.longitude, d.formattedAddress, true, None) && geocodeCache == old(geocodeCache)
      ensures Truthy(address) && Length16(Trim(address.value)) >= 5 && DocIdAccepted(GeocodeKey(address.value)) && GeocodeKey(address.value) !in old(geocodeCache) && !Truthy(apiKey) ==>
        res == Location(None, None, None, false, Some("API not configured")) && geocodeCache == old(geocodeCache)
      ensures Truthy(address) && Length16(Trim(address.value)) >= 5 && DocIdAccepted(GeocodeKey(address.value)) && GeocodeKey(address.value) !in old(geocodeCache) && Truthy(apiKey) ==>
        match google
        case None => res == GeocodeFailed && geocodeCache == old(geocodeCache)
        case Some(answer) =>
          if answer.status != "OK" || answer.results.None? || |answer.results.value| == 0 then
            res == Location(None, None, None, false, None) && geocodeCache == old(geocodeCache)
          else
            var g := answer.results.value[0];
            if !GeoStorable(g) then
              res == GeocodeFailed && geocodeCache == old(geocodeCache)
            else
              && geocodeCache == old(geocodeCache)[GeocodeKey(address.value) := GeocodeDoc(g.latitude, g.longitude, g.formattedAddress, address.value, Some(now))]
              && res == Location(g.latitude, g.longitude, g.formattedAddress, false, None)
    {
      if !Truthy(address) || Length16(Trim(address.value)) < 5 {
        return GeocodeBadRequest;
      }
      var key := GeocodeKey(address.value);
      // a "/" in the key can make the path name a collection, and `doc` throws
      if !DocIdAccepted(key) {
        return GeocodeFailed;
      }
      if key in geocodeCache {
        var d := geocodeCache[key];
        return Location(d.latitude, d.longitude, d.formattedAddress, true, None);
      }
      if !Truthy(apiKey) {
        return Location(None, None, None, false, Some("API not configured"));
      }
      if google.None? {
        return GeocodeFailed;
      }
      var answer := google.value;
      if answer.status != "OK" || answer.results.None? || |answer.results.value| == 0 {
        return Location(None, None, None, false, None);
      }
      var g := answer.results.value[0];
      // a missing location throws, and Firestore refuses an undefined field
      if !GeoStorable(g) {
        return GeocodeFailed;
      }
      geocodeCache := geocodeCache[key := GeocodeDoc(g.latitude, g.longitude, g.formattedAddress, address.value, Some(now))];
      return Location(g.latitude, g.longitude, g.formattedAddress, false, None);
    }
  }

  /** A cached answer is served again: an autocomplete write followed by the same request within the TTL is a hit. */
  lemma AutocompleteWriteThenHit(docs: map<string, CacheDoc>, text: string, preds: seq<Prediction>, now: int, later: int)
    requires now <= later < now + AutocompleteTtlMs && now != 0
    ensures var d := docs[AutocompleteKey(text) := AutocompleteDoc(text, preds, Some(now), "google_places_api")];
      AutocompleteHit(d, AutocompleteKey(text), later) == Some((preds, later - now))
  {
  }

  /** Keys differing only in case share one autocomplete entry. */
  lemma AutocompleteKeyIgnoresCase(a: string, b: string)
    requires Lower(a) == Lower(b)
    ensures AutocompleteKey(a) == AutocompleteKey(b)
  {
  }
}

=== FILE: places_cache_cron.dfy ===
/**
 * The daily Places cache refresh: venues are grouped from the discover events and saved to
 * `venueCache`, popular search terms are pre-cached in `placesCache`, and stale cache entries
 * are removed in bounded batches. The Google answers and the clock are supplied.
 */
module PlacesCacheCron {
  import opened Wrappers
  import opened JsStr
  import opened Paging
  import Places

  const EventScanLimit := 500
  const CleanupBatchLimit := 100
  const PreCacheTtlMs := Places.DayMs
  const StaleAfterMs := 30 * Places.DayMs

  const PopularSearches: seq<string> := [
    "concert hall", "stadium", "theater", "arena", "convention center",
    "music venue", "nightclub", "bar", "park", "amphitheater"]

  /** One `discoverEvents` document, with the fields the grouping reads. */
  datatype DiscoverEvent = DiscoverEvent(venueName: Option<string>, city: Option<string>, region: Option<string>,
                                         address: Option<string>, latitude: Option<real>, longitude: Option<real>)

  /** One entry of the venue map. */
  datatype VenueEntry = VenueEntry(name: string, city: string, region: string, address: string,
                                   latitude: Option<real>, longitude: Option<real>, eventCount: int)

  /** JavaScript truthiness of an optional coordinate (absent and 0 are falsy). */
  predicate TruthyNum(x: Option<real>) {
    x.Some? && x.value != 0.0
  }

  // ---------------------------------------------------------------------------------------
  // Venue grouping

  /**
   * What one event contributes: its group key — lowercase "<trimmed venue name>|<city or ''>" —
   * and the entry it would start; nothing when the trimmed venue name is empty.
   */
  function EntryOf(e: DiscoverEvent): (r: Option<(string, VenueEntry)>)
    ensures r.Some? <==> e.venueName.Some? && Trim(e.venueName.value) != ""
    ensures r.Some? ==> (r.value.1.name == Trim(e.venueName.value) && r.value.1.name != "" &&
      r.value.1.city == Or(e.city, "") && r.value.1.region == Or(e.region, "") &&
      r.value.1.address == Or(e.address, "") && r.value.1.eventCount == 1 &&
      r.value.1.latitude == e.latitude && r.value.1.longitude == e.longitude &&
      r.value.0 == Lower(r.value.1.name + "|" + r.value.1.city))
  {
    if e.venueName.None? then None
    else
      var name := Trim(e.venueName.value);
      if name == "" then None
      else
        var city := Or(e.city, "");
        Some((Lower(name + "|" + city), VenueEntry(name, city, Or(e.region, ""), Or(e.address, ""), e.latitude, e.longitude, 1)))
  }

  /** The contributions of the events, in order. */
  function Entries(events: seq<DiscoverEvent>): (xs: seq<Option<(string, VenueEntry)>>)
    ensures |xs| == |events| && forall i :: 0 <= i < |events| ==> xs[i] == EntryOf(events[i])
  {
    seq(|events|, i requires 0 <= i < |events| => EntryOf(events[i]))
  }

  /** The venue map after one more contribution: a new key starts an entry, a known key counts one more event. */
  function Add(m: map<string, VenueEntry>, x: Option<(string, VenueEntry)>): map<string, VenueEntry> {
    if x.None? then m
    else
      var (key, first) := x.value;
      if key !in m then m[key := first.(eventCount := 1)]
      else
        var v := m[key].(eventCount := m[key].eventCount + 1);
        // coordinates are taken from a later event only when the entry has no latitude
        if TruthyNum(first.latitude) && TruthyNum(first.longitude) && !TruthyNum(v.latitude)
        then m[key := v.(latitude := first.latitude, longitude := first.longitude)]
        else m[key := v]
  }

  /** The venue map built from the contributions in order. */
  function Group(xs: seq<Option<(string, VenueEntry)>>): map<string, VenueEntry> {
    if xs == [] then map[]
    else Add(Group(xs[..|xs| - 1]), xs[|xs| - 1])
  }

  /** The keys of the venue map in insertion order (the order a `Map` iterates in). */
  function KeysOf(xs: seq<Option<(string, VenueEntry)>>): seq<string> {
    if xs == [] then []
    else
      var p := xs[..|xs| - 1];
      var x := xs[|xs| - 1];
      if x.Some? && x.value.0 !in Group(p) then KeysOf(p) + [x.value.0] else KeysOf(p)
  }

  /** How many contributions have key `k`. */
  function CountKey(xs: seq<Option<(string, VenueEntry)>>, k: string): nat {
    if xs == [] then 0
    else
      var x := xs[|xs| - 1];
      CountKey(xs[..|xs| - 1], k) + (if x.Some? && x.value.0 == k then 1 else 0)
  }

  /** How many events contribute at all. */
  function Contributing(xs: seq<Option<(string, VenueEntry)>>): (n: nat)
    ensures n <= |xs|
  {
    if xs == [] then 0
    else Contributing(xs[..|xs| - 1]) + (if xs[|xs| - 1].Some? then 1 else 0)
  }

  predicate Distinct(s: seq<string>) {
    forall i, j :: 0 <= i < j < |s| ==> s[i] != s[j]
  }

  /** The sum of the event counts of `keys` in `m`. */
  function SumCounts(keys: seq<string>, m: map<string, VenueEntry>): int
    requires forall i :: 0 <= i < |keys| ==> keys[i] in m
  {
    if keys == [] then 0
    else SumCounts(keys[..|keys| - 1], m) + m[keys[|keys| - 1]].eventCount
  }

  /** A key is in the map exactly when some event has it, and its count is the number of such events. */
  lemma {:induction false} GroupCounts(xs: seq<Option<(string, VenueEntry)>>)
    ensures forall k :: k in Group(xs) <==> CountKey(xs, k) > 0
    ensures forall k :: k in Group(xs) ==> Group(xs)[k].eventCount == CountKey(xs, k)
  {
    if xs != [] {
      var p := xs[..|xs| - 1];
      var x := xs[|xs| - 1];
      GroupCounts(p);
      if x.Some? {
        var k0 := x.value.0;
        var g := Group(p);
        assert Group(xs) == Add(g, x);
        assert Add(g, x)[k0].eventCount == if k0 in g then g[k0].eventCount + 1 else 1;
        assert forall k :: k != k0 ==> CountKey(xs, k) == CountKey(p, k);
        assert CountKey(xs, k0) == CountKey(p, k0) + 1;
      } else {
        assert forall k :: CountKey(xs, k) == CountKey(p, k);
      }
    }
  }

  /** The insertion-ordered keys are distinct and are exactly the keys of the map. */
  lemma {:induction false} KeysOfGroup(xs: seq<Option<(string, VenueEntry)>>)
    ensures Distinct(KeysOf(xs))
    ensures forall k :: k in KeysOf(xs) <==> k in Group(xs)
  {
    if xs != [] {
      KeysOfGroup(xs[..|xs| - 1]);
    }
  }

  lemma {:induction false} SumFrame(keys: seq<string>, m: map<string, VenueEntry>, k: string, v: VenueEntry)
    requires forall i :: 0 <= i < |keys| ==> keys[i] in m
    requires k !in keys
    ensures SumCounts(keys, m[k := v]) == SumCounts(keys, m)
  {
    if keys != [] {
      SumFrame(keys[..|keys| - 1], m, k, v);
    }
  }

  lemma {:induction false} SumBump(keys: seq<string>, m: map<string, VenueEntry>, k: string, v: VenueEntry)
    requires forall i :: 0 <= i < |keys| ==> keys[i] in m
    requires Distinct(keys) && k in keys
    ensures SumCounts(keys, m[k := v]) == SumCounts(keys, m) - m[k].eventCount + v.eventCount
  {
    var p := keys[..|keys| - 1];
    if keys[|keys| - 1] == k {
      assert k !in p;
      SumFrame(p, m, k, v);
    } else {
      SumBump(p, m, k, v);
    }
  }

  /** One contribution changes at most the entry of its own key, counting one more event there. */
  lemma AddShape(m: map<string, VenueEntry>, x: Option<(string, VenueEntry)>)
    ensures x.None? ==> Add(m, x) == m
    ensures x.Some? ==> (x.value.0 in Add(m, x) &&
      Add(m, x) == m[x.value.0 := Add(m, x)[x.value.0]] &&
      Add(m, x)[x.value.0].eventCount == if x.value.0 in m then m[x.value.0].eventCount + 1 else 1)
  {
  }

  /** The sum of the counts grows by one with each contributing event. */
  lemma SumStep(ks: seq<string>, g: map<string, VenueEntry>, x: Option<(string, VenueEntry)>)
    requires Distinct(ks) && forall k :: k in ks <==> k in g
    ensures var ks2 := if x.Some? && x.value.0 !in g then ks + [x.value.0] else ks;
      (forall i :: 0 <= i < |ks2| ==> ks2[i] in Add(g, x)) &&
      SumCounts(ks2, Add(g, x)) == SumCounts(ks, g) + (if x.Some? then 1 else 0)
  {
    var g2 := Add(g, x);
    AddShape(g, x);
    if x.Some? {
      var key := x.value.0;
      if key !in g {
        SumFrame(ks, g, key, g2[key]);
        assert (ks + [key])[..|ks|] == ks;
      } else {
        SumBump(ks, g, key, g2[key]);
      }
    }
  }

  /** The event counts of all venues add up to the number of contributing events. */
  lemma {:induction false} CountsAddUp(xs: seq<Option<(string, VenueEntry)>>)
    ensures forall i :: 0 <= i < |KeysOf(xs)| ==> KeysOf(xs)[i] in Group(xs)
    ensures SumCounts(KeysOf(xs), Group(xs)) == Contributing(xs)
  {
    if xs != [] {
      var p, x := xs[..|xs| - 1], xs[|xs| - 1];
      CountsAddUp(p);
      KeysOfGroup(p);
      SumStep(KeysOf(p), Group(p), x);
      assert Group(xs) == Add(Group(p), x);
      assert KeysOf(xs) == if x.Some? && x.value.0 !in Group(p) then KeysOf(p) + [x.value.0] else KeysOf(p);
      assert Contributing(xs) == Contributing(p) + if x.Some? then 1 else 0;
    }
  }

  lemma {:induction false} SumAtLeastLength(keys: seq<string>, m: map<string, VenueEntry>)
    requires forall i :: 0 <= i < |keys| ==> keys[i] in m && m[keys[i]].eventCount >= 1
    ensures SumCounts(keys, m) >= |keys|
  {
    if keys != [] {
      SumAtLeastLength(keys[..|keys| - 1], m);
    }
  }

  /** There are never more venues than contributing events. */
  lemma VenueCountBound(xs: seq<Option<(string, VenueEntry)>>)
    ensures |KeysOf(xs)| <= Contributing(xs)
  {
    CountsAddUp(xs);
    GroupCounts(xs);
    KeysOfGroup(xs);
    SumAtLeastLength(KeysOf(xs), Group(xs));
  }

  lemma {:induction false} CountKeyZero(xs: seq<Option<(string, VenueEntry)>>, k: string)
    requires forall j :: 0 <= j < |xs| ==> !(xs[j].Some? && xs[j].value.0 == k)
    ensures CountKey(xs, k) == 0
  {
    if xs != [] {
      var p := xs[..|xs| - 1];
      assert forall j :: 0 <= j < |p| ==> p[j] == xs[j];
      CountKeyZero(p, k);
    }
  }

  /** A venue's name, city, region and address come from the first event that has its key. */
  lemma {:induction false} FieldsFromFirst(xs: seq<Option<(string, VenueEntry)>>, i: nat)
    requires i < |xs| && xs[i].Some?
    requires forall j :: 0 <= j < i ==> !(xs[j].Some? && xs[j].value.0 == xs[i].value.0)
    ensures xs[i].value.0 in Group(xs)
    ensures var v := Group(xs)[xs[i].value.0]; var f := xs[i].value.1;
      v.name == f.name && v.city == f.city && v.region == f.region && v.address == f.address
  {
    var p := xs[..|xs| - 1];
    if i == |xs| - 1 {
      CountKeyZero(p, xs[i].value.0);
      GroupCounts(p);
    } else {
      assert p[i] == xs[i];
      assert forall j :: 0 <= j < i ==> p[j] == xs[j];
      FieldsFromFirst(p, i);
    }
  }

  /** Coordinates, once present (truthy latitude), are never replaced by later events. */
  lemma {:induction false} CoordinatesKept(p: seq<Option<(string, VenueEntry)>>, q: seq<Option<(string, VenueEntry)>>, k: string)
    requires k in Group(p) && TruthyNum(Group(p)[k].latitude)
    ensures k in Group(p + q)
    ensures Group(p + q)[k].latitude == Group(p)[k].latitude
    ensures Group(p + q)[k].longitude == Group(p)[k].longitude
  {
    if q == [] {
      assert p + q == p;
    } else {
      var q0 := q[..|q| - 1];
      CoordinatesKept(p, q0, k);
      assert (p + q)[..|p + q| - 1] == p + q0;
      assert (p + q)[|p + q| - 1] == q[|q| - 1];
    }
  }

  /** A venue with an event carrying both coordinates ends up with a truthy latitude. */
  lemma {:induction false} CoordinatesFound(xs: seq<Option<(string, VenueEntry)>>, i: nat)
    requires i < |xs| && xs[i].Some?
    requires TruthyNum(xs[i].value.1.latitude) && TruthyNum(xs[i].value.1.longitude)
    ensures xs[i].value.0 in Group(xs)
    ensures TruthyNum(Group(xs)[xs[i].value.0].latitude)
  {
    var p := xs[..i + 1];
    var k := xs[i].value.0;
    assert p[..|p| - 1] == xs[..i];
    assert p[|p| - 1] == xs[i];
    assert TruthyNum(Group(p)[k].latitude);
    CoordinatesKept(p, xs[i + 1..], k);
    assert p + xs[i + 1..] == xs;
  }

  lemma EntriesSnoc(events: seq<DiscoverEvent>, i: nat)
    requires i < |events|
    ensures Entries(events[..i + 1]) == Entries(events[..i]) + [EntryOf(events[i])]
  {
    var a := Entries(events[..i + 1]);
    var b := Entries(events[..i]) + [EntryOf(events[i])];
    assert |a| == |b|;
    forall j | 0 <= j < |a| ensures a[j] == b[j] {
      assert events[..i + 1][j] == events[j];
    }
  }

  lemma GroupSnoc(xs: seq<Option<(string, VenueEntry)>>, x: Option<(string, VenueEntry)>)
    ensures Group(xs + [x]) == Add(Group(xs), x)
    ensures KeysOf(xs + [x]) == if x.Some? && x.value.0 !in Group(xs) then KeysOf(xs) + [x.value.0] else KeysOf(xs)
  {
    assert (xs + [x])[..|xs|] == xs;
  }

  /** The `forEach` callback: one event updates the venue map and, for a new key, the key order. */
  method CountEvent(keys: seq<string>, venues: map<string, VenueEntry>, e: DiscoverEvent)
    returns (keys': seq<string>, venues': map<string, VenueEntry>)
    ensures venues' == Add(venues, EntryOf(e))
    ensures keys' == if EntryOf(e).Some? && EntryOf(e).value.0 !in venues then keys + [EntryOf(e).value.0] else keys
  {
    keys', venues' := keys, venues;
    ghost var x := EntryOf(e);
    if e.venueName.Some? {
      var name := Trim(e.venueName.value);
      if name != "" {
        var key := Lower(name + "|" + Or(e.city, ""));
        assert x == Some((key, VenueEntry(name, Or(e.city, ""), Or(e.region, ""), Or(e.address, ""),
                                          e.latitude, e.longitude, 1)));
        if key !in venues {
          venues' := venues[key := VenueEntry(name, Or(e.city, ""), Or(e.region, ""), Or(e.address, ""),
                                              e.latitude, e.longitude, 1)];
          keys' := keys + [key];
        } else {
          var v := venues[key];
          v := v.(eventCount := v.eventCount + 1);
          if TruthyNum(e.latitude) && TruthyNum(e.longitude) && !TruthyNum(v.latitude) {
            v := v.(latitude := e.latitude, longitude := e.longitude);
          }
          venues' := venues[key := v];
        }
      } else {
        assert x.None?;
      }
    } else {
      assert x.None?;
    }
  }

  /** `venueMap`, built by one pass over the scanned events. */
  method GroupVenues(events: seq<DiscoverEvent>) returns (keys: seq<string>, venues: map<string, VenueEntry>)
    ensures keys == KeysOf(Entries(events)) && venues == Group(Entries(events))
    ensures Distinct(keys) && forall k :: k in keys <==> k in venues
    ensures forall k :: k in venues ==> venues[k].eventCount == CountKey(Entries(events), k) >= 1
  {
    keys := [];
    venues := map[];
    var i := 0;
    while i < |events|
      invariant 0 <= i <= |events|
      invariant keys == KeysOf(Entries(events[..i])) && venues == Group(Entries(events[..i]))
    {
      keys, venues := CountEvent(keys, venues, events[i]);
      EntriesSnoc(events, i);
      GroupSnoc(Entries(events[..i]), EntryOf(events[i]));
      i := i + 1;
    }
    assert events[..i] == events;
    KeysOfGroup(Entries(events));
    GroupCounts(Entries(events));
  }

  // ---------------------------------------------------------------------------------------
  // Saving the venues

  const DocIdForbidden: set<char> := {'/', '\\', '#', '[', ']', '*'}

  /** The `venueCache` document id: forbidden characters to "_", at most 100 UTF-16 code units. */
  function DocId(key: string): (id: string)
    ensures forall i :: 0 <= i < |id| ==> id[i] !in DocIdForbidden
  {
    Prefix16(ReplaceChars(key, DocIdForbidden, '_'), 100)
  }

  /**
   * The document id is the key with each forbidden character turned into "_", cut to its
   * longest prefix of at most 100 UTF-16 code units; a key within that bound keeps its length.
   */
  lemma DocIdSpec(key: string)
    ensures var id := DocId(key);
      && |id| <= |key| && Length16(id) <= 100
      && (forall i :: 0 <= i < |id| ==> id[i] == (if key[i] in DocIdForbidden then '_' else key[i]))
      && (Length16(key) <= 100 ==> |id| == |key|)
      && (|id| < |key| ==> Length16(id) + Units(key[|id|]) > 100)
  {
    var r := ReplaceChars(key, DocIdForbidden, '_');
    Length16Pointwise(r, key);
    var id := DocId(key);
    assert |id| < |key| ==> Units(r[|id|]) == Units(key[|id|]);
  }

  /** Distinct group keys can share a document id; the venue saved later then replaces the earlier one. */
  lemma DocIdCollides()
    ensures "a/b|x" != "a#b|x" && DocId("a/b|x") == DocId("a#b|x")
  {
    assert DocId("a/b|x") == "a_b|x";
    assert DocId("a#b|x") == "a_b|x";
  }

  /**
   * The venue after the geocoding attempt, and whether coordinates were found. A first result
   * without a location makes `results[0].geometry.location` throw; the catch around the request
   * then leaves the venue as it was and uncounted.
   */
  function Located(v: VenueEntry, apiKey: Option<string>, geocode: string -> Option<Places.GeocodeAnswer>): (r: (VenueEntry, bool))
    ensures r.1 ==> !TruthyNum(v.latitude) || !TruthyNum(v.longitude)
    ensures r.1 ==> r.0.latitude.Some? && r.0.longitude.Some?
    ensures !r.1 ==> r.0 == v
    ensures r.0.(latitude := v.latitude, longitude := v.longitude) == v
  {
    if (!TruthyNum(v.latitude) || !TruthyNum(v.longitude)) && Truthy(apiKey) && v.address != "" then
      match geocode(v.name + ", " + v.address + ", " + v.city)
      case Some(answer) =>
        if answer.status == "OK" && answer.results.Some? && |answer.results.value| > 0
           && HasLocation(answer.results.value[0]) then
          var loc := answer.results.value[0];
          (v.(latitude := loc.latitude, longitude := loc.longitude), true)
        else (v, false)
      case None => (v, false)
    else (v, false)
  }

  /** The result carries both coordinates of `geometry.location`. */
  predicate HasLocation(g: Places.GeoResult) {
    g.latitude.Some? && g.longitude.Some?
  }

  /**
   * Geocoding counts exactly when the venue lacks a coordinate, a key and an address are at
   * hand, and the answer is OK with a located first result; the venue then takes its coordinates.
   */
  lemma {:induction false} LocatedIff(v: VenueEntry, apiKey: Option<string>, geocode: string -> Option<Places.GeocodeAnswer>)
    ensures var address := v.name + ", " + v.address + ", " + v.city;
      Located(v, apiKey, geocode).1 <==>
        (!TruthyNum(v.latitude) || !TruthyNum(v.longitude)) && Truthy(apiKey) && v.address != "" &&
        geocode(address).Some? && geocode(address).value.status == "OK" &&
        geocode(address).value.results.Some? && |geocode(address).value.results.value| > 0 &&
        HasLocation(geocode(address).value.results.value[0])
    ensures Located(v, apiKey, geocode).1 ==>
      var loc := geocode(v.name + ", " + v.address + ", " + v.city).value.results.value[0];
      Located(v, apiKey, geocode).0 == v.(latitude := loc.latitude, longitude := loc.longitude)
  {
  }

  /** The saved document: the venue plus `cityLower`, `popularity` and `cachedAt`. */
  function VenueDocOf(v: VenueEntry, now: int): (d: Places.VenueDoc)
    ensures d.popularity == v.eventCount == d.eventCount && d.cityLower == Lower(v.city)
    ensures d.name == v.name && d.city == v.city && d.address == v.address && d.cachedAt == now
  {
    Places.VenueDoc(v.name, v.city, v.region, v.address, v.latitude, v.longitude, v.eventCount,
                    Lower(v.city), v.eventCount, now)
  }

  /** The venue cache after saving `keys` in order. */
  function SaveAll(cache: map<string, Places.VenueDoc>, keys: seq<string>, venues: map<string, VenueEntry>,
                   apiKey: Option<string>, geocode: string -> Option<Places.GeocodeAnswer>, now: int): map<string, Places.VenueDoc>
    requires forall i :: 0 <= i < |keys| ==> keys[i] in venues
  {
    if keys == [] then cache
    else
      var k := keys[|keys| - 1];
      SaveAll(cache, keys[..|keys| - 1], venues, apiKey, geocode, now)[DocId(k) := VenueDocOf(Located(venues[k], apiKey, geocode).0, now)]
  }

  /** How many saved venues were geocoded. */
  function GeocodedCount(keys: seq<string>, venues: map<string, VenueEntry>,
                         apiKey: Option<string>, geocode: string -> Option<Places.GeocodeAnswer>): (n: nat)
    requires forall i :: 0 <= i < |keys| ==> keys[i] in venues
    ensures n <= |keys|
  {
    if keys == [] then 0
    else GeocodedCount(keys[..|keys| - 1], venues, apiKey, geocode) +
         (if Located(venues[keys[|keys| - 1]], apiKey, geocode).1 then 1 else 0)
  }

  /** Saving adds exactly the document ids of the keys. */
  lemma {:induction false} SaveAllDomain(cache: map<string, Places.VenueDoc>, keys: seq<string>, venues: map<string, VenueEntry>,
                                         apiKey: Option<string>, geocode: string -> Option<Places.GeocodeAnswer>, now: int)
    requires forall i :: 0 <= i < |keys| ==> keys[i] in venues
    ensures forall id :: id in SaveAll(cache, keys, venues, apiKey, geocode, now) <==>
      id in cache || exists i :: 0 <= i < |keys| && DocId(keys[i]) == id
  {
    if keys != [] {
      var p := keys[..|keys| - 1];
      SaveAllDomain(cache, p, venues, apiKey, geocode, now);
      assert forall i :: 0 <= i < |p| ==> p[i] == keys[i];
    }
  }

  /** A document whose id no key maps to is left as it was. */
  lemma {:induction false} SaveAllKeepsOthers(cache: map<string, Places.VenueDoc>, keys: seq<string>, venues: map<string, VenueEntry>,
                                              apiKey: Option<string>, geocode: string -> Option<Places.GeocodeAnswer>, now: int)
    requires forall i :: 0 <= i < |keys| ==> keys[i] in venues
    ensures forall id :: id in cache && (forall i :: 0 <= i < |keys| ==> DocId(keys[i]) != id) ==>
      id in SaveAll(cache, keys, venues, apiKey, geocode, now) &&
      SaveAll(cache, keys, venues, apiKey, geocode, now)[id] == cache[id]
  {
    if keys != [] {
      var p := keys[..|keys| - 1];
      SaveAllKeepsOthers(cache, p, venues, apiKey, geocode, now);
      assert forall i :: 0 <= i < |p| ==> p[i] == keys[i];
    }
  }

  /** A venue whose document id no later key shares is saved with popularity = its event count. */
  lemma {:induction false} SavedVenue(cache: map<string, Places.VenueDoc>, keys: seq<string>, venues: map<string, VenueEntry>,
                                      apiKey: Option<string>, geocode: string -> Option<Places.GeocodeAnswer>, now: int, i: nat)
    requires forall j :: 0 <= j < |keys| ==> keys[j] in venues
    requires i < |keys| && forall j :: i < j < |keys| ==> DocId(keys[j]) != DocId(keys[i])
    ensures DocId(keys[i]) in SaveAll(cache, keys, venues, apiKey, geocode, now)
    ensures var d := SaveAll(cache, keys, venues, apiKey, geocode, now)[DocId(keys[i])];
      var v := venues[keys[i]];
      d == VenueDocOf(Located(v, apiKey, geocode).0, now) &&
      d.popularity == v.eventCount && d.cityLower == Lower(v.city)
  {
    if i < |keys| - 1 {
      var p := keys[..|keys| - 1];
      assert forall j :: i < j < |p| ==> p[j] == keys[j];
      SavedVenue(cache, p, venues, apiKey, geocode, now, i);
    }
  }

  /** The venue-saving loop of `cacheVenuesFromEvents`. */
  method SaveVenues(store: Places.PlacesStore, keys: seq<string>, venues: map<string, VenueEntry>,
                    apiKey: Option<string>, geocode: string -> Option<Places.GeocodeAnswer>, now: int)
    returns (cached: nat, geocoded: nat)
    requires forall i :: 0 <= i < |keys| ==> keys[i] in venues
    modifies store
    ensures store.venueCache == SaveAll(old(store.venueCache), keys, venues, apiKey, geocode, now)
    ensures store.placesCache == old(store.placesCache) && store.geocodeCache == old(store.geocodeCache)
    ensures cached == |keys| && geocoded == GeocodedCount(keys, venues, apiKey, geocode) <= cached
  {
    cached, geocoded := 0, 0;
    var i := 0;
    while i < |keys|
      invariant 0 <= i <= |keys| && cached == i
      invariant store.venueCache == SaveAll(old(store.venueCache), keys[..i], venues, apiKey, geocode, now)
      invariant store.placesCache == old(store.placesCache) && store.geocodeCache == old(store.geocodeCache)
      invariant geocoded == GeocodedCount(keys[..i], venues, apiKey, geocode)
    {
      var found := SaveVenue(store, keys[i], venues[keys[i]], apiKey, geocode, now);
      if found {
        geocoded := geocoded + 1;
      }
      cached := cached + 1;
      SaveAllStep(old(store.venueCache), keys, venues, apiKey, geocode, now, i);
      i := i + 1;
    }
    assert keys[..i] == keys;
  }

  lemma SaveAllStep(cache: map<string, Places.VenueDoc>, keys: seq<string>, venues: map<string, VenueEntry>,
                    apiKey: Option<string>, geocode: string -> Option<Places.GeocodeAnswer>, now: int, i: nat)
    requires forall j :: 0 <= j < |keys| ==> keys[j] in venues
    requires i < |keys|
    ensures SaveAll(cache, keys[..i + 1], venues, apiKey, geocode, now) ==
      SaveAll(cache, keys[..i], venues, apiKey, geocode, now)[DocId(keys[i]) := VenueDocOf(Located(venues[keys[i]], apiKey, geocode).0, now)]
    ensures GeocodedCount(keys[..i + 1], venues, apiKey, geocode) ==
      GeocodedCount(keys[..i], venues, apiKey, geocode) + if Located(venues[keys[i]], apiKey, geocode).1 then 1 else 0
  {
    assert keys[..i + 1][..i] == keys[..i];
  }

  /** One venue of the saving loop: geocoded when it lacks coordinates and has an address, then written. */
  method SaveVenue(store: Places.PlacesStore, key: string, venue: VenueEntry, apiKey: Option<string>,
                   geocode: string -> Option<Places.GeocodeAnswer>, now: int)
    returns (found: bool)
    modifies store
    ensures found == Located(venue, apiKey, geocode).1
    ensures store.venueCache == old(store.venueCache)[DocId(key) := VenueDocOf(Located(venue, apiKey, geocode).0, now)]
    ensures store.placesCache == old(store.placesCache) && store.geocodeCache == old(store.geocodeCache)
  {
    var docId := DocId(key);
    var v := venue;
    found := false;
    if !TruthyNum(v.latitude) || !TruthyNum(v.longitude) {
      if Truthy(apiKey) && v.address != "" {
        var response := geocode(v.name + ", " + v.address + ", " + v.city);
        if response.Some? {
          var answer := response.value;
          if answer.status == "OK" && answer.results.Some? && |answer.results.value| > 0
             && HasLocation(answer.results.value[0]) {
            var loc := answer.results.value[0];
            v := v.(latitude := loc.latitude, longitude := loc.longitude);
            found := true;
          }
        }
      }
    }
    store.venueCache := store.venueCache[docId := VenueDocOf(v, now)];
  }

  /** `cacheVenuesFromEvents`: group the first 500 events by venue and save every venue. */
  method CacheVenuesFromEvents(store: Places.PlacesStore, snapshot: seq<DiscoverEvent>, apiKey: Option<string>,
                               geocode: string -> Option<Places.GeocodeAnswer>, now: int)
    returns (cached: nat, geocoded: nat)
    modifies store
    ensures var xs := Entries(Take(snapshot, EventScanLimit));
      (forall i :: 0 <= i < |KeysOf(xs)| ==> KeysOf(xs)[i] in Group(xs)) &&
      store.venueCache == SaveAll(old(store.venueCache), KeysOf(xs), Group(xs), apiKey, geocode, now) &&
      cached == |KeysOf(xs)| && geocoded == GeocodedCount(KeysOf(xs), Group(xs), apiKey, geocode)
    ensures store.placesCache == old(store.placesCache) && store.geocodeCache == old(store.geocodeCache)
    ensures geocoded <= cached <= EventScanLimit
  {
    var events := Take(snapshot, EventScanLimit);
    var keys, venues := GroupVenues(events);
    VenueCountBound(Entries(events));
    cached, geocoded := SaveVenues(store, keys, venues, apiKey, geocode, now);
  }

  // ---------------------------------------------------------------------------------------
  // Pre-caching popular searches

  /** The pre-cache key: lowercase, white-space runs to "_". */
  function PreCacheKey(term: string): string {
    "autocomplete_" + ReplaceSpaceRuns(Lower(term), '_')
  }

  /**
   * The cache after pre-caching one term. A prediction without its id or description makes
   * Firestore refuse the write; the term's own catch then skips it without counting it.
   */
  function PreCacheStep(cache: map<string, Places.CacheDoc>, term: string, now: int,
                        google: string -> Option<Places.AutocompleteAnswer>): (r: (map<string, Places.CacheDoc>, bool))
  {
    var key := PreCacheKey(term);
    if key in cache && Places.Fresh(now, cache[key].cachedAt, PreCacheTtlMs) then (cache, false)
    else match google(term)
      case None => (cache, false)
      case Some(answer) =>
        var predictions := Places.MapPredictions(answer.predictions.GetOr([]));
        if answer.status == "OK" && Places.PredictionsStorable(predictions) then
          (cache[key := Places.AutocompleteDoc(term, predictions, Some(now), "cron_precache")], true)
        else (cache, false)
  }

  /** The cache and the number of written terms after pre-caching `terms` in order. */
  function PreCacheAll(cache: map<string, Places.CacheDoc>, terms: seq<string>, now: int,
                       google: string -> Option<Places.AutocompleteAnswer>): (r: (map<string, Places.CacheDoc>, nat))
    ensures r.1 <= |terms|
  {
    if terms == [] then (cache, 0)
    else
      var before := PreCacheAll(cache, terms[..|terms| - 1], now, google);
      var step := PreCacheStep(before.0, terms[|terms| - 1], now, google);
      (step.0, before.1 + if step.1 then 1 else 0)
  }

  /**
   * A term whose entry is younger than 24 hours is left alone; otherwise only an OK answer
   * whose predictions Firestore can store is written, and the written entry stays fresh for the next 24 hours, so a second run within
   * that time skips the term.
   */
  lemma PreCacheStepSpec(cache: map<string, Places.CacheDoc>, term: string, now: int, later: int,
                         google: string -> Option<Places.AutocompleteAnswer>)
    requires now != 0 && now <= later < now + PreCacheTtlMs
    ensures var r := PreCacheStep(cache, term, now, google); var key := PreCacheKey(term);
      (key in cache && Places.Fresh(now, cache[key].cachedAt, PreCacheTtlMs) ==> r == (cache, false)) &&
      (r.1 <==> !(key in cache && Places.Fresh(now, cache[key].cachedAt, PreCacheTtlMs)) &&
                google(term).Some? && google(term).value.status == "OK" &&
                Places.PredictionsStorable(Places.MapPredictions(google(term).value.predictions.GetOr([])))) &&
      (!r.1 ==> r.0 == cache) &&
      (r.1 ==> r.0.Keys == cache.Keys + {key} && r.0[key].source == "cron_precache" &&
               r.0[key].AutocompleteDoc? && r.0[key].query == term &&
               PreCacheStep(r.0, term, later, google) == (r.0, false))
  {
  }

  /** Pre-caching writes only the pre-cache keys of its terms. */
  lemma {:induction false} PreCacheTouchesOnlyTerms(cache: map<string, Places.CacheDoc>, terms: seq<string>, now: int,
                                                    google: string -> Option<Places.AutocompleteAnswer>, k: string)
    requires forall i :: 0 <= i < |terms| ==> PreCacheKey(terms[i]) != k
    ensures (k in PreCacheAll(cache, terms, now, google).0) == (k in cache)
    ensures k in cache ==> PreCacheAll(cache, terms, now, google).0[k] == cache[k]
  {
    if terms != [] {
      var p := terms[..|terms| - 1];
      assert forall i :: 0 <= i < |p| ==> p[i] == terms[i];
      PreCacheTouchesOnlyTerms(cache, p, now, google, k);
    }
  }

  /** The result of `preCachePopularSearches`. */
  datatype PreCacheResult = Skipped | PreCached(cached: nat)

  /** One iteration of the pre-cache loop: skip a fresh entry, else write an OK answer that can be stored. */
  method PreCacheTerm(store: Places.PlacesStore, term: string, now: int,
                      google: string -> Option<Places.AutocompleteAnswer>)
    returns (wrote: bool)
    modifies store
    ensures (store.placesCache, wrote) == PreCacheStep(old(store.placesCache), term, now, google)
    ensures store.venueCache == old(store.venueCache) && store.geocodeCache == old(store.geocodeCache)
  {
    wrote := false;
    var key := PreCacheKey(term);
    if key in store.placesCache && Places.Fresh(now, store.placesCache[key].cachedAt, PreCacheTtlMs) {
      return;
    }
    var response := google(term);
    if response.Some? && response.value.status == "OK" {
      var predictions := Places.MapPredictions(response.value.predictions.GetOr([]));
      // an undefined id or description makes `set` throw, and the term is skipped
      if !Places.PredictionsStorable(predictions) {
        return;
      }
      store.placesCache := store.placesCache[key := Places.AutocompleteDoc(term, predictions, Some(now), "cron_precache")];
      wrote := true;
    }
  }

  lemma PreCacheSnoc(cache: map<string, Places.CacheDoc>, terms: seq<string>, i: nat, now: int,
                     google: string -> Option<Places.AutocompleteAnswer>)
    requires i < |terms|
    ensures var before := PreCacheAll(cache, terms[..i], now, google);
      var step := PreCacheStep(before.0, terms[i], now, google);
      PreCacheAll(cache, terms[..i + 1], now, google) == (step.0, before.1 + if step.1 then 1 else 0)
  {
    assert terms[..i + 1][..i] == terms[..i];
  }

  /** The pre-cache loop over `terms`, in order. */
  method PreCacheTerms(store: Places.PlacesStore, terms: seq<string>, now: int,
                       google: string -> Option<Places.AutocompleteAnswer>)
    returns (cached: nat)
    modifies store
    ensures (store.placesCache, cached) == PreCacheAll(old(store.placesCache), terms, now, google)
    ensures store.venueCache == old(store.venueCache) && store.geocodeCache == old(store.geocodeCache)
  {
    cached := 0;
    var i := 0;
    while i < |terms|
      invariant 0 <= i <= |terms|
      invariant store.placesCache == PreCacheAll(old(store.placesCache), terms[..i], now, google).0
      invariant cached == PreCacheAll(old(store.placesCache), terms[..i], now, google).1
      invariant store.venueCache == old(store.venueCache) && store.geocodeCache == old(store.geocodeCache)
    {
      PreCacheSnoc(old(store.placesCache), terms, i, now, google);
      ghost var step := PreCacheStep(store.placesCache, terms[i], now, google);
      var wrote := PreCacheTerm(store, terms[i], now, google);
      assert store.placesCache == step.0 && wrote == step.1;
      if wrote {
        cached := cached + 1;
      }
      i := i + 1;
    }
    assert terms[..i] == terms;
  }

  /** `preCachePopularSearches`: skipped without an API key, else the loop over the popular terms. */
  method PreCachePopularSearches(store: Places.PlacesStore, apiKey: Option<string>, now: int,
                                 google: string -> Option<Places.AutocompleteAnswer>)
    returns (res: PreCacheResult)
    modifies store
    ensures !Truthy(apiKey) ==> res == Skipped && store.placesCache == old(store.placesCache)
    ensures Truthy(apiKey) ==>
      var r := PreCacheAll(old(store.placesCache), PopularSearches, now, google);
      res == PreCached(r.1) && store.placesCache == r.0
    ensures store.venueCache == old(store.venueCache) && store.geocodeCache == old(store.geocodeCache)
  {
    if !Truthy(apiKey) {
      return Skipped;
    }
    var cached := PreCacheTerms(store, PopularSearches, now, google);
    return PreCached(cached);
  }

  /**
   * A term with white space inside is pre-cached under a key the autocomplete route never
   * looks up for that term: the route keeps the white space, the pre-cache key does not.
   */
  lemma PreCacheMissesMultiWord(term: string, j: nat)
    requires j < |term| && IsSpace(term[j])
    ensures Places.AutocompleteKey(term) != PreCacheKey(term)
  {
    var x := ReplaceChars(Lower(term), {'/', '\\'}, '_');
    var r := ReplaceSpaceRuns(Lower(term), '_');
    assert IsSpace(x[j]);
    RunsLeaveNoSpace(Lower(term), '_');
    assert x != r by {
      if |x| == |r| {
        assert !IsSpace(r[j]);
      }
    }
    assert Places.AutocompleteKey(term)[13..] == x;
    assert PreCacheKey(term)[13..] == r;
  }

  /** A single word without "/" or "\" is pre-cached exactly where the route looks it up. */
  lemma PreCacheHitsSingleWord(term: string)
    requires forall i :: 0 <= i < |term| ==> !IsSpace(term[i]) && term[i] != '/' && term[i] != '\\'
    ensures Places.AutocompleteKey(term) == PreCacheKey(term)
  {
    NoSpaceRunsUnchanged(Lower(term));
    assert ReplaceChars(Lower(term), {'/', '\\'}, '_') == Lower(term);
  }

  /** Three of the popular terms ("concert hall", "convention center", "music venue") are never served from their pre-cached entries. */
  lemma PopularMultiWordMissed()
    ensures Places.AutocompleteKey(PopularSearches[0]) != PreCacheKey(PopularSearches[0])
    ensures Places.AutocompleteKey(PopularSearches[4]) != PreCacheKey(PopularSearches[4])
    ensures Places.AutocompleteKey(PopularSearches[5]) != PreCacheKey(PopularSearches[5])
  {
    var t0, t4, t5 := PopularSearches[0], PopularSearches[4], PopularSearches[5];
    assert t0 == "concert hall" && t4 == "convention center" && t5 == "music venue";
    assert t0[7] == ' ' && t4[10] == ' ' && t5[5] == ' ';
    PreCacheMissesMultiWord(t0, 7);
    PreCacheMissesMultiWord(t4, 10);
    PreCacheMissesMultiWord(t5, 5);
  }

  // ---------------------------------------------------------------------------------------
  // Cleanup

  /** Matched by `where("cachedAt", "<", now - 30 days)`: entries without `cachedAt` never match. */
  predicate Stale(d: Places.CacheDoc, now: int) {
    d.cachedAt.Some? && d.cachedAt.value < now - StaleAfterMs
  }

  /** Cleanup never removes an entry the routes would still serve. */
  lemma StaleIsExpired(d: Places.CacheDoc, now: int)
    requires Stale(d, now)
    ensures !Places.Fresh(now, d.cachedAt, Places.AutocompleteTtlMs)
    ensures !Places.Fresh(now, d.cachedAt, Places.PlaceDetailsTtlMs)
    ensures !Places.Fresh(now, d.cachedAt, PreCacheTtlMs)
  {
  }

  function StaleKeys(cache: map<string, Places.CacheDoc>, now: int): set<string> {
    set k | k in cache && Stale(cache[k], now)
  }

  /**
   * `cleanupStaleCache`: at most 100 stale entries are removed (which ones is up to the
   * store's query); fewer only when no stale entry is left.
   */
  method CleanupStaleCache(store: Places.PlacesStore, now: int) returns (deleted: nat)
    modifies store
    ensures deleted <= CleanupBatchLimit
    ensures store.placesCache.Keys <= old(store.placesCache.Keys)
    ensures |old(store.placesCache.Keys) - store.placesCache.Keys| == deleted
    ensures forall k :: k in old(store.placesCache) && k !in store.placesCache ==> Stale(old(store.placesCache)[k], now)
    ensures forall k :: k in store.placesCache ==> store.placesCache[k] == old(store.placesCache)[k]
    ensures deleted < CleanupBatchLimit ==> StaleKeys(store.placesCache, now) == {}
    ensures deleted == if |StaleKeys(old(store.placesCache), now)| < CleanupBatchLimit
                       then |StaleKeys(old(store.placesCache), now)| else CleanupBatchLimit
    ensures store.venueCache == old(store.venueCache) && store.geocodeCache == old(store.geocodeCache)
  {
    var stale := StaleKeys(store.placesCache, now);
    var batch: set<string> := {};
    deleted := 0;
    while deleted < CleanupBatchLimit && stale - batch != {}
      invariant batch <= stale && |batch| == deleted <= CleanupBatchLimit
      decreases CleanupBatchLimit - deleted
    {
      var k :| k in stale - batch;
      batch := batch + {k};
      deleted := deleted + 1;
    }
    assert deleted < CleanupBatchLimit ==> batch == stale;
    if deleted > 0 {
      store.placesCache := store.placesCache - batch;
    }
    assert old(store.placesCache.Keys) - store.placesCache.Keys == batch;
    CardinalityBound(batch, stale);
  }

  lemma {:induction false} SubsetSize(a: set<string>, b: set<string>)
    requires a <= b
    ensures |a| <= |b|
    decreases |a|
  {
    if a != {} {
      var x :| x in a;
      SubsetSize(a - {x}, b - {x});
    }
  }

  lemma CardinalityBound(a: set<string>, b: set<string>)
    requires a <= b
    ensures |a| <= |b|
    ensures |a| == |b| ==> a == b
  {
    SubsetSize(a, b);
    if a != b {
      assert exists x :: x in b && x !in a;
      var x :| x in b && x !in a;
      SubsetSize(a, b - {x});
    }
  }
}

=== FILE: response_cache.dfy ===
/**
 * The server's in-memory response cache (`cacheMiddleware` in the entry point): a process-wide
 * map from "<METHOD>:<url>" to the last JSON body sent for it and the time it was stored.
 * A fresh entry answers the request directly; otherwise the route runs and the body it sends
 * is stored, after which every entry older than the five-minute TTL is swept out.
 * The clock is read three times (lookup, store, sweep); each reading is a parameter.
 */
module ResponseCache {
  import opened Wrappers

  /** `CACHE_TTL`: five minutes, in milliseconds; also the default `duration`. */
  const CacheTtlMs := 5 * 60 * 1000

  datatype Entry<D> = Entry(data: D, timestamp: int)

  /** The cache key of a request: its method and its original URL, joined by a colon. */
  function CacheKey(verb: string, url: string): (k: string)
    ensures |k| == |verb| + 1 + |url|
    ensures k[..|verb|] == verb && k[|verb|] == ':' && k[|verb| + 1..] == url
  {
    verb + ":" + url
  }

  /** HTTP method names contain no colon, so the key identifies method and URL. */
  lemma CacheKeyInjective(v1: string, u1: string, v2: string, u2: string)
    requires ':' !in v1 && ':' !in v2
    ensures CacheKey(v1, u1) == CacheKey(v2, u2) <==> v1 == v2 && u1 == u2
  {
  }

  /** An entry answers a request when it is younger than the route's `duration`. */
  predicate Hits<D>(e: Entry<D>, now: int, duration: int) {
    now - e.timestamp < duration
  }

  /** An entry is swept when it is strictly older than `CACHE_TTL`. */
  predicate Expired<D>(e: Entry<D>, now: int) {
    now - e.timestamp > CacheTtlMs
  }

  /** The cache after the clean-up loop at time `now`. */
  function Swept<D>(m: map<string, Entry<D>>, now: int): (r: map<string, Entry<D>>)
    ensures forall k :: k in r <==> k in m && !Expired(m[k], now)
    ensures forall k :: k in r ==> r[k] == m[k]
  {
    map k | k in m && !Expired(m[k], now) :: m[k]
  }

  /** Sweeping twice at the same time is sweeping once. */
  lemma SweptIdempotent<D>(m: map<string, Entry<D>>, now: int)
    ensures Swept(Swept(m, now), now) == Swept(m, now)
  {
  }

  /** After a sweep no entry is older than `CACHE_TTL`. */
  lemma SweptBounded<D>(m: map<string, Entry<D>>, now: int)
    ensures forall k :: k in Swept(m, now) ==> now - Swept(m, now)[k].timestamp <= CacheTtlMs
  {
  }

  /**
   * With a `duration` of at most `CACHE_TTL` the sweep never removes an entry that could
   * still answer a request at the sweep's time.
   */
  lemma SweepKeepsHits<D>(m: map<string, Entry<D>>, now: int, duration: int)
    requires duration <= CacheTtlMs
    ensures forall k :: k in m && Hits(m[k], now, duration) ==> k in Swept(m, now)
  {
  }

  /** What a request gets: the cached body, or the route's own answer. */
  datatype Outcome<D> = CachedHit(body: D) | RouteRan(sent: Option<D>)

  class Cache<D> {
    /** The module-level `cache` Map. */
    var entries: map<string, Entry<D>>

    constructor()
      ensures entries == map[]
    {
      entries := map[];
    }

    /** The cached body for `key` when its entry hits at `now`. */
    function Lookup(key: string, now: int, duration: int): (r: Option<D>)
      reads this
      ensures r.Some? <==> key in entries && Hits(entries[key], now, duration)
      ensures r.Some? ==> r.value == entries[key].data
    {
      if key in entries && Hits(entries[key], now, duration) then Some(entries[key].data) else None
    }

    /** The clean-up loop: walks the entries and deletes every expired one. */
    method Sweep(now: int)
      modifies this
      ensures entries == Swept(old(entries), now)
    {
      var pending := entries.Keys;
      while pending != {}
        invariant pending <= old(entries).Keys
        invariant forall k :: k in entries <==>
          k in old(entries) && (k in pending || !Expired(old(entries)[k], now))
        invariant forall k :: k in entries ==> entries[k] == old(entries)[k]
        decreases pending
      {
        var k :| k in pending;
        if Expired(entries[k], now) {
          entries := entries - {k};
        }
        pending := pending - {k};
      }
    }

    /** The overridden `res.json`: store the body under the key, then sweep. */
    method Store(key: string, data: D, storedAt: int, sweptAt: int)
      modifies this
      ensures entries == Swept(old(entries)[key := Entry(data, storedAt)], sweptAt)
    {
      entries := entries[key := Entry(data, storedAt)];
      Sweep(sweptAt);
    }

    /**
     * One request through the middleware. On a hit the cached body is sent and nothing is
     * stored; on a miss the route runs and, when it sends a JSON body, that body is stored
     * and the cache swept.
     */
    method Serve(verb: string, url: string, duration: int, lookupAt: int,
                 routeBody: Option<D>, storedAt: int, sweptAt: int)
      returns (out: Outcome<D>)
      modifies this
      ensures var key := CacheKey(verb, url);
        out.CachedHit? <==> key in old(entries) && Hits(old(entries)[key], lookupAt, duration)
      ensures out.CachedHit? ==>
        out.body == old(entries)[CacheKey(verb, url)].data && entries == old(entries)
      ensures out.RouteRan? ==> out.sent == routeBody
      ensures out.RouteRan? && routeBody.None? ==> entries == old(entries)
      ensures out.RouteRan? && routeBody.Some? ==>
        entries == Swept(old(entries)[CacheKey(verb, url) := Entry(routeBody.value, storedAt)], sweptAt)
    {
      var key := CacheKey(verb, url);
      var cached := Lookup(key, lookupAt, duration);
      if cached.Some? {
        return CachedHit(cached.value);
      }
      if routeBody.Some? {
        Store(key, routeBody.value, storedAt, sweptAt);
      }
      return RouteRan(routeBody);
    }
  }

  /**
   * The body just stored survives its own sweep exactly when the two clock readings are at
   * most `CACHE_TTL` apart; the next identical request then hits while it is younger than
   * `duration`.
   */
  lemma StoredThenHit<D>(m: map<string, Entry<D>>, key: string, data: D,
                          storedAt: int, sweptAt: int, later: int, duration: int)
    ensures var m' := Swept(m[key := Entry(data, storedAt)], sweptAt);
      (key in m' <==> sweptAt - storedAt <= CacheTtlMs) &&
      (key in m' ==> (m'[key].data == data &&
                      (later - storedAt < duration <==> Hits(m'[key], later, duration))))
  {
  }
}

=== FILE: seatgeek_api.dfy ===
/**
 * The SeatGeek adapter: the request parameters with undefined values removed, and the
 * mapping of one SeatGeek event to the app's record. The network answer is a supplied outcome.
 */
module SeatgeekApi {
  import opened Wrappers
  import opened JsStr

  datatype SgVenue = SgVenue(name: Option<string>, address: Option<string>, city: Option<string>, state: Option<string>)
  datatype Performer = Performer(image: Option<string>)
  datatype Stats = Stats(lowestPrice: Option<real>, highestPrice: Option<real>)

  /** One entry of the `events` list, with the fields the mapping reads. */
  datatype SgEvent = SgEvent(
    id: Option<string>,
    shortTitle: Option<string>,
    title: Option<string>,
    eventType: Option<string>,
    datetimeUtc: Option<string>,
    venue: Option<SgVenue>,
    performers: Option<seq<Performer>>,
    url: Option<string>,
    stats: Option<Stats>)

  datatype Price = Price(min: Option<real>, max: Option<real>, currency: string)

  datatype SeatgeekEvent = SeatgeekEvent(
    id: string,
    source: string,
    title: Option<string>,
    description: string,
    startAt: Option<string>,
    endAt: Option<string>,
    venueName: string,
    address: string,
    city: string,
    region: string,
    categories: seq<string>,
    imageUrl: Option<string>,
    externalUrl: Option<string>,
    price: Price)

  /** How a template literal renders an optional string. */
  function Text(o: Option<string>): string {
    if o.Some? then o.value else "undefined"
  }

  /** The parameters with an undefined value dropped, the others kept in order. */
  function CleanParams(ps: seq<(string, Option<string>)>): (r: seq<(string, string)>)
    ensures |r| <= |ps|
    ensures forall e :: e in r ==> (e.0, Some(e.1)) in ps
    ensures forall i :: 0 <= i < |ps| && ps[i].1.Some? ==> (ps[i].0, ps[i].1.value) in r
  {
    if ps == [] then []
    else
      var rest := CleanParams(ps[1..]);
      assert forall i :: 1 <= i < |ps| ==> ps[i] == ps[1..][i - 1];
      if ps[0].1.Some? then [(ps[0].0, ps[0].1.value)] + rest else rest
  }

  /** The query of the SeatGeek request. */
  function RequestParams(clientId: string, keyword: Option<string>, city: Option<string>): seq<(string, string)> {
    CleanParams([("client_id", Some(clientId)), ("q", keyword), ("venue.city", city),
                 ("sort", Some("score.desc")), ("per_page", Some("20"))])
  }

  /** The fixed parameters are always sent; `q` and `venue.city` only when defined. */
  lemma RequestParamsSpec(clientId: string, keyword: Option<string>, city: Option<string>)
    ensures var r := RequestParams(clientId, keyword, city);
      ("client_id", clientId) in r && ("sort", "score.desc") in r && ("per_page", "20") in r &&
      (keyword.Some? <==> exists v :: ("q", v) in r) &&
      (city.Some? <==> exists v :: ("venue.city", v) in r)
  {
    var ps := [("client_id", Some(clientId)), ("q", keyword), ("venue.city", city),
               ("sort", Some("score.desc")), ("per_page", Some("20"))];
    assert ps[0].1.Some? && ps[3].1.Some? && ps[4].1.Some?;
    KeywordParam(clientId, keyword, city);
    CityParam(clientId, keyword, city);
  }

  lemma KeywordParam(clientId: string, keyword: Option<string>, city: Option<string>)
    ensures keyword.Some? <==> exists v :: ("q", v) in RequestParams(clientId, keyword, city)
  {
    var ps := [("client_id", Some(clientId)), ("q", keyword), ("venue.city", city),
               ("sort", Some("score.desc")), ("per_page", Some("20"))];
    var r := RequestParams(clientId, keyword, city);
    if keyword.Some? {
      assert ps[1].1.Some?;
      assert ("q", keyword.value) in r;
    }
    forall v | ("q", v) in r
      ensures keyword == Some(v)
    {
      assert ("q", Some(v)) in ps;
    }
  }

  lemma CityParam(clientId: string, keyword: Option<string>, city: Option<string>)
    ensures city.Some? <==> exists v :: ("venue.city", v) in RequestParams(clientId, keyword, city)
  {
    var ps := [("client_id", Some(clientId)), ("q", keyword), ("venue.city", city),
               ("sort", Some("score.desc")), ("per_page", Some("20"))];
    var r := RequestParams(clientId, keyword, city);
    if city.Some? {
      assert ps[2].1.Some?;
      assert ("venue.city", city.value) in r;
    }
    forall v | ("venue.city", v) in r
      ensures city == Some(v)
    {
      assert ("venue.city", Some(v)) in ps;
    }
  }


  /** `mapSeatgeekEvent` */
  function MapSeatgeekEvent(ev: SgEvent): (r: SeatgeekEvent)
    ensures r.id == "sg-" + Text(ev.id) && r.source == "seatgeek"
    ensures r.title == (if Truthy(ev.shortTitle) then ev.shortTitle else ev.title)
    ensures Truthy(ev.eventType) ==> r.description == "Type: " + ev.eventType.value && r.categories == [ev.eventType.value]
    ensures !Truthy(ev.eventType) ==> r.description == "" && r.categories == []
    ensures r.startAt == ev.datetimeUtc && r.endAt.None? && r.externalUrl == ev.url
    ensures ev.venue.None? ==> r.venueName == "Unknown Venue" && r.address == "" && r.city == "" && r.region == ""
    ensures ev.venue.Some? ==> (r.venueName == Or(ev.venue.value.name, "Unknown Venue") &&
      r.address == Or(ev.venue.value.address, "") && r.city == Or(ev.venue.value.city, "") &&
      r.region == Or(ev.venue.value.state, ""))
    ensures r.imageUrl == (if ev.performers.Some? && |ev.performers.value| > 0 then ev.performers.value[0].image else None)
    ensures r.price.currency == "USD"
    ensures ev.stats.None? ==> r.price.min.None? && r.price.max.None?
    ensures ev.stats.Some? ==> r.price.min == ev.stats.value.lowestPrice && r.price.max == ev.stats.value.highestPrice
  {
    var venue := ev.venue.GetOr(SgVenue(None, None, None, None));
    var imageUrl := if ev.performers.Some? && |ev.performers.value| > 0 then ev.performers.value[0].image else None;
    SeatgeekEvent(
      id := "sg-" + Text(ev.id),
      source := "seatgeek",
      title := if Truthy(ev.shortTitle) then ev.shortTitle else ev.title,
      description := if Truthy(ev.eventType) then "Type: " + ev.eventType.value else "",
      startAt := ev.datetimeUtc,
      endAt := None,
      venueName := Or(venue.name, "Unknown Venue"),
      address := Or(venue.address, ""),
      city := Or(venue.city, ""),
      region := Or(venue.state, ""),
      categories := if Truthy(ev.eventType) then [ev.eventType.value] else [],
      imageUrl := imageUrl,
      externalUrl := ev.url,
      price := Price(
        if ev.stats.Some? then ev.stats.value.lowestPrice else None,
        if ev.stats.Some? then ev.stats.value.highestPrice else None,
        "USD"))
  }

  /** What the request produced: a failure, or a body that may lack `events`. */
  datatype SgOutcome = SgFailed | SgAnswered(events: Option<seq<SgEvent>>)

  /** `fetchSeatgeekEvents`: fail-open, every failure is an empty list. */
  function FetchSeatgeekEvents(clientId: Option<string>, outcome: SgOutcome): (r: seq<SeatgeekEvent>)
    ensures !Truthy(clientId) || outcome.SgFailed? || outcome.events.None? ==> r == []
    ensures Truthy(clientId) && outcome.SgAnswered? && outcome.events.Some? ==>
      |r| == |outcome.events.value| &&
      forall i :: 0 <= i < |r| ==> r[i] == MapSeatgeekEvent(outcome.events.value[i])
  {
    if !Truthy(clientId) then []
    else match outcome
      case SgFailed => []
      case SgAnswered(None) => []
      case SgAnswered(Some(evs)) => seq(|evs|, i requires 0 <= i < |evs| => MapSeatgeekEvent(evs[i]))
  }
}

=== FILE: send_test_notification.dfy ===
/**
 * The command-line script that sends a test push notification: its `--key value` argument
 * parser, the choice of the device token, the choice of the notification's content and the
 * string-only data payload. Firestore's user lookup is a parameter; sending the message and
 * the console output are not part of this model.
 */
module TestNotification {
  import opened Wrappers
  import opened JsStr

  /** A parsed option: `true` for a bare flag, otherwise the value that followed it. */
  datatype Arg = Flag | Text(s: string)

  /** JavaScript truthiness of an option value. */
  predicate ArgTruthy(a: Arg) {
    a.Flag? || a.s != ""
  }

  /** `String(value)` */
  function ArgString(a: Arg): string {
    if a.Flag? then "true" else a.s
  }

  /** A flag's `value && !value.startsWith("--")`: a non-empty argument that is not itself a flag. */
  predicate IsValue(v: string) {
    v != "" && !StartsWith(v, "--")
  }

  // ---------------------------------------------------------------------------------------
  // `parseArgs`

  /** The options `parseArgs` collects from index `i` of `argv` on, starting from `acc`. */
  function ParseFrom(argv: seq<string>, i: nat, acc: map<string, Arg>): map<string, Arg>
    decreases |argv| - i
  {
    if i >= |argv| then acc
    else if StartsWith(argv[i], "--") then
      var key := argv[i][2..];
      if i + 1 < |argv| && IsValue(argv[i + 1]) then ParseFrom(argv, i + 2, acc[key := Text(argv[i + 1])])
      else ParseFrom(argv, i + 1, acc[key := Flag])
    else ParseFrom(argv, i + 1, acc)
  }

  /** `parseArgs()` over the whole argument vector. */
  function Parsed(argv: seq<string>): map<string, Arg> {
    ParseFrom(argv, 0, map[])
  }

  /** `parseArgs`: the loop over `argv` that skips a consumed value with an extra `i++`. */
  method ParseArgs(argv: seq<string>) returns (args: map<string, Arg>)
    ensures args == Parsed(argv)
  {
    args := map[];
    var i := 0;
    while i < |argv|
      invariant i <= |argv|
      invariant ParseFrom(argv, i, args) == Parsed(argv)
      decreases |argv| - i
    {
      if StartsWith(argv[i], "--") {
        var key := argv[i][2..];
        if i + 1 < |argv| && IsValue(argv[i + 1]) {
          args := args[key := Text(argv[i + 1])];
          i := i + 1;
        } else {
          args := args[key := Flag];
        }
      }
      i := i + 1;
    }
  }

  /** Past the end of a prefix, parsing goes on as over the rest alone. */
  lemma {:induction false} ParseShift(p: seq<string>, t: seq<string>, j: nat, acc: map<string, Arg>)
    ensures ParseFrom(p + t, |p| + j, acc) == ParseFrom(t, j, acc)
    decreases |t| - j
  {
    if j < |t| {
      var s := p + t;
      assert s[|p| + j] == t[j];
      if j + 1 < |t| {
        assert s[|p| + j + 1] == t[j + 1];
      }
      if StartsWith(t[j], "--") {
        var key := t[j][2..];
        ParseShift(p, t, j + 1, acc[key := Flag]);
        if j + 1 < |t| && IsValue(t[j + 1]) {
          ParseShift(p, t, j + 2, acc[key := Text(t[j + 1])]);
        }
      } else {
        ParseShift(p, t, j + 1, acc);
      }
    }
  }

  /**
   * Arguments that follow a complete vector and start with a flag are parsed on top of what
   * the vector gave: a flag never takes a flag as its value, so no argument straddles the join.
   */
  lemma {:induction false} ParseAppend(p: seq<string>, t: seq<string>, i: nat, acc: map<string, Arg>)
    requires t != [] && StartsWith(t[0], "--") && i <= |p|
    ensures ParseFrom(p + t, i, acc) == ParseFrom(t, 0, ParseFrom(p, i, acc))
    decreases |p| - i
  {
    var s := p + t;
    if i == |p| {
      ParseShift(p, t, 0, acc);
    } else {
      assert s[i] == p[i];
      if StartsWith(p[i], "--") {
        var key := p[i][2..];
        if i + 1 < |p| {
          assert s[i + 1] == p[i + 1];
          if IsValue(p[i + 1]) {
            ParseAppend(p, t, i + 2, acc[key := Text(p[i + 1])]);
          } else {
            ParseAppend(p, t, i + 1, acc[key := Flag]);
          }
        } else {
          assert s[i + 1] == t[0];
          ParseAppend(p, t, i + 1, acc[key := Flag]);
        }
      } else {
        ParseAppend(p, t, i + 1, acc);
      }
    }
  }

  lemma FlagKey(k: string)
    ensures StartsWith("--" + k, "--") && ("--" + k)[2..] == k
  {
    assert ("--" + k)[..2] == "--";
  }

  /** A repeated key keeps the last value: `--key value` at the end wins over anything before. */
  lemma LastValueWins(argv: seq<string>, k: string, v: string)
    requires IsValue(v)
    ensures Parsed(argv + ["--" + k, v]) == Parsed(argv)[k := Text(v)]
  {
    FlagKey(k);
    ParseAppend(argv, ["--" + k, v], 0, map[]);
  }

  /** A flag with nothing after it is `true`. */
  lemma TrailingFlag(argv: seq<string>, k: string)
    ensures Parsed(argv + ["--" + k]) == Parsed(argv)[k := Flag]
  {
    FlagKey(k);
    ParseAppend(argv, ["--" + k], 0, map[]);
  }

  /** A flag followed by another flag is `true`, and the second flag is parsed as usual. */
  lemma FlagBeforeFlag(argv: seq<string>, k: string, rest: seq<string>)
    requires rest != [] && StartsWith(rest[0], "--")
    ensures Parsed(argv + ["--" + k] + rest) == ParseFrom(rest, 0, Parsed(argv)[k := Flag])
  {
    TrailingFlag(argv, k);
    ParseAppend(argv + ["--" + k], rest, 0, map[]);
  }

  /** Leading arguments that are not flags (the runtime and the script path) are ignored. */
  lemma {:induction false} PlainPrefixIgnored(pre: seq<string>, argv: seq<string>, i: nat)
    requires i <= |pre|
    requires forall j :: 0 <= j < |pre| ==> !StartsWith(pre[j], "--")
    ensures ParseFrom(pre + argv, i, map[]) == Parsed(argv)
    decreases |pre| - i
  {
    if i == |pre| {
      ParseShift(pre, argv, 0, map[]);
    } else {
      assert (pre + argv)[i] == pre[i];
      PlainPrefixIgnored(pre, argv, i + 1);
    }
  }

  /** Every key is the name of some `--` argument, and every value is an argument that is no flag. */
  lemma {:induction false} ParsedFromArgv(argv: seq<string>, i: nat, acc: map<string, Arg>)
    ensures forall k :: k in ParseFrom(argv, i, acc) ==> k in acc || "--" + k in argv[i..]
    ensures forall k :: k in ParseFrom(argv, i, acc) && ParseFrom(argv, i, acc)[k].Text? ==>
      var v := ParseFrom(argv, i, acc)[k].s; (k in acc && acc[k] == Text(v)) || (IsValue(v) && v in argv[i..])
    decreases |argv| - i
  {
    if i < |argv| {
      if StartsWith(argv[i], "--") {
        var key := argv[i][2..];
        assert argv[i] == "--" + key by { assert argv[i][..2] == "--"; }
        if i + 1 < |argv| && IsValue(argv[i + 1]) {
          ParsedFromArgv(argv, i + 2, acc[key := Text(argv[i + 1])]);
          assert argv[i + 2..] == argv[i..][2..];
        } else {
          ParsedFromArgv(argv, i + 1, acc[key := Flag]);
          assert argv[i + 1..] == argv[i..][1..];
        }
      } else {
        ParsedFromArgv(argv, i + 1, acc);
        assert argv[i + 1..] == argv[i..][1..];
      }
    }
  }

  /** Every parsed option is truthy: values are never empty. */
  lemma {:induction false} ParsedTruthy(argv: seq<string>, i: nat, acc: map<string, Arg>)
    requires forall k :: k in acc ==> ArgTruthy(acc[k])
    ensures forall k :: k in ParseFrom(argv, i, acc) ==> ArgTruthy(ParseFrom(argv, i, acc)[k])
    decreases |argv| - i
  {
    if i < |argv| {
      if StartsWith(argv[i], "--") {
        var key := argv[i][2..];
        if i + 1 < |argv| && IsValue(argv[i + 1]) {
          ParsedTruthy(argv, i + 2, acc[key := Text(argv[i + 1])]);
        } else {
          ParsedTruthy(argv, i + 1, acc[key := Flag]);
        }
      } else {
        ParsedTruthy(argv, i + 1, acc);
      }
    }
  }

  // ---------------------------------------------------------------------------------------
  // `sendNotification`

  /** The `users/{userId}` document, as far as the script reads it. */
  datatype UserDoc = UserDoc(fcmToken: Option<string>)

  /** Why the script gives up before sending. */
  datatype Failure =
    | NoTarget                  // "Either --userId or --token must be provided"
    | UserNotFound(id: string)  // "User <id> not found"
    | NoToken(id: string)       // "No FCM token found for user <id>"
    | NotText                   // a bare `--token` or `--userId` is `true`, which the calls on it reject

  /** `args[key]` is present and truthy. */
  predicate Given(args: map<string, Arg>, key: string) {
    key in args && ArgTruthy(args[key])
  }

  /**
   * The device token: `--token` wins over `--userId`; a user id is looked up in `users`
   * (`None` is a missing document), whose `fcmToken` must be truthy.
   */
  function Token(args: map<string, Arg>, users: string -> Option<UserDoc>): (r: Result<string, Failure>)
    ensures r == Err(NoTarget) <==> !Given(args, "token") && !Given(args, "userId")
    ensures Given(args, "token") && args["token"].Text? ==> r == Ok(args["token"].s)
    ensures r.Ok? && !Given(args, "token") ==>
      args["userId"].Text? && users(args["userId"].s).Some? && users(args["userId"].s).value.fcmToken == Some(r.value)
    ensures r.Ok? ==> r.value != ""
    ensures Given(args, "token") && args["token"].Flag? ==> r == Err(NotText)
    ensures !Given(args, "token") && Given(args, "userId") ==>
      match args["userId"]
      case Flag => r == Err(NotText)
      case Text(id) =>
        match users(id)
        case None => r == Err(UserNotFound(id))
        case Some(doc) => if Truthy(doc.fcmToken) then r == Ok(doc.fcmToken.value) else r == Err(NoToken(id))
  {
    if Given(args, "token") then
      match args["token"]
      case Flag => Err(NotText)
      case Text(t) => Ok(t)
    else if Given(args, "userId") then
      match args["userId"]
      case Flag => Err(NotText)
      case Text(id) =>
        match users(id)
        case None => Err(UserNotFound(id))
        case Some(doc) => if Truthy(doc.fcmToken) then Ok(doc.fcmToken.value) else Err(NoToken(id))
    else Err(NoTarget)
  }

  /** A predefined notification type. */
  datatype TypeConfig = TypeConfig(title: string, body: string, route: string)

  /** `NOTIFICATION_TYPES`; neither type carries extra data. */
  function TypeTable(name: string): Option<TypeConfig> {
    if name == "upcomingEvents" then
      Some(TypeConfig("What\U{2019}s coming up \U{1F4C5}", "See your upcoming events and set reminders.", "/myEvents"))
    else if name == "aiPlanner" then
      Some(TypeConfig("Plan your next outing \U{2728}", "Try the AI planner to generate an itinerary.", "/planner"))
    else None
  }

  const DefaultTitle := "Test Notification \U{1F514}"
  const DefaultBody := "This is a test notification from the terminal"
  const DefaultRoute := "/home"

  /** What the notification says and where it leads; `extra` is `notificationData`. */
  datatype Content = Content(title: Arg, body: Arg, route: Arg, extra: map<string, Arg>)

  /** `--type` names a predefined type. */
  predicate KnownType(args: map<string, Arg>) {
    "type" in args && args["type"].Text? && TypeTable(args["type"].s).Some?
  }

  /** `args[key] || fallback` */
  function ArgOr(args: map<string, Arg>, key: string, fallback: string): (a: Arg)
    ensures Given(args, key) ==> a == args[key]
    ensures !Given(args, key) ==> a == Text(fallback)
  {
    if Given(args, key) then args[key] else Text(fallback)
  }

  /** The title, body, route and extra data of the notification. */
  function ContentOf(args: map<string, Arg>): (c: Content)
    ensures ArgTruthy(c.title) && ArgTruthy(c.body) && ArgTruthy(c.route)
    ensures c.extra.Keys <= {"eventId"}
    ensures KnownType(args) ==>
      var t := TypeTable(args["type"].s).value;
      c.title == Text(t.title) && c.body == Text(t.body) && c.route == Text(t.route) && c.extra == map[]
    ensures !KnownType(args) ==>
      && c.title == ArgOr(args, "title", DefaultTitle)
      && c.body == ArgOr(args, "body", DefaultBody)
      && c.route == ArgOr(args, "route", DefaultRoute)
      && ("eventId" in c.extra <==> Given(args, "eventId"))
      && ("eventId" in c.extra ==> c.extra["eventId"] == args["eventId"])
  {
    if KnownType(args) then
      var t := TypeTable(args["type"].s).value;
      Content(Text(t.title), Text(t.body), Text(t.route), map[])
    else
      Content(ArgOr(args, "title", DefaultTitle), ArgOr(args, "body", DefaultBody), ArgOr(args, "route", DefaultRoute),
              if Given(args, "eventId") then map["eventId" := args["eventId"]] else map[])
  }

  /** `{ route, ...notificationData }` */
  function DataOf(c: Content): map<string, Arg> {
    map["route" := c.route] + c.extra
  }

  /** The payload after stringification: every value through `String`. */
  function StringMap(data: map<string, Arg>): (r: map<string, string>)
    ensures r.Keys == data.Keys
  {
    map k | k in data :: ArgString(data[k])
  }

  /** The loop that builds `stringData`. */
  method Stringify(data: map<string, Arg>) returns (out: map<string, string>)
    ensures out.Keys == data.Keys
    ensures forall k :: k in out ==> out[k] == ArgString(data[k])
  {
    out := map[];
    var keys := data.Keys;
    while keys != {}
      invariant keys <= data.Keys
      invariant out.Keys == data.Keys - keys
      invariant forall k :: k in out ==> out[k] == ArgString(data[k])
      decreases keys
    {
      var k :| k in keys;
      out := out[k := ArgString(data[k])];
      keys := keys - {k};
    }
  }

  /** The route is always in the payload, with only the event id beside it. */
  lemma PayloadKeys(args: map<string, Arg>)
    ensures var data := StringMap(DataOf(ContentOf(args)));
      && "route" in data && data["route"] == ArgString(ContentOf(args).route)
      && data.Keys <= {"route", "eventId"}
  {
    var c := ContentOf(args);
    assert "route" !in c.extra;
  }

  /** The FCM message (the Android channel and the APNs badge and sound are fixed). */
  datatype Message = Message(
    token: string, title: Arg, body: Arg, data: map<string, string>,
    channelId: string, priority: string, badge: int, sound: string)

  function MessageOf(token: string, c: Content, data: map<string, string>): Message {
    Message(token, c.title, c.body, data, "eventease_general", "high", 1, "default")
  }

  /** `sendNotification(args)` up to the send: the message, or why there is none. */
  method SendNotification(args: map<string, Arg>, users: string -> Option<UserDoc>) returns (r: Result<Message, Failure>)
    ensures Token(args, users).Err? ==> r == Err(Token(args, users).error)
    ensures Token(args, users).Ok? ==>
      r == Ok(MessageOf(Token(args, users).value, ContentOf(args), StringMap(DataOf(ContentOf(args)))))
  {
    var token := Token(args, users);
    if token.Err? {
      return Err(token.error);
    }
    var content := ContentOf(args);
    var data := Stringify(DataOf(content));
    assert data == StringMap(DataOf(content));
    return Ok(MessageOf(token.value, content, data));
  }

  // ---------------------------------------------------------------------------------------
  // `main`

  /** The usage text is printed instead of sending. */
  predicate ShowsUsage(args: map<string, Arg>) {
    Given(args, "help") || (!Given(args, "userId") && !Given(args, "token"))
  }

  /** When `main` goes on to send, a token source was given, so the "neither" failure cannot occur. */
  lemma SendHasTarget(args: map<string, Arg>, users: string -> Option<UserDoc>)
    requires !ShowsUsage(args)
    ensures Token(args, users) != Err(NoTarget)
  {
  }

  /** On parsed arguments, `--help` alone always shows the usage. */
  lemma HelpShowsUsage(argv: seq<string>)
    ensures ShowsUsage(Parsed(argv + ["--help"]))
  {
    TrailingFlag(argv, "help");
    assert "--" + "help" == "--help";
  }
}

=== FILE: serp_api.dfy ===
/**
 * The SerpApi Google Events adapter: one search result becomes one event record with
 * fixed defaults. The clock, the date parser, the ISO formatter and the URL codec of the
 * image-URL rewriter are parameters; the network answer is a supplied outcome.
 */
module SerpApi {
  import opened Wrappers
  import opened JsStr
  import ImageUtils

  datatype Venue = Venue(name: Option<string>)
  datatype TicketInfo = TicketInfo(link: Option<string>, price: Option<string>)
  datatype SerpDate = SerpDate(startDate: Option<string>, when: Option<string>)

  /** One entry of `events_results`, with the fields the mapping reads. */
  datatype SerpEvent = SerpEvent(
    title: Option<string>,
    description: Option<string>,
    venue: Option<Venue>,
    address: Option<seq<string>>,
    date: Option<SerpDate>,
    thumbnail: Option<string>,
    image: Option<string>,
    ticketInfo: Option<seq<TicketInfo>>,
    link: Option<string>)

  /** The stored event record (latitude and longitude are always null and are not carried). */
  datatype GoogleEvent = GoogleEvent(
    title: Option<string>,
    description: string,
    startAt: string,
    endAt: Option<string>,
    venueName: string,
    address: string,
    city: string,
    region: string,
    country: string,
    ticketUrl: Option<string>,
    ticketPrice: Option<string>,
    imageUrl: Option<string>,
    sourceUrl: Option<string>,
    sourcePlatform: string,
    categories: seq<string>,
    isDiscoverable: bool,
    createdAt: string,
    updatedAt: string,
    externalId: Option<string>)

  /** The environment of one mapping: clock, year, date parser and formatter, URL codec. */
  datatype Env = Env(
    now: int,
    currentYear: int,
    parseDate: string -> Option<int>,
    iso: int -> string,
    parseUrl: string -> Option<ImageUtils.Url>,
    serializeUrl: ImageUtils.Url -> string)

  const UnknownVenue := "Unknown Venue"

  /** The en dash that separates the start of a `when` range from its end. */
  const EnDash := '–'

  /** How a template literal renders an optional string. */
  function Text(o: Option<string>): string {
    if o.Some? then o.value else "undefined"
  }

  /** `s` with " <year>" appended unless it already mentions the year. */
  function WithYear(s: string, year: int): (r: string)
    ensures Contains(r, IntToString(year))
    ensures Contains(s, IntToString(year)) ==> r == s
  {
    if Contains(s, IntToString(year)) then s
    else
      var y := IntToString(year);
      assert OccursAt(s + " " + y, y, |s| + 1) by {
        assert (s + " " + y)[|s| + 1..|s| + 1 + |y|] == y;
      }
      s + " " + y
  }

  /**
   * `parseSerpApiDate`: the start date with the current year appended when missing;
   * failing that, the start of `when` (with the year when missing); failing that, now.
   */
  function ParseSerpApiDate(startDate: Option<string>, when: Option<string>, env: Env): (t: int)
    ensures Truthy(startDate) && env.parseDate(WithYear(startDate.value, env.currentYear)).Some? ==>
      t == env.parseDate(WithYear(startDate.value, env.currentYear)).value
    ensures !(Truthy(startDate) && env.parseDate(WithYear(startDate.value, env.currentYear)).Some?) && Truthy(when) ==>
      t == env.parseDate(WithYear(TrimmedHead(when.value, EnDash), env.currentYear)).GetOr(env.now)
    ensures !(Truthy(startDate) && env.parseDate(WithYear(startDate.value, env.currentYear)).Some?) && !Truthy(when) ==>
      t == env.now
  {
    var first :=
      // `new Date(undefined)` and `new Date("")` are invalid dates
      if Truthy(startDate) then env.parseDate(WithYear(startDate.value, env.currentYear)) else None;
    if first.Some? then first.value
    else if Truthy(when) then
      var start := TrimmedHead(when.value, EnDash);
      env.parseDate(WithYear(start, env.currentYear)).GetOr(env.now)
    else env.now
  }

  /** The price of the first ticket entry whose price is truthy. */
  function FirstPrice(ts: seq<TicketInfo>): (r: Option<string>)
    ensures r.None? <==> forall i :: 0 <= i < |ts| ==> !Truthy(ts[i].price)
    ensures r.Some? ==> exists i :: (0 <= i < |ts| && Truthy(ts[i].price) && ts[i].price == r &&
      forall j :: 0 <= j < i ==> !Truthy(ts[j].price))
  {
    if ts == [] then None
    else if Truthy(ts[0].price) then ts[0].price
    else
      var r := FirstPrice(ts[1..]);
      assert forall i :: 1 <= i < |ts| ==> ts[i] == ts[1..][i - 1];
      if r.Some? then
        var i :| 0 <= i < |ts[1..]| && Truthy(ts[1..][i].price) && ts[1..][i].price == r &&
          forall j :: 0 <= j < i ==> !Truthy(ts[1..][j].price);
        assert ts[i + 1] == ts[1..][i];
        r
      else r
  }

  /** `mapSerpApiEvent` */
  function MapSerpApiEvent(ev: SerpEvent, env: Env): (r: GoogleEvent)
    ensures r.endAt.None? && r.region == "" && r.country == "US" && r.categories == ["Events"]
    ensures r.isDiscoverable && r.sourcePlatform == "google_events"
    ensures r.sourceUrl == ev.link && r.externalId == ev.link && r.title == ev.title
    ensures r.createdAt == env.iso(env.now) && r.updatedAt == env.iso(env.now)
    ensures ev.date.Some? && Truthy(ev.date.value.startDate) ==>
      r.startAt == env.iso(ParseSerpApiDate(ev.date.value.startDate, ev.date.value.when, env))
    ensures !(ev.date.Some? && Truthy(ev.date.value.startDate)) ==> r.startAt == env.iso(env.now)
    ensures r.venueName == (if ev.venue.Some? && Truthy(ev.venue.value.name) then ev.venue.value.name.value else UnknownVenue)
    ensures Truthy(ev.description) ==> r.description == ev.description.value
    ensures !Truthy(ev.description) ==> r.description == Text(ev.title) + " at " + r.venueName
    ensures ev.address.None? ==> r.address == "" && r.city == ""
    ensures ev.address.Some? ==> r.address == Join(ev.address.value, ", ")
    ensures ev.address.Some? && |ev.address.value| > 1 ==> r.city == TrimmedHead(ev.address.value[1], ',')
    ensures ev.address.Some? && |ev.address.value| <= 1 ==> r.city == ""
    ensures ev.ticketInfo.Some? && |ev.ticketInfo.value| > 0 ==>
      r.ticketUrl == ev.ticketInfo.value[0].link && r.ticketPrice == FirstPrice(ev.ticketInfo.value)
    ensures !(ev.ticketInfo.Some? && |ev.ticketInfo.value| > 0) ==> r.ticketUrl == ev.link && r.ticketPrice.None?
  {
    var venueName := if ev.venue.Some? then ev.venue.value.name else None;
    var startAt :=
      if ev.date.Some? && Truthy(ev.date.value.startDate)
      then env.iso(ParseSerpApiDate(ev.date.value.startDate, ev.date.value.when, env))
      else env.iso(env.now);
    var rawImage := if Truthy(ev.image) then ev.image else ev.thumbnail;
    var imageUrl := if Truthy(rawImage) then ImageUtils.Upgrade(rawImage, env.parseUrl, env.serializeUrl) else rawImage;
    var tickets := if ev.ticketInfo.Some? && |ev.ticketInfo.value| > 0 then ev.ticketInfo.value else [];
    var lines := if ev.address.Some? then ev.address.value else [];
    GoogleEvent(
      title := ev.title,
      description := Or(ev.description, Text(ev.title) + " at " + Or(venueName, UnknownVenue)),
      startAt := startAt,
      endAt := None,
      venueName := Or(venueName, UnknownVenue),
      address := Join(lines, ", "),
      city := if |lines| > 1 then TrimmedHead(lines[1], ',') else "",
      region := "",
      country := "US",
      ticketUrl := if tickets != [] then tickets[0].link else ev.link,
      ticketPrice := if tickets != [] then FirstPrice(tickets) else None,
      imageUrl := imageUrl,
      sourceUrl := ev.link,
      sourcePlatform := "google_events",
      categories := ["Events"],
      isDiscoverable := true,
      createdAt := env.iso(env.now),
      updatedAt := env.iso(env.now),
      externalId := ev.link)
  }

  /** The image is `image` when truthy, else `thumbnail`, upgraded only when non-empty. */
  lemma ImageChoice(ev: SerpEvent, env: Env)
    ensures var r := MapSerpApiEvent(ev, env);
      (Truthy(ev.image) ==> r.imageUrl == ImageUtils.Upgrade(ev.image, env.parseUrl, env.serializeUrl)) &&
      (!Truthy(ev.image) && Truthy(ev.thumbnail) ==> r.imageUrl == ImageUtils.Upgrade(ev.thumbnail, env.parseUrl, env.serializeUrl)) &&
      (!Truthy(ev.image) && !Truthy(ev.thumbnail) ==> r.imageUrl == ev.thumbnail) &&
      (Truthy(ev.image) || Truthy(ev.thumbnail) ==> r.imageUrl.Some?)
  {
  }

  /** What the search request produced: a failure, or a body that may lack `events_results`. */
  datatype FetchOutcome = Failed | Answered(eventsResults: Option<seq<SerpEvent>>)

  /** `fetchGoogleEvents`: fail-open, every failure is an empty list. */
  function FetchGoogleEvents(apiKey: Option<string>, outcome: FetchOutcome, env: Env): (r: seq<GoogleEvent>)
    ensures !Truthy(apiKey) || outcome.Failed? || outcome.eventsResults.None? ==> r == []
    ensures Truthy(apiKey) && outcome.Answered? && outcome.eventsResults.Some? ==>
      |r| == |outcome.eventsResults.value| &&
      forall i :: 0 <= i < |r| ==> r[i] == MapSerpApiEvent(outcome.eventsResults.value[i], env)
  {
    if !Truthy(apiKey) then []
    else match outcome
      case Failed => []
      case Answered(None) => []
      case Answered(Some(evs)) => seq(|evs|, i requires 0 <= i < |evs| => MapSerpApiEvent(evs[i], env))
  }
}

=== FILE: serp_api_cron.dfy ===
/**
 * The budgeted SerpApi refresh: a per-city daily fetch log (at most two fetches per city per
 * UTC day) and one monthly counter (keyed by the month index only), both rolled over lazily,
 * and a sync pass that upserts the fetched events in chunks of at most 400 writes.
 * The clock is explicit: every operation receives today's "YYYY-MM-DD" key and the month index.
 */
module SerpApiCron {
  import opened Wrappers
  import opened JsStr
  import SerpApi

  const DefaultMonthlyBudget := 250
  const DailyCap := 2
  const ChunkLimit := 400

  const TargetCities: seq<string> := [
    "New York, NY", "Los Angeles, CA", "Chicago, IL", "Miami, FL",
    "San Francisco, CA", "Austin, TX", "Las Vegas, NV", "London, UK"]

  /** No city appears twice in `cities`. */
  predicate Distinct(cities: seq<string>) {
    forall i, j :: 0 <= i < j < |cities| ==> cities[i] != cities[j]
  }

  lemma TargetCitiesDistinct()
    ensures Distinct(TargetCities)
  {
  }

  /** `getTodayKey`: the date part of an ISO timestamp. */
  function TodayKey(isoNow: string): (r: string)
    ensures |r| == if |isoNow| < 10 then |isoNow| else 10
    ensures r == isoNow[..|r|]
  {
    if |isoNow| < 10 then isoNow else isoNow[..10]
  }

  // ---------------------------------------------------------------------------------------
  // The daily log

  datatype DayLog = DayLog(date: string, count: int)

  /** `canFetchCity` */
  predicate MayFetch(log: map<string, DayLog>, city: string, today: string) {
    city !in log || log[city].date != today || log[city].count < DailyCap
  }

  /** The log after `recordFetch(city)`. */
  function Recorded(log: map<string, DayLog>, city: string, today: string): (r: map<string, DayLog>)
    ensures city in r && r[city].date == today
    ensures r[city].count == if city in log && log[city].date == today then log[city].count + 1 else 1
    ensures forall c :: c != city ==> (c in r <==> c in log) && (c in log ==> r[c] == log[c])
  {
    if city !in log || log[city].date != today then log[city := DayLog(today, 1)]
    else log[city := log[city].(count := log[city].count + 1)]
  }

  /** Every logged city has been fetched once or twice on its logged day. */
  ghost predicate DailyCapped(log: map<string, DayLog>) {
    forall c :: c in log ==> 1 <= log[c].count <= DailyCap
  }

  /** Recording a fetch that `canFetchCity` allowed keeps every daily count within the cap. */
  lemma RecordKeepsCap(log: map<string, DayLog>, city: string, today: string)
    requires DailyCapped(log) && MayFetch(log, city, today)
    ensures DailyCapped(Recorded(log, city, today))
  {
  }

  /** A second fetch on the same day is allowed, a third is not. */
  lemma TwoPerDay(log: map<string, DayLog>, city: string, today: string)
    requires city !in log
    ensures MayFetch(Recorded(log, city, today), city, today)
    ensures !MayFetch(Recorded(Recorded(log, city, today), city, today), city, today)
  {
  }

  /** A new day reopens a city however often it was fetched before. */
  lemma NewDayReopens(log: map<string, DayLog>, city: string, today: string)
    requires city in log && log[city].date != today
    ensures MayFetch(log, city, today)
    ensures Recorded(log, city, today)[city] == DayLog(today, 1)
  {
  }

  // ---------------------------------------------------------------------------------------
  // The monthly counter

  datatype MonthUsage = MonthUsage(month: int, count: int)

  /** The roll-over `budgetExhausted` performs: a different month index restarts at 0. */
  function RolledOver(u: MonthUsage, thisMonth: int): (r: MonthUsage)
    ensures r.month == thisMonth
    ensures r.count == if u.month == thisMonth then u.count else 0
  {
    if u.month != thisMonth then MonthUsage(thisMonth, 0) else u
  }

  /** The monthly part of `recordFetch`: a different month index restarts at 1. */
  function Counted(u: MonthUsage, thisMonth: int): (r: MonthUsage)
    ensures r.month == thisMonth
  {
    if u.month != thisMonth then MonthUsage(thisMonth, 1) else u.(count := u.count + 1)
  }

  /** Counting a fetch is rolling over and then adding one. */
  lemma CountedIsRolledPlusOne(u: MonthUsage, thisMonth: int)
    ensures Counted(u, thisMonth) == RolledOver(u, thisMonth).(count := RolledOver(u, thisMonth).count + 1)
  {
  }

  /** The month is keyed by its index only: the same month of another year continues the count. */
  lemma SameIndexContinues(u: MonthUsage)
    ensures Counted(u, u.month).count == u.count + 1
    ensures RolledOver(u, u.month) == u
  {
  }

  // ---------------------------------------------------------------------------------------
  // The upserts

  /** One write of the sync: document id and the stored record (merged into the document). */
  datatype Upsert = Upsert(docId: string, record: SerpApi.GoogleEvent, source: string)

  /** The search text for a target city. */
  function Query(city: string): string {
    "Events in " + city
  }

  /** The write for one event with a source URL. */
  function WriteOf(city: string, ev: SerpApi.GoogleEvent, md5: string -> string, nowIso: string): Upsert
    requires Truthy(ev.sourceUrl)
  {
    Upsert("google_" + md5(ev.sourceUrl.value), ev.(city := TrimmedHead(city, ','), updatedAt := nowIso), "google_events")
  }

  /** The writes for one city's events: events without a source URL are skipped, order is kept. */
  function CityWrites(city: string, evs: seq<SerpApi.GoogleEvent>, md5: string -> string, nowIso: string): (r: seq<Upsert>)
    ensures |r| <= |evs|
  {
    if evs == [] then []
    else
      var last := evs[|evs| - 1];
      CityWrites(city, evs[..|evs| - 1], md5, nowIso) + (if Truthy(last.sourceUrl) then [WriteOf(city, last, md5, nowIso)] else [])
  }

  /** Every write of a city carries a "google_" id, the city's name and the pass's timestamp. */
  lemma {:induction false} CityWritesShape(city: string, evs: seq<SerpApi.GoogleEvent>, md5: string -> string, nowIso: string)
    ensures forall w :: w in CityWrites(city, evs, md5, nowIso) ==>
      w.source == "google_events" && w.record.city == TrimmedHead(city, ',') && w.record.updatedAt == nowIso &&
      exists e :: e in evs && Truthy(e.sourceUrl) && w.docId == "google_" + md5(e.sourceUrl.value)
    ensures (forall e :: e in evs ==> Truthy(e.sourceUrl)) ==> |CityWrites(city, evs, md5, nowIso)| == |evs|
  {
    if evs != [] {
      var init := evs[..|evs| - 1];
      CityWritesShape(city, init, md5, nowIso);
      assert forall e :: e in init ==> e in evs;
    }
  }

  function Flatten(chunks: seq<seq<Upsert>>): seq<Upsert> {
    if chunks == [] then [] else Flatten(chunks[..|chunks| - 1]) + chunks[|chunks| - 1]
  }

  lemma {:induction false} FlattenAppend(a: seq<seq<Upsert>>, b: seq<seq<Upsert>>)
    ensures Flatten(a + b) == Flatten(a) + Flatten(b)
    decreases |b|
  {
    if b == [] {
      assert a + b == a;
    } else {
      var init, c := b[..|b| - 1], b[|b| - 1];
      assert b == init + [c];
      assert a + b == (a + init) + [c];
      FlattenOne(a + init, c);
      FlattenOne(init, c);
      FlattenAppend(a, init);
    }
  }

  lemma FlattenOne(a: seq<seq<Upsert>>, c: seq<Upsert>)
    ensures Flatten(a + [c]) == Flatten(a) + c
  {
    assert (a + [c])[..|a|] == a;
  }

  lemma CityWritesStep(city: string, evs: seq<SerpApi.GoogleEvent>, i: int, md5: string -> string, nowIso: string)
    requires 0 <= i < |evs|
    ensures CityWrites(city, evs[..i + 1], md5, nowIso) ==
      CityWrites(city, evs[..i], md5, nowIso) + (if Truthy(evs[i].sourceUrl) then [WriteOf(city, evs[i], md5, nowIso)] else [])
  {
    assert evs[..i + 1][..i] == evs[..i];
  }

  /** Chunks as the sync commits them: none empty, none above the limit. */
  ghost predicate Chunked(chunks: seq<seq<Upsert>>) {
    forall c :: c in chunks ==> 1 <= |c| <= ChunkLimit
  }

  /** Every chunk holds exactly `ChunkLimit` writes. */
  ghost predicate Full(chunks: seq<seq<Upsert>>) {
    forall i :: 0 <= i < |chunks| ==> |chunks[i]| == ChunkLimit
  }

  /**
   * The upsert loop for one city: a chunk is committed as soon as it reaches 400 writes,
   * and a final partial chunk only when it is not empty.
   */
  method UpsertCity(city: string, evs: seq<SerpApi.GoogleEvent>, md5: string -> string, nowIso: string)
    returns (chunks: seq<seq<Upsert>>)
    ensures Flatten(chunks) == CityWrites(city, evs, md5, nowIso)
    ensures Chunked(chunks)
    ensures forall i :: 0 <= i < |chunks| - 1 ==> |chunks[i]| == ChunkLimit
  {
    chunks := [];
    var pending: seq<Upsert> := [];
    var i := 0;
    while i < |evs|
      invariant 0 <= i <= |evs|
      invariant Flatten(chunks) + pending == CityWrites(city, evs[..i], md5, nowIso)
      invariant |pending| < ChunkLimit && Full(chunks)
    {
      var ev := evs[i];
      CityWritesStep(city, evs, i, md5, nowIso);
      if Truthy(ev.sourceUrl) {
        chunks, pending := AddWrite(chunks, pending, WriteOf(city, ev, md5, nowIso));
      }
      i := i + 1;
    }
    assert evs[..i] == evs;
    if |pending| > 0 {
      FlattenOne(chunks, pending);
      chunks := chunks + [pending];
    }
  }

  /** One write of the upsert loop: it joins the pending chunk, which is committed once full. */
  method AddWrite(chunks: seq<seq<Upsert>>, pending: seq<Upsert>, w: Upsert)
    returns (chunks': seq<seq<Upsert>>, pending': seq<Upsert>)
    requires |pending| < ChunkLimit && Full(chunks)
    ensures Flatten(chunks') + pending' == Flatten(chunks) + pending + [w]
    ensures |pending'| < ChunkLimit && Full(chunks')
  {
    chunks', pending' := chunks, pending + [w];
    if |pending'| >= ChunkLimit {
      FlattenOne(chunks, pending');
      chunks' := chunks + [pending'];
      pending' := [];
    }
  }

  /** The target cities (in order) that the start-of-pass log allows. */
  function Eligible(log: map<string, DayLog>, cities: seq<string>, today: string): (r: seq<string>)
    ensures forall c :: c in r ==> c in cities && MayFetch(log, c, today)
    ensures forall c :: c in cities && MayFetch(log, c, today) ==> c in r
  {
    if cities == [] then []
    else
      var init := cities[..|cities| - 1];
      var last := cities[|cities| - 1];
      assert forall c :: c in cities ==> c in init || c == last;
      Eligible(log, init, today) + (if MayFetch(log, last, today) then [last] else [])
  }

  /** Everything a pass writes, city after city. */
  function PassWrites(cities: seq<string>, fetch: string -> seq<SerpApi.GoogleEvent>, md5: string -> string, nowIso: string): seq<Upsert> {
    if cities == [] then []
    else
      var last := cities[|cities| - 1];
      PassWrites(cities[..|cities| - 1], fetch, md5, nowIso) + CityWrites(last, fetch(Query(last)), md5, nowIso)
  }

  /** What a pass adds to `totalSaved`: every fetched event, those without a source URL included. */
  function PassSaved(cities: seq<string>, fetch: string -> seq<SerpApi.GoogleEvent>): nat {
    if cities == [] then 0
    else PassSaved(cities[..|cities| - 1], fetch) + |fetch(Query(cities[|cities| - 1]))|
  }

  /** `totalSaved` counts skipped events too: it can exceed the number of writes. */
  lemma SavedCountsSkipped(city: string, ev: SerpApi.GoogleEvent, fetch: string -> seq<SerpApi.GoogleEvent>, md5: string -> string, nowIso: string)
    requires fetch(Query(city)) == [ev] && !Truthy(ev.sourceUrl)
    ensures PassSaved([city], fetch) == 1
    ensures PassWrites([city], fetch, md5, nowIso) == []
  {
    assert [city][..0] == [];
    assert [ev][..0] == [];
  }

  function Max(a: int, b: int): int { if a < b then b else a }

  /** The tracker: the module-level `fetchLog` map and `monthlyUsage` record. */
  class Tracker {
    const budget: int
    var fetchLog: map<string, DayLog>
    var usage: MonthUsage

    ghost predicate Valid()
      reads this
    {
      DailyCapped(fetchLog)
    }

    /** Module load: an empty log and a zero count for the current month. */
    constructor(budget: int, thisMonth: int)
      ensures Valid()
      ensures this.budget == budget && fetchLog == map[] && usage == MonthUsage(thisMonth, 0)
    {
      this.budget := budget;
      fetchLog := map[];
      usage := MonthUsage(thisMonth, 0);
    }

    /** `canFetchCity` */
    predicate CanFetchCity(city: string, today: string)
      reads this
    {
      MayFetch(fetchLog, city, today)
    }

    /** `recordFetch` */
    method RecordFetch(city: string, today: string, thisMonth: int)
      modifies this
      ensures fetchLog == Recorded(old(fetchLog), city, today)
      ensures usage == Counted(old(usage), thisMonth)
    {
      fetchLog := Recorded(fetchLog, city, today);
      usage := Counted(usage, thisMonth);
    }

    /** `budgetExhausted`: rolls the month over, then compares the count with the budget. */
    method BudgetExhausted(thisMonth: int) returns (exhausted: bool)
      modifies this
      ensures usage == RolledOver(old(usage), thisMonth)
      ensures fetchLog == old(fetchLog)
      ensures exhausted <==> usage.count >= budget
    {
      usage := RolledOver(usage, thisMonth);
      exhausted := usage.count >= budget;
    }

    /**
     * One city of the pass: the search, the fetch record (whatever the result), and the
     * chunked upserts when the result is not empty.
     */
    method SyncCity(city: string, today: string, thisMonth: int, fetch: string -> seq<SerpApi.GoogleEvent>,
                    md5: string -> string, nowIso: string)
      returns (chunks: seq<seq<Upsert>>, saved: nat)
      modifies this
      ensures fetchLog == Recorded(old(fetchLog), city, today)
      ensures usage == Counted(old(usage), thisMonth)
      ensures Flatten(chunks) == CityWrites(city, fetch(Query(city)), md5, nowIso)
      ensures Chunked(chunks)
      ensures saved == |fetch(Query(city))|
    {
      var events := fetch(Query(city));
      RecordFetch(city, today, thisMonth);
      if |events| == 0 {
        chunks, saved := [], 0;
        return;
      }
      chunks := UpsertCity(city, events, md5, nowIso);
      saved := |events|;
    }

    /**
     * `runSerpApiSync` with a fixed clock. `fetch` is the fail-open search (it never fails,
     * an error is an empty list). The pass fetches, in order, the target cities that the
     * start-of-pass log allows, up to the point where the budget is reached; each is fetched
     * once and recorded once whatever its result.
     */
    method RunSync(today: string, thisMonth: int, fetch: string -> seq<SerpApi.GoogleEvent>,
                   md5: string -> string, nowIso: string)
      returns (fetched: seq<string>, commits: seq<seq<Upsert>>, totalFetched: nat, totalSaved: nat)
      requires Valid()
      modifies this
      ensures Valid()
      ensures exists k :: (0 <= k <= |TargetCities| &&
        fetched == Eligible(old(fetchLog), TargetCities[..k], today) &&
        (k < |TargetCities| ==> usage.count >= budget))
      ensures totalFetched == |fetched|
      ensures usage.month == thisMonth
      ensures usage.count == RolledOver(old(usage), thisMonth).count + totalFetched
      ensures usage.count <= Max(budget, RolledOver(old(usage), thisMonth).count)
      ensures LogSince(fetchLog, old(fetchLog), fetched, today)
      ensures Flatten(commits) == PassWrites(fetched, fetch, md5, nowIso)
      ensures Chunked(commits)
      ensures totalSaved == PassSaved(fetched, fetch)
    {
      TargetCitiesDistinct();
      fetched, commits, totalFetched, totalSaved := SyncCities(TargetCities, today, thisMonth, fetch, md5, nowIso);
    }

    /** The pass of `runSerpApiSync` over the distinct cities `cities`, in order. */
    method SyncCities(cities: seq<string>, today: string, thisMonth: int, fetch: string -> seq<SerpApi.GoogleEvent>,
                      md5: string -> string, nowIso: string)
      returns (fetched: seq<string>, commits: seq<seq<Upsert>>, totalFetched: nat, totalSaved: nat)
      requires Valid() && Distinct(cities)
      modifies this
      ensures Valid()
      ensures exists k :: (0 <= k <= |cities| &&
        fetched == Eligible(old(fetchLog), cities[..k], today) &&
        (k < |cities| ==> usage.count >= budget))
      ensures totalFetched == |fetched|
      ensures usage.month == thisMonth
      ensures usage.count == RolledOver(old(usage), thisMonth).count + totalFetched
      ensures usage.count <= Max(budget, RolledOver(old(usage), thisMonth).count)
      ensures LogSince(fetchLog, old(fetchLog), fetched, today)
      ensures Flatten(commits) == PassWrites(fetched, fetch, md5, nowIso)
      ensures Chunked(commits)
      ensures totalSaved == PassSaved(fetched, fetch)
    {
      fetched, commits, totalFetched, totalSaved := [], [], 0, 0;
      ghost var log0 := fetchLog;
      var stop := BudgetExhausted(thisMonth);
      if stop {
        assert cities[..0] == [];
        return;
      }
      ghost var start := usage.count;
      var i := 0;
      while i < |cities|
        invariant 0 <= i <= |cities|
        invariant Valid()
        invariant Progress(cities, i, log0, start, fetched, commits, totalFetched, totalSaved, today, thisMonth, fetch, md5, nowIso)
      {
        stop, fetched, commits, totalFetched, totalSaved :=
          VisitCity(cities, i, today, thisMonth, fetch, md5, nowIso, log0, start, fetched, commits, totalFetched, totalSaved);
        if stop {
          break;
        }
        i := i + 1;
      }
      assert i < |cities| ==> usage.count >= budget;
    }

    /** The state of the pass before step `i`: the loop invariant of `runSerpApiSync`. */
    ghost predicate Progress(cities: seq<string>, i: int, log0: map<string, DayLog>, start: int, fetched: seq<string>,
                             commits: seq<seq<Upsert>>, totalFetched: int, totalSaved: int, today: string,
                             thisMonth: int, fetch: string -> seq<SerpApi.GoogleEvent>, md5: string -> string,
                             nowIso: string)
      reads this
    {
      && 0 <= i <= |cities|
      && fetched == Eligible(log0, cities[..i], today)
      && totalFetched == |fetched|
      && usage.month == thisMonth && usage.count == start + totalFetched
      && usage.count <= Max(budget, start)
      && LogSince(fetchLog, log0, fetched, today)
      && Accounted(fetched, commits, totalSaved, fetch, md5, nowIso)
    }

    /**
     * Step `i` of the pass: stop when the budget is reached, skip a city the start-of-pass log
     * does not allow, otherwise sync it.
     */
    method VisitCity(cities: seq<string>, i: int, today: string, thisMonth: int, fetch: string -> seq<SerpApi.GoogleEvent>,
                     md5: string -> string, nowIso: string, ghost log0: map<string, DayLog>, ghost start: int,
                     fetched: seq<string>, commits: seq<seq<Upsert>>, totalFetched: nat, totalSaved: nat)
      returns (stop: bool, fetched': seq<string>, commits': seq<seq<Upsert>>, totalFetched': nat, totalSaved': nat)
      requires 0 <= i < |cities| && Valid() && Distinct(cities)
      requires Progress(cities, i, log0, start, fetched, commits, totalFetched, totalSaved, today, thisMonth, fetch, md5, nowIso)
      modifies this
      ensures Valid()
      ensures stop ==> (usage.count >= budget &&
        Progress(cities, i, log0, start, fetched', commits', totalFetched', totalSaved', today, thisMonth, fetch, md5, nowIso))
      ensures !stop ==>
        Progress(cities, i + 1, log0, start, fetched', commits', totalFetched', totalSaved', today, thisMonth, fetch, md5, nowIso)
    {
      fetched', commits', totalFetched', totalSaved' := fetched, commits, totalFetched, totalSaved;
      var city := cities[i];
      stop := BudgetExhausted(thisMonth);
      if stop {
        return;
      }
      EligibleStep(log0, cities, i, today);
      CityNotSeen(log0, cities, i, today);
      if !CanFetchCity(city, today) {
        return;
      }
      RecordKeepsCap(fetchLog, city, today);
      LogSinceStep(fetchLog, log0, fetched, city, today);
      var chunks, saved := SyncCity(city, today, thisMonth, fetch, md5, nowIso);
      AccountedStep(fetched, commits, totalSaved, city, chunks, saved, fetch, md5, nowIso);
      commits' := commits + chunks;
      totalSaved' := totalSaved + saved;
      totalFetched' := totalFetched + 1;
      fetched' := fetched + [city];
    }
  }

  /**
   * The log after part of a pass: every city fetched in it is logged for today, every other
   * city's entry is as it was at the start.
   */
  ghost predicate LogSince(log: map<string, DayLog>, log0: map<string, DayLog>, fetched: seq<string>, today: string) {
    (forall c :: c in fetched ==> c in log && log[c].date == today) &&
    (forall c :: c !in fetched ==> (c in log <==> c in log0) && (c in log ==> log[c] == log0[c]))
  }

  /** The writes and the saved count of a pass so far match the cities fetched so far. */
  ghost predicate Accounted(fetched: seq<string>, commits: seq<seq<Upsert>>, totalSaved: int,
                            fetch: string -> seq<SerpApi.GoogleEvent>, md5: string -> string, nowIso: string) {
    Flatten(commits) == PassWrites(fetched, fetch, md5, nowIso) && Chunked(commits) &&
    totalSaved == PassSaved(fetched, fetch)
  }

  lemma AccountedStep(fetched: seq<string>, commits: seq<seq<Upsert>>, totalSaved: int, city: string,
                      chunks: seq<seq<Upsert>>, saved: int,
                      fetch: string -> seq<SerpApi.GoogleEvent>, md5: string -> string, nowIso: string)
    requires Accounted(fetched, commits, totalSaved, fetch, md5, nowIso)
    requires Flatten(chunks) == CityWrites(city, fetch(Query(city)), md5, nowIso) && Chunked(chunks)
    requires saved == |fetch(Query(city))|
    ensures Accounted(fetched + [city], commits + chunks, totalSaved + saved, fetch, md5, nowIso)
  {
    PassStep(fetched, city, fetch, md5, nowIso);
    FlattenAppend(commits, chunks);
    ChunkedAppend(commits, chunks);
  }

  lemma LogSinceStep(log: map<string, DayLog>, log0: map<string, DayLog>, fetched: seq<string>, city: string, today: string)
    requires LogSince(log, log0, fetched, today)
    ensures LogSince(Recorded(log, city, today), log0, fetched + [city], today)
  {
  }

  lemma EligibleStep(log: map<string, DayLog>, cities: seq<string>, i: int, today: string)
    requires 0 <= i < |cities|
    ensures Eligible(log, cities[..i + 1], today) ==
      Eligible(log, cities[..i], today) + (if MayFetch(log, cities[i], today) then [cities[i]] else [])
  {
    assert cities[..i + 1][..i] == cities[..i];
  }

  lemma PassStep(fetched: seq<string>, city: string, fetch: string -> seq<SerpApi.GoogleEvent>, md5: string -> string, nowIso: string)
    ensures PassWrites(fetched + [city], fetch, md5, nowIso) == PassWrites(fetched, fetch, md5, nowIso) + CityWrites(city, fetch(Query(city)), md5, nowIso)
    ensures PassSaved(fetched + [city], fetch) == PassSaved(fetched, fetch) + |fetch(Query(city))|
  {
    assert (fetched + [city])[..|fetched|] == fetched;
  }

  lemma ChunkedAppend(a: seq<seq<Upsert>>, b: seq<seq<Upsert>>)
    requires Chunked(a) && Chunked(b)
    ensures Chunked(a + b)
  {
  }

  /**
   * The city of step `i` has not been fetched yet in the pass, so the current log still
   * holds its start-of-pass entry.
   */
  lemma CityNotSeen(log0: map<string, DayLog>, cities: seq<string>, i: int, today: string)
    requires 0 <= i < |cities| && Distinct(cities)
    ensures cities[i] !in Eligible(log0, cities[..i], today)
  {
    assert cities[i] !in cities[..i];
  }
}

=== FILE: transparent_icons.dfy ===
/**
 * The icon script's background removal: a breadth-first flood fill from the image border
 * that makes transparent every pixel joined to the border, through 4-connected neighbours,
 * by pixels whose colour is within a threshold of the top-left pixel's colour.
 * The image is its RGBA pixel buffer in row-major order (`px[x, y]` is `px[y * w + x]`);
 * loading, resizing and saving the PNG files are not part of this model.
 */
module TransparentIcons {
  datatype Pixel = Pixel(r: int, g: int, b: int, a: int)

  /** A pixel coordinate `(x, y)`. */
  type Coord = (int, int)

  const BgThreshold := 18

  function Abs(n: int): nat {
    if n < 0 then -n else n
  }

  /** `_color_dist`: the L1 distance between two colours, alpha ignored. */
  function ColorDist(p: Pixel, q: Pixel): nat {
    Abs(p.r - q.r) + Abs(p.g - q.g) + Abs(p.b - q.b)
  }

  predicate SameRgb(p: Pixel, q: Pixel) {
    p.r == q.r && p.g == q.g && p.b == q.b
  }

  /** The distance is a metric on colours: symmetric, zero exactly on equal colours, and with the triangle inequality. */
  lemma ColorDistMetric(p: Pixel, q: Pixel, s: Pixel)
    ensures ColorDist(p, q) == ColorDist(q, p)
    ensures ColorDist(p, q) == 0 <==> SameRgb(p, q)
    ensures ColorDist(p, s) <= ColorDist(p, q) + ColorDist(q, s)
  {
  }

  /** `(r, g, b, 0)`: the pixel made fully transparent. */
  function Cleared(p: Pixel): (c: Pixel)
    ensures SameRgb(c, p) && c.a == 0
  {
    p.(a := 0)
  }

  predicate InBounds(w: int, h: int, c: Coord) {
    0 <= c.0 < w && 0 <= c.1 < h
  }

  /** `y * w + x`, the offset of a pixel in the buffer and in the visited bitmap. */
  function Idx(w: int, c: Coord): int {
    c.1 * w + c.0
  }

  lemma IdxInRange(w: int, h: int, c: Coord)
    requires InBounds(w, h, c)
    ensures 0 <= Idx(w, c) < w * h
  {
    assert c.1 * w <= (h - 1) * w by {
      MulLeq(c.1, h - 1, w);
    }
  }

  lemma MulLeq(a: int, b: int, w: int)
    requires 0 <= a <= b && 0 <= w
    ensures a * w <= b * w
  {
  }

  /** Distinct pixels have distinct offsets. */
  lemma IdxInjective(w: int, h: int, c: Coord, d: Coord)
    requires InBounds(w, h, c) && InBounds(w, h, d) && Idx(w, c) == Idx(w, d)
    ensures c == d
  {
    if c.1 < d.1 {
      MulLeq(c.1 + 1, d.1, w);
      assert false;
    } else if d.1 < c.1 {
      MulLeq(d.1 + 1, c.1, w);
      assert false;
    }
  }

  predicate OnBorder(w: int, h: int, c: Coord) {
    InBounds(w, h, c) && (c.0 == 0 || c.0 == w - 1 || c.1 == 0 || c.1 == h - 1)
  }

  /** The first loop of `_border_coords`: the top and bottom pixel of every column from `x` on. */
  function Columns(w: int, h: int, x: nat): (r: seq<Coord>)
    ensures forall i :: 0 <= i < |r| ==> x <= r[i].0 < w && (r[i].1 == 0 || r[i].1 == h - 1)
    decreases w - x
  {
    if x >= w then [] else [(x, 0), (x, h - 1)] + Columns(w, h, x + 1)
  }

  /** The second loop: the left and right pixel of every row from `y` up to the last but one. */
  function Rows(w: int, h: int, y: nat): (r: seq<Coord>)
    ensures forall i :: 0 <= i < |r| ==> y <= r[i].1 < h - 1 && (r[i].0 == 0 || r[i].0 == w - 1)
    decreases h - y
  {
    if y >= h - 1 then [] else [(0, y), (w - 1, y)] + Rows(w, h, y + 1)
  }

  /** `_border_coords(w, h)`, in the order it yields. */
  function BorderCoords(w: int, h: int): (r: seq<Coord>)
    ensures 1 <= w && 1 <= h ==> forall i :: 0 <= i < |r| ==> OnBorder(w, h, r[i])
  {
    Columns(w, h, 0) + Rows(w, h, 1)
  }

  lemma {:induction false} ColumnsCover(w: int, h: int, x: nat, c: Coord)
    requires x <= c.0 < w && (c.1 == 0 || c.1 == h - 1)
    ensures c in Columns(w, h, x)
    decreases w - x
  {
    if c.0 != x {
      ColumnsCover(w, h, x + 1, c);
    }
  }

  lemma {:induction false} RowsCover(w: int, h: int, y: nat, c: Coord)
    requires y <= c.1 < h - 1 && (c.0 == 0 || c.0 == w - 1)
    ensures c in Rows(w, h, y)
    decreases h - y
  {
    if c.1 != y {
      RowsCover(w, h, y + 1, c);
    }
  }

  /** Every border pixel is yielded. */
  lemma BorderCovered(w: int, h: int, c: Coord)
    requires OnBorder(w, h, c)
    ensures c in BorderCoords(w, h)
  {
    if c.1 == 0 || c.1 == h - 1 {
      ColumnsCover(w, h, 0, c);
    } else {
      RowsCover(w, h, 1, c);
    }
  }

  // ---------------------------------------------------------------------------------------
  // What the flood fill clears

  /** 4-connected neighbours. */
  predicate Adjacent(c: Coord, d: Coord) {
    Abs(c.0 - d.0) + Abs(c.1 - d.1) == 1
  }

  /** The pixel at `c` of `img` is within `threshold` of the background, the colour of pixel (0, 0). */
  ghost predicate Near(img: seq<Pixel>, w: int, h: int, threshold: int, c: Coord) {
    InBounds(w, h, c) && 0 <= Idx(w, c) < |img| && ColorDist(img[Idx(w, c)], img[0]) <= threshold
  }

  /** A 4-connected path from a border pixel, every pixel on it near the background. */
  ghost predicate IsPath(img: seq<Pixel>, w: int, h: int, threshold: int, p: seq<Coord>) {
    && p != []
    && OnBorder(w, h, p[0])
    && (forall i :: 0 <= i < |p| ==> Near(img, w, h, threshold, p[i]))
    && (forall i :: 0 <= i < |p| - 1 ==> Adjacent(p[i], p[i + 1]))
  }

  /** The pixel at `c` is background joined to the border. */
  ghost predicate Reachable(img: seq<Pixel>, w: int, h: int, threshold: int, c: Coord) {
    exists p :: IsPath(img, w, h, threshold, p) && p[|p| - 1] == c
  }

  lemma ReachBorder(img: seq<Pixel>, w: int, h: int, threshold: int, c: Coord)
    requires OnBorder(w, h, c) && Near(img, w, h, threshold, c)
    ensures Reachable(img, w, h, threshold, c)
  {
    assert IsPath(img, w, h, threshold, [c]);
  }

  lemma ReachExtend(img: seq<Pixel>, w: int, h: int, threshold: int, c: Coord, d: Coord)
    requires Reachable(img, w, h, threshold, c) && Adjacent(c, d) && Near(img, w, h, threshold, d)
    ensures Reachable(img, w, h, threshold, d)
  {
    var p :| IsPath(img, w, h, threshold, p) && p[|p| - 1] == c;
    var q := p + [d];
    assert forall i :: 0 <= i < |p| ==> q[i] == p[i];
    assert IsPath(img, w, h, threshold, q);
  }

  /** The top-left pixel is always cleared when the threshold is not negative. */
  lemma OriginCleared(img: seq<Pixel>, w: int, h: int, threshold: int)
    requires 1 <= w && 1 <= h && |img| == w * h && 0 <= threshold
    ensures Reachable(img, w, h, threshold, (0, 0))
  {
    ReachBorder(img, w, h, threshold, (0, 0));
  }

  /** At the script's default threshold (`Config.bg_threshold`), a colour more than 18 away from the background is never cleared. */
  lemma FarPixelKept(img: seq<Pixel>, w: int, h: int, c: Coord)
    requires InBounds(w, h, c) && 0 <= Idx(w, c) < |img| && ColorDist(img[Idx(w, c)], img[0]) > BgThreshold
    ensures !Reachable(img, w, h, BgThreshold, c)
  {
  }

  /** At the default threshold, an icon whose every pixel is within 18 of the background is cleared whole. */
  lemma {:induction false} UniformCleared(img: seq<Pixel>, w: int, h: int, c: Coord)
    requires 1 <= w && 1 <= h && |img| == w * h
    requires forall i :: 0 <= i < |img| ==> ColorDist(img[i], img[0]) <= BgThreshold
    requires InBounds(w, h, c)
    ensures Reachable(img, w, h, BgThreshold, c)
    decreases c.1
  {
    IdxInRange(w, h, c);
    if OnBorder(w, h, c) {
      ReachBorder(img, w, h, BgThreshold, c);
    } else {
      var up := (c.0, c.1 - 1);
      UniformCleared(img, w, h, up);
      ReachExtend(img, w, h, BgThreshold, up, c);
    }
  }

  /** A negative threshold clears nothing. */
  lemma NegativeClearsNothing(img: seq<Pixel>, w: int, h: int, threshold: int, c: Coord)
    requires threshold < 0
    ensures !Reachable(img, w, h, threshold, c)
  {
  }

  // ---------------------------------------------------------------------------------------
  // The visited bitmap and the queue

  /** The number of set entries of the bitmap. */
  function CountTrue(s: seq<bool>): (n: nat)
    ensures n <= |s|
  {
    if s == [] then 0 else CountTrue(s[..|s| - 1]) + (if s[|s| - 1] then 1 else 0)
  }

  lemma {:induction false} CountTrueSet(s: seq<bool>, i: nat)
    requires i < |s| && !s[i]
    ensures CountTrue(s[i := true]) == CountTrue(s) + 1
  {
    var t := s[i := true];
    if i < |s| - 1 {
      assert t[..|t| - 1] == s[..|s| - 1][i := true];
      CountTrueSet(s[..|s| - 1], i);
    } else {
      assert t[..|t| - 1] == s[..|s| - 1];
    }
  }

  /** `visited[y * w + x]` in a snapshot of the bitmap. */
  ghost predicate Marked(marks: seq<bool>, w: int, c: Coord) {
    0 <= Idx(w, c) < |marks| && marks[Idx(w, c)]
  }

  /** Bits once set stay set. */
  ghost predicate Grows(m0: seq<bool>, m1: seq<bool>) {
    |m0| == |m1| && forall k :: 0 <= k < |m0| && m0[k] ==> m1[k]
  }

  /**
   * What the queue holds: pixels near the background, joined to the border, marked, each
   * enqueued once, and every marked pixel near the background enqueued; no more pixels were
   * enqueued than bits set.
   */
  ghost predicate Queued(img: seq<Pixel>, w: int, h: int, threshold: int, marks: seq<bool>, queue: seq<Coord>) {
    && |marks| == |img|
    && (forall i :: 0 <= i < |queue| ==>
          Near(img, w, h, threshold, queue[i]) && Marked(marks, w, queue[i]) &&
          Reachable(img, w, h, threshold, queue[i]))
    && (forall i, j :: 0 <= i < j < |queue| ==> queue[i] != queue[j])
    && (forall c :: Marked(marks, w, c) && Near(img, w, h, threshold, c) ==> c in queue)
    && |queue| <= CountTrue(marks)
  }

  /** Every neighbour of a pixel already taken from the queue is marked. */
  ghost predicate Closed(w: int, h: int, marks: seq<bool>, queue: seq<Coord>, head: nat) {
    head <= |queue| &&
    forall i, d :: 0 <= i < head && InBounds(w, h, d) && Adjacent(queue[i], d) ==> Marked(marks, w, d)
  }

  /** The pixels taken from the queue are cleared; all others are as in `img`. */
  ghost predicate Painted(img: seq<Pixel>, w: int, h: int, pixels: seq<Pixel>, queue: seq<Coord>, head: nat) {
    && |pixels| == |img|
    && head <= |queue|
    && forall c :: InBounds(w, h, c) && 0 <= Idx(w, c) < |img| ==>
         pixels[Idx(w, c)] == if c in queue[..head] then Cleared(img[Idx(w, c)]) else img[Idx(w, c)]
  }

  /** What `push` does to the queue. */
  ghost function Pushed(img: seq<Pixel>, w: int, h: int, threshold: int, marks: seq<bool>, queue: seq<Coord>, c: Coord): seq<Coord>
    requires 0 <= Idx(w, c) < |marks|
  {
    if marks[Idx(w, c)] || !Near(img, w, h, threshold, c) then queue else queue + [c]
  }

  /** A push keeps the queue's invariants and sets a new bit whenever it enqueues. */
  lemma PushKeepsQueued(img: seq<Pixel>, w: int, h: int, threshold: int, marks: seq<bool>, queue: seq<Coord>, c: Coord)
    requires InBounds(w, h, c) && 0 <= Idx(w, c) < |img|
    requires Queued(img, w, h, threshold, marks, queue)
    requires Near(img, w, h, threshold, c) ==> Reachable(img, w, h, threshold, c)
    ensures var m := marks[Idx(w, c) := true];
      var q := Pushed(img, w, h, threshold, marks, queue, c);
      && Queued(img, w, h, threshold, m, q)
      && (q == queue || CountTrue(m) == CountTrue(marks) + 1) && CountTrue(m) >= CountTrue(marks)
  {
    var i := Idx(w, c);
    if !marks[i] {
      CountTrueSet(marks, i);
      PushFresh(img, w, h, threshold, marks, queue, c);
    } else {
      assert marks[i := true] == marks;
    }
  }

  /** Pushing a pixel not yet marked. */
  lemma PushFresh(img: seq<Pixel>, w: int, h: int, threshold: int, marks: seq<bool>, queue: seq<Coord>, c: Coord)
    requires InBounds(w, h, c) && 0 <= Idx(w, c) < |img| == |marks| && !marks[Idx(w, c)]
    requires Queued(img, w, h, threshold, marks, queue)
    requires Near(img, w, h, threshold, c) ==> Reachable(img, w, h, threshold, c)
    requires CountTrue(marks[Idx(w, c) := true]) == CountTrue(marks) + 1
    ensures Queued(img, w, h, threshold, marks[Idx(w, c) := true], Pushed(img, w, h, threshold, marks, queue, c))
  {
    var i := Idx(w, c);
    var m := marks[i := true];
    forall d | Marked(m, w, d) && Near(img, w, h, threshold, d)
      ensures d in Pushed(img, w, h, threshold, marks, queue, c)
    {
      if Idx(w, d) == i {
        IdxInjective(w, h, c, d);
      }
    }
  }

  /** A push marks its pixel, sets no bit back, and keeps the closed prefix closed. */
  lemma PushKeepsClosed(img: seq<Pixel>, w: int, h: int, threshold: int, marks: seq<bool>, queue: seq<Coord>, closed: nat, c: Coord)
    requires 0 <= Idx(w, c) < |marks| && Closed(w, h, marks, queue, closed)
    ensures var m := marks[Idx(w, c) := true];
      var q := Pushed(img, w, h, threshold, marks, queue, c);
      Closed(w, h, m, q, closed) && Marked(m, w, c) && Grows(marks, m) && queue <= q
  {
    var q := Pushed(img, w, h, threshold, marks, queue, c);
    assert forall i :: 0 <= i < closed ==> q[i] == queue[i];
  }

  /** `push(x, y)`: mark the pixel and enqueue it when its colour is near the background. */
  method Push(px: array<Pixel>, visited: array<bool>, w: int, h: int, threshold: int, bg: Pixel, c: Coord,
              queue: seq<Coord>, ghost img: seq<Pixel>)
    returns (queue': seq<Coord>)
    requires |img| == px.Length == visited.Length && InBounds(w, h, c) && 0 <= Idx(w, c) < |img| && bg == img[0]
    requires SameRgb(px[Idx(w, c)], img[Idx(w, c)])
    modifies visited
    ensures visited[..] == old(visited[..])[Idx(w, c) := true]
    ensures queue' == Pushed(img, w, h, threshold, old(visited[..]), queue, c)
  {
    var i := c.1 * w + c.0;
    if visited[i] {
      assert visited[..] == visited[..][i := true];
      return queue;
    }
    visited[i] := true;
    if ColorDist(px[i], bg) <= threshold {
      queue' := queue + [c];
    } else {
      queue' := queue;
    }
  }

  /** Clearing the pixel at the head of the queue extends the cleared prefix by one. */
  lemma ClearedOne(img: seq<Pixel>, w: int, h: int, before: seq<Pixel>, after: seq<Pixel>, queue: seq<Coord>, head: nat)
    requires head < |queue| && InBounds(w, h, queue[head]) && 0 <= Idx(w, queue[head]) < |before|
    requires Painted(img, w, h, before, queue, head)
    requires forall j :: 0 <= j < head ==> queue[j] != queue[head]
    requires after == before[Idx(w, queue[head]) := Cleared(before[Idx(w, queue[head])])]
    ensures Painted(img, w, h, after, queue, head + 1)
  {
    var c := queue[head];
    assert queue[..head + 1] == queue[..head] + [c];
    forall d | InBounds(w, h, d) && 0 <= Idx(w, d) < |img|
      ensures after[Idx(w, d)] == if d in queue[..head + 1] then Cleared(img[Idx(w, d)]) else img[Idx(w, d)]
    {
      if d != c && Idx(w, d) == Idx(w, c) {
        IdxInjective(w, h, c, d);
      }
    }
  }

  lemma PaintedExtend(img: seq<Pixel>, w: int, h: int, pixels: seq<Pixel>, queue: seq<Coord>, queue': seq<Coord>, head: nat)
    requires Painted(img, w, h, pixels, queue, head) && queue <= queue'
    ensures Painted(img, w, h, pixels, queue', head)
  {
    assert queue'[..head] == queue[..head];
  }

  lemma NeighbourReach(img: seq<Pixel>, w: int, h: int, threshold: int, c: Coord, d: Coord)
    requires Reachable(img, w, h, threshold, c) && Adjacent(c, d)
    ensures Near(img, w, h, threshold, d) ==> Reachable(img, w, h, threshold, d)
  {
    if Near(img, w, h, threshold, d) {
      ReachExtend(img, w, h, threshold, c, d);
    }
  }

  /** The `n`-th neighbour `push` is called on: left, right, up, down. */
  function Neighbour(c: Coord, n: nat): (d: Coord)
    requires n < 4
    ensures Adjacent(c, d)
  {
    [(c.0 - 1, c.1), (c.0 + 1, c.1), (c.0, c.1 - 1), (c.0, c.1 + 1)][n]
  }

  /** The first `n` neighbours inside the image are marked. */
  ghost predicate NeighboursMarked(w: int, h: int, marks: seq<bool>, c: Coord, n: nat) {
    forall j :: 0 <= j < n && j < 4 && InBounds(w, h, Neighbour(c, j)) ==> Marked(marks, w, Neighbour(c, j))
  }

  /** Once the four neighbours inside the image are marked, the pixel at the head is closed too. */
  lemma CloseTurn(w: int, h: int, marks: seq<bool>, queue: seq<Coord>, head: nat)
    requires head < |queue| && Closed(w, h, marks, queue, head)
    requires NeighboursMarked(w, h, marks, queue[head], 4)
    ensures Closed(w, h, marks, queue, head + 1)
  {
    var c := queue[head];
    forall d | InBounds(w, h, d) && Adjacent(c, d)
      ensures Marked(marks, w, d)
    {
      if d == Neighbour(c, 0) {
      } else if d == Neighbour(c, 1) {
      } else if d == Neighbour(c, 2) {
      } else {
        assert d == Neighbour(c, 3);
      }
    }
  }

  /** The colours are those of `img`; only alpha may differ. */
  ghost predicate RgbKept(pixels: seq<Pixel>, img: seq<Pixel>) {
    |pixels| == |img| && forall k :: 0 <= k < |img| ==> SameRgb(pixels[k], img[k])
  }

  /** `if <inside>: push(d)`, on the bitmap and the queue. */
  ghost function PushIf(img: seq<Pixel>, w: int, h: int, threshold: int, marks: seq<bool>, queue: seq<Coord>,
                        d: Coord, inside: bool): (seq<bool>, seq<Coord>)
  {
    if inside && 0 <= Idx(w, d) < |marks| then (marks[Idx(w, d) := true], Pushed(img, w, h, threshold, marks, queue, d))
    else (marks, queue)
  }

  /** The test the loop makes before pushing the `n`-th neighbour. */
  function Guard(w: int, h: int, c: Coord, n: nat): bool
    requires n < 4
  {
    [c.0 > 0, c.0 + 1 < w, c.1 > 0, c.1 + 1 < h][n]
  }

  /** The loop's tests keep exactly the neighbours inside the image. */
  lemma GuardInside(w: int, h: int, c: Coord, n: nat)
    requires InBounds(w, h, c) && n < 4
    ensures Guard(w, h, c, n) <==> InBounds(w, h, Neighbour(c, n))
  {
    if n == 0 {
    } else if n == 1 {
    } else if n == 2 {
    } else {
      assert n == 3;
    }
  }

  /** The first `n` guarded pushes of a turn for the pixel `c`, in the order the loop makes them. */
  ghost function Pushes(img: seq<Pixel>, w: int, h: int, threshold: int, marks: seq<bool>, queue: seq<Coord>,
                        c: Coord, n: nat): (seq<bool>, seq<Coord>)
    requires n <= 4
  {
    if n == 0 then (marks, queue)
    else
      var s := Pushes(img, w, h, threshold, marks, queue, c, n - 1);
      PushIf(img, w, h, threshold, s.0, s.1, Neighbour(c, n - 1), Guard(w, h, c, n - 1))
  }

  /** The turn's state between two pushes: `n` neighbours of `c` handled. */
  ghost predicate Turn(img: seq<Pixel>, w: int, h: int, threshold: int, marks: seq<bool>, pixels: seq<Pixel>,
                       queue: seq<Coord>, head: nat, m0: seq<bool>, q0: seq<Coord>, c: Coord, n: nat)
  {
    && NeighboursMarked(w, h, marks, c, n)
    && Queued(img, w, h, threshold, marks, queue) && Closed(w, h, marks, queue, head)
    && Painted(img, w, h, pixels, queue, head + 1) && Grows(m0, marks) && q0 <= queue
    && (queue == q0 || CountTrue(marks) > CountTrue(m0)) && CountTrue(marks) >= CountTrue(m0)
  }

  /** One guarded push keeps the turn's state and handles one more neighbour. */
  lemma StepKeeps(img: seq<Pixel>, w: int, h: int, threshold: int, marks: seq<bool>, pixels: seq<Pixel>,
                  queue: seq<Coord>, head: nat, m0: seq<bool>, q0: seq<Coord>, c: Coord, n: nat, inside: bool)
    requires 1 <= w && 1 <= h && |img| == w * h
    requires n < 4 && Reachable(img, w, h, threshold, c)
    requires inside <==> InBounds(w, h, Neighbour(c, n))
    requires Turn(img, w, h, threshold, marks, pixels, queue, head, m0, q0, c, n)
    ensures var (m, q) := PushIf(img, w, h, threshold, marks, queue, Neighbour(c, n), inside);
      Turn(img, w, h, threshold, m, pixels, q, head, m0, q0, c, n + 1)
  {
    if inside {
      IdxInRange(w, h, Neighbour(c, n));
      PushInside(img, w, h, threshold, marks, pixels, queue, head, m0, q0, c, n);
    } else {
      MarksStep(w, h, marks, marks, c, n);
    }
  }

  /** A push of a neighbour inside the image keeps the turn's state. */
  lemma PushInside(img: seq<Pixel>, w: int, h: int, threshold: int, marks: seq<bool>, pixels: seq<Pixel>,
                   queue: seq<Coord>, head: nat, m0: seq<bool>, q0: seq<Coord>, c: Coord, n: nat)
    requires n < 4 && Reachable(img, w, h, threshold, c)
    requires InBounds(w, h, Neighbour(c, n)) && 0 <= Idx(w, Neighbour(c, n)) < |img|
    requires Turn(img, w, h, threshold, marks, pixels, queue, head, m0, q0, c, n)
    ensures var d := Neighbour(c, n);
      Turn(img, w, h, threshold, marks[Idx(w, d) := true], pixels, Pushed(img, w, h, threshold, marks, queue, d),
           head, m0, q0, c, n + 1)
  {
    var d := Neighbour(c, n);
    NeighbourReach(img, w, h, threshold, c, d);
    PushKeepsQueued(img, w, h, threshold, marks, queue, d);
    PushKeepsClosed(img, w, h, threshold, marks, queue, head, d);
    PaintedExtend(img, w, h, pixels, queue, Pushed(img, w, h, threshold, marks, queue, d), head + 1);
    var m := marks[Idx(w, d) := true];
    GrowsTrans(m0, marks, m);
    MarksStep(w, h, marks, m, c, n);
  }

  lemma GrowsTrans(m0: seq<bool>, m1: seq<bool>, m2: seq<bool>)
    requires Grows(m0, m1) && Grows(m1, m2)
    ensures Grows(m0, m2)
  {
  }

  lemma MarksStep(w: int, h: int, marks: seq<bool>, m: seq<bool>, c: Coord, n: nat)
    requires n < 4 && NeighboursMarked(w, h, marks, c, n) && Grows(marks, m)
    requires InBounds(w, h, Neighbour(c, n)) ==> Marked(m, w, Neighbour(c, n))
    ensures NeighboursMarked(w, h, m, c, n + 1)
  {
  }

  /** The guarded pushes keep the turn's state. */
  lemma {:induction false} TurnChain(img: seq<Pixel>, w: int, h: int, threshold: int, marks: seq<bool>, pixels: seq<Pixel>,
                                     queue: seq<Coord>, head: nat, c: Coord, n: nat)
    requires 1 <= w && 1 <= h && |img| == w * h && n <= 4
    requires InBounds(w, h, c) && Reachable(img, w, h, threshold, c)
    requires Turn(img, w, h, threshold, marks, pixels, queue, head, marks, queue, c, 0)
    ensures var s := Pushes(img, w, h, threshold, marks, queue, c, n);
      Turn(img, w, h, threshold, s.0, pixels, s.1, head, marks, queue, c, n)
  {
    if n > 0 {
      TurnChain(img, w, h, threshold, marks, pixels, queue, head, c, n - 1);
      var s := Pushes(img, w, h, threshold, marks, queue, c, n - 1);
      GuardInside(w, h, c, n - 1);
      StepKeeps(img, w, h, threshold, s.0, pixels, s.1, head, marks, queue, c, n - 1, Guard(w, h, c, n - 1));
    }
  }

  /**
   * A turn of the loop keeps the invariants: the pixel taken is cleared, its neighbours are
   * marked, and the bitmap gains a bit whenever the queue grows.
   */
  lemma TurnKeeps(img: seq<Pixel>, w: int, h: int, threshold: int, marks: seq<bool>, pixels: seq<Pixel>,
                  queue: seq<Coord>, head: nat)
    requires 1 <= w && 1 <= h && |img| == w * h && head < |queue|
    requires Queued(img, w, h, threshold, marks, queue)
    requires Closed(w, h, marks, queue, head) && Painted(img, w, h, pixels, queue, head)
    ensures 0 <= Idx(w, queue[head]) < |pixels|
    ensures var (m, q) := Pushes(img, w, h, threshold, marks, queue, queue[head], 4);
      var i := Idx(w, queue[head]);
      && Queued(img, w, h, threshold, m, q)
      && Closed(w, h, m, q, head + 1) && Painted(img, w, h, pixels[i := Cleared(pixels[i])], q, head + 1)
      && Grows(marks, m) && (q == queue || CountTrue(m) > CountTrue(marks)) && CountTrue(m) >= CountTrue(marks)
  {
    var c := queue[head];
    IdxInRange(w, h, c);
    var i := Idx(w, c);
    var p := pixels[i := Cleared(pixels[i])];
    ClearedOne(img, w, h, pixels, p, queue, head);
    assert Turn(img, w, h, threshold, marks, p, queue, head, marks, queue, c, 0);
    TurnChain(img, w, h, threshold, marks, p, queue, head, c, 4);
    var s := Pushes(img, w, h, threshold, marks, queue, c, 4);
    CloseTurn(w, h, s.0, s.1, head);
  }

  /** `if <inside>: push(<the n-th neighbour>)` */
  method PushNext(px: array<Pixel>, visited: array<bool>, w: int, h: int, threshold: int, bg: Pixel, c: Coord,
                  n: nat, inside: bool, queue: seq<Coord>, ghost img: seq<Pixel>)
    returns (queue': seq<Coord>)
    requires 1 <= w && 1 <= h && |img| == w * h && px.Length == visited.Length == |img| && bg == img[0]
    requires n < 4 && (inside <==> InBounds(w, h, Neighbour(c, n))) && RgbKept(px[..], img)
    modifies visited
    ensures (visited[..], queue') == PushIf(img, w, h, threshold, old(visited[..]), queue, Neighbour(c, n), inside)
  {
    queue' := queue;
    if inside {
      var d := Neighbour(c, n);
      IdxInRange(w, h, d);
      queue' := Push(px, visited, w, h, threshold, bg, d, queue, img);
    }
  }

  /** One turn of the `while q` loop: take the oldest pixel, clear it, push its neighbours inside the image. */
  method Visit(px: array<Pixel>, visited: array<bool>, w: int, h: int, threshold: int, bg: Pixel,
               queue: seq<Coord>, head: nat, ghost img: seq<Pixel>)
    returns (queue': seq<Coord>)
    requires 1 <= w && 1 <= h && |img| == w * h && px.Length == visited.Length == |img| && bg == img[0]
    requires head < |queue| && InBounds(w, h, queue[head]) && 0 <= Idx(w, queue[head]) < |img| && RgbKept(px[..], img)
    modifies px, visited
    ensures RgbKept(px[..], img)
    ensures px[..] == old(px[..])[Idx(w, queue[head]) := Cleared(old(px[Idx(w, queue[head])]))]
    ensures (visited[..], queue') == Pushes(img, w, h, threshold, old(visited[..]), queue, queue[head], 4)
  {
    var c := queue[head];
    var x, y := c.0, c.1;
    IdxInRange(w, h, c);
    var i := y * w + x;
    px[i] := Cleared(px[i]);
    ghost var marks := visited[..];
    queue' := PushNext(px, visited, w, h, threshold, bg, c, 0, x > 0, queue, img);
    assert (visited[..], queue') == Pushes(img, w, h, threshold, marks, queue, c, 1);
    queue' := PushNext(px, visited, w, h, threshold, bg, c, 1, x + 1 < w, queue', img);
    assert (visited[..], queue') == Pushes(img, w, h, threshold, marks, queue, c, 2);
    queue' := PushNext(px, visited, w, h, threshold, bg, c, 2, y > 0, queue', img);
    assert (visited[..], queue') == Pushes(img, w, h, threshold, marks, queue, c, 3);
    queue' := PushNext(px, visited, w, h, threshold, bg, c, 3, y + 1 < h, queue', img);
  }

  /** A pixel on a path from the border is enqueued once the queue is exhausted. */
  lemma {:induction false} PathQueued(img: seq<Pixel>, w: int, h: int, threshold: int, marks: seq<bool>,
                                      queue: seq<Coord>, p: seq<Coord>, k: nat)
    requires Queued(img, w, h, threshold, marks, queue) && Closed(w, h, marks, queue, |queue|)
    requires forall c :: OnBorder(w, h, c) ==> Marked(marks, w, c)
    requires IsPath(img, w, h, threshold, p) && k < |p|
    ensures p[k] in queue
  {
    assert Near(img, w, h, threshold, p[k]);
    if k > 0 {
      PathQueued(img, w, h, threshold, marks, queue, p, k - 1);
      var i :| 0 <= i < |queue| && queue[i] == p[k - 1];
      assert Adjacent(p[k - 1], p[k]);
    }
  }

  /** The bitmap with no bit set, as `bytearray(w * h)` makes it. */
  ghost predicate Unmarked(marks: seq<bool>) {
    forall k :: 0 <= k < |marks| ==> !marks[k]
  }

  /** `push(x, y)` for a border pixel, with the lemmas that keep the queue's invariants. */
  method PushBorderPixel(px: array<Pixel>, visited: array<bool>, w: int, h: int, threshold: int, bg: Pixel, c: Coord,
                         queue: seq<Coord>, ghost img: seq<Pixel>)
    returns (queue': seq<Coord>)
    requires 1 <= w && 1 <= h && |img| == w * h && px.Length == visited.Length == |img| && bg == img[0]
    requires px[..] == img && OnBorder(w, h, c) && Queued(img, w, h, threshold, visited[..], queue)
    modifies visited
    ensures Queued(img, w, h, threshold, visited[..], queue')
    ensures Grows(old(visited[..]), visited[..]) && Marked(visited[..], w, c)
  {
    IdxInRange(w, h, c);
    if Near(img, w, h, threshold, c) {
      ReachBorder(img, w, h, threshold, c);
    }
    ghost var marks := visited[..];
    PushKeepsQueued(img, w, h, threshold, marks, queue, c);
    PushKeepsClosed(img, w, h, threshold, marks, queue, 0, c);
    queue' := Push(px, visited, w, h, threshold, bg, c, queue, img);
  }

  /** `for x, y in _border_coords(w, h): push(x, y)`: every border pixel marked, those near the background enqueued. */
  method PushBorder(px: array<Pixel>, visited: array<bool>, w: int, h: int, threshold: int, bg: Pixel, ghost img: seq<Pixel>)
    returns (queue: seq<Coord>)
    requires 1 <= w && 1 <= h && |img| == w * h && px.Length == visited.Length == |img| && bg == img[0]
    requires px[..] == img && Unmarked(visited[..])
    modifies visited
    ensures Queued(img, w, h, threshold, visited[..], queue)
    ensures forall c :: OnBorder(w, h, c) ==> Marked(visited[..], w, c)
  {
    queue := [];
    var border := BorderCoords(w, h);
    var k := 0;
    while k < |border|
      invariant k <= |border| && visited.Length == |img| && px[..] == img
      invariant Queued(img, w, h, threshold, visited[..], queue)
      invariant forall j :: 0 <= j < k ==> Marked(visited[..], w, border[j])
    {
      queue := PushBorderPixel(px, visited, w, h, threshold, bg, border[k], queue, img);
      k := k + 1;
    }
    forall c | OnBorder(w, h, c)
      ensures Marked(visited[..], w, c)
    {
      BorderCovered(w, h, c);
    }
  }

  /** `while q: ...`: the queue is drained, every pixel taken from it cleared and its neighbours pushed. */
  method Drain(px: array<Pixel>, visited: array<bool>, w: int, h: int, threshold: int, bg: Pixel,
               queue0: seq<Coord>, ghost img: seq<Pixel>)
    returns (queue: seq<Coord>)
    requires 1 <= w && 1 <= h && |img| == w * h && px.Length == visited.Length == |img| && bg == img[0]
    requires px[..] == img && Queued(img, w, h, threshold, visited[..], queue0)
    requires forall c :: OnBorder(w, h, c) ==> Marked(visited[..], w, c)
    modifies px, visited
    ensures Queued(img, w, h, threshold, visited[..], queue) && Closed(w, h, visited[..], queue, |queue|)
    ensures Painted(img, w, h, px[..], queue, |queue|)
    ensures forall c :: OnBorder(w, h, c) ==> Marked(visited[..], w, c)
  {
    queue := queue0;
    var head := 0;
    while head < |queue|
      invariant visited.Length == |img| && RgbKept(px[..], img)
      invariant Queued(img, w, h, threshold, visited[..], queue)
      invariant Closed(w, h, visited[..], queue, head) && Painted(img, w, h, px[..], queue, head)
      invariant forall c :: OnBorder(w, h, c) ==> Marked(visited[..], w, c)
      decreases |img| - CountTrue(visited[..]), |queue| - head
    {
      TurnKeeps(img, w, h, threshold, visited[..], px[..], queue, head);
      queue := Visit(px, visited, w, h, threshold, bg, queue, head, img);
      head := head + 1;
    }
  }

  /**
   * `remove_edge_connected_background`: the pixels cleared are exactly those joined to the
   * border by background, the background being the colour pixel (0, 0) had; their RGB is kept
   * and their alpha set to 0, every other pixel is unchanged, and at most `w * h` pixels are
   * taken from the queue.
   */
  method RemoveEdgeConnectedBackground(px: array<Pixel>, w: int, h: int, threshold: int) returns (pops: nat)
    requires 1 <= w && 1 <= h && px.Length == w * h
    modifies px
    ensures forall c :: InBounds(w, h, c) ==> (0 <= Idx(w, c) < px.Length &&
      px[Idx(w, c)] == if Reachable(old(px[..]), w, h, threshold, c) then Cleared(old(px[Idx(w, c)])) else old(px[Idx(w, c)]))
    ensures pops <= w * h
  {
    ghost var img := px[..];
    var bg := px[0];
    var visited := new bool[w * h](_ => false);
    var queue := PushBorder(px, visited, w, h, threshold, bg, img);
    queue := Drain(px, visited, w, h, threshold, bg, queue, img);
    forall c | InBounds(w, h, c)
      ensures 0 <= Idx(w, c) < px.Length
      ensures c in queue <==> Reachable(img, w, h, threshold, c)
    {
      IdxInRange(w, h, c);
      if Reachable(img, w, h, threshold, c) {
        var p :| IsPath(img, w, h, threshold, p) && p[|p| - 1] == c;
        PathQueued(img, w, h, threshold, visited[..], queue, p, |p| - 1);
      }
    }
    assert queue[..|queue|] == queue;
    pops := |queue|;
  }
}
